=== FILE: README.md ===
# RoboEscape, modelled in Dafny

RoboEscape is a browser game. A robot drifts around a rotating universe.
It collects exotic-particle shards that float around a wandering black
hole. It is trapped inside the hole's event horizon and destroyed when it
stays there too long or gets too close to the centre. This project models
the game state that changes frame by frame, one Dafny module per source
file, and proves what that state promises:

- the robot's state machine (`player.dfy`): keys, boosts, the trap with its
  dwell timer and particle loss, the escape, the speed cap and the screen
  bounds;
- the black hole (`black_hole.dfy`): pulsation, wandering, gravity,
  plasma jets and consumption rings;
- the shards and their field (`exotic_particle.dfy`,
  `exotic_particle_factory.dfy`, `exotic_particles.dfy`): the four particle
  classes, the factory, spawning, placement, the rarity roll and the
  collection pass;
- the game controller (`game_controller.dfy`): score, the game-over latch,
  restart, the game clock, the end screen and one frame of the loop;
- object pooling (`object_pool.dfy`, `plasma_particle_pool.dfy`) and the
  starfield's shred effects (`starfield.dfy`);
- the scene's universe rotation (`scene_manager.dfy`);
- adaptive quality (`performance_optimizer.dfy`, `performance_config.dfy`);
- the small helpers: leaderboard (`leaderboard.dfy`), time strings
  (`clock_format.dfy`), end-of-game ranks (`end_game_feedback.dfy`),
  on-screen reactions (`screen_reaction.dfy`), settings (`settings.dfy`),
  log gating (`debug.dfy`) and the reaction message and style tables
  (`object_table.dfy`, `console_reaction_messages.dfy`,
  `console_reaction_styles.dfy`).

How the model is built:

- An object whose methods update its fields in place is a Dafny `class`.
  Each class also reads its fields as a datatype value (`State()`,
  `BodyOf()`, `GameOf()`, ...). Each method is specified by a function on
  that value, and the lemmas beside it prove what the game promises about
  that function.
- Positions, speeds and times are `real`.
- `Math.sqrt`, `exp`, `pow`, `sin`, `cos` and `atan2` are uninterpreted
  functions, collected in a `MathFns` value. A lemma that needs a law of
  them (sin and cos in [-1, 1], cos² + sin² = 1, the parities, an exact
  square root) requires it as a predicate.
- `Math.random()` draws, `Date.now()` and `performance.now()` readings and
  the window size are parameters.
- `window.dispatchEvent` calls append to a ghost event log. The
  controller's calls into the reactions append to a ghost reaction log.
- `player.dataShards` is a field the controller adds to the robot and
  the robot never sets. It starts out `undefined`, becomes `NaN` when one
  is added, and is 1 after a restart. It is modelled as a `Tally` with the
  cases `Unset`, `NotANumber` and `Count(n)`.
  `GameController.ScoredFacts` shows that no tally the controller can
  produce is ever `<= 0`, so the "no shards left while trapped" branch
  (js/GameController.js:100-110) never ends a game.
  `GameController.DepletedBranch` shows that the branch would act from a
  tally of 0.
- The robot's own `particles` counter is a separate field. Only the trap
  and the escape use it.

## Model

| member | source | states |
|---|---|---|
| BlackHole.AdvancePulseInRange | js/BlackHole.js:92-100 | a frame of non-negative length keeps the phase in [0, 2π], the speed in [0.5, 1.5) and the range in [0.2, 0.5); a wrap re-rolls speed and range from those intervals |
| BlackHole.PulsedRadiusBounds | js/BlackHole.js:103-104 | with sine in [-1, 1], the pulsed radius stays within `range` of the base radius, relatively |
| BlackHole.HorizonPulseInRange | js/BlackHole.js:164-167 | the event horizon's pulse stays in [0, 2π] for non-negative frames, restarting at 0 once past 2π |
| BlackHole.RewanderBounds | js/BlackHole.js:116-127 | a new wander interval lies in [3, 5) (the floor of 1 never binds) and, for non-negative game time, the new speed in [20, 120) |
| BlackHole.FollowTargetBounds | js/BlackHole.js:129-141 | the chased point is 70% of the player plus 30% of the scene centre, off by at most 150 on each axis |
| BlackHole.StepTowardFacts | js/BlackHole.js:144-153 | within one unit of the target the hole stays put; otherwise it moves on the line to the target, toward it for a non-negative `speed·dt` |
| BlackHole.StepTowardLength | js/BlackHole.js:144-153 | with an exact square root, a step taken from more than one unit away has length `speed·dt` (its squared length is `(speed·dt)²`) |
| BlackHole.MoveTarget | js/BlackHole.js:113-154 | without a player the target is unchanged; with one it is the follow target |
| BlackHole.Jet | js/BlackHole.js:74-90 | a jet has exactly one particle per draw, in order; JetFacts: each starts at the jet's origin with full life, a size in [2, 4) and a hue in [280, 340) |
| BlackHole.JetFacts | js/BlackHole.js:74-90 | every jet particle starts at the jet's origin with full life, a size in [2, 4) and a hue in [280, 340) |
| BlackHole.EvolvedPlasmaFacts | js/BlackHole.js:186-210 | after the splice loop every particle has life left; each particle whose life stays positive is kept, evolved, in order; nothing else appears |
| BlackHole.FadedFacts | js/BlackHole.js:232-239 | after fading every ring has life left and keeps its maximum life, and no ring is added |
| BlackHole.WarningStepInRange | js/BlackHole.js:288-289 | the warning pulse lands in [0, 2π) |
| BlackHole.GravityRegimes | js/BlackHole.js:353-391 | no pull at distance 0; the exponential regime exactly within 1.2 event horizons; the outer force at most 400 and positive for a positive frame; the vector's length is the regime's force |
| BlackHole.GravityLength | js/BlackHole.js:368-387 | given Pythagoras for sine and cosine, the force vector's squared length is the square of the force |
| BlackHole.OuterFloorNeverBinds | js/BlackHole.js:375-378 | while the event horizon is 3.5 radii, an object in the outer regime is more than a radius away, so the `max(distance, radius)` floor never applies |
| BlackHole.JetPair | js/BlackHole.js:174-181 | no particles within 50 ms of the last pair; otherwise an upward and a downward jet, both turned by the rotation offset |
| BlackHole.BlackHole.View | js/BlackHole.js:5-15 | the view reports the hole's position, radius and event horizon; the player's tick and the collision check read the hole only through it |
| BlackHole.BlackHole.constructor | js/BlackHole.js:4-47 | the initial state: at the origin, radius 50, horizon 3.5 radii, glow radius 100, angle 0, horizon pulse 1.5, pulse speed `0.5 + draw·0.5` with phase 0 and range 0.3, wander timer 0 with interval 5 and speed 30, no plasma, one two-second ring, warning pulse, clock, rotation offset and last-jet time 0 |
| BlackHole.BlackHole.Init | js/BlackHole.js:49-56 | the hole and its target are placed at the scene centre |
| BlackHole.BlackHole.AdvanceClocks | js/BlackHole.js:158-167 | game time and angle advance by `dt`, the horizon pulse by `AdvanceHorizonPulse`, keeping the clocks valid |
| BlackHole.BlackHole.UpdatePulsation | js/BlackHole.js:92-111 | the pulse becomes `AdvancePulse` of the old one and stays in range; radius, event horizon and glow radius follow it |
| BlackHole.BlackHole.StepPulse | js/BlackHole.js:93-100 | the pulse becomes `AdvancePulse` of the old one |
| BlackHole.BlackHole.FollowPulse | js/BlackHole.js:103-110 | the radius is the pulsed radius, the event horizon 3.5 radii, and the glow radius `100·(1 + sin(phase)·range/2)` |
| BlackHole.BlackHole.UpdateMovement | js/BlackHole.js:113-155 | the wander state becomes `Move` of the old one and stays valid |
| BlackHole.BlackHole.Retime | js/BlackHole.js:116-127 | the wander timer part, as `Rewander` |
| BlackHole.BlackHole.RetargetTo | js/BlackHole.js:129-141 | the target becomes the follow target of the player |
| BlackHole.BlackHole.StepTowardTarget | js/BlackHole.js:144-153 | the hole takes the `StepWander` step |
| BlackHole.BlackHole.CreatePlasmaJet | js/BlackHole.js:74-90 | the jet's five particles are appended, nothing else changes in the list |
| BlackHole.BlackHole.EmitJets | js/BlackHole.js:174-181 | `JetPair` is appended, and the last-jet time is reset exactly when a pair was emitted |
| BlackHole.BlackHole.UpdatePlasma | js/BlackHole.js:186-210 | the particle list becomes `EvolvedPlasma` of the old list |
| BlackHole.BlackHole.FadeRings | js/BlackHole.js:232-239 | the ring list becomes `Faded` of the old list |
| BlackHole.BlackHole.AdvanceWarning | js/BlackHole.js:288-290 | the warning pulse advances only while rings remain |
| BlackHole.BlackHole.AgeParticles | js/BlackHole.js:186-239 | plasma evolves as `EvolvedPlasma`, rings fade as `Faded`, the warning pulse steps exactly while rings remain, and every remaining particle and ring has life left |
| BlackHole.BlackHole.Update | js/BlackHole.js:157-212 | one frame: game time and angle by `dt`, the horizon pulse, the pulse with radius, horizon and glow following it, the wander, the rotation offset, the jets with the last-jet time, the plasma, the rings and the warning pulse, each as its specification function, keeping the invariant |
| BlackHole.BlackHole.AdvanceMotion | js/BlackHole.js:158-171 | the clock half of a frame: game time and angle advance by `dt`, the horizon pulse steps, the pulse advances with radius, horizon and glow following it, and the wander moves |
| BlackHole.BlackHole.AdvanceParticles | js/BlackHole.js:173-211 | the particle half of a frame: the jet pair is emitted and the last-jet time reset exactly when one was, the rotation offset advances, the plasma evolves, the rings fade and the warning pulse steps while rings remain |
| BlackHole.BlackHole.AddShardConsumptionEffect | js/BlackHole.js:322-327 | exactly one ring of one second is appended |
| BlackHole.BlackHole.ApplyGravity | js/BlackHole.js:353-391 | the returned force is `Gravity`, and a ring is added exactly when the object lost a shard less than 100 ms ago |
| BlackHole.BlackHole.Reset | js/BlackHole.js:330-351 | position and target at the centre, timers and speeds at their start values, rings cleared, pulse speed re-drawn; radius, horizon, glow, range, angle, horizon pulse, last-jet time and plasma untouched |
| BlackHole.BlackHole.ResetWander | js/BlackHole.js:338-340 | wander timer 0, interval 5, speed 30 |
| BlackHole.BlackHole.ResetEffects | js/BlackHole.js:341-345 | game time 0, rings cleared, warning pulse 0 |
| BlackHole.BlackHole.ResetPulse | js/BlackHole.js:348-350 | rotation offset and phase 0, pulse speed re-drawn in range |
| ExoticParticle.TurnsOfDraw | js/particles/ExoticParticleBase.js:24-29 | a draw scaled by 2π is an angle in [0, 2π) |
| ExoticParticle.InitializedFacts | js/particles/ExoticParticleBase.js:20-31 | `initialize` leaves the particle active with value 1 and the base colour; x, y default to 0 and the radius to 8 when the option is missing or 0; the rotation is the option or an angle in [0, 2π); rotation speed in [0.2, 0.7); pulse phase in [0, 2π); the subclass fields untouched |
| ExoticParticle.InitialValue | js/particles/NormalExoticParticle.js:10-11 | a drawn value lies in its kind's range (1-3, 3-5, 5-7, 8-14) and never exceeds the kind's maximum (strictly below it for quantum) |
| ExoticParticle.InitialValueExact | js/particles/QuantumExoticParticle.js:11-12 | every value in a kind's range is drawn by some draw, and no other value is |
| ExoticParticle.NewOrbit | js/particles/QuantumExoticParticle.js:22-28 | the i-th speck sits at angle `(i/3)·2π` with speed in [1, 1.5) and size in [2, 4) |
| ExoticParticle.StartOrbitAngles | js/particles/QuantumExoticParticle.js:21-28 | a new quantum particle has three specks at 0, 2π/3 and 4π/3 |
| ExoticParticle.NewStateWellFormed | js/particles/UnstableExoticParticle.js:8-21 | every constructor (normal, unstable, rare, quantum) builds a well-formed particle of its kind |
| ExoticParticle.TickWellFormed | js/particles/ExoticParticleBase.js:95-104 | an update of any non-negative length keeps a particle well formed, its value and its kind |
| ExoticParticle.BaseStepWellFormed | js/particles/ExoticParticleBase.js:95-104 | the base update of any non-negative step keeps the base part well formed and the value unchanged |
| ExoticParticle.PulseStaysInTurn | js/particles/ExoticParticleBase.js:100-103 | the pulse phase stays within one turn when the step adds at most one turn; when it adds more, the single subtraction of 2π leaves the phase above 2π |
| ExoticParticle.UnstableTickWellFormed | js/particles/UnstableExoticParticle.js:85-90 | the flicker timer restarts before reaching the interval, and a redrawn flicker state is in range |
| ExoticParticle.QuantumTickWellFormed | js/particles/QuantumExoticParticle.js:147-150 | spinning the specks keeps each speck's speed and size |
| ExoticParticle.UnstableStaysPut | js/particles/UnstableExoticParticle.js:81-95 | an unstable particle ends every update at the position it was built at |
| ExoticParticle.ExoticParticle.constructor | js/particles/ExoticParticleBase.js:12-14 | the new particle's state is `NewState` of its kind, options and draws |
| ExoticParticle.ExoticParticle.SpecializeNormal | js/particles/NormalExoticParticle.js:7-13 | the normal constructor's fields, as `SpecializedNormal` |
| ExoticParticle.ExoticParticle.SpecializeUnstable | js/particles/UnstableExoticParticle.js:8-21 | the unstable constructor's fields, as `SpecializedUnstable` |
| ExoticParticle.ExoticParticle.StartFlicker | js/particles/UnstableExoticParticle.js:15-17 | flicker timer 0, interval 0.1, state 1, nothing else changed |
| ExoticParticle.ExoticParticle.Anchor | js/particles/UnstableExoticParticle.js:18-20 | jitter radius 2 and the pinned position is the current one |
| ExoticParticle.ExoticParticle.SpecializeRare | js/particles/RareExoticParticle.js:8-16 | the rare constructor's fields, as `SpecializedRare` |
| ExoticParticle.ExoticParticle.SpecializeQuantum | js/particles/QuantumExoticParticle.js:8-29 | the quantum constructor's fields, as `SpecializedQuantum` |
| ExoticParticle.ExoticParticle.SetWorth | js/particles/RareExoticParticle.js:11-13 | maximum value, value and colour set, nothing else changed |
| ExoticParticle.ExoticParticle.AddOrbits | js/particles/QuantumExoticParticle.js:20-28 | the speck list becomes `StartOrbits` of the draws |
| ExoticParticle.ExoticParticle.Initialize | js/particles/ExoticParticleBase.js:20-31 | returns the particle itself, whose state is `Initialized` of the old state |
| ExoticParticle.ExoticParticle.Place | js/particles/ExoticParticleBase.js:21-23 | x, y and radius set with the `||` defaults |
| ExoticParticle.ExoticParticle.Activate | js/particles/ExoticParticleBase.js:27-29 | base colour, active flag and a drawn pulse phase |
| ExoticParticle.ExoticParticle.BaseUpdate | js/particles/ExoticParticleBase.js:95-104 | the state becomes `BaseStep` of the old one |
| ExoticParticle.ExoticParticle.Update | js/particles/NormalExoticParticle.js:18-23 | the state becomes `Tick` of the old one, for every kind |
| ExoticParticle.ExoticParticle.UpdateUnstable | js/particles/UnstableExoticParticle.js:81-95 | the unstable update, as `Tick` |
| ExoticParticle.ExoticParticle.FlickerStep | js/particles/UnstableExoticParticle.js:86-90 | the flicker part, as `Flicker` |
| ExoticParticle.ExoticParticle.UpdateRare | js/particles/RareExoticParticle.js:68-74 | the rare update, as `Tick` |
| ExoticParticle.ExoticParticle.UpdateQuantum | js/particles/QuantumExoticParticle.js:140-151 | the quantum update, as `Tick` |
| ExoticParticle.ExoticParticle.SpinOrbitParticles | js/particles/QuantumExoticParticle.js:148-150 | the specks become `SpinOrbits` of the old ones |
| ExoticParticleFactory.ClassFor | js/particles/ExoticParticleFactory.js:23-32 | a registered name yields its class, any other name the normal class; RegisterThenCreate: registering a name changes the class built for that name and for no other |
| ExoticParticleFactory.OnlyNormalAtFirst | js/particles/ExoticParticleFactory.js:9-14 | with the initial table every name yields a normal particle |
| ExoticParticleFactory.SpawnNamesAllNormal | js/particles/ExoticParticleFactory.js:9-14 | "unstable", "rare" and "quantum" are not registered, so all four spawn names give normal particles |
| ExoticParticleFactory.RegisterThenCreate | js/particles/ExoticParticleFactory.js:39-41 | registering a name changes what that name yields and nothing else |
| ExoticParticleFactory.ExoticParticleFactory.constructor | js/particles/ExoticParticleFactory.js:7-15 | the table holds only "normal" |
| ExoticParticleFactory.ExoticParticleFactory.CreateParticle | js/particles/ExoticParticleFactory.js:23-32 | a fresh particle of `ClassFor`'s kind, in the state that kind's constructor builds |
| ExoticParticleFactory.ExoticParticleFactory.RegisterParticleType | js/particles/ExoticParticleFactory.js:39-41 | exactly one entry added or overwritten |
| ExoticParticles.AsWrittenPlacement | js/ExoticParticles.js:97-104 | over a finite list of attempts, the first candidate outside the exclusion box, or none |
| ExoticParticles.CandidateInMargins | js/ExoticParticles.js:93-100 | on a scene wider and taller than 200, a candidate lies in `[100, width - 100) × [100, height - 100)` |
| ExoticParticles.SmallSceneRejectsEverything | js/ExoticParticles.js:98-104 | on a scene narrower and shorter than 500, centred on the canvas, every candidate falls inside the exclusion box |
| ExoticParticles.AsWrittenPlacementNeverEnds | js/ExoticParticles.js:98-104 | hence the source's do-while finds no point on such a scene, however many attempts it makes |
| ExoticParticles.PlacementFacts | js/ExoticParticles.js:93-104 | a placed shard is outside the exclusion box and inside the margins; nothing is placed exactly when every attempt is rejected; wherever the source's loop stops within the attempts, the bounded placement stops at the same point |
| ExoticParticles.RarityIntervals | js/ExoticParticles.js:114-127 | the roll splits [0, 100) into 60, 25, 10 and 5 wide intervals for normal, unstable, rare and quantum; a higher roll never gives a commoner name; with the initial table every name yields a normal particle |
| ExoticParticles.ShardStepWellFormed | js/ExoticParticles.js:31-47 | a drift and update of any non-negative length keeps a shard well formed, with its value and kind |
| ExoticParticles.UnstableShardIgnoresDrift | js/ExoticParticles.js:42-46 | an unstable shard ends the frame at the position it was built at, whatever the drift |
| ExoticParticles.AgedFacts | js/ExoticParticles.js:53-69 | after a frame every remaining effect has life left; each effect whose life stays positive is there, aged; each remaining one is the aged form of an old one; no more effects than before |
| ExoticParticles.InReachIffSquares | js/ExoticParticles.js:140-145 | with the law of `Math.sqrt`, a shard is in reach exactly when its squared distance is below 25² |
| ExoticParticles.AsWrittenTag | js/ExoticParticles.js:150-159 | the `instanceof` chain fails whenever "quantum" is not registered |
| ExoticParticles.AsWrittenTagAlwaysThrows | js/ExoticParticles.js:151 | with the factory's initial table the chain throws for every shard |
| ExoticParticles.TagsAgree | js/ExoticParticles.js:150-159 | once the three names are registered to their own classes, the chain gives the class's name; that name yields the same class back and tells the four classes apart |
| ExoticParticles.CollectedTag | js/ExoticParticles.js:150-159 | the tag is one of 'normal', 'unstable', 'rare' and 'quantum', and a factory with all four classes registered builds the shard's own class from it; TagsAgree ties it to the `instanceof` chain |
| ExoticParticles.CollectionEffect | js/ExoticParticles.js:177-187 | the effect sits at the shard with radius 10, its value, and one second of life; PointsFacts: each collected shard leaves exactly one such effect |
| ExoticParticles.KeptIffOutOfReach | js/ExoticParticles.js:139-172 | a distinct shard is kept exactly when it is out of reach; kept and collected shards account for all of them |
| ExoticParticles.PointsFacts | js/ExoticParticles.js:136-174 | the points are at least the number of shards collected and positive exactly when one was collected; each collected shard leaves one effect and one event, in order |
| ExoticParticles.ExoticParticles.constructor | js/ExoticParticles.js:5-13 | no shards, timer 0, no effects, a fresh factory with the initial table |
| ExoticParticles.ExoticParticles.SpawnShard | js/ExoticParticles.js:91-133 | a shard is appended exactly when the bounded placement succeeds: fresh, of the factory's class for the rolled name, at the placed point with radius 8; otherwise nothing changes; the states grow by `Spawned` |
| ExoticParticles.ExoticParticles.FirstAccepted | js/ExoticParticles.js:98-104 | the attempt loop stops at the first candidate outside the box round the hole's centre, whose point is the placement; it runs through every candidate exactly when all are rejected |
| ExoticParticles.ExoticParticles.Push | js/ExoticParticles.js:132 | a shard not yet in the list is appended at the end, and the list stays without repeats, at most ten long and well formed |
| ExoticParticles.ExoticParticles.TickSpawn | js/ExoticParticles.js:24-28 | the timer grows by `dt`; once it reaches 3 s with fewer than ten shards a spawn runs and the timer restarts; the states grow by `Born` |
| ExoticParticles.ExoticParticles.DriftShards | js/ExoticParticles.js:31-50 | for any non-negative frame every shard takes exactly one drift-and-update step (`Stepped`) and stays well formed |
| ExoticParticles.ExoticParticles.AgeEffects | js/ExoticParticles.js:53-88 | the effects become `Aged` of the old list |
| ExoticParticles.ExoticParticles.Update | js/ExoticParticles.js:20-89 | the old shards kept in order and at most one fresh shard appended, never an eleventh; the shards' states are `AfterUpdate` of the old states, timer and draws (the spawned shard included, stepped once); effects aged; no event |
| ExoticParticles.ExoticParticles.Advance | js/ExoticParticles.js:20-50 | the spawn and drift half of `update`: the same shard list and states as `Update` states |
| ExoticParticles.ExoticParticles.CheckCollection | js/ExoticParticles.js:135-175 | the shards in reach are removed in one pass, each leaving an effect and an event; the sum of their values is returned |
| ExoticParticles.ExoticParticles.Reset | js/ExoticParticles.js:189-198 | no effects, timer 0, and fresh shards whose states are exactly `PlacedStates` of the five spawn calls' draws |
| ExoticParticles.Placed | js/ExoticParticles.js:195-197 | at most one shard per spawn call |
| ExoticParticles.PlacedStatesFacts | js/ExoticParticles.js:195-197 | the placed states number `Placed`; when every spawn call's placement succeeds, all five shards are placed |
| ExoticParticles.CollectionPass | js/ExoticParticles.js:139-172 | the filter loop's result is `Collect` over all the shards |
| ExoticParticles.KeptStaysValid | js/ExoticParticles.js:139-172 | the kept shards are distinct, well formed and no more than before |
| GameController.Explosion | js/GameController.js:53-70 | an explosion has one spark per draw |
| GameController.ExplosionFacts | js/GameController.js:53-70 | an explosion adds fifty sparks, each at the given point with life 1, a colour index inside the four-colour list, a size in [2, 5), and (given cos² + sin² = 1) a speed in [5, 15) |
| GameController.SparkSpeed | js/GameController.js:58-64 | a velocity built from an angle and a speed in [5, 15) has squared length in [25, 225) |
| GameController.DestroyedLatch | js/GameController.js:311-321 | a running game ends with the score and clock kept, one explosion appended and shake and flash at 1 with the text invisible; an ended game is untouched, so a second trigger changes nothing |
| GameController.Bump | js/GameController.js:94 | adding one keeps a number a number and leaves `undefined` or `NaN` as `NaN` |
| GameController.BumpKeepsTally | js/GameController.js:94 | a tally that is not depleted stays so after adding one, and a count grows by exactly one |
| GameController.ScoredFacts | js/GameController.js:91-110 | from a tally that is not depleted, collected points raise the score by exactly that amount, the tally by one, and fire one shard reaction; no points change nothing; the tally is never left depleted, so the "no shards left" branch never ends the game |
| GameController.CollidedFacts | js/GameController.js:72-111 | a hit in a running game ends it with the score and tally kept and one "destroyed" reaction; without one the game-over flag is unchanged; an ended game stays ended; the score never falls for non-negative points; the tally is never left depleted |
| GameController.DepletedBranch | js/GameController.js:100-110 | the "no shards left while trapped" branch does end a running game, but only from a tally of 0, which the controller never produces |
| GameController.BurntFacts | js/GameController.js:171-182 | after a frame on the end screen every spark left has life, every spark with more than 0.02 of life is still there, flown one step, and no spark is added |
| GameController.SettledFacts | js/GameController.js:191-220 | one end-screen frame raises the text's fade-in by 0.02, stopping at 1, never falling; a non-negative shake decays but stays non-negative |
| GameController.FadeInAfter | js/GameController.js:191 | after `n` end-screen frames the fade-in is `min(1, start + n/50)`; from 0 it is fully shown exactly from the fiftieth frame |
| GameController.RestartedFacts | js/GameController.js:235-244 | a restart leaves a running game with score 0, clock 0, no sparks and calm effects, keeps the frame timestamp, and restarting twice is restarting once |
| GameController.ClockedFacts | js/GameController.js:271-283 | each frame records its timestamp; the game clock advances by the elapsed seconds while the game runs and stands still once it is over; the score and the game-over flag are untouched |
| GameController.BurnSparks | js/GameController.js:172-182 | the backward loop with its splices leaves exactly the flown sparks that still have life, in their original order |
| GameController.GameController.constructor | js/GameController.js:4-30 | the controller holds the given scene, robot, hole, stars and shards, with a running game, score 0, clock 0, no sparks and calm effects |
| GameController.GameController.CreateExplosion | js/GameController.js:53-70 | the spark list grows by exactly the explosion at the point |
| GameController.GameController.Obliterate | js/GameController.js:77-85 | the game ends at the robot's position with an explosion, full shake and flash, and one "destroyed" reaction |
| GameController.GameController.HandlePlayerDestroyed | js/GameController.js:311-321 | the destroyed event ends a running game once, with one reaction; for an ended game nothing changes |
| GameController.GameController.CheckCollisions | js/GameController.js:72-111 | a hit on the hole in a running game ends it, collects nothing and leaves the tally and the shards alone; otherwise the shards collected are those the collection check finds, and the score, tally and reactions follow the scoring rule; the robot's motion is untouched |
| GameController.GameController.Harvest | js/GameController.js:90-110 | the collection check and the scoring rule: the shards left, the score, the tally and the reactions as `Scored` gives them, the robot's motion untouched |
| GameController.GameController.Score | js/GameController.js:91-110 | the score, the tally and the reactions after a collection are those of the scoring rule |
| GameController.GameController.Restart | js/GameController.js:235-251 | a new game on the scene manager's current scene: the controller restarted; the robot reset with a tally of 1; the shard field with no effects, its timer at 0 and fresh shards in exactly the states the five spawn calls place; the hole at the centre with its start wander, clock 0, no rings, warning pulse and rotation offset 0, its pulse restarted with a re-drawn speed, and its radius, horizon, glow, plasma, angle, horizon pulse and last-jet time untouched |
| GameController.GameController.ResetGame | js/GameController.js:236-244 | the controller's own fields become those of a new game |
| GameController.GameController.RenewRobotAndField | js/GameController.js:245-247 | the robot reset on the scene with a tally of 1, and the shard field renewed: no effects, its timer at 0 and shards in exactly the states the five spawn calls place |
| GameController.GameController.HandleKeydown | js/GameController.js:223-229 | 'r' on the end screen restarts, with the robot, shard field and hole reset on the scene manager's current scene as `Restart` states, and the key is not passed on; any other key, or 'r' while playing, goes to the robot and leaves the controller, the hole and the shard field alone |
| GameController.GameController.HandleKeyup | js/GameController.js:231-233 | the released key goes to the robot |
| GameController.GameController.DrawGameOver | js/GameController.js:171-220 | the end screen's sparks burn down and its effects settle, keeping the fade-in in [0, 1] |
| GameController.GameController.StartFrame | js/GameController.js:271-283 | the elapsed seconds are non-negative; the timestamp is recorded, the universe turns by its speed times the elapsed time, and while the game runs the clock advances and the hole takes its value; nothing else changes |
| GameController.GameController.RunClock | js/GameController.js:280-283 | the game clock advances by the frame and the hole takes its value |
| GameController.GameController.Drift | js/GameController.js:289-303 | the stars and the hole move, the hole's wander as `Move` with its clock advanced by the frame; the robot and the shards are untouched and both stay well formed |
| GameController.GameController.MoveStars | js/GameController.js:289 | the starfield takes its frame, its counter wrapping at 1000, leaving the hole, the robot and the shards alone |
| GameController.GameController.MovePlayer | js/GameController.js:292-321 | the robot takes one frame's step, and if that step destroyed it the game has ended exactly as the destroyed listener ends it |
| GameController.GameController.Gather | js/GameController.js:293-296 | the shards' states become `AfterUpdate` of the old ones, then the game, tally, reactions and shards left are those `Collided` gives for the stepped shards; the robot's motion is untouched |
| GameController.GameController.StepShards | js/GameController.js:293 | the shard field's update, its states as `AfterUpdate`, leaving the robot and the controller's game alone |
| GameController.GameController.Act | js/GameController.js:292-296 | the robot takes the frame `P.Tick` gives; the destroyed listener's result, the shards' `AfterUpdate` states and the collision rule then give the game, tally, reactions and shards left |
| GameController.GameController.Play | js/GameController.js:289-296 | a running frame: the hole moves as `Move` toward the robot's old position with its clock advanced, and the robot, shards and collisions are as `Act` states; every component stays well formed |
| GameController.GameController.Proceed | js/GameController.js:278-304 | the branch on the game-over flag: a running game takes the `Play` frame, an ended one the `Idle` frame; the clocks are untouched |
| GameController.GameController.Idle | js/GameController.js:299-304 | the end-screen frame: the hole moves as `Move` without a robot, the controller becomes `Settle` of its game, and the reactions, robot and shards are untouched |
| GameController.GameController.GameLoop | js/GameController.js:271-309 | one frame: timestamp and clock as `Clocked`; the hole moves as `Move` (toward the robot only while the game runs); a running frame gives the robot's `P.Tick` state, the shards' `AfterUpdate` states and the collision results; an ended frame only settles the end screen and leaves reactions, robot and shards alone; every component stays well formed |
| Player.DirectionOf | js/Player.js:925-944 | a key names a direction exactly when it is its arrow or its WASD letter; WithKeyExactly: pressing or releasing it sets that direction's flag and no other |
| Player.WithKeyExactly | js/Player.js:927-955 | pressing or releasing a direction sets that direction's flag and no other |
| Player.EscapeFacts | js/Player.js:972-1018 | the escape succeeds exactly when trapped with at least five particles; it then costs five, frees the robot, starts a one-second boost, restores the default drag and fires one "escaped" event, keeping the position, the timer and the keys; otherwise nothing changes |
| Player.EscapeSpeed | js/Player.js:980-988 | given cos² + sin² = 1, the escape leaves at exactly three times the top speed |
| Player.PressRelease | js/Player.js:915-970 | pressing then releasing a direction key is releasing it, apart from the movement time, and leaves the body alone; the space bar while free switches the speed boost on and off again; any other key does nothing |
| Player.ChargeSpeedBoostFacts | js/Player.js:469-480 | the speed boost fires one `speedBoostUsed` of cost 1 exactly when it is on and a second has passed since the last charge, and then restarts the second; otherwise nothing changes |
| Player.AccelerateFacts | js/Player.js:489-502 | opposite keys cancel, up lowers the vertical velocity, right raises the horizontal one, and the position is not touched |
| Player.NearDragBounds | js/Player.js:609-618 | the drag near the hole lies between 95% of the default and the default, is the default from two glow radii out, and is 95% of it at the centre |
| Player.ScaleToLength | js/Player.js:632-635 | with an exact square root, scaling a too-fast velocity by `limit / speed` gives it exactly the limit's length |
| Player.CappedWithinLimit | js/Player.js:628-636 | with an exact square root, the capped speed never exceeds the limit: it is the limit when the cap applied, and the velocity is untouched otherwise |
| Player.ClampAxisFacts | js/Player.js:892-913 | on a screen at least ten across, the position ends within the 5-unit margins, is untouched when already inside, and the velocity bounces at half speed exactly when the position was clamped (or is 0) |
| Player.ConfrontKeeps | js/Player.js:541-591 | the trap machine leaves the drive, the drag, the radius and the shard tally alone, and moves the robot nowhere |
| Player.TickBoosts | js/Player.js:451-487 | a running escape boost loses the frame's time and ends at 0; a stopped one stays stopped; the universe carries the robot exactly when no key is held and no escape boost runs; keys and speed boost are kept |
| Player.ConfrontLoss | js/Player.js:558-575 | the trap loses at most one particle a frame, never below zero, and only when five seconds of stillness and two since the last loss have passed, stamping the loss time |
| Player.TickLoss | js/Player.js:450-650 | a whole frame loses at most one particle under the same conditions, keeps the shard tally, and without a hole leaves the trap alone |
| Player.TickKeepsTally | js/Player.js:450-650 | a frame of the robot never changes the shard tally the controller keeps on it |
| Player.ConfrontEdges | js/Player.js:541-591 | inside the event horizon the trap is set, `playerTrapped` fires only on entry and `playerEscaped` never; the timer counts stillness and a held key zeroes it; outside, the trap is cleared, `playerEscaped` fires only if it was set, and the timer is zeroed |
| Player.ConfrontVerdict | js/Player.js:558-583 | the update stops early exactly when `playerDestroyed` fires: either the last particle went, leaving 0 and the pull toward the centre, or the robot came within 1.2 hole radii of the centre |
| Player.TickInBounds | js/Player.js:638-643 | after a frame that runs to its end, the robot is within the margins of a screen at least ten across |
| Player.RobotSize | js/Player.js:81-109 | the robot size is a quarter of the larger screen side, rounded to the nearest unit |
| Player.ResetTwice | js/Player.js:1135-1169 | resetting twice is resetting once exactly when the radius already matched the screen, because the start position uses the radius from before the resize |
| Player.ResetIsFree | js/Player.js:1135-1169 | a reset robot is free, at rest, with one particle, no key, no boost; it cannot escape and is not charged |
| Player.Player.constructor | js/Player.js:4-71 | the robot starts at the origin, size 300, radius 45, at rest, default drag, one particle, free, no key, no boost, carried by the universe |
| Player.Player.Init | js/Player.js:73-110 | the robot is placed by the left edge (using the radius it had) at mid-height, then resized to the screen |
| Player.Player.UpdateRobotSize | js/Player.js:107-111 | the size becomes a quarter of the larger side, rounded, and the radius a third of it |
| Player.Player.CheckCollision | js/Player.js:1128-1133 | a hit exactly when the centres are closer than the sum of the radii |
| Player.Player.HandleKeydown | js/Player.js:915-946 | the new state and the events are those of the key-down rule |
| Player.Player.HandleKeyup | js/Player.js:948-970 | the new state is that of the key-up rule, with no event |
| Player.Player.TryEscape | js/Player.js:972-1018 | the result, the new state and the events are those of the escape rule |
| Player.Player.Update | js/Player.js:450-650 | the new state, the events and whether the frame stopped early are those of one frame of the robot |
| Player.Player.CheckTrap | js/Player.js:541-591 | the trap machine's new state, verdict and events, appended to the event log |
| Player.Player.JudgeTrap | js/Player.js:558-583 | the particle loss, the destruction when none is left and the critical-distance check, as the judge rule gives them |
| Player.Player.FinishFrame | js/Player.js:609-643 | the frame's drag, the speed cap, the move and the bounds |
| Player.Player.ConstrainToBounds | js/Player.js:892-913 | both axes clamped to the margins, bouncing at half speed |
| Player.Player.Reset | js/Player.js:1135-1169 | the state after the reset rule, with no event |
| ObjectPool.PoolObject.constructor | js/utils/ObjectPool.js:50 | a new record holds the value the factory gives |
| ObjectPool.PoolObject.Recycle | js/utils/ObjectPool.js:32 | the record in place takes the value the pool's reset callback gives for the arguments |
| ObjectPool.DistinctMultiset | js/utils/ObjectPool.js:40-42 | a list has no repeated record exactly when no record occurs in it more than once as a multiset |
| ObjectPool.DistinctPermutation | js/utils/ObjectPool.js:40-42 | reordering a list without repeats keeps it without repeats |
| ObjectPool.ObjectPool.constructor | js/utils/ObjectPool.js:11-18 | a new pool holds `initialSize` (20 by default) fresh, distinct factory records |
| ObjectPool.ObjectPool.Expand | js/utils/ObjectPool.js:48-52 | expanding by `count` appends exactly `count` fresh factory records and keeps the list without repeats |
| ObjectPool.ObjectPool.Get | js/utils/ObjectPool.js:25-34 | a non-empty pool hands out its last record, reset with the arguments, and shrinks by one; an empty pool first grows by ten fresh records, hands one out reset and is left with nine, none of them the one handed out |
| ObjectPool.ObjectPool.Release | js/utils/ObjectPool.js:40-42 | the record is pushed on the end, with no membership check |
| ObjectPool.ObjectPool.Size | js/utils/ObjectPool.js:58-60 | the size is the length of the free list, so by the rows above Get lowers it by one (from a non-empty pool), Release raises it by one and Expand by `count` |
| ObjectPool.ObjectPool.ReleaseThenGet | js/utils/ObjectPool.js:25-42 | releasing a record and then getting one hands back the same record, reset, and leaves the pool as it was (LIFO) |
| PlasmaParticlePool.NewPlasmaParticlePool | js/utils/PlasmaParticlePool.js:7-33 | a plasma pool holds `initialSize` (100 by default) fresh, distinct default plasma particles and uses the plasma reset |
| PlasmaParticlePool.ResetPlacesParticle | js/utils/PlasmaParticlePool.js:21-26 | a reset particle takes the given position and velocity and full life |
| PlasmaParticlePool.ResetDefaults | js/utils/PlasmaParticlePool.js:27-28 | a falsy size becomes 2 and a falsy colour the default plasma colour; truthy ones are kept |
| PlasmaParticlePool.ResetForgetsPrevious | js/utils/PlasmaParticlePool.js:21-29 | nothing of the previous particle survives a reset |
| Starfield.ShredStep | js/Starfield.js:264-276 | a shred's frame takes exactly `dt` off its life and keeps its velocity, size and colour |
| Starfield.StarColor | js/Starfield.js:126 | the colour picked by `Math.floor(draw·6)` is one of the six star colours |
| Starfield.StepAll | js/Starfield.js:264-276 | every shred takes exactly one frame step, in order; SurvivorsHaveLife: a stepped shred survives exactly when its new life is positive |
| Starfield.SurvivorsAndReleasedPartition | js/Starfield.js:264-296 | the shreds that survive and the shreds released together are exactly the shreds at the start, as a multiset, and their counts add up |
| Starfield.SurvivorsHaveLife | js/Starfield.js:278-287 | a shred survives exactly when its new life is positive and is released exactly when it is not |
| Starfield.SwapRemoveFacts | js/Starfield.js:281-285 | swap-with-last-and-pop at `i` keeps everything before `i` and removes exactly the shred at `i` from the rest |
| Starfield.Starfield.constructor | js/Starfield.js:5-45 | no shreds, the frame counter at 0, and a fresh shred pool of twenty distinct fresh records, each holding the shred factory's default record |
| Starfield.Starfield.CreateShredEffect | js/Starfield.js:120-132 | exactly fifteen shreds are appended, each at the point with life 1, the colour `StarColor` of its draw and its drawn velocity; the first `min(15, |pool|)` are the pool's records from the top down, and a pool of at least fifteen loses exactly its top fifteen; earlier shreds are kept unchanged |
| Starfield.Starfield.EmitShred | js/Starfield.js:123-130 | one shred appended as the `i`-th of the effect, colour `StarColor` of the draw; from a non-empty pool it is the pool's last record and the pool loses just that one; from an empty pool it is fresh and nine fresh records are left |
| Starfield.Starfield.Update | js/Starfield.js:134-296 | the frame counter wraps at 1000; every shred present at the start is stepped exactly once; those left alive remain, as a multiset, each with life left; the dead ones are appended to the pool, each once |
| Starfield.Starfield.UpdateShreds | js/Starfield.js:264-296 | the backward loop steps every shred once, keeps the survivors as a multiset, releases the dead ones to the pool in loop order and keeps shreds and pool distinct |
| Starfield.StepShred | js/Starfield.js:265-276 | the shred record in place takes its frame step |
| SceneManager.DriftIsTangential | js/Player.js:504-521 | the universe's pull on the robot leaves the centre in place and moves every other point at right angles to its offset from the centre |
| SceneManager.SceneManager.constructor | js/SceneManager.js:4-31 | the scene takes the window's size, the centre is its middle, the angle starts at 0 and the speed is 0.001 |
| SceneManager.SceneManager.HandleResize | js/SceneManager.js:33-40 | the scene takes the new window size and the centre moves to its middle; the rotation is untouched |
| SceneManager.SceneManager.UpdateUniverseRotation | js/SceneManager.js:47-54 | the angle advances by speed times `dt`, wrapping once past 2π |
| SceneManager.SceneManager.ApplyUniverseRotation | js/SceneManager.js:57-71 | the point rotated by the angle about the centre |
| SceneManager.SceneManager.ReverseUniverseRotation | js/SceneManager.js:74-88 | the point rotated by minus the angle about the centre |
| SceneManager.SceneManager.ApplyFixesCentre | js/SceneManager.js:57-71 | the centre is fixed by the rotation |
| SceneManager.SceneManager.ReverseUndoesApply | js/SceneManager.js:57-88 | given cos² + sin² = 1 and the parities of cos and sin, reversing an applied rotation gives the point back |
| SceneManager.TurnAboutInverse | js/SceneManager.js:57-88 | turning about a centre by (c, s) and then by (c, −s) is the identity when c² + s² = 1 |
| JsMath.AdvanceAngleInRange | js/SceneManager.js:47-54 | from [0, 2π], a step in [0, 2π] keeps the angle in [0, 2π], and exactly 2π is kept because the wrap test is strict |
| JsMath.Floor | js/GameController.js:120-121 | `Math.floor`: the greatest integer not above the argument |
| JsMath.Round | js/Player.js:83 | `Math.round`: the integer nearest the argument, halves rounding up |
| JsMath.ScaledDrawIndex | js/reactions/ConsoleReactionMessages.js:91 | `Math.floor(r * n)` for a draw r in [0, 1) is an index in [0, n) |
| JsMath.Trunc | index.js:163 | truncation toward zero: for a non-negative x, n ≥ 0 with n ≤ x < n + 1; for a negative x, n ≤ 0 with n − 1 < x ≤ n; MinutesSeconds uses it to split a time into minutes and seconds |
| JsMath.JsRem | index.js:163 | JavaScript's `%`: the remainder has the sign of the dividend (0 for 0) and is strictly smaller in size than the divisor |
| ClockFormat.DigitChar | index.js:164 | the digit character of a decimal digit |
| ClockFormat.NatDigits | index.js:164 | the decimal rendering of a non-negative integer is non-empty, all digits, one digit long exactly below 10 and two long from 10 to 99 |
| ClockFormat.DigitsRoundTrip | index.js:164 | reading the decimal rendering back gives the number |
| ClockFormat.IntString | index.js:162-164 | an integer's rendering is its digits, with a minus sign before a negative one; ClockReadsBack: the minutes' rendering reads back as the minutes |
| ClockFormat.PadStart2 | index.js:164 | `padStart(2, '0')` puts zeros in front of a string shorter than two and leaves longer ones unchanged |
| ClockFormat.MinutesSeconds | index.js:161-165 | for a non-negative time the minutes are not negative, the seconds lie in [0, 60), and together they make the time's whole seconds |
| ClockFormat.PaddedSeconds | index.js:164 | seconds below 60 become exactly two digits that read back as the seconds |
| ClockFormat.ClockReadsBack | index.js:164 | the text is the minutes' digits, a colon, and two digits; both fields read back as the numbers they came from |
| ClockFormat.FormatTimeReadsBack | index.js:161-165 | for a non-negative time the string is m:ss, and sixty times the minutes read back plus the seconds read back is the time's whole seconds |
| ClockFormat.FormatTime | index.js:161-165 | for a non-negative time: a colon third from the end, the digits before it read back as ⌊t/60⌋ and the two digits after it as ⌊t mod 60⌋ |
| PerformanceOptimizer.Rank | js/utils/PerformanceOptimizer.js:12 | the three quality levels in order, low to high |
| PerformanceOptimizer.RateOf | js/utils/PerformanceOptimizer.js:51 | the frame rate is Infinity exactly when the mean frame time is 0, and otherwise 1000 over it, rounded to the nearest integer |
| PerformanceOptimizer.AdjustedRules | js/utils/PerformanceOptimizer.js:63-77 | below 30 fps the level drops to low; below 45, high drops to medium; above 58 it rises by exactly one level (high stays high); from 45 to 58 nothing changes; the level rises at most one step, and only above 58 |
| PerformanceOptimizer.Adjusted | js/utils/PerformanceOptimizer.js:63-77 | below 30 fps the level is low; a check raises the level by at most one step, and raises it exactly when the rate is above 58 and the level is not high; AdjustedRules gives the full table |
| PerformanceOptimizer.SumBounds | js/utils/PerformanceOptimizer.js:49 | a sum of values in [lo, hi] lies between n·lo and n·hi |
| PerformanceOptimizer.MeanBounds | js/utils/PerformanceOptimizer.js:49 | the mean of values in [lo, hi] is in [lo, hi] |
| PerformanceOptimizer.WindowFacts | js/utils/PerformanceOptimizer.js:41-46 | the buffer keeps at most sixty frame times: the newest last, the rest in order, only the oldest dropped |
| PerformanceOptimizer.MeasuredFacts | js/utils/PerformanceOptimizer.js:30-58 | the first call only records the timestamp; a later one pushes the frame time into the window, sets the mean and the rate, counts the frame, and adjusts the level exactly when adaptive mode is on and the count is a multiple of 30 |
| PerformanceOptimizer.Measured | js/utils/PerformanceOptimizer.js:30-58 | a measurement records the timestamp, keeps the adaptive flag and the window within sixty frames, and changes the level only in adaptive mode on a count that is a multiple of 30; MeasuredFacts gives the whole update |
| PerformanceOptimizer.SteadyFrames | js/utils/PerformanceOptimizer.js:41-50 | when every buffered frame took between lo and hi milliseconds, so did the average |
| PerformanceOptimizer.ThrottleFacts | js/utils/PerformanceOptimizer.js:88-112 | an object renders exactly when the interval has passed since its last render (0 when never rendered), and only then is the time recorded; other objects are untouched; after a render the next one waits a full interval |
| PerformanceOptimizer.Throttle | js/utils/PerformanceOptimizer.js:88-112 | an object renders exactly when the interval has passed since its last render, only then is its time recorded as now, and no other object's time changes |
| PerformanceOptimizer.PerformanceOptimizer.constructor | js/utils/PerformanceOptimizer.js:5-24 | 60 fps, no frame times, no timestamp, high quality, adaptive, a 16 ms average, no frames counted, an empty throttle map |
| PerformanceOptimizer.PerformanceOptimizer.MeasureFrameRate | js/utils/PerformanceOptimizer.js:30-58 | the monitor's state after the measurement rule, the buffer staying within sixty |
| PerformanceOptimizer.PerformanceOptimizer.PushFrameTime | js/utils/PerformanceOptimizer.js:41-51 | the window takes the frame time, the average is the buffer's mean and the rate follows it |
| PerformanceOptimizer.PerformanceOptimizer.AdjustQuality | js/utils/PerformanceOptimizer.js:63-77 | the level after one check, as the adjustment rules give it |
| PerformanceOptimizer.PerformanceOptimizer.ShouldRender | js/utils/PerformanceOptimizer.js:88-112 | the answer and the throttle map are those of the throttle rule for the current level's interval |
| PerformanceConfig.QualityTable | js/utils/performance.js:14-33 | each level's row carries that level's name as its effect detail |
| PerformanceConfig.QualityTableOrdered | js/utils/performance.js:14-33 | a higher level allows strictly more particles and stars and updates at least as often; the level names are distinct |
| PerformanceConfig.CurrentConfig | js/utils/performance.js:53-55 | the row returned is the one of the optimizer's current level |
| PerformanceConfig.InitialQuality | js/utils/performance.js:68-72 | the start level is high exactly when the core count is known and above 2, medium otherwise; InitPerformanceOptimizations sets the optimizer's level to it |
| PerformanceConfig.InitialAdaptive | js/utils/performance.js:63-64 | adaptive mode is the option when it is given, on otherwise; InitPerformanceOptimizations sets the optimizer's flag to it |
| PerformanceConfig.InitPerformanceOptimizations | js/utils/performance.js:61-72 | the optimizer takes the adaptive choice and the start level, so the current row allows at least 300 particles and 200 stars |
| Leaderboard.InsertAfterFacts | index.js:111 | inserting into a sorted list keeps it sorted and adds exactly the new entry |
| Leaderboard.InsertAfterGroups | index.js:111 | inserting after the entries that score at least as much places the new entry after every equal score |
| Leaderboard.SortByScoreFacts | index.js:111 | the sort is a stable descending sort: sorted, the same entries, and entries of equal score in their old relative order |
| Leaderboard.SortByScore | index.js:111 | the result is sorted best first and holds the same entries; SortByScoreFacts adds that equal scores keep their order |
| Leaderboard.UpdatedFacts | index.js:101-116 | a result that is not positive leaves the list alone; any other leaves at most ten entries, best first, the top of the old entries plus the new one, and nothing cut outscores anything kept; a list of fewer than ten grows by exactly one, the new result included |
| Leaderboard.TiesRankAfterOlder | index.js:111 | a new result that ties older ones ranks after all of them |
| Leaderboard.Leaderboard.constructor | index.js:101-124 | the list starts as stored |
| Leaderboard.Leaderboard.UpdateLeaderboard | index.js:101-116 | the list after the update rule: push, sort best first, cut to ten, only for a positive score |
| EndGameFeedback.TierOf | js/EndGameFeedback.js:124-141 | the highest tier reached is one of 0 to 3 |
| EndGameFeedback.VerdictIsHighestTier | js/EndGameFeedback.js:118-144 | the verdict is the highest tier whose three thresholds all hold, the tiers reached are exactly those up to it, and with none reached it is Rookie with the bronze badge |
| EndGameFeedback.DetermineRankAndMessage | js/EndGameFeedback.js:118-144 | the verdict is the tier of the highest level whose thresholds all hold, and it is Rookie exactly when the lowest tier's thresholds fail |
| EndGameFeedback.RankMonotone | js/EndGameFeedback.js:124-141 | raising the score, the time or the particles never lowers the tier |
| EndGameFeedback.ThresholdsAreStrict | js/EndGameFeedback.js:125-137 | exactly 50 points, 60 seconds and 10 particles is still Rookie; one more of each is Explorer; 301 points and 51 particles in 60 seconds is still Rookie |
| ObjectTable.Resolve | js/reactions/ConsoleReactionMessages.js:90 | a name in the table is used itself, any other falls back to the default category; PickLine: the line is then drawn from that category's list, and none only when that list is empty |
| ObjectTable.PickLine | js/reactions/ConsoleReactionMessages.js:89-92 | a line is picked exactly when the resolved list is non-empty, and it is an index inside that list |
| ConsoleReactionMessages.MessageTable | js/reactions/ConsoleReactionMessages.js:3-86 | six categories of ten lines each; `gameStart` holds the second list written under that name, not the first of eight |
| ConsoleReactionMessages.MessageAlwaysChosen | js/reactions/ConsoleReactionMessages.js:89-92 | every event gets a line, from its own list when it has one and from the default list otherwise |
| ConsoleReactionMessages.GetRandomMessage | js/reactions/ConsoleReactionMessages.js:89-92 | a line is always chosen, from the event's own list when the table has one and from the default list otherwise, at an index inside that list |
| ConsoleReactionStyles.StyleTable | js/reactions/ConsoleReactionStyles.js:3-54 | ten categories: four styles for each of five core events and the default, two for each of the other five |
| ConsoleReactionStyles.StyleAlwaysChosen | js/reactions/ConsoleReactionStyles.js:57-60 | every event gets a style, from its own list when it has one and from the default list otherwise |
| ConsoleReactionStyles.GetRandomStyle | js/reactions/ConsoleReactionStyles.js:57-60 | a style is always chosen, from the event's own list when the table has one and from the default list otherwise, at an index inside that list |
| ScreenReaction.MessageSizeFacts | js/reactions/ScreenReaction.js:189-202 | the font is the scaled size clamped to [14, 36] (14 below, 36 above), and never grows with a longer text; the width is `min(0.8·w, 600)`; the padding is `max(0.4·font, 8)` and the side padding 1.5 times it |
| ScreenReaction.GetRandomMessageZone | js/reactions/ScreenReaction.js:205-208 | the zone is one of the six zones |
| ScreenReaction.Far | js/reactions/ScreenReaction.js:212-217 | the candidates are exactly the destinations farther than 0.3 from the start |
| ScreenReaction.GetRandomFadeOutDestination | js/reactions/ScreenReaction.js:211-224 | the destination is one of the eight, and farther than 0.3 from the start whenever one such exists |
| ScreenReaction.AlwaysFliesFar | js/reactions/ScreenReaction.js:211-224 | with an exact square root, some destination is always farther than 0.3, so the message always flies far |
| ScreenReaction.DisplayDuration | js/reactions/ScreenReaction.js:92-93 | a message stays between 2.5 and 3.5 seconds |
| ScreenReaction.Newest | js/reactions/ScreenReaction.js:137-150 | at most three messages are kept: all of them when there are at most three, otherwise the newest three |
| ScreenReaction.Clamp | js/reactions/ScreenReaction.js:236-239 | a position fraction is clamped into [0.1, 0.9] and left alone when already inside |
| ScreenReaction.ResizedFacts | js/reactions/ScreenReaction.js:227-246 | after a resize a message is inside the [0.1, 0.9] box, sized for the new screen, untouched in position when already inside, with its text and start kept |
| ScreenReaction.ScreenReaction.constructor | js/reactions/ScreenReaction.js:5-28 | the screen size is the window's and no message is shown |
| ScreenReaction.ScreenReaction.React | js/reactions/ScreenReaction.js:63-135 | the new message is added last and the container is cut back to the newest three |
| ScreenReaction.ScreenReaction.LimitMessages | js/reactions/ScreenReaction.js:137-150 | the oldest messages go until three are left |
| ScreenReaction.ScreenReaction.ClearAllMessages | js/reactions/ScreenReaction.js:181-186 | no message is left |
| ScreenReaction.ScreenReaction.HandleResize | js/reactions/ScreenReaction.js:21-27 | the screen size is the window's, and every message is resized and re-clamped |
| ScreenReaction.ScreenReaction.AdjustExistingMessagesOnResize | js/reactions/ScreenReaction.js:227-246 | every message is resized and re-clamped, none added or removed |
| Settings.ToggleFacts | js/Settings.js:107-110 | toggling keeps the panel consistent with the flag and flips it, and toggling twice restores the state |
| Settings.ColorSelectedFacts | js/Settings.js:112-128 | an index out of range changes nothing and announces nothing; one in range becomes the selected index, leaves exactly its button selected and announces exactly that colour; the panel and the reactions flag are kept |
| Settings.Settings.constructor | js/Settings.js:2-70 | closed, colour 0 selected with only its button marked, reactions on, nothing announced |
| Settings.Settings.ToggleSettings | js/Settings.js:107-110 | the state after the toggle rule, still consistent |
| Settings.Settings.SelectColor | js/Settings.js:112-128 | the state after the colour rule, still consistent |
| Settings.Settings.SetReactionsEnabled | js/Settings.js:91-93 | the reactions flag follows the toggle, nothing else changes |
| Settings.Settings.GetCurrentPlayerColor | js/Settings.js:130-132 | the colour is the selected entry of the colour list |
| Debug.LevelAfter | js/utils/Debug.js:19-28 | a level from 0 to 4 is taken, any other leaves the level unchanged; LevelStaysInRange: so the level never leaves 0 to 4, and it only ever changes to the level asked for |
| Debug.LevelStaysInRange | js/utils/Debug.js:19-28 | the level stays in [0, 4], and changes only to the requested level |
| Debug.GateFacts | js/utils/Debug.js:6-68 | at level NONE nothing is emitted; error emits exactly from level 1, warn from 2, log from 3, info at 4; whatever emits at a severity also emits at every lower one |
| Debug.Debug.constructor | js/utils/Debug.js:6-13 | the level starts at NONE with nothing on the console |
| Debug.Debug.SetLevel | js/utils/Debug.js:19-28 | the level after the level rule, and one line saying so or rejecting the level |
| Debug.Debug.LogError | js/utils/Debug.js:34-38 | the console gains the error line exactly when the gate lets it through |
| Debug.Debug.LogWarn | js/utils/Debug.js:44-48 | the console gains the warning line exactly when the gate lets it through |
| Debug.Debug.LogMessage | js/utils/Debug.js:54-58 | the console gains the log line exactly when the gate lets it through |
| Debug.Debug.LogInfo | js/utils/Debug.js:64-68 | the console gains the info line exactly when the gate lets it through |
| Debug.Debug.Initialize | js/utils/Debug.js:73-85 | the start-up notice goes through the log gate |

## Left out

- Rendering: the canvas and Three.js drawing, the robot's 3D model and jetpack (`setup3DScene`, `createRobotModel`, `createJetpack`, `update3DModel`, `draw`, `updateGlowEffect` in js/Player.js), every `draw` method, and js/HomeBackground.js. None of them changes game state.
- The glow and colour handling of the robot (`onParticleCollected`, the glow decay, `updateColors` and the `playerColorChange` listener) are visual only. The model keeps just the colour index and the announced colours in `settings.dfy`.
- Starfield star and galaxy motion and drawing: only the shred effects, their pool and the frame counter are modelled.
- Numbers from transcendental functions: `Math.sqrt`, `exp`, `pow`, `sin`, `cos` and `atan2` are uninterpreted. The model states regimes, caps, clamps and directions given their laws, never their numeric values.
- IEEE floating point: rounding, infinities and `NaN` are not modelled, except the robot's `dataShards` tally, where `NaN` decides a branch.
- `Math.random()`, `Date.now()` and `performance.now()` are parameters, and no claim is made about their distribution.
- Event plumbing: `window` listeners and `CustomEvent` dispatch are ghost logs. js/reactions/Reactions.js, ReactionFactory.js, ReactionBase.js and ConsoleReaction.js are not part of this model. They only forward events to console output, so the controller's calls into them are a ghost reaction log.
- Audio: js/SoundManager.js and js/audio-processors/noise-processor.js are not part of this model. They are Web Audio synthesis and sound preference toggles.
- DOM and persistence: js/UIManager.js panels, the DOM handlers of index.js, `updateLeaderboardDisplay`, the element construction of `EndGameFeedback`, `Settings.createSettingsUI` and all `localStorage` and JSON reads and writes. The leaderboard is given as the list read from storage.
- `showFeedback` (js/EndGameFeedback.js) builds a panel. Only its verdict and its time string are modelled.
- Frame scheduling: one frame of `gameLoop` is modelled, not the `requestAnimationFrame` chain. The controller's `start` and the wiring of its components (js/GameController.js:32-41) are construction only.
- `GameController.update` (js/GameController.js:253-264) is an alternative ordering that nothing calls.
- The score text of `drawScore` is drawing. Its time format is the shared minutes-and-seconds formatter (`ClockFormat`).
- The reaction message and style tables are modelled by the length of each list, not by the strings themselves. Names that a plain object inherits (`constructor`, `toString`, ...) would resolve to a non-list and are not modelled.
- The text of `getDebugInfo` (its `toFixed` formatting) and the `setInterval` logging in `initPerformanceOptimizations` are output only.
- js/reactions/ScreenReaction.js: timers, the fade animation, the removal callbacks and the element styling are not modelled. `ensureMessagesContainer` is modelled by a container that starts empty.
- Module wiring defects: js/Starfield.js:2 and js/utils/PlasmaParticlePool.js:1 import `ObjectPool` by name although it is a default export, and js/utils/performance.js:5 does the same with `PerformanceOptimizer`. index.js:68 and index.js:87 call `animateOnly` and `startGame`, which `GameController` does not define. The model assumes the imports resolve to the classes and leaves the two missing calls out.
- ExoticParticles.ExoticParticles.SpawnShard: the retry loop is bounded by an explicit number of candidate draws, in place of the source's unbounded `do`/`while`. The unbounded loop is modelled separately; see the findings.
- ExoticParticles.ExoticParticles.CheckCollection: the collected shard's tag is `CollectedTag`, the name of its own class, in place of the source's `instanceof` chain, which throws on the first shard in reach because three of its classes are never registered (see the finding on js/ExoticParticles.js:151-157). As written, that throw leaves one effect pushed, sends no event, returns nothing and stops the game loop before it schedules the next frame; Harvest, Score, ScoredFacts, Gather and Act, which build on the collection, model the corrected tag too.
- Build configuration (vite.config.js) is not part of this model.

## Findings

| source | as written | input that shows it | evidently intended | confidence | as-written member | corrected member |
|---|---|---|---|---|---|---|
| js/ExoticParticles.js:98-104 | a shard's position is drawn again until it lies outside a 300-by-300 box around the scene centre, with no bound on the number of tries | a 400-by-400 scene: every candidate lies in [100, 300) on both axes, within 150 of the centre (200, 200), so the loop never ends | the retries stop, or the excluded box fits inside the scene | high, not executed | ExoticParticles.AsWrittenPlacementNeverEnds | ExoticParticles.PlacementFacts |
| js/ExoticParticles.js:151-157 | the collected shard's type is found with `instanceof` on the factory's classes for 'unstable', 'rare' and 'quantum', which are never registered | collecting any shard: only 'normal' is registered (js/particles/ExoticParticleFactory.js:9-14), so `instanceof undefined` throws a TypeError | the type tag of the collected shard | high, not executed | ExoticParticles.AsWrittenTagAlwaysThrows | ExoticParticles.TagsAgree |

=== FILE: black_hole.dfy ===
/**
 * The black hole: a pulsating radius with an event horizon 3.5 times as
 * large, a wandering centre that chases the player, plasma jets that live for
 * half a second, shard-consumption rings, and the two-regime gravity it
 * exerts on the player.
 */
module BlackHole {
  import opened JsMath
  import opened SceneManager

  const BaseRadius: real := 50.0
  const PullStrength: real := 150.0
  const AngularSpeed: real := 0.5
  const HorizonPulseSpeed: real := 5.0
  /** The event horizon's radius as a multiple of the hole's radius. */
  const HorizonScale: real := 3.5
  /** Inside `HorizonReach` times the event horizon, gravity switches to the exponential regime. */
  const HorizonReach: real := 1.2
  /** The cap on the outer regime's force. */
  const OuterCap: real := 400.0
  /** Particles per plasma jet. */
  const JetSize: nat := 5
  /** Milliseconds between two pairs of jets. */
  const JetInterval: real := 50.0
  /** Milliseconds during which a shard loss shows a consumption ring. */
  const LossWindow: real := 100.0
  const FollowFactor: real := 0.7
  const RandomOffset: real := 150.0

  /** A plasma-jet particle; its `hsla(...)` colour is kept as the hue it is built from. */
  datatype Plasma = Plasma(x: real, y: real, vx: real, vy: real, life: real, size: real, hue: real)

  /** A shard-consumption ring: its remaining and its initial life. */
  datatype Fade = Fade(life: real, maxLife: real)

  /** The four draws one plasma particle takes: speed, spread, size and hue. */
  datatype JetDraw = JetDraw(speed: real, spread: real, size: real, hue: real)

  /** The draws of `updatePulsation`'s re-roll: new pulse speed and new pulse range. */
  datatype PulseDraws = PulseDraws(speed: real, range: real)

  /** The draws of `updateMovement`: the new interval and speed, and the target's two jitters. */
  datatype MoveDraws = MoveDraws(interval: real, speed: real, jitterX: real, jitterY: real)

  /** Every draw one `update` may take. */
  datatype FrameDraws = FrameDraws(pulse: PulseDraws, move: MoveDraws, jets: seq<JetDraw>)

  ghost predicate ValidJetDraws(ds: seq<JetDraw>) {
    forall k :: 0 <= k < |ds| ==> IsDraw(ds[k].speed) && IsDraw(ds[k].spread) && IsDraw(ds[k].size) && IsDraw(ds[k].hue)
  }

  ghost predicate ValidFrameDraws(d: FrameDraws) {
    IsDraw(d.pulse.speed) && IsDraw(d.pulse.range)
    && IsDraw(d.move.interval) && IsDraw(d.move.speed) && IsDraw(d.move.jitterX) && IsDraw(d.move.jitterY)
    && |d.jets| == 2 * JetSize && ValidJetDraws(d.jets)
  }

  // ---------------------------------------------------------------- pulsation

  /** The pulse: phase, phase speed and relative size variation. */
  datatype Pulse = Pulse(factor: real, speed: real, range: real)

  /** One frame of the pulse: the phase advances by `speed * dt`; past 2π it restarts at 0 with a re-rolled speed and range. */
  function AdvancePulse(p: Pulse, dt: real, d: PulseDraws): Pulse {
    if p.factor + p.speed * dt > TwoPi then Pulse(0.0, 0.5 + d.speed * 1.0, 0.2 + d.range * 0.3)
    else p.(factor := p.factor + p.speed * dt)
  }

  /** The pulse's phase lies in `[0, 2π]`, its speed in `[0.5, 1.5)` and its range in `[0.2, 0.5)`. */
  ghost predicate PulseInRange(p: Pulse) {
    0.0 <= p.factor <= TwoPi && 0.5 <= p.speed < 1.5 && 0.2 <= p.range < 0.5
  }

  /** A frame of non-negative length keeps the pulse in range; a re-roll draws the speed from `[0.5, 1.5)` and the range from `[0.2, 0.5)`. */
  lemma AdvancePulseInRange(p: Pulse, dt: real, d: PulseDraws)
    requires PulseInRange(p) && 0.0 <= dt && IsDraw(d.speed) && IsDraw(d.range)
    ensures PulseInRange(AdvancePulse(p, dt, d))
    ensures p.factor + p.speed * dt > TwoPi ==> AdvancePulse(p, dt, d) == Pulse(0.0, 0.5 + d.speed, 0.2 + d.range * 0.3)
    ensures p.factor + p.speed * dt <= TwoPi ==> AdvancePulse(p, dt, d) == p.(factor := p.factor + p.speed * dt)
  {
    MulBelow(0.0, dt, p.speed);
  }

  /** The radius the pulse gives: `baseRadius * (1 + sin(phase) * range)`. */
  function PulsedRadius(m: MathFns, p: Pulse): real {
    BaseRadius * (1.0 + m.sin(p.factor) * p.range)
  }

  /** With sine in `[-1, 1]`, the radius stays within `range` of the base radius, relatively. */
  lemma PulsedRadiusBounds(m: MathFns, p: Pulse)
    requires TrigBounded(m) && 0.0 <= p.range
    ensures BaseRadius * (1.0 - p.range) <= PulsedRadius(m, p) <= BaseRadius * (1.0 + p.range)
  {
    var s := m.sin(p.factor);
    assert -1.0 <= s <= 1.0;
    assert (1.0 - s) * p.range >= 0.0 && (1.0 + s) * p.range >= 0.0;
    assert -p.range <= s * p.range <= p.range;
  }

  /** One frame of the event horizon's own pulse: advances by `5 * dt`, restarting at 0 past 2π. */
  function AdvanceHorizonPulse(pulse: real, dt: real): real {
    if pulse + HorizonPulseSpeed * dt > TwoPi then 0.0 else pulse + HorizonPulseSpeed * dt
  }

  lemma HorizonPulseInRange(pulse: real, dt: real)
    requires 0.0 <= pulse <= TwoPi && 0.0 <= dt
    ensures 0.0 <= AdvanceHorizonPulse(pulse, dt) <= TwoPi
    ensures AdvanceHorizonPulse(pulse, dt) == 0.0 || AdvanceHorizonPulse(pulse, dt) == pulse + HorizonPulseSpeed * dt
  {
  }

  // ---------------------------------------------------------------- movement

  /** What `updateMovement` changes: the centre, the target, the timer, the interval and the speed. */
  /** The hole's fields that a reset leaves as they were. */
  datatype Kept = Kept(radius: real, eventHorizonRadius: real, glowRadius: real, plasma: seq<Plasma>, angle: real,
                       eventHorizonPulse: real, lastShredTime: real)

  datatype Wander = Wander(x: real, y: real, targetX: real, targetY: real, timer: real, interval: real, moveSpeed: real)

  /** The boost the move speed gains with game time: `min(3, gameTime / 60)`, or 0 while `gameTime` is 0 (falsy). */
  function TimeBoost(gameTime: real): real {
    if gameTime != 0.0 then Min(3.0, gameTime / 60.0) else 0.0
  }

  /** The timer part of `updateMovement`: once it reaches the interval, it restarts with a new interval and speed. */
  function Rewander(w: Wander, gameTime: real, dt: real, d: MoveDraws): Wander {
    if w.timer + dt >= w.interval then
      w.(timer := 0.0, interval := Max(1.0, 3.0 + d.interval * 2.0),
         moveSpeed := 20.0 + d.speed * 40.0 + TimeBoost(gameTime) * 20.0)
    else w.(timer := w.timer + dt)
  }

  /** A new wander's interval is in `[3, 5)` (the floor of 1 never binds) and, for non-negative game time, its speed in `[20, 120)`. */
  lemma RewanderBounds(w: Wander, gameTime: real, dt: real, d: MoveDraws)
    requires IsDraw(d.interval) && IsDraw(d.speed) && 0.0 <= gameTime
    ensures var r := Rewander(w, gameTime, dt, d);
            (w.timer + dt >= w.interval ==>
               r.timer == 0.0 && r.interval == 3.0 + d.interval * 2.0 && 3.0 <= r.interval < 5.0
               && 20.0 <= r.moveSpeed < 120.0)
            && (w.timer + dt < w.interval ==> r.timer == w.timer + dt && r.interval == w.interval && r.moveSpeed == w.moveSpeed)
            && r.x == w.x && r.y == w.y && r.targetX == w.targetX && r.targetY == w.targetY
  {
    assert 0.0 <= TimeBoost(gameTime) <= 3.0;
  }

  /** The point the hole chases: 70% of the player's position, 30% of the scene centre, and a jitter in `[-150, 150)` per axis. */
  function FollowTarget(player: Point, scene: Scene, d: MoveDraws): Point {
    Point(player.x * FollowFactor + scene.centerX * (1.0 - FollowFactor) + (d.jitterX * 2.0 - 1.0) * RandomOffset,
          player.y * FollowFactor + scene.centerY * (1.0 - FollowFactor) + (d.jitterY * 2.0 - 1.0) * RandomOffset)
  }

  lemma FollowTargetBounds(player: Point, scene: Scene, d: MoveDraws)
    requires IsDraw(d.jitterX) && IsDraw(d.jitterY)
    ensures var t := FollowTarget(player, scene, d);
            var ax := 0.7 * player.x + 0.3 * scene.centerX;
            var ay := 0.7 * player.y + 0.3 * scene.centerY;
            ax - 150.0 <= t.x < ax + 150.0 && ay - 150.0 <= t.y < ay + 150.0
  {
  }

  /** A step of `speed * dt` toward the target, taken only when the target is more than one unit away. */
  function StepToward(m: MathFns, x: real, y: real, tx: real, ty: real, speed: real, dt: real): Point {
    var dx, dy := tx - x, ty - y;
    var distance := Hypot(m, dx, dy);
    if distance > 1.0 then Point(x + dx / distance * speed * dt, y + dy / distance * speed * dt)
    else Point(x, y)
  }

  /** Within one unit of the target the hole stays put; otherwise it moves along the line to the target, toward it for `speed * dt >= 0`. */
  lemma StepTowardFacts(m: MathFns, x: real, y: real, tx: real, ty: real, speed: real, dt: real)
    ensures var p := StepToward(m, x, y, tx, ty, speed, dt);
            (Hypot(m, tx - x, ty - y) <= 1.0 ==> p == Point(x, y))
            && (p.x - x) * (ty - y) == (p.y - y) * (tx - x)
            && (0.0 <= speed * dt ==> 0.0 <= (p.x - x) * (tx - x) + (p.y - y) * (ty - y))
  {
    var dx, dy := tx - x, ty - y;
    var distance := Hypot(m, dx, dy);
    if distance > 1.0 {
      var k := speed * dt / distance;
      assert dx / distance * speed * dt == dx * k;
      assert dy / distance * speed * dt == dy * k;
      assert (dx * k) * dy == (dy * k) * dx;
      if 0.0 <= speed * dt {
        assert 0.0 <= k;
        assert (dx * k) * dx + (dy * k) * dy == k * (Sq(dx) + Sq(dy));
        SqNonNegative(dx);
        SqNonNegative(dy);
      }
    }
  }

  /**
   * With `Math.sqrt` exact, a step taken from more than one unit away has
   * length `|speed * dt|`: its squared length is `(speed * dt)²`.
   */
  lemma StepTowardLength(m: MathFns, x: real, y: real, tx: real, ty: real, speed: real, dt: real)
    requires SqrtExact(m)
    ensures var p := StepToward(m, x, y, tx, ty, speed, dt);
            Hypot(m, tx - x, ty - y) > 1.0 ==> Sq(p.x - x) + Sq(p.y - y) == Sq(speed * dt)
  {
    var dx, dy := tx - x, ty - y;
    var distance := Hypot(m, dx, dy);
    if distance > 1.0 {
      var k := speed * dt / distance;
      var p := StepToward(m, x, y, tx, ty, speed, dt);
      assert p.x - x == dx * k && p.y - y == dy * k;
      SqNonNegative(dx);
      SqNonNegative(dy);
      assert Sq(distance) == Sq(dx) + Sq(dy);
      SqMul(dx, k);
      SqMul(dy, k);
      assert Sq(dx * k) + Sq(dy * k) == Sq(k) * Sq(distance);
      SqMul(k, distance);
      assert k * distance == speed * dt;
    }
  }

  /** The target part of `updateMovement`: with a player, the follow target; without one, unchanged. */
  function Retarget(w: Wander, scene: Scene, player: Option<Point>, d: MoveDraws): Wander {
    if player.Some? then var t := FollowTarget(player.value, scene, d); w.(targetX := t.x, targetY := t.y) else w
  }

  /** The moving part of `updateMovement`: a step toward the target at the wander's speed. */
  function StepWander(m: MathFns, w: Wander, dt: real): Wander {
    var p := StepToward(m, w.x, w.y, w.targetX, w.targetY, w.moveSpeed, dt);
    w.(x := p.x, y := p.y)
  }

  /** One frame of `updateMovement`, with the player's position when there is a player. */
  function Move(m: MathFns, w: Wander, gameTime: real, scene: Scene, player: Option<Point>, dt: real, d: MoveDraws): Wander {
    StepWander(m, Retarget(Rewander(w, gameTime, dt, d), scene, player, d), dt)
  }

  /** Without a player the target stays where it was; with one it is the follow target. */
  lemma MoveTarget(m: MathFns, w: Wander, gameTime: real, scene: Scene, player: Option<Point>, dt: real, d: MoveDraws)
    ensures var r := Move(m, w, gameTime, scene, player, dt, d);
            (player.None? ==> r.targetX == w.targetX && r.targetY == w.targetY)
            && (player.Some? ==> Point(r.targetX, r.targetY) == FollowTarget(player.value, scene, d))
            && Point(r.x, r.y) == StepToward(m, w.x, w.y, r.targetX, r.targetY, r.moveSpeed, dt)
  {
  }

  // ---------------------------------------------------------------- plasma

  /** The `i`-th particle of a jet from `(x, y)` along `angle`. */
  function JetParticle(m: MathFns, x: real, y: real, angle: real, d: JetDraw): Plasma {
    var speed := 5.0 + d.speed * 3.0;
    var particleAngle := angle + (d.spread - 0.5) * 0.2;
    Plasma(x, y, m.cos(particleAngle) * speed, m.sin(particleAngle) * speed, 1.0, 2.0 + d.size * 2.0, 280.0 + d.hue * 60.0)
  }

  /** A jet: one particle per draw, in order. */
  function Jet(m: MathFns, x: real, y: real, angle: real, ds: seq<JetDraw>): (r: seq<Plasma>)
    ensures |r| == |ds|
    ensures forall k :: 0 <= k < |ds| ==> r[k] == JetParticle(m, x, y, angle, ds[k])
  {
    seq(|ds|, k requires 0 <= k < |ds| => JetParticle(m, x, y, angle, ds[k]))
  }

  /** Every jet particle starts at the jet's origin with full life, a size in `[2, 4)` and a hue in `[280, 340)`. */
  lemma JetFacts(m: MathFns, x: real, y: real, angle: real, ds: seq<JetDraw>)
    requires ValidJetDraws(ds)
    ensures forall p :: p in Jet(m, x, y, angle, ds) ==>
              p.x == x && p.y == y && p.life == 1.0 && 2.0 <= p.size < 4.0 && 280.0 <= p.hue < 340.0
  {
    var r := Jet(m, x, y, angle, ds);
    forall p | p in r
      ensures p.x == x && p.y == y && p.life == 1.0 && 2.0 <= p.size < 4.0 && 280.0 <= p.hue < 340.0
    {
      var k :| 0 <= k < |r| && r[k] == p;
      assert IsDraw(ds[k].size) && IsDraw(ds[k].hue);
    }
  }

  /** One frame of a plasma particle: its velocity, two units of life per second, then the universe's drift. */
  function EvolvePlasma(scene: Scene, dt: real, p: Plasma): Plasma {
    var q := Drift(scene, dt, p.x + p.vx, p.y + p.vy);
    p.(x := q.x, y := q.y, life := p.life - dt * 2.0)
  }

  /** The plasma particles from index `from` on after one frame: evolved, in order, those out of life removed. */
  function EvolvedPlasma(scene: Scene, dt: real, ps: seq<Plasma>, from: nat): seq<Plasma>
    requires from <= |ps|
    decreases |ps| - from
  {
    if from == |ps| then []
    else if EvolvePlasma(scene, dt, ps[from]).life <= 0.0 then EvolvedPlasma(scene, dt, ps, from + 1)
    else [EvolvePlasma(scene, dt, ps[from])] + EvolvedPlasma(scene, dt, ps, from + 1)
  }

  /**
   * After a frame every plasma particle has life left; each one whose life
   * stays above 0 is there, evolved; each one there is the evolved form of
   * an earlier one; there are no more than before.
   */
  lemma {:induction false} EvolvedPlasmaFacts(scene: Scene, dt: real, ps: seq<Plasma>, from: nat)
    requires from <= |ps|
    decreases |ps| - from
    ensures forall p :: p in EvolvedPlasma(scene, dt, ps, from) ==> p.life > 0.0
    ensures forall k :: from <= k < |ps| && ps[k].life - dt * 2.0 > 0.0 ==> EvolvePlasma(scene, dt, ps[k]) in EvolvedPlasma(scene, dt, ps, from)
    ensures forall p :: p in EvolvedPlasma(scene, dt, ps, from) ==>
              exists k :: from <= k < |ps| && ps[k].life - dt * 2.0 > 0.0 && p == EvolvePlasma(scene, dt, ps[k])
    ensures |EvolvedPlasma(scene, dt, ps, from)| <= |ps| - from
  {
    if from < |ps| {
      EvolvedPlasmaFacts(scene, dt, ps, from + 1);
    }
  }

  // ---------------------------------------------------------------- consumption rings

  /** The rings from index `from` on after `dt` seconds: each loses `dt` of life, those at 0 or below removed. */
  function Faded(dt: real, es: seq<Fade>, from: nat): seq<Fade>
    requires from <= |es|
    decreases |es| - from
  {
    if from == |es| then []
    else if es[from].life - dt <= 0.0 then Faded(dt, es, from + 1)
    else [es[from].(life := es[from].life - dt)] + Faded(dt, es, from + 1)
  }

  /** After fading, every ring has life left, kept its initial life, and there are no more rings than before. */
  lemma {:induction false} FadedFacts(dt: real, es: seq<Fade>, from: nat)
    requires from <= |es|
    decreases |es| - from
    ensures forall e :: e in Faded(dt, es, from) ==> e.life > 0.0
    ensures forall e :: e in Faded(dt, es, from) ==>
              exists k :: from <= k < |es| && e == Fade(es[k].life - dt, es[k].maxLife)
    ensures forall k :: from <= k < |es| && es[k].life - dt > 0.0 ==> Fade(es[k].life - dt, es[k].maxLife) in Faded(dt, es, from)
    ensures |Faded(dt, es, from)| <= |es| - from
  {
    if from < |es| {
      FadedFacts(dt, es, from + 1);
    }
  }

  /** The warning pulse's step while rings are showing: `(pulse + 10 * dt) % 2π`. */
  function WarningStep(pulse: real, dt: real): real {
    JsRem(pulse + dt * 10.0, TwoPi)
  }

  /** From a non-negative sum the warning pulse lands in `[0, 2π)`. */
  lemma WarningStepInRange(pulse: real, dt: real)
    requires 0.0 <= pulse + dt * 10.0
    ensures 0.0 <= WarningStep(pulse, dt) < TwoPi
  {
    var a := pulse + dt * 10.0;
    var q := Trunc(a / TwoPi);
    assert q as real <= a / TwoPi < q as real + 1.0;
    MulBelow(q as real, a / TwoPi, TwoPi);
    MulBelow(a / TwoPi, q as real + 1.0, TwoPi);
    assert a / TwoPi * TwoPi == a;
  }

  /** Multiplying by a positive number keeps an order. */
  lemma MulBelow(a: real, b: real, c: real)
    requires a <= b && 0.0 < c
    ensures a * c <= b * c
    ensures a < b ==> a * c < b * c
  {
  }

  // ---------------------------------------------------------------- gravity

  /** The regime `applyGravity` is in, with its force magnitude. */
  datatype Pull = NoPull | HorizonPull(force: real) | OuterPull(force: real)

  /**
   * The regime for an object at `(ox, oy)`: none at distance 0; the
   * exponential `pullStrength * 20 * exp((eventHorizon - distance) / 5)` within
   * 1.2 event horizons; beyond, `pullStrength * 3 * dt / (0.15 * max(distance, radius))^1.5`
   * capped at 400. A zero denominator (JavaScript's division to infinity) reaches the cap.
   */
  function GravityPull(m: MathFns, hx: real, hy: real, eventHorizonRadius: real, radius: real, ox: real, oy: real, dt: real): Pull {
    var distance := Hypot(m, hx - ox, hy - oy);
    if !(distance > 0.0) then NoPull
    else if distance < eventHorizonRadius * HorizonReach then
      HorizonPull(PullStrength * 20.0 * m.exp((eventHorizonRadius - distance) / 5.0))
    else
      var denominator := m.pow(Max(distance, radius) * 0.15, 1.5);
      OuterPull(if denominator == 0.0 then OuterCap else Min(PullStrength * 3.0 * dt / denominator, OuterCap))
  }

  /** The vector of a force of `magnitude` along `angle`. */
  function Polar(m: MathFns, angle: real, magnitude: real): Point {
    Point(m.cos(angle) * magnitude, m.sin(angle) * magnitude)
  }

  /** `applyGravity`'s return value: `(0, 0)`, or the regime's force directed along `atan2(dy, dx)` toward the hole. */
  function Gravity(m: MathFns, hx: real, hy: real, eventHorizonRadius: real, radius: real, ox: real, oy: real, dt: real): Point {
    match GravityPull(m, hx, hy, eventHorizonRadius, radius, ox, oy, dt)
    case NoPull => Point(0.0, 0.0)
    case HorizonPull(f) => Polar(m, m.atan2(hy - oy, hx - ox), f)
    case OuterPull(f) => Polar(m, m.atan2(hy - oy, hx - ox), f)
  }

  /**
   * No pull at distance 0; the exponential regime exactly within 1.2 event
   * horizons; the outer regime's force at most 400, positive for a positive
   * frame, and the vector's length equal to the regime's force.
   */
  lemma GravityRegimes(m: MathFns, hx: real, hy: real, eventHorizonRadius: real, radius: real, ox: real, oy: real, dt: real)
    ensures var distance := Hypot(m, hx - ox, hy - oy);
            var pull := GravityPull(m, hx, hy, eventHorizonRadius, radius, ox, oy, dt);
            (distance == 0.0 ==> Gravity(m, hx, hy, eventHorizonRadius, radius, ox, oy, dt) == Point(0.0, 0.0))
            && (pull.HorizonPull? <==> 0.0 < distance < eventHorizonRadius * HorizonReach)
            && (pull.OuterPull? <==> 0.0 < distance && eventHorizonRadius * HorizonReach <= distance)
            && (pull.OuterPull? ==> pull.force <= OuterCap)
            && (pull.OuterPull? && PositiveLaws(m) && 0.0 < dt ==> 0.0 < pull.force)
            && (pull.HorizonPull? && PositiveLaws(m) ==> 0.0 < pull.force)
  {
    var distance := Hypot(m, hx - ox, hy - oy);
    var pull := GravityPull(m, hx, hy, eventHorizonRadius, radius, ox, oy, dt);
    if pull.OuterPull? && PositiveLaws(m) && 0.0 < dt {
      var base := Max(distance, radius) * 0.15;
      assert 0.0 < base;
      assert m.pow(base, 1.5) > 0.0;
      assert 0.0 < PullStrength * 3.0 * dt;
    }
    if pull.HorizonPull? && PositiveLaws(m) {
      assert m.exp((eventHorizonRadius - distance) / 5.0) > 0.0;
    }
  }

  /** Given Pythagoras for sine and cosine, the gravity vector's squared length is the square of the regime's force. */
  lemma GravityLength(m: MathFns, hx: real, hy: real, eventHorizonRadius: real, radius: real, ox: real, oy: real, dt: real)
    requires RotationLaws(m)
    ensures var pull := GravityPull(m, hx, hy, eventHorizonRadius, radius, ox, oy, dt);
            var g := Gravity(m, hx, hy, eventHorizonRadius, radius, ox, oy, dt);
            !pull.NoPull? ==> Sq(g.x) + Sq(g.y) == Sq(pull.force)
  {
    var pull := GravityPull(m, hx, hy, eventHorizonRadius, radius, ox, oy, dt);
    if !pull.NoPull? {
      var a := m.atan2(hy - oy, hx - ox);
      PolarLength(m.cos(a), m.sin(a), pull.force);
    }
  }

  lemma PolarLength(c: real, s: real, f: real)
    requires Sq(c) + Sq(s) == 1.0
    ensures Sq(c * f) + Sq(s * f) == Sq(f)
  {
    calc {
      Sq(c * f) + Sq(s * f);
      (c * c + s * s) * (f * f);
      (Sq(c) + Sq(s)) * Sq(f);
    }
  }

  /**
   * While the event horizon is 3.5 radii, any object in the outer regime is
   * more than a radius away, so `max(distance, radius)` is just the distance.
   */
  lemma OuterFloorNeverBinds(m: MathFns, hx: real, hy: real, radius: real, ox: real, oy: real, dt: real)
    requires 0.0 <= radius
    ensures var distance := Hypot(m, hx - ox, hy - oy);
            GravityPull(m, hx, hy, HorizonScale * radius, radius, ox, oy, dt).OuterPull? ==> Max(distance, radius) == distance
  {
  }

  /** The centre of the hole as the player and the collision check see it. */
  datatype HoleView = HoleView(x: real, y: real, radius: real, eventHorizonRadius: real, glowRadius: real)

  class BlackHole {
    var x: real
    var y: real
    var radius: real
    var eventHorizonRadius: real
    var eventHorizonPulse: real
    var glowRadius: real
    var angle: real
    var plasmaParticles: seq<Plasma>
    var lastShredTime: real
    var gameTime: real
    var consumedShardEffects: seq<Fade>
    var warningPulse: real
    var pulseFactor: real
    var pulseSpeed: real
    var pulseRange: real
    var movementTimer: real
    var targetX: real
    var targetY: real
    var moveSpeed: real
    var movementUpdateInterval: real
    var rotationOffset: real

    function PulseOf(): Pulse
      reads this`pulseFactor, this`pulseSpeed, this`pulseRange
    {
      Pulse(pulseFactor, pulseSpeed, pulseRange)
    }

    function WanderOf(): Wander
      reads this`x, this`y, this`targetX, this`targetY, this`movementTimer, this`movementUpdateInterval, this`moveSpeed
    {
      Wander(x, y, targetX, targetY, movementTimer, movementUpdateInterval, moveSpeed)
    }

    /** What the player and the collision check read of the hole. */
    function View(): (v: HoleView)
      reads this`x, this`y, this`radius, this`eventHorizonRadius, this`glowRadius
      ensures v.x == x && v.y == y && v.radius == radius && v.eventHorizonRadius == eventHorizonRadius
    {
      HoleView(x, y, radius, eventHorizonRadius, glowRadius)
    }

    /** The fields `reset()` leaves alone: radius, event horizon, glow, plasma, angle, horizon pulse and last-jet time. */
    function KeptOf(): Kept
      reads this`radius, this`eventHorizonRadius, this`glowRadius, this`plasmaParticles, this`angle
      reads this`eventHorizonPulse, this`lastShredTime
    {
      Kept(radius, eventHorizonRadius, glowRadius, plasmaParticles, angle, eventHorizonPulse, lastShredTime)
    }

    /**
     * The radius, the event horizon (3.5 radii) and the glow radius as
     * `updatePulsation` derives them from the pulse.
     */
    ghost predicate FollowsPulse(m: MathFns)
      reads this`radius, this`eventHorizonRadius, this`glowRadius, this`pulseFactor, this`pulseSpeed, this`pulseRange
    {
      && radius == PulsedRadius(m, PulseOf()) && eventHorizonRadius == HorizonScale * radius
      && glowRadius == 100.0 * (1.0 + m.sin(pulseFactor) * pulseRange * 0.5)
    }

    /** The event horizon is 3.5 radii and the pulse is in range. */
    ghost predicate PulseValid()
      reads this`radius, this`eventHorizonRadius, this`pulseFactor, this`pulseSpeed, this`pulseRange
    {
      eventHorizonRadius == HorizonScale * radius && PulseInRange(PulseOf())
    }

    /** The event horizon's pulse is in `[0, 2π]` and game time is non-negative. */
    ghost predicate ClocksValid()
      reads this`eventHorizonPulse, this`gameTime
    {
      0.0 <= eventHorizonPulse <= TwoPi && 0.0 <= gameTime
    }

    /** The wander's interval is in `[3, 5]` and its speed in `[20, 120)`. */
    ghost predicate WanderValid()
      reads this`movementUpdateInterval, this`moveSpeed
    {
      3.0 <= movementUpdateInterval <= 5.0 && 20.0 <= moveSpeed < 120.0
    }

    /** Every plasma particle and every ring has life left. */
    ghost predicate AliveValid()
      reads this`plasmaParticles, this`consumedShardEffects
    {
      (forall p :: p in plasmaParticles ==> p.life > 0.0) && (forall e :: e in consumedShardEffects ==> e.life > 0.0)
    }

    /** The invariant every method keeps. */
    ghost predicate Valid()
      reads this
    {
      PulseValid() && ClocksValid() && WanderValid() && AliveValid()
    }

    /** The hole as constructed, with `pulseDraw` the draw of its initial pulse speed. */
    constructor (pulseDraw: real)
      requires IsDraw(pulseDraw)
      ensures Valid()
      ensures x == 0.0 && y == 0.0 && radius == BaseRadius && eventHorizonRadius == HorizonScale * BaseRadius
      ensures PulseOf() == Pulse(0.0, 0.5 + pulseDraw * 0.5, 0.3)
      ensures WanderOf() == Wander(0.0, 0.0, 0.0, 0.0, 0.0, 5.0, 30.0)
      ensures plasmaParticles == [] && consumedShardEffects == [Fade(2.0, 2.0)]
      ensures gameTime == 0.0 && rotationOffset == 0.0 && lastShredTime == 0.0
      ensures glowRadius == 100.0 && angle == 0.0 && eventHorizonPulse == 1.5 && warningPulse == 0.0
    {
      x, y := 0.0, 0.0;
      radius := BaseRadius;
      glowRadius := 100.0;
      angle := 0.0;
      eventHorizonRadius := BaseRadius * HorizonScale;
      eventHorizonPulse := 1.5;
      plasmaParticles := [];
      lastShredTime := 0.0;
      gameTime := 0.0;
      consumedShardEffects := [Fade(2.0, 2.0)];
      warningPulse := 0.0;
      pulseFactor := 0.0;
      pulseSpeed := 0.5 + pulseDraw * 0.5;
      pulseRange := 0.3;
      movementTimer := 0.0;
      targetX, targetY := 0.0, 0.0;
      moveSpeed := 30.0;
      movementUpdateInterval := 5.0;
      rotationOffset := 0.0;
    }

    /** `init(sceneManager)`: centre and target on the scene's centre. */
    method Init(scene: Scene)
      modifies this`x, this`y, this`targetX, this`targetY
      ensures x == scene.centerX && y == scene.centerY && targetX == x && targetY == y
    {
      x := scene.centerX;
      y := scene.centerY;
      targetX, targetY := x, y;
    }

    /** The three clocks `update` advances first: game time, angle and the event horizon's pulse. */
    method AdvanceClocks(dt: real)
      requires ClocksValid() && 0.0 <= dt
      modifies this`gameTime, this`angle, this`eventHorizonPulse
      ensures ClocksValid()
      ensures gameTime == old(gameTime) + dt && angle == old(angle) + AngularSpeed * dt
      ensures eventHorizonPulse == AdvanceHorizonPulse(old(eventHorizonPulse), dt)
    {
      HorizonPulseInRange(eventHorizonPulse, dt);
      gameTime := gameTime + dt;
      angle := angle + AngularSpeed * dt;
      eventHorizonPulse := eventHorizonPulse + HorizonPulseSpeed * dt;
      if eventHorizonPulse > TwoPi {
        eventHorizonPulse := 0.0;
      }
    }

    /** `updatePulsation`: the pulse advances, then the radius, event horizon and glow follow it. */
    method UpdatePulsation(m: MathFns, dt: real, d: PulseDraws)
      requires PulseValid() && 0.0 <= dt && IsDraw(d.speed) && IsDraw(d.range)
      modifies this`pulseFactor, this`pulseSpeed, this`pulseRange, this`radius, this`eventHorizonRadius, this`glowRadius
      ensures PulseValid()
      ensures PulseOf() == AdvancePulse(old(PulseOf()), dt, d)
      ensures FollowsPulse(m)
    {
      AdvancePulseInRange(PulseOf(), dt, d);
      StepPulse(dt, d);
      FollowPulse(m);
    }

    method StepPulse(dt: real, d: PulseDraws)
      modifies this`pulseFactor, this`pulseSpeed, this`pulseRange
      ensures PulseOf() == AdvancePulse(old(PulseOf()), dt, d)
    {
      pulseFactor := pulseFactor + pulseSpeed * dt;
      if pulseFactor > TwoPi {
        pulseFactor := 0.0;
        pulseSpeed := 0.5 + d.speed * 1.0;
        pulseRange := 0.2 + d.range * 0.3;
      }
    }

    method FollowPulse(m: MathFns)
      modifies this`radius, this`eventHorizonRadius, this`glowRadius
      ensures FollowsPulse(m)
    {
      var pulseAmount := m.sin(pulseFactor) * pulseRange;
      radius := BaseRadius * (1.0 + pulseAmount);
      eventHorizonRadius := radius * HorizonScale;
      glowRadius := 100.0 * (1.0 + pulseAmount * 0.5);
    }

    /** `updateMovement(deltaTime, player)`, with the player's position when there is one. */
    method UpdateMovement(m: MathFns, scene: Scene, dt: real, player: Option<Point>, d: MoveDraws)
      requires WanderValid() && 0.0 <= gameTime && IsDraw(d.interval) && IsDraw(d.speed)
      modifies this`x, this`y, this`targetX, this`targetY, this`movementTimer, this`movementUpdateInterval, this`moveSpeed
      ensures WanderValid()
      ensures WanderOf() == Move(m, old(WanderOf()), gameTime, scene, player, dt, d)
    {
      RewanderBounds(WanderOf(), gameTime, dt, d);
      Retime(dt, d);
      if player.Some? {
        RetargetTo(scene, player.value, d);
      }
      StepTowardTarget(m, dt);
    }

    method Retime(dt: real, d: MoveDraws)
      modifies this`movementTimer, this`movementUpdateInterval, this`moveSpeed
      ensures WanderOf() == Rewander(old(WanderOf()), gameTime, dt, d)
    {
      movementTimer := movementTimer + dt;
      if movementTimer >= movementUpdateInterval {
        movementTimer := 0.0;
        movementUpdateInterval := Max(1.0, 3.0 + d.interval * 2.0);
        moveSpeed := 20.0 + d.speed * 40.0 + TimeBoost(gameTime) * 20.0;
      }
    }

    method RetargetTo(scene: Scene, player: Point, d: MoveDraws)
      modifies this`targetX, this`targetY
      ensures WanderOf() == Retarget(old(WanderOf()), scene, Some(player), d)
    {
      targetX := player.x * FollowFactor + scene.centerX * (1.0 - FollowFactor) + (d.jitterX * 2.0 - 1.0) * RandomOffset;
      targetY := player.y * FollowFactor + scene.centerY * (1.0 - FollowFactor) + (d.jitterY * 2.0 - 1.0) * RandomOffset;
    }

    method StepTowardTarget(m: MathFns, dt: real)
      modifies this`x, this`y
      ensures WanderOf() == StepWander(m, old(WanderOf()), dt)
    {
      var dx := targetX - x;
      var dy := targetY - y;
      var distance := Hypot(m, dx, dy);
      if distance > 1.0 {
        x := x + dx / distance * moveSpeed * dt;
        y := y + dy / distance * moveSpeed * dt;
      }
    }

    /** `createPlasmaJet(x, y, angle)`: five particles appended, one per draw. */
    method CreatePlasmaJet(m: MathFns, jx: real, jy: real, jetAngle: real, ds: seq<JetDraw>)
      requires |ds| == JetSize
      modifies this`plasmaParticles
      ensures plasmaParticles == old(plasmaParticles) + Jet(m, jx, jy, jetAngle, ds)
    {
      for i := 0 to JetSize
        invariant plasmaParticles == old(plasmaParticles) + Jet(m, jx, jy, jetAngle, ds[..i])
      {
        plasmaParticles := plasmaParticles + [JetParticle(m, jx, jy, jetAngle, ds[i])];
        assert ds[..i + 1] == ds[..i] + [ds[i]];
      }
      assert ds[..JetSize] == ds;
    }

    /** The jets `update` emits when more than 50 ms have passed since the last pair: one up, one down, turned with the universe. */
    method EmitJets(m: MathFns, now: real, ds: seq<JetDraw>)
      requires |ds| == 2 * JetSize
      modifies this`plasmaParticles, this`lastShredTime
      ensures plasmaParticles == old(plasmaParticles) + JetPair(m, x, y, rotationOffset, now - old(lastShredTime), ds)
      ensures lastShredTime == if now - old(lastShredTime) > JetInterval then now else old(lastShredTime)
    {
      if now - lastShredTime > JetInterval {
        ghost var p0 := plasmaParticles;
        ghost var up := Jet(m, x, y, -Pi / 2.0 + rotationOffset, ds[..JetSize]);
        ghost var down := Jet(m, x, y, Pi / 2.0 + rotationOffset, ds[JetSize..]);
        CreatePlasmaJet(m, x, y, -Pi / 2.0 + rotationOffset, ds[..JetSize]);
        CreatePlasmaJet(m, x, y, Pi / 2.0 + rotationOffset, ds[JetSize..]);
        assert plasmaParticles == p0 + up + down == p0 + (up + down);
        lastShredTime := now;
      }
    }

    /** The backwards splice loop over the plasma particles. */
    method UpdatePlasma(scene: Scene, dt: real)
      modifies this`plasmaParticles
      ensures plasmaParticles == EvolvedPlasma(scene, dt, old(plasmaParticles), 0)
    {
      ghost var p0 := plasmaParticles;
      var i := |plasmaParticles| - 1;
      while i >= 0
        invariant -1 <= i < |p0|
        invariant plasmaParticles == p0[..i + 1] + EvolvedPlasma(scene, dt, p0, i + 1)
        decreases i
      {
        var particle := plasmaParticles[i];
        particle := particle.(x := particle.x + particle.vx, y := particle.y + particle.vy);
        particle := particle.(life := particle.life - dt * 2.0);
        var q := Drift(scene, dt, particle.x, particle.y);
        particle := particle.(x := q.x, y := q.y);
        if particle.life <= 0.0 {
          plasmaParticles := plasmaParticles[..i] + plasmaParticles[i + 1..];
          assert plasmaParticles == p0[..i] + EvolvedPlasma(scene, dt, p0, i);
        } else {
          plasmaParticles := plasmaParticles[i := particle];
          assert plasmaParticles == p0[..i] + ([particle] + EvolvedPlasma(scene, dt, p0, i + 1));
        }
        i := i - 1;
      }
    }

    /** The rings' part of `draw`: each loses `dt` of life, those at 0 or below spliced out. */
    method FadeRings(dt: real)
      modifies this`consumedShardEffects
      ensures consumedShardEffects == Faded(dt, old(consumedShardEffects), 0)
    {
      ghost var e0 := consumedShardEffects;
      var i := |consumedShardEffects| - 1;
      while i >= 0
        invariant -1 <= i < |e0|
        invariant consumedShardEffects == e0[..i + 1] + Faded(dt, e0, i + 1)
        decreases i
      {
        var effect := consumedShardEffects[i];
        effect := effect.(life := effect.life - dt);
        if effect.life <= 0.0 {
          consumedShardEffects := consumedShardEffects[..i] + consumedShardEffects[i + 1..];
          assert consumedShardEffects == e0[..i] + Faded(dt, e0, i);
        } else {
          consumedShardEffects := consumedShardEffects[i := effect];
          assert consumedShardEffects == e0[..i] + ([effect] + Faded(dt, e0, i + 1));
        }
        i := i - 1;
      }
    }

    /** The warning pulse's part of `draw`: it advances only while rings remain. */
    method AdvanceWarning(dt: real)
      modifies this`warningPulse
      ensures warningPulse == if consumedShardEffects != [] then WarningStep(old(warningPulse), dt) else old(warningPulse)
    {
      if |consumedShardEffects| > 0 {
        warningPulse := JsRem(warningPulse + dt * 10.0, TwoPi);
      }
    }

    /** Plasma evolution and the state part of `draw`, which keep every particle and ring alive. */
    method AgeParticles(scene: Scene, dt: real)
      modifies this`plasmaParticles, this`consumedShardEffects, this`warningPulse
      ensures AliveValid()
      ensures plasmaParticles == EvolvedPlasma(scene, dt, old(plasmaParticles), 0)
      ensures consumedShardEffects == Faded(dt, old(consumedShardEffects), 0)
      ensures warningPulse == if consumedShardEffects != [] then WarningStep(old(warningPulse), dt) else old(warningPulse)
    {
      EvolvedPlasmaFacts(scene, dt, plasmaParticles, 0);
      FadedFacts(dt, consumedShardEffects, 0);
      UpdatePlasma(scene, dt);
      FadeRings(dt);
      AdvanceWarning(dt);
    }

    /**
     * `update(deltaTime, player)` with `now` the clock reading in
     * milliseconds, followed by the state changes of its closing `draw`.
     */
    method Update(m: MathFns, scene: Scene, dt: real, player: Option<Point>, now: real, d: FrameDraws)
      requires Valid() && ValidFrameDraws(d) && 0.0 <= dt
      modifies this
      ensures Valid()
      ensures gameTime == old(gameTime) + dt
      ensures PulseOf() == AdvancePulse(old(PulseOf()), dt, d.pulse) && FollowsPulse(m)
      ensures WanderOf() == Move(m, old(WanderOf()), gameTime, scene, player, dt, d.move)
      ensures rotationOffset == old(rotationOffset) + scene.rotationSpeed * dt
      ensures plasmaParticles ==
                EvolvedPlasma(scene, dt, old(plasmaParticles) + JetPair(m, x, y, old(rotationOffset), now - old(lastShredTime), d.jets), 0)
      ensures consumedShardEffects == Faded(dt, old(consumedShardEffects), 0)
      ensures angle == old(angle) + AngularSpeed * dt && eventHorizonPulse == AdvanceHorizonPulse(old(eventHorizonPulse), dt)
      ensures lastShredTime == if now - old(lastShredTime) > JetInterval then now else old(lastShredTime)
      ensures warningPulse == if consumedShardEffects != [] then WarningStep(old(warningPulse), dt) else old(warningPulse)
    {
      AdvanceMotion(m, scene, dt, player, d);
      AdvanceParticles(m, scene, dt, now, d.jets);
    }

    /** The first half of `update`: the clocks, the pulsation and the movement. */
    method AdvanceMotion(m: MathFns, scene: Scene, dt: real, player: Option<Point>, d: FrameDraws)
      requires PulseValid() && ClocksValid() && WanderValid() && ValidFrameDraws(d) && 0.0 <= dt
      modifies this`gameTime, this`angle, this`eventHorizonPulse
      modifies this`pulseFactor, this`pulseSpeed, this`pulseRange, this`radius, this`eventHorizonRadius, this`glowRadius
      modifies this`x, this`y, this`targetX, this`targetY, this`movementTimer, this`movementUpdateInterval, this`moveSpeed
      ensures PulseValid() && ClocksValid() && WanderValid()
      ensures gameTime == old(gameTime) + dt
      ensures PulseOf() == AdvancePulse(old(PulseOf()), dt, d.pulse) && FollowsPulse(m)
      ensures WanderOf() == Move(m, old(WanderOf()), gameTime, scene, player, dt, d.move)
      ensures angle == old(angle) + AngularSpeed * dt && eventHorizonPulse == AdvanceHorizonPulse(old(eventHorizonPulse), dt)
    {
      AdvanceClocks(dt);
      UpdatePulsation(m, dt, d.pulse);
      UpdateMovement(m, scene, dt, player, d.move);
    }

    /** The second half of `update`: the jets, the rotation offset, the plasma loop and the rings of `draw`. */
    method AdvanceParticles(m: MathFns, scene: Scene, dt: real, now: real, ds: seq<JetDraw>)
      requires |ds| == 2 * JetSize
      modifies this`plasmaParticles, this`lastShredTime, this`rotationOffset, this`consumedShardEffects, this`warningPulse
      ensures AliveValid()
      ensures rotationOffset == old(rotationOffset) + scene.rotationSpeed * dt
      ensures plasmaParticles ==
                EvolvedPlasma(scene, dt, old(plasmaParticles) + JetPair(m, x, y, old(rotationOffset), now - old(lastShredTime), ds), 0)
      ensures consumedShardEffects == Faded(dt, old(consumedShardEffects), 0)
      ensures lastShredTime == if now - old(lastShredTime) > JetInterval then now else old(lastShredTime)
      ensures warningPulse == if consumedShardEffects != [] then WarningStep(old(warningPulse), dt) else old(warningPulse)
    {
      EmitJets(m, now, ds);
      rotationOffset := rotationOffset + scene.rotationSpeed * dt;
      AgeParticles(scene, dt);
    }

    /** `addShardConsumptionEffect()`: one ring with a second of life. */
    method AddShardConsumptionEffect()
      requires AliveValid()
      modifies this`consumedShardEffects
      ensures AliveValid()
      ensures consumedShardEffects == old(consumedShardEffects) + [Fade(1.0, 1.0)]
    {
      consumedShardEffects := consumedShardEffects + [Fade(1.0, 1.0)];
    }

    /**
     * `applyGravity(object, deltaTime)` for an object at `(ox, oy)` whose
     * `lastShardLossTime` is `lastLoss` (`None` when the object has no such
     * property): a ring is added when that time is set and less than 100 ms old.
     */
    method ApplyGravity(m: MathFns, ox: real, oy: real, lastLoss: Option<real>, now: real, dt: real) returns (g: Point)
      requires AliveValid()
      modifies this`consumedShardEffects
      ensures AliveValid()
      ensures g == Gravity(m, x, y, eventHorizonRadius, radius, ox, oy, dt)
      ensures consumedShardEffects ==
                old(consumedShardEffects) + (if RecentLoss(lastLoss, now) then [Fade(1.0, 1.0)] else [])
    {
      if RecentLoss(lastLoss, now) {
        AddShardConsumptionEffect();
      }
      var dx := x - ox;
      var dy := y - oy;
      var distance := Hypot(m, dx, dy);
      if distance > 0.0 {
        if distance < eventHorizonRadius * HorizonReach {
          var force := PullStrength * 20.0 * m.exp((eventHorizonRadius - distance) / 5.0);
          var a := m.atan2(dy, dx);
          return Point(m.cos(a) * force, m.sin(a) * force);
        }
        var scaledDistance := Max(distance, radius);
        var denominator := m.pow(scaledDistance * 0.15, 1.5);
        var cappedForce := if denominator == 0.0 then OuterCap else Min(PullStrength * 3.0 * dt / denominator, OuterCap);
        var a := m.atan2(dy, dx);
        return Point(m.cos(a) * cappedForce, m.sin(a) * cappedForce);
      }
      return Point(0.0, 0.0);
    }

    /** `reset()`: centre and target on the scene centre, timers and speeds to their start values, rings cleared. */
    method Reset(scene: Scene, pulseDraw: real)
      requires Valid() && IsDraw(pulseDraw)
      modifies this
      ensures Valid()
      ensures x == scene.centerX && y == scene.centerY && targetX == x && targetY == y
      ensures movementTimer == 0.0 && movementUpdateInterval == 5.0 && moveSpeed == 30.0 && gameTime == 0.0
      ensures consumedShardEffects == [] && warningPulse == 0.0
      ensures rotationOffset == 0.0 && pulseFactor == 0.0 && pulseSpeed == 0.5 + pulseDraw * 0.5
      ensures radius == old(radius) && pulseRange == old(pulseRange) && plasmaParticles == old(plasmaParticles)
      ensures eventHorizonRadius == old(eventHorizonRadius) && glowRadius == old(glowRadius)
      ensures angle == old(angle) && eventHorizonPulse == old(eventHorizonPulse) && lastShredTime == old(lastShredTime)
    {
      Init(scene);
      ResetWander();
      ResetEffects();
      ResetPulse(pulseDraw);
    }

    method ResetWander()
      modifies this`movementTimer, this`movementUpdateInterval, this`moveSpeed
      ensures movementTimer == 0.0 && movementUpdateInterval == 5.0 && moveSpeed == 30.0
    {
      movementTimer := 0.0;
      movementUpdateInterval := 5.0;
      moveSpeed := 30.0;
    }

    method ResetEffects()
      modifies this`gameTime, this`consumedShardEffects, this`warningPulse
      ensures gameTime == 0.0 && consumedShardEffects == [] && warningPulse == 0.0
    {
      gameTime := 0.0;
      consumedShardEffects := [];
      warningPulse := 0.0;
    }

    method ResetPulse(pulseDraw: real)
      requires PulseValid() && IsDraw(pulseDraw)
      modifies this`rotationOffset, this`pulseFactor, this`pulseSpeed
      ensures PulseValid()
      ensures rotationOffset == 0.0 && pulseFactor == 0.0 && pulseSpeed == 0.5 + pulseDraw * 0.5
    {
      rotationOffset := 0.0;
      pulseFactor := 0.0;
      pulseSpeed := 0.5 + pulseDraw * 0.5;
    }
  }

  /**
   * The particles one `update` adds when `elapsed` milliseconds have passed
   * since the last pair: nothing within 50 ms, otherwise an upward and a
   * downward jet from `(x, y)`, both turned by `rotationOffset`.
   */
  function JetPair(m: MathFns, x: real, y: real, rotationOffset: real, elapsed: real, ds: seq<JetDraw>): (r: seq<Plasma>)
    requires |ds| == 2 * JetSize
    ensures elapsed <= JetInterval <==> r == []
  {
    if elapsed > JetInterval then
      Jet(m, x, y, -Pi / 2.0 + rotationOffset, ds[..JetSize]) + Jet(m, x, y, Pi / 2.0 + rotationOffset, ds[JetSize..])
    else []
  }

  /** `object.lastShardLossTime && Date.now() - object.lastShardLossTime < 100`: set, non-zero and recent. */
  predicate RecentLoss(lastLoss: Option<real>, now: real) {
    lastLoss.Some? && lastLoss.value != 0.0 && now - lastLoss.value < LossWindow
  }
}

=== FILE: clock_format.dfy ===
/**
 * The "minutes:seconds" time display the game shows in three places (the
 * score panel, the game-over screen and the leaderboard): whole minutes, a
 * colon, and the whole seconds of the current minute padded to two digits.
 */
module ClockFormat {
  import opened JsMath

  /** The character of a decimal digit. */
  function DigitChar(d: nat): (c: char)
    requires d < 10
    ensures '0' <= c <= '9' && c as int - '0' as int == d
  {
    ('0' as int + d) as char
  }

  predicate IsDigits(s: string) {
    forall k :: 0 <= k < |s| ==> '0' <= s[k] <= '9'
  }

  /** `n.toString()` for a non-negative integer: its decimal digits, most significant first, no leading zero. */
  function NatDigits(n: nat): (s: string)
    ensures 1 <= |s| && IsDigits(s)
    ensures n < 10 <==> |s| == 1
    ensures 10 <= n < 100 ==> |s| == 2
  {
    if n < 10 then [DigitChar(n)] else NatDigits(n / 10) + [DigitChar(n % 10)]
  }

  /** The number a string of decimal digits denotes (what `Number(s)` reads back). */
  function DigitsValue(s: string): nat
    requires IsDigits(s)
  {
    if |s| == 0 then 0 else DigitsValue(s[..|s| - 1]) * 10 + (s[|s| - 1] as int - '0' as int)
  }

  /** Reading the digits back gives the number: the decimal rendering loses nothing. */
  lemma {:induction false} DigitsRoundTrip(n: nat)
    ensures DigitsValue(NatDigits(n)) == n
  {
    if n >= 10 {
      var s := NatDigits(n);
      assert s[..|s| - 1] == NatDigits(n / 10);
      DigitsRoundTrip(n / 10);
    }
  }

  /** `Number.prototype.toString` on an integer: a minus sign before the digits of a negative one. */
  function IntString(i: int): (s: string)
    ensures 0 <= i ==> s == NatDigits(i)
    ensures i < 0 ==> s == "-" + NatDigits(-i)
  {
    if i < 0 then "-" + NatDigits(-i) else NatDigits(i)
  }

  /** `s.padStart(2, '0')`: zeros in front of a string shorter than two characters, any other string unchanged. */
  function PadStart2(s: string): (r: string)
    ensures |s| < 2 ==> |r| == 2 && r[2 - |s|..] == s && forall k :: 0 <= k < 2 - |s| ==> r[k] == '0'
    ensures 2 <= |s| ==> r == s
  {
    if |s| < 2 then seq(2 - |s|, _ => '0') + s else s
  }

  /** The whole minutes of `t` seconds, `Math.floor(t / 60)`. */
  function Minutes(t: real): int {
    Floor(t / 60.0)
  }

  /** The whole seconds of the current minute, `Math.floor(t % 60)`. */
  function Seconds(t: real): int {
    Floor(JsRem(t, 60.0))
  }

  /** The text `${minutes}:${seconds.toString().padStart(2, '0')}`. */
  function Clock(minutes: int, seconds: int): string {
    IntString(minutes) + ":" + PadStart2(IntString(seconds))
  }

  /** `formatTime(seconds)`, and the identical time strings of the score panel and the feedback panel. */
  function FormatTime(t: real): (s: string)
    ensures 0.0 <= t ==>
              && |s| >= 4 && s[|s| - 3] == ':'
              && IsDigits(s[..|s| - 3]) && DigitsValue(s[..|s| - 3]) == Minutes(t)
              && IsDigits(s[|s| - 2..]) && DigitsValue(s[|s| - 2..]) == Seconds(t)
  {
    if 0.0 <= t then
      MinutesSeconds(t);
      ClockReadsBack(Minutes(t), Seconds(t));
      Clock(Minutes(t), Seconds(t))
    else
      Clock(Minutes(t), Seconds(t))
  }

  /** For a time that is not negative, the minutes and seconds split its whole seconds, with the seconds below 60. */
  lemma {:induction false} MinutesSeconds(t: real)
    requires 0.0 <= t
    ensures 0 <= Minutes(t) && 0 <= Seconds(t) < 60
    ensures 60 * Minutes(t) + Seconds(t) == Floor(t)
  {
    var q := Minutes(t);
    assert q as real <= t / 60.0 < q as real + 1.0;
    assert Trunc(t / 60.0) == q;
    var r := JsRem(t, 60.0);
    assert r == t - 60.0 * q as real;
    assert 0.0 <= r < 60.0;
    FloorShift(r, 60 * q);
  }

  /** Shifting by a whole number shifts the floor by it. */
  lemma FloorShift(x: real, n: int)
    ensures Floor(x + n as real) == Floor(x) + n
  {
    var f := Floor(x);
    assert f as real + n as real <= x + n as real < f as real + n as real + 1.0;
  }

  /** The seconds field: two digits that read back as the seconds, for seconds below 60. */
  lemma PaddedSeconds(sec: nat)
    requires sec < 60
    ensures var tail := PadStart2(NatDigits(sec));
            |tail| == 2 && IsDigits(tail) && DigitsValue(tail) == sec
  {
    var tail := PadStart2(NatDigits(sec));
    DigitsRoundTrip(sec);
    if sec < 10 {
      assert tail == ['0', DigitChar(sec)];
      assert tail[..1] == ['0'];
    }
  }

  /** A clock with minutes that are not negative and seconds below 60 reads back at its colon. */
  lemma ClockReadsBack(minutes: nat, seconds: nat)
    requires seconds < 60
    ensures var s := Clock(minutes, seconds);
            && |s| >= 4 && s[|s| - 3] == ':'
            && IsDigits(s[..|s| - 3]) && DigitsValue(s[..|s| - 3]) == minutes
            && IsDigits(s[|s| - 2..]) && DigitsValue(s[|s| - 2..]) == seconds
  {
    PaddedSeconds(seconds);
    DigitsRoundTrip(minutes);
    var head, tail := NatDigits(minutes), PadStart2(NatDigits(seconds));
    assert IntString(minutes) == head && IntString(seconds) == NatDigits(seconds);
    var s := head + ":" + tail;
    assert Clock(minutes, seconds) == s;
    assert |s| == |head| + 3 && s[|head|] == ':';
    assert s[..|s| - 3] == head;
    assert s[|s| - 2..] == tail;
  }

  /**
   * For a time that is not negative the two fields of the display, read
   * back, give the whole seconds elapsed: sixty per minute plus the seconds.
   */
  lemma FormatTimeReadsBack(t: real)
    requires 0.0 <= t
    ensures var s := FormatTime(t);
            && |s| >= 4 && s[|s| - 3] == ':'
            && 60 * DigitsValue(s[..|s| - 3]) + DigitsValue(s[|s| - 2..]) == Floor(t)
  {
    MinutesSeconds(t);
  }
}

=== FILE: console_reaction_messages.dfy ===
/**
 * The reaction messages: for each game event a list of lines, one of which
 * is shown when the event happens, with a default list for events without
 * their own. The object literal names `gameStart` twice; the second list is
 * the one the object keeps.
 */
module ConsoleReactionMessages {
  import opened JsMath
  import opened ObjectTable

  /**
   * The message table as the object literal builds it, each list given by
   * its length, the properties in the order written: `gameStart` (8 lines),
   * `shardCollected`, `playerTrapped`, `playerEscaped`, `playerDestroyed`,
   * `gameStart` again (10 lines) and `default`.
   */
  const Messages: map<string, nat> :=
    map["gameStart" := 8, "shardCollected" := 10, "playerTrapped" := 10, "playerEscaped" := 10,
        "playerDestroyed" := 10, "gameStart" := 10, "default" := 10]

  /** `getRandomMessage(eventType)` with `draw` the random draw. */
  function GetRandomMessage(eventType: string, draw: real): (line: Option<Line>)
    requires IsDraw(draw)
    ensures line.Some?
    ensures line.value.category == (if eventType in Messages then eventType else "default")
    ensures line.value.index < Messages[line.value.category]
  {
    MessageTable();
    PickLine(Messages, eventType, "default", draw)
  }

  /**
   * The table has six categories of ten lines each: `gameStart` holds the
   * second list written under that name, not the first of eight.
   */
  lemma MessageTable()
    ensures Messages.Keys == {"gameStart", "shardCollected", "playerTrapped", "playerEscaped", "playerDestroyed", "default"}
    ensures forall name :: name in Messages ==> Messages[name] == 10
  {
  }

  /**
   * Every event gets a line: one of its own list when the table has one,
   * one of the default list otherwise.
   */
  lemma MessageAlwaysChosen(eventType: string, draw: real)
    requires IsDraw(draw)
    ensures var line := GetRandomMessage(eventType, draw);
            && line.Some? && line.value.index < 10
            && line.value.category == (if eventType in Messages then eventType else "default")
  {
    MessageTable();
  }
}

=== FILE: console_reaction_styles.dfy ===
/**
 * The console styles of the reactions: for each game event a list of CSS
 * styles, one of which colours the logged line, with a default list for
 * events without their own.
 */
module ConsoleReactionStyles {
  import opened JsMath
  import opened ObjectTable

  /** The style table, each list given by its length, in the order written. */
  const Styles: map<string, nat> :=
    map["shardCollected" := 4, "playerTrapped" := 4, "playerEscaped" := 4, "playerDestroyed" := 4, "default" := 4,
        "powerUpCollected" := 2, "nearBlackHole" := 2, "speedBoost" := 2, "shieldActivated" := 2, "timeWarp" := 2]

  /** The five categories with four styles each. */
  const FourStyled: set<string> := {"shardCollected", "playerTrapped", "playerEscaped", "playerDestroyed", "default"}
  /** The five categories with two styles each. */
  const TwoStyled: set<string> := {"powerUpCollected", "nearBlackHole", "speedBoost", "shieldActivated", "timeWarp"}

  /** `getRandomStyle(eventType)` with `draw` the random draw. */
  function GetRandomStyle(eventType: string, draw: real): (line: Option<Line>)
    requires IsDraw(draw)
    ensures line.Some?
    ensures line.value.category == (if eventType in Styles then eventType else "default")
    ensures line.value.index < Styles[line.value.category]
  {
    StyleTable();
    PickLine(Styles, eventType, "default", draw)
  }

  /** Ten categories: four styles for the five core events and the default, two for the other five. */
  lemma StyleTable()
    ensures Styles.Keys == FourStyled + TwoStyled && FourStyled !! TwoStyled
    ensures forall name :: name in Styles ==> Styles[name] == (if name in FourStyled then 4 else 2)
  {
  }

  /** Every event gets a style: one of its own list when the table has one, one of the default list otherwise. */
  lemma StyleAlwaysChosen(eventType: string, draw: real)
    requires IsDraw(draw)
    ensures var line := GetRandomStyle(eventType, draw);
            && line.Some? && line.value.index < Styles[line.value.category]
            && line.value.category == (if eventType in Styles then eventType else "default")
  {
    StyleTable();
  }
}

=== FILE: debug.dfy ===
/**
 * The game's log-level gate: a single current level, NONE (0) by default,
 * that `setLevel` changes only to a value from 0 to 4, and four logging
 * calls that reach the console only when the level is at least their own
 * severity number. The console is modelled as the list of lines written to
 * it; the logged arguments are kept as they are.
 */
module Debug {
  const None: int := 0
  const Error: int := 1
  const Warn: int := 2
  const Log: int := 3
  const Info: int := 4

  /** The console's channels. */
  datatype Channel = ErrorChannel | WarnChannel | LogChannel | InfoChannel

  /** A line on the console: the level confirmation, the invalid-level complaint, or logged arguments. */
  datatype Line = LevelSet(level: int) | InvalidLevel(level: int) | Logged(channel: Channel, args: seq<string>)

  /** The level a `setLevel(level)` call leaves: the new one when it is from NONE to INFO, the current one otherwise. */
  function LevelAfter(current: int, level: int): (next: int)
    ensures None <= level <= Info ==> next == level
    ensures !(None <= level <= Info) ==> next == current
  {
    if level >= None && level <= Info then level else current
  }

  /** What `setLevel(level)` writes: a confirmation on the log channel, or a complaint on the error channel. */
  function SetLevelLine(level: int): Line {
    if level >= None && level <= Info then LevelSet(level) else InvalidLevel(level)
  }

  /** A call of severity number `severity` reaches the console at level `current`. */
  predicate Emits(current: int, severity: int) {
    current >= severity
  }

  /** The lines one gated call adds. */
  function Gated(current: int, severity: int, channel: Channel, args: seq<string>): seq<Line> {
    if Emits(current, severity) then [Logged(channel, args)] else []
  }

  /**
   * A level stays from NONE to INFO whatever `setLevel` is given, and an
   * out-of-range request leaves it where it was.
   */
  lemma LevelStaysInRange(current: int, level: int)
    requires None <= current <= Info
    ensures None <= LevelAfter(current, level) <= Info
    ensures LevelAfter(current, level) != current ==> LevelAfter(current, level) == level
  {
  }

  /**
   * At the default level NONE nothing is logged; at level `l` from 0 to 4
   * `error` logs iff `l >= 1`, `warn` iff `l >= 2`, `log` iff `l >= 3`,
   * `info` iff `l == 4`; and a call that logs means every call of a lower
   * severity number logs too.
   */
  lemma GateFacts(current: int, severity: int, lower: int)
    requires None <= current <= Info && Error <= lower <= severity <= Info
    ensures current == None ==> !Emits(current, severity)
    ensures Emits(current, Error) <==> current >= 1
    ensures Emits(current, Warn) <==> current >= 2
    ensures Emits(current, Log) <==> current >= 3
    ensures Emits(current, Info) <==> current == 4
    ensures Emits(current, severity) ==> Emits(current, lower)
  {
  }

  /** What `initialize()` logs. */
  const InitializedNotice: string := "Debug module initialized. Use DebugUtils.setLevel(level) to change log level."

  /** The static state of the `Debug` class: its current level, and the console it writes to. */
  class Debug {
    var currentLevel: int
    var console: seq<Line>

    /** The class as loaded: level NONE, nothing written yet. */
    constructor ()
      ensures currentLevel == None && console == []
    {
      currentLevel := None;
      console := [];
    }

    /** `setLevel(level)`. */
    method SetLevel(level: int)
      modifies this
      ensures currentLevel == LevelAfter(old(currentLevel), level)
      ensures console == old(console) + [SetLevelLine(level)]
    {
      if level >= None && level <= Info {
        currentLevel := level;
        console := console + [LevelSet(level)];
      } else {
        console := console + [InvalidLevel(level)];
      }
    }

    /** `error(...args)`. */
    method LogError(args: seq<string>)
      modifies this`console
      ensures console == old(console) + Gated(currentLevel, Error, ErrorChannel, args)
    {
      if currentLevel >= Error {
        console := console + [Logged(ErrorChannel, args)];
      }
    }

    /** `warn(...args)`. */
    method LogWarn(args: seq<string>)
      modifies this`console
      ensures console == old(console) + Gated(currentLevel, Warn, WarnChannel, args)
    {
      if currentLevel >= Warn {
        console := console + [Logged(WarnChannel, args)];
      }
    }

    /** `log(...args)`. */
    method LogMessage(args: seq<string>)
      modifies this`console
      ensures console == old(console) + Gated(currentLevel, Log, LogChannel, args)
    {
      if currentLevel >= Log {
        console := console + [Logged(LogChannel, args)];
      }
    }

    /** `initialize()`: the notice on the log channel, if the level lets it through; the console handle is left out. */
    method Initialize()
      modifies this`console
      ensures console == old(console) + Gated(currentLevel, Log, LogChannel, [InitializedNotice])
    {
      LogMessage([InitializedNotice]);
    }

    /** `info(...args)`. */
    method LogInfo(args: seq<string>)
      modifies this`console
      ensures console == old(console) + Gated(currentLevel, Info, InfoChannel, args)
    {
      if currentLevel >= Info {
        console := console + [Logged(InfoChannel, args)];
      }
    }
  }
}

=== FILE: end_game_feedback.dfy ===
/**
 * The end-of-game feedback's verdict: a rank, a message and a badge chosen
 * by three tiers of thresholds on the score, the time survived (seconds)
 * and the particles collected. The panel it fills in is outside the model.
 */
module EndGameFeedback {
  /** What `determineRankAndMessage` returns. */
  datatype Feedback = Feedback(rank: string, message: string, badge: string)

  const Rookie: Feedback := Feedback("Rookie", "A valiant effort, but the void calls.", "\U{1F949}")
  const Explorer: Feedback := Feedback("Explorer", "You navigated the dangers well!", "\U{1F948}")
  const Veteran: Feedback := Feedback("Veteran", "A true cosmic survivor!", "\U{1F947}")
  const AcePilot: Feedback := Feedback("Ace Pilot", "Master of the void! Legendary run!", "\U{1F3C6}")

  /** The verdicts, lowest tier first. */
  const Tiers: seq<Feedback> := [Rookie, Explorer, Veteran, AcePilot]

  /** Tier `k` (1 to 3) is reached when all three of its thresholds are strictly exceeded. */
  predicate Reaches(k: nat, score: int, time: real, particles: int)
    requires 1 <= k <= 3
  {
    match k
    case 1 => score > 50 && time > 60.0 && particles > 10
    case 2 => score > 150 && time > 120.0 && particles > 25
    case _ => score > 300 && time > 180.0 && particles > 50
  }

  /** `determineRankAndMessage(score, time, particles)`: the default, overwritten by each tier that holds, in order. */
  function DetermineRankAndMessage(score: int, time: real, particles: int): (verdict: Feedback)
    ensures verdict == Tiers[TierOf(score, time, particles)]
    ensures verdict == Rookie <==> !Reaches(1, score, time, particles)
  {
    var f0 := Rookie;
    var f1 := if score > 50 && time > 60.0 && particles > 10 then Explorer else f0;
    var f2 := if score > 150 && time > 120.0 && particles > 25 then Veteran else f1;
    if score > 300 && time > 180.0 && particles > 50 then AcePilot else f2
  }

  /** The highest tier reached, 0 when none is. */
  function TierOf(score: int, time: real, particles: int): (t: nat)
    ensures t <= 3
  {
    if Reaches(3, score, time, particles) then 3
    else if Reaches(2, score, time, particles) then 2
    else if Reaches(1, score, time, particles) then 1
    else 0
  }

  /**
   * Each tier's thresholds imply the ones below, so the tiers reached are
   * exactly those up to the highest, and the verdict is that tier's: the
   * later overwrites never leave a lower verdict over a higher one. With no
   * tier reached the verdict is Rookie with the bronze badge.
   */
  lemma VerdictIsHighestTier(score: int, time: real, particles: int)
    ensures var t := TierOf(score, time, particles);
            && DetermineRankAndMessage(score, time, particles) == Tiers[t]
            && (forall k :: 1 <= k <= 3 ==> (Reaches(k, score, time, particles) <==> k <= t))
            && (t == 0 ==> DetermineRankAndMessage(score, time, particles) == Feedback("Rookie", "A valiant effort, but the void calls.", "\U{1F949}"))
  {
  }

  /** Raising the score, the time or the particles never lowers the rank. */
  lemma RankMonotone(score: int, time: real, particles: int, score': int, time': real, particles': int)
    requires score <= score' && time <= time' && particles <= particles'
    ensures TierOf(score, time, particles) <= TierOf(score', time', particles')
  {
  }

  /** The thresholds are strict: exactly 50 points, 60 seconds and 10 particles is still Rookie, one more of each is Explorer. */
  lemma ThresholdsAreStrict()
    ensures DetermineRankAndMessage(50, 60.0, 10) == Rookie
    ensures DetermineRankAndMessage(51, 60.5, 11) == Explorer
    ensures DetermineRankAndMessage(301, 60.0, 51) == Rookie
  {
  }
}

=== FILE: exotic_particle.dfy ===
/**
 * The collectible shards ("exotic particles"). The source has a base class
 * and four subclasses (normal, unstable, rare, quantum); here they are one
 * class whose `kind` says which subclass an object was built as, with the
 * fields of every subclass present and the ones a kind does not use left at
 * zero. The field values of a particle are also read as a `ParticleState`
 * value, and every operation is specified by a function on that value.
 */
module ExoticParticle {
  import opened JsMath

  /** Which subclass a particle was constructed as. */
  datatype Kind = Normal | Unstable | Rare | Quantum

  /** One of the small specks a quantum particle keeps in orbit. */
  datatype Orbit = Orbit(angle: real, speed: real, size: real)

  /**
   * Construction options. The source reads each with `||`, so a missing
   * option and an option equal to 0 are the same thing; 0 stands for both.
   */
  datatype Options = Options(x: real, y: real, radius: real, rotation: real)

  /** The `Math.random()` draws of `initialize`. */
  datatype BaseDraws = BaseDraws(rotation: real, rotationSpeed: real, pulsePhase: real)

  /** The two draws for one orbiting speck. */
  datatype OrbitDraw = OrbitDraw(speed: real, size: real)

  /** Every draw a constructor may make: the base draws, the value draw and one pair per orbit. */
  datatype SpawnDraws = SpawnDraws(base: BaseDraws, value: real, orbits: seq<OrbitDraw>)

  /** Number of orbiting specks of a quantum particle. */
  const OrbitCount: nat := 3

  /** Colour `initialize` gives every particle, and the normal particle's own colour. */
  const BaseColor: string := "#00ffff"

  /** Draws as `Math.random()` makes them. */
  ghost predicate ValidSpawnDraws(d: SpawnDraws) {
    IsDraw(d.base.rotation) && IsDraw(d.base.rotationSpeed) && IsDraw(d.base.pulsePhase) && IsDraw(d.value)
    && |d.orbits| == OrbitCount
    && forall k :: 0 <= k < |d.orbits| ==> IsDraw(d.orbits[k].speed) && IsDraw(d.orbits[k].size)
  }

  /** All fields of a particle, whatever its kind. */
  datatype ParticleState = ParticleState(
    kind: Kind,
    x: real, y: real, radius: real, rotation: real, rotationSpeed: real,
    value: int, color: string, active: bool, pulsePhase: real, maxValue: int,
    // unstable particles
    flickerTimer: real, flickerInterval: real, flickerState: real, jitterRadius: real,
    originalX: real, originalY: real,
    // rare particles
    pulseSpeed: real, pulseFactor: real,
    // quantum particles
    phaseTime: real, phaseSpeed: real, orbitRadius: real, orbits: seq<Orbit>)

  /** A particle of kind `kind` before any constructor code has run. */
  function Blank(kind: Kind): ParticleState {
    ParticleState(kind, 0.0, 0.0, 0.0, 0.0, 0.0, 0, "", false, 0.0, 0,
                  0.0, 0.0, 0.0, 0.0, 0.0, 0.0, 0.0, 0.0, 0.0, 0.0, 0.0, [])
  }

  /** JavaScript's `v || fallback` on a number, with 0 standing for a missing value. */
  function Or(v: real, fallback: real): real {
    if v != 0.0 then v else fallback
  }

  /** A draw in `[0, 1)` scaled to an angle, `r * Math.PI * 2`. */
  function Turns(r: real): real {
    r * Pi * 2.0
  }

  /** A scaled draw is an angle in `[0, 2π)`. */
  lemma TurnsOfDraw(r: real)
    requires IsDraw(r)
    ensures 0.0 <= Turns(r) < TwoPi
  {
    assert r * Pi <= 1.0 * Pi;
  }

  /** The particle after `initialize(options)`; the fields of the subclasses are left as they were. */
  function Initialized(s: ParticleState, o: Options, d: BaseDraws): ParticleState {
    s.(x := Or(o.x, 0.0), y := Or(o.y, 0.0), radius := Or(o.radius, 8.0),
       rotation := Or(o.rotation, Turns(d.rotation)),
       rotationSpeed := d.rotationSpeed * 0.5 + 0.2,
       value := 1, color := BaseColor, active := true,
       pulsePhase := Turns(d.pulsePhase))
  }

  /**
   * What `initialize` promises: the particle is active with value 1 and the
   * base colour; x and y default to 0 and the radius to 8 when the option is
   * missing or 0; the rotation is the option or a random angle; the rotation
   * speed is in `[0.2, 0.7)` and the pulse phase in `[0, 2π)`; the
   * subclass fields are untouched.
   */
  lemma InitializedFacts(s: ParticleState, o: Options, d: BaseDraws)
    requires IsDraw(d.rotation) && IsDraw(d.rotationSpeed) && IsDraw(d.pulsePhase)
    ensures var r := Initialized(s, o, d);
      && r.active && r.value == 1 && r.color == BaseColor
      && (o.x != 0.0 ==> r.x == o.x) && (o.x == 0.0 ==> r.x == 0.0)
      && (o.y != 0.0 ==> r.y == o.y) && (o.y == 0.0 ==> r.y == 0.0)
      && (o.radius != 0.0 ==> r.radius == o.radius) && (o.radius == 0.0 ==> r.radius == 8.0)
      && (o.rotation != 0.0 ==> r.rotation == o.rotation)
      && (o.rotation == 0.0 ==> 0.0 <= r.rotation < TwoPi)
      && 0.2 <= r.rotationSpeed < 0.7
      && 0.0 <= r.pulsePhase < TwoPi
      && r.kind == s.kind && r.maxValue == s.maxValue && r.orbits == s.orbits
      && r.flickerTimer == s.flickerTimer && r.flickerState == s.flickerState && r.pulseFactor == s.pulseFactor
  {
    TurnsOfDraw(d.rotation);
    TurnsOfDraw(d.pulsePhase);
  }

  /** The least value a particle of kind `k` can be constructed with. */
  function ValueLow(k: Kind): int {
    match k
    case Normal => 1
    case Unstable => 3
    case Rare => 5
    case Quantum => 8
  }

  /** The greatest value a particle of kind `k` can be constructed with. */
  function ValueHigh(k: Kind): int {
    match k
    case Normal => 3
    case Unstable => 5
    case Rare => 7
    case Quantum => 14
  }

  /** The `maxValue` field each subclass sets. */
  function MaxValue(k: Kind): int {
    match k
    case Normal => 3
    case Unstable => 6
    case Rare => 8
    case Quantum => 15
  }

  /** How many distinct values the value draw spreads over. */
  function ValueSpread(k: Kind): int {
    if k == Quantum then MaxValue(Quantum) - 8 else 3
  }

  /** The value a subclass constructor draws from `r`: `Math.floor(r * spread) + low`. */
  function InitialValue(k: Kind, r: real): (v: int)
    ensures IsDraw(r) ==> ValueLow(k) <= v <= ValueHigh(k)
    ensures IsDraw(r) ==> v <= MaxValue(k)
    ensures IsDraw(r) && k == Quantum ==> v < MaxValue(k)
  {
    Floor(r * ValueSpread(k) as real) + ValueLow(k)
  }

  /** Every value in a kind's range is drawn by some `r`, and no other value is. */
  lemma InitialValueExact(k: Kind, v: int)
    ensures (ValueLow(k) <= v <= ValueHigh(k)) <==> exists r :: IsDraw(r) && InitialValue(k, r) == v
  {
    if ValueLow(k) <= v <= ValueHigh(k) {
      var n := ValueSpread(k) as real;
      var r := (v - ValueLow(k)) as real / n;
      assert r * n == (v - ValueLow(k)) as real;
      assert InitialValue(k, r) == v;
      assert IsDraw(r);
    }
  }

  /** Angle of the `i`-th of the `OrbitCount` specks: `(i / 3) * 2π`. */
  function OrbitAngle(i: nat): real {
    (i as real / OrbitCount as real) * Pi * 2.0
  }

  /** The `i`-th speck as the quantum constructor's loop creates it. */
  function NewOrbit(i: nat, d: OrbitDraw): (o: Orbit)
    ensures o.angle == OrbitAngle(i)
    ensures IsDraw(d.speed) ==> 1.0 <= o.speed < 1.5
    ensures IsDraw(d.size) ==> 2.0 <= o.size < 4.0
  {
    Orbit(OrbitAngle(i), 1.0 + d.speed * 0.5, 2.0 + d.size * 2.0)
  }

  /** The specks of a new quantum particle, one per orbit draw. */
  function StartOrbits(draws: seq<OrbitDraw>): seq<Orbit> {
    seq(|draws|, i requires 0 <= i < |draws| => NewOrbit(i, draws[i]))
  }

  /** A new quantum particle has three specks at 0, 2π/3 and 4π/3. */
  lemma StartOrbitAngles(draws: seq<OrbitDraw>)
    requires |draws| == OrbitCount
    ensures |StartOrbits(draws)| == 3
    ensures StartOrbits(draws)[0].angle == 0.0
    ensures StartOrbits(draws)[1].angle == TwoPi / 3.0
    ensures StartOrbits(draws)[2].angle == 2.0 * TwoPi / 3.0
  {
  }

  /** The fields a subclass constructor sets after `super(options)`. */
  function Specialized(s: ParticleState, d: SpawnDraws): ParticleState {
    match s.kind
    case Normal => SpecializedNormal(s, d)
    case Unstable => SpecializedUnstable(s, d)
    case Rare => SpecializedRare(s, d)
    case Quantum => SpecializedQuantum(s, d)
  }

  function SpecializedNormal(s: ParticleState, d: SpawnDraws): ParticleState {
    s.(maxValue := MaxValue(Normal), value := InitialValue(s.kind, d.value), color := BaseColor)
  }

  function SpecializedUnstable(s: ParticleState, d: SpawnDraws): ParticleState {
    s.(maxValue := MaxValue(Unstable), value := InitialValue(s.kind, d.value), color := "#ff7700",
       flickerTimer := 0.0, flickerInterval := 0.1, flickerState := 1.0, jitterRadius := 2.0,
       originalX := s.x, originalY := s.y)
  }

  function SpecializedRare(s: ParticleState, d: SpawnDraws): ParticleState {
    s.(maxValue := MaxValue(Rare), value := InitialValue(s.kind, d.value), color := "#ff00ff",
       pulseSpeed := 1.5, pulseFactor := 0.0)
  }

  function SpecializedQuantum(s: ParticleState, d: SpawnDraws): ParticleState {
    s.(maxValue := MaxValue(Quantum), value := InitialValue(s.kind, d.value), color := "#00ddff",
       phaseTime := 0.0, phaseSpeed := 1.0, orbitRadius := 15.0, orbits := StartOrbits(d.orbits))
  }

  /** A particle as `new <Kind>ExoticParticle(options)` leaves it. */
  function NewState(k: Kind, o: Options, d: SpawnDraws): ParticleState {
    Specialized(Initialized(Blank(k), o, d.base), d)
  }

  /** The base class's `update(dt)`: turn by `dt * rotationSpeed`, advance the pulse by `2 dt` with one wrap. */
  function BaseStep(s: ParticleState, dt: real): ParticleState {
    s.(rotation := s.rotation + dt * s.rotationSpeed, pulsePhase := AdvanceAngle(s.pulsePhase, dt * 2.0))
  }

  /** The time scale each subclass hands to the base update. */
  function BaseScale(k: Kind): real {
    match k
    case Normal => 1.0
    case Unstable => 2.0
    case Rare => 1.2
    case Quantum => 0.8
  }

  /** One speck after `dt`: its angle grows by `2 dt speed`. */
  function Spin(o: Orbit, dt: real): Orbit {
    o.(angle := o.angle + dt * o.speed * 2.0)
  }

  /** Every speck after `dt`. */
  function SpinOrbits(orbits: seq<Orbit>, dt: real): seq<Orbit> {
    seq(|orbits|, k requires 0 <= k < |orbits| => Spin(orbits[k], dt))
  }

  /** The unstable flicker: the timer grows by `dt` and, on reaching the interval, restarts and redraws the state. */
  function Flicker(s: ParticleState, dt: real, flickerDraw: real): ParticleState {
    if s.flickerTimer + dt >= s.flickerInterval then s.(flickerTimer := 0.0, flickerState := 0.6 + flickerDraw * 0.4)
    else s.(flickerTimer := s.flickerTimer + dt)
  }

  /** A particle after its own `update(dt)`; `flickerDraw` is the draw an unstable particle may make. */
  function Tick(s: ParticleState, dt: real, flickerDraw: real): ParticleState {
    match s.kind
    case Normal => BaseStep(s, dt)
    case Unstable =>
      var f := Flicker(BaseStep(s, dt * BaseScale(Unstable)), dt, flickerDraw);
      f.(x := f.originalX, y := f.originalY)
    case Rare =>
      var b := BaseStep(s, dt * BaseScale(Rare));
      b.(pulseFactor := b.pulseFactor + dt * b.pulseSpeed * Pi)
    case Quantum =>
      var b := BaseStep(s.(phaseTime := s.phaseTime + dt * s.phaseSpeed), dt * BaseScale(Quantum));
      b.(orbits := SpinOrbits(b.orbits, dt))
  }

  /** What holds of every particle the constructors build and `update` keeps. */
  ghost predicate WellFormed(s: ParticleState) {
    BaseWellFormed(s) && KindWellFormed(s)
  }

  /**
   * The base class's part: active, rotation speed in range, pulse phase not
   * negative, value in the kind's range. The phase stays within one turn only
   * on frames short enough (`PulseStaysInTurn`); a longer frame leaves it
   * above 2π after the single subtraction, which only the drawing reads.
   */
  ghost predicate BaseWellFormed(s: ParticleState) {
    && s.active
    && 0.2 <= s.rotationSpeed < 0.7
    && 0.0 <= s.pulsePhase
    && ValueLow(s.kind) <= s.value <= ValueHigh(s.kind) && s.maxValue == MaxValue(s.kind)
  }

  /** The subclass's part: the flicker timer and state, the rare pulse speed, the quantum specks. */
  ghost predicate KindWellFormed(s: ParticleState) {
    && (s.kind == Unstable ==>
          s.flickerInterval == 0.1 && 0.0 <= s.flickerTimer < s.flickerInterval && 0.6 <= s.flickerState <= 1.0)
    && (s.kind == Rare ==> s.pulseSpeed == 1.5)
    && (s.kind == Quantum ==> |s.orbits| == OrbitCount && forall k :: 0 <= k < |s.orbits| ==> SpeckInRange(s.orbits[k]))
  }

  /** A speck's speed and size as the quantum constructor draws them. */
  ghost predicate SpeckInRange(o: Orbit) {
    1.0 <= o.speed < 1.5 && 2.0 <= o.size < 4.0
  }

  /** Every constructor builds a well-formed particle of its kind. */
  lemma NewStateWellFormed(k: Kind, o: Options, d: SpawnDraws)
    requires ValidSpawnDraws(d)
    ensures WellFormed(NewState(k, o, d)) && NewState(k, o, d).kind == k
  {
    InitializedFacts(Blank(k), o, d.base);
    if k == Quantum {
      var orbits := StartOrbits(d.orbits);
      forall j | 0 <= j < |orbits| ensures SpeckInRange(orbits[j]) {
        assert orbits[j] == NewOrbit(j, d.orbits[j]);
      }
    }
  }

  /** `update` keeps a particle well formed on a frame of any length; the value and the kind never change. */
  lemma TickWellFormed(s: ParticleState, dt: real, flickerDraw: real)
    requires WellFormed(s) && IsDraw(flickerDraw) && 0.0 <= dt
    ensures WellFormed(Tick(s, dt, flickerDraw))
    ensures Tick(s, dt, flickerDraw).value == s.value && Tick(s, dt, flickerDraw).kind == s.kind
  {
    match s.kind
    case Normal => BaseStepWellFormed(s, dt);
    case Unstable =>
      BaseStepWellFormed(s, dt * BaseScale(Unstable));
      UnstableTickWellFormed(BaseStep(s, dt * BaseScale(Unstable)), dt, flickerDraw);
    case Rare => BaseStepWellFormed(s, dt * BaseScale(Rare));
    case Quantum =>
      BaseStepWellFormed(s.(phaseTime := s.phaseTime + dt * s.phaseSpeed), dt * BaseScale(Quantum));
      QuantumTickWellFormed(s, dt);
  }

  /** The base step keeps the base part well formed and does not touch the subclass part. */
  lemma BaseStepWellFormed(s: ParticleState, step: real)
    requires WellFormed(s) && 0.0 <= step
    ensures WellFormed(BaseStep(s, step)) && BaseStep(s, step).value == s.value
  {
  }

  /**
   * A phase within one turn stays within one turn when the step adds at most
   * one turn (`2 dt` times the kind's scale); otherwise the single
   * subtraction leaves it above 2π.
   */
  lemma PulseStaysInTurn(s: ParticleState, step: real)
    requires 0.0 <= s.pulsePhase <= TwoPi && 0.0 <= step
    ensures step * 2.0 <= TwoPi ==> 0.0 <= BaseStep(s, step).pulsePhase <= TwoPi
    ensures s.pulsePhase + step * 2.0 > 2.0 * TwoPi ==> BaseStep(s, step).pulsePhase > TwoPi
  {
    if step * 2.0 <= TwoPi {
      AdvanceAngleInRange(s.pulsePhase, step * 2.0);
    }
  }

  /** The unstable case of `TickWellFormed`: the flicker timer restarts before reaching the interval. */
  lemma UnstableTickWellFormed(b: ParticleState, dt: real, flickerDraw: real)
    requires b.kind == Unstable && KindWellFormed(b) && IsDraw(flickerDraw) && 0.0 <= dt
    ensures var f := Flicker(b, dt, flickerDraw); KindWellFormed(f.(x := f.originalX, y := f.originalY))
  {
  }

  /** The quantum case of `TickWellFormed`: spinning keeps every speck's speed and size. */
  lemma QuantumTickWellFormed(s: ParticleState, dt: real)
    requires s.kind == Quantum && KindWellFormed(s)
    ensures KindWellFormed(Tick(s, dt, 0.0))
  {
    var t := Tick(s, dt, 0.0);
    assert t.orbits == SpinOrbits(s.orbits, dt);
    forall j | 0 <= j < |t.orbits| ensures SpeckInRange(t.orbits[j]) {
      assert t.orbits[j] == Spin(s.orbits[j], dt);
    }
  }

  /** An unstable particle ends every update at the position it was built at, whatever moved it in between. */
  lemma UnstableStaysPut(s: ParticleState, dt: real, flickerDraw: real)
    requires s.kind == Unstable
    ensures Tick(s, dt, flickerDraw).x == s.originalX && Tick(s, dt, flickerDraw).y == s.originalY
    ensures Tick(s, dt, flickerDraw).originalX == s.originalX && Tick(s, dt, flickerDraw).originalY == s.originalY
  {
  }

  /** A particle object. */
  class ExoticParticle {
    const kind: Kind
    var x: real
    var y: real
    var radius: real
    var rotation: real
    var rotationSpeed: real
    var value: int
    var color: string
    var active: bool
    var pulsePhase: real
    var maxValue: int
    var flickerTimer: real
    var flickerInterval: real
    var flickerState: real
    var jitterRadius: real
    var originalX: real
    var originalY: real
    var pulseSpeed: real
    var pulseFactor: real
    var phaseTime: real
    var phaseSpeed: real
    var orbitRadius: real
    var orbitParticles: seq<Orbit>

    function State(): ParticleState
      reads this
    {
      ParticleState(kind, x, y, radius, rotation, rotationSpeed, value, color, active, pulsePhase, maxValue,
                    flickerTimer, flickerInterval, flickerState, jitterRadius, originalX, originalY,
                    pulseSpeed, pulseFactor, phaseTime, phaseSpeed, orbitRadius, orbitParticles)
    }

    /** `new <Kind>ExoticParticle(options)`: the base constructor's `initialize`, then the subclass's fields. */
    constructor (k: Kind, o: Options, d: SpawnDraws)
      requires |d.orbits| == OrbitCount
      ensures State() == NewState(k, o, d)
    {
      kind := k;
      x, y, radius, rotation, rotationSpeed := 0.0, 0.0, 0.0, 0.0, 0.0;
      value, color, active, pulsePhase, maxValue := 0, "", false, 0.0, 0;
      flickerTimer, flickerInterval, flickerState, jitterRadius, originalX, originalY := 0.0, 0.0, 0.0, 0.0, 0.0, 0.0;
      pulseSpeed, pulseFactor := 0.0, 0.0;
      phaseTime, phaseSpeed, orbitRadius, orbitParticles := 0.0, 0.0, 0.0, [];
      new;
      var _ := Initialize(o, d.base);
      match k
      case Normal => SpecializeNormal(d);
      case Unstable => SpecializeUnstable(d);
      case Rare => SpecializeRare(d);
      case Quantum => SpecializeQuantum(d);
    }

    /** The rest of `NormalExoticParticle`'s constructor. */
    method SpecializeNormal(d: SpawnDraws)
      requires kind == Normal
      modifies this`maxValue, this`value, this`color
      ensures State() == SpecializedNormal(old(State()), d)
    {
      SetWorth(3, Floor(d.value * 3.0) + 1, BaseColor);
    }

    /** The rest of `UnstableExoticParticle`'s constructor. */
    method SpecializeUnstable(d: SpawnDraws)
      requires kind == Unstable
      modifies this`maxValue, this`value, this`color, this`flickerTimer, this`flickerInterval, this`flickerState
      modifies this`jitterRadius, this`originalX, this`originalY
      ensures State() == SpecializedUnstable(old(State()), d)
    {
      SetWorth(6, Floor(d.value * 3.0) + 3, "#ff7700");
      StartFlicker();
      Anchor();
    }

    /** The unstable constructor's flicker timer, interval and state. */
    method StartFlicker()
      modifies this`flickerTimer, this`flickerInterval, this`flickerState
      ensures State() == old(State()).(flickerTimer := 0.0, flickerInterval := 0.1, flickerState := 1.0)
    {
      flickerTimer := 0.0;
      flickerInterval := 0.1;
      flickerState := 1.0;
    }

    /** The unstable constructor's jitter radius and the position it pins the particle to. */
    method Anchor()
      modifies this`jitterRadius, this`originalX, this`originalY
      ensures State() == old(State()).(jitterRadius := 2.0, originalX := x, originalY := y)
    {
      jitterRadius := 2.0;
      originalX := x;
      originalY := y;
    }

    /** The rest of `RareExoticParticle`'s constructor. */
    method SpecializeRare(d: SpawnDraws)
      requires kind == Rare
      modifies this`maxValue, this`value, this`color, this`pulseSpeed, this`pulseFactor
      ensures State() == SpecializedRare(old(State()), d)
    {
      SetWorth(8, Floor(d.value * 3.0) + 5, "#ff00ff");
      pulseSpeed, pulseFactor := 1.5, 0.0;
    }

    /** The rest of `QuantumExoticParticle`'s constructor. */
    method SpecializeQuantum(d: SpawnDraws)
      requires kind == Quantum && orbitParticles == []
      modifies this`maxValue, this`value, this`color, this`phaseTime, this`phaseSpeed, this`orbitRadius
      modifies this`orbitParticles
      ensures State() == SpecializedQuantum(old(State()), d)
    {
      SetWorth(15, Floor(d.value * (15 - 8) as real) + 8, "#00ddff");
      phaseTime, phaseSpeed, orbitRadius := 0.0, 1.0, 15.0;
      AddOrbits(d.orbits);
    }

    /** The first three assignments of every subclass constructor: `maxValue`, the drawn `value` and `color`. */
    method SetWorth(maxV: int, v: int, c: string)
      modifies this`maxValue, this`value, this`color
      ensures State() == old(State()).(maxValue := maxV, value := v, color := c)
    {
      maxValue := maxV;
      value := v;
      color := c;
    }

    /** The quantum constructor's loop pushing one speck per draw. */
    method AddOrbits(draws: seq<OrbitDraw>)
      requires orbitParticles == []
      modifies this`orbitParticles
      ensures orbitParticles == StartOrbits(draws)
    {
      var i := 0;
      while i < |draws|
        invariant 0 <= i <= |draws|
        invariant orbitParticles == StartOrbits(draws[..i])
      {
        orbitParticles := orbitParticles + [Orbit((i as real / OrbitCount as real) * Pi * 2.0,
                                                  1.0 + draws[i].speed * 0.5, 2.0 + draws[i].size * 2.0)];
        i := i + 1;
      }
      assert draws[..i] == draws;
    }

    /** `initialize(options)`, which returns the particle itself. */
    method Initialize(o: Options, d: BaseDraws) returns (self: ExoticParticle)
      modifies this`x, this`y, this`radius, this`rotation, this`rotationSpeed, this`value, this`color
      modifies this`active, this`pulsePhase
      ensures self == this && State() == Initialized(old(State()), o, d)
    {
      Place(o);
      rotation := Or(o.rotation, Turns(d.rotation));
      rotationSpeed := d.rotationSpeed * 0.5 + 0.2;
      value := 1;
      Activate(d);
      self := this;
    }

    /** The first three assignments of `initialize`: `x`, `y` and `radius`, each defaulted with `||`. */
    method Place(o: Options)
      modifies this`x, this`y, this`radius
      ensures State() == old(State()).(x := Or(o.x, 0.0), y := Or(o.y, 0.0), radius := Or(o.radius, 8.0))
    {
      x := Or(o.x, 0.0);
      y := Or(o.y, 0.0);
      radius := Or(o.radius, 8.0);
    }

    /** The last three assignments of `initialize`: the base colour, the active flag and a random pulse phase. */
    method Activate(d: BaseDraws)
      modifies this`color, this`active, this`pulsePhase
      ensures State() == old(State()).(color := BaseColor, active := true, pulsePhase := Turns(d.pulsePhase))
    {
      color := BaseColor;
      active := true;
      pulsePhase := Turns(d.pulsePhase);
    }

    /** The base class's `update(dt)`. */
    method BaseUpdate(dt: real)
      modifies this`rotation, this`pulsePhase
      ensures State() == BaseStep(old(State()), dt)
    {
      rotation := rotation + dt * rotationSpeed;
      pulsePhase := pulsePhase + dt * 2.0;
      if pulsePhase > Pi * 2.0 {
        pulsePhase := pulsePhase - Pi * 2.0;
      }
    }

    /** The subclass's `update(dt)`; `flickerDraw` is used only when an unstable particle redraws its flicker. */
    method Update(dt: real, flickerDraw: real)
      modifies this
      ensures State() == Tick(old(State()), dt, flickerDraw)
    {
      match kind
      case Normal => BaseUpdate(dt);
      case Unstable => UpdateUnstable(dt, flickerDraw);
      case Rare => UpdateRare(dt);
      case Quantum => UpdateQuantum(dt);
    }

    /** `UnstableExoticParticle.update`: a doubled base step, the flicker, and the position pinned back. */
    method UpdateUnstable(dt: real, flickerDraw: real)
      requires kind == Unstable
      modifies this
      ensures State() == Tick(old(State()), dt, flickerDraw)
    {
      BaseUpdate(dt * 2.0);
      FlickerStep(dt, flickerDraw);
      x := originalX;
      y := originalY;
    }

    /** The flicker part of the unstable update. */
    method FlickerStep(dt: real, flickerDraw: real)
      modifies this`flickerTimer, this`flickerState
      ensures State() == Flicker(old(State()), dt, flickerDraw)
    {
      flickerTimer := flickerTimer + dt;
      if flickerTimer >= flickerInterval {
        flickerTimer := 0.0;
        flickerState := 0.6 + flickerDraw * 0.4;
      }
    }

    /** `RareExoticParticle.update`: a base step scaled by 1.2 and the pulse factor advanced. */
    method UpdateRare(dt: real)
      requires kind == Rare
      modifies this
      ensures State() == Tick(old(State()), dt, 0.0)
    {
      BaseUpdate(dt * 1.2);
      pulseFactor := pulseFactor + dt * pulseSpeed * Pi;
    }

    /** `QuantumExoticParticle.update`: phase time, a base step scaled by 0.8, and every speck spun. */
    method UpdateQuantum(dt: real)
      requires kind == Quantum
      modifies this
      ensures State() == Tick(old(State()), dt, 0.0)
    {
      ghost var s0 := State();
      phaseTime := phaseTime + dt * phaseSpeed;
      assert State() == s0.(phaseTime := s0.phaseTime + dt * s0.phaseSpeed);
      BaseUpdate(dt * 0.8);
      ghost var b := State();
      SpinOrbitParticles(dt);
      assert State() == b.(orbits := SpinOrbits(b.orbits, dt));
    }

    /** The quantum update's `forEach` over the specks. */
    method SpinOrbitParticles(dt: real)
      modifies this`orbitParticles
      ensures orbitParticles == SpinOrbits(old(orbitParticles), dt)
    {
      var i := 0;
      while i < |orbitParticles|
        invariant 0 <= i <= |orbitParticles| == |old(orbitParticles)|
        invariant forall k :: 0 <= k < i ==> orbitParticles[k] == Spin(old(orbitParticles[k]), dt)
        invariant forall k :: i <= k < |orbitParticles| ==> orbitParticles[k] == old(orbitParticles[k])
      {
        var speck := orbitParticles[i];
        orbitParticles := orbitParticles[i := speck.(angle := speck.angle + dt * speck.speed * 2.0)];
        i := i + 1;
      }
    }
  }
}

=== FILE: exotic_particle_factory.dfy ===
/**
 * The particle factory: a table from type names to particle classes, with
 * the normal class as the fallback for a name the table does not hold.
 * A class is identified by the `Kind` it constructs.
 */
module ExoticParticleFactory {
  import opened ExoticParticle

  /** The table the factory starts with: only `'normal'` is registered. */
  const InitialTypes: map<string, Kind> := map["normal" := Normal]

  /** The class `createParticle(type, …)` constructs: the registered one, or the normal class. */
  function ClassFor(types: map<string, Kind>, t: string): (k: Kind)
    ensures t in types ==> k == types[t]
    ensures t !in types ==> k == Normal
  {
    if t in types then types[t] else Normal
  }

  /** With the initial table, every type name yields a normal particle. */
  lemma OnlyNormalAtFirst(t: string)
    ensures ClassFor(InitialTypes, t) == Normal
  {
  }

  /** The four names the spawner asks for, and what the initial table gives for each. */
  lemma SpawnNamesAllNormal()
    ensures forall t :: t in ["normal", "unstable", "rare", "quantum"] ==> ClassFor(InitialTypes, t) == Normal
    ensures "unstable" !in InitialTypes && "rare" !in InitialTypes && "quantum" !in InitialTypes
  {
  }

  /** Registering `name` changes what that name yields and nothing else. */
  lemma RegisterThenCreate(types: map<string, Kind>, name: string, k: Kind, t: string)
    ensures ClassFor(types[name := k], t) == if t == name then k else ClassFor(types, t)
  {
  }

  class ExoticParticleFactory {
    var particleTypes: map<string, Kind>

    constructor ()
      ensures particleTypes == InitialTypes
    {
      particleTypes := InitialTypes;
    }

    /** `createParticle(type, options)`: a new particle of the registered class, or a normal one. */
    method CreateParticle(t: string, o: Options, d: SpawnDraws) returns (p: ExoticParticle)
      requires |d.orbits| == OrbitCount
      ensures fresh(p) && p.kind == ClassFor(particleTypes, t)
      ensures p.State() == NewState(ClassFor(particleTypes, t), o, d)
    {
      if t !in particleTypes {
        p := new ExoticParticle(Normal, o, d);
      } else {
        p := new ExoticParticle(particleTypes[t], o, d);
      }
    }

    /** `registerParticleType(typeName, particleClass)`: adds or overwrites one entry. */
    method RegisterParticleType(name: string, k: Kind)
      modifies this
      ensures particleTypes == old(particleTypes)[name := k]
    {
      particleTypes := particleTypes[name := k];
    }
  }
}

=== FILE: exotic_particles.dfy ===
/**
 * The collectible field: the shards floating in the scene, the timer that
 * spawns a new one every three seconds up to ten, the rarity roll and the
 * placement away from the centre, the collection pass around the player,
 * and the short-lived "+value" effects a collection leaves behind.
 */
module ExoticParticles {
  import opened JsMath
  import opened SceneManager
  import opened ExoticParticle
  import opened ExoticParticleFactory

  /** At most this many shards are on screen (`shardCount`). */
  const ShardCount: nat := 10
  /** A shard closer than this to the player is collected (`collectionRadius`). */
  const CollectionRadius: real := 25.0
  /** Seconds between spawns (`spawnInterval`). */
  const SpawnInterval: real := 3.0
  /** Distance kept from every edge of the scene when placing a shard. */
  const Margin: real := 100.0
  /** Half the side of the box around the scene centre a shard may not be placed in. */
  const Exclusion: real := 150.0
  /** Radius given to every spawned shard. */
  const ShardRadius: real := 8.0

  datatype Result<T> = Success(value: T) | Failure(error: string)

  /** A collection effect: an expanding ring with the collected value, alive for one second. */
  datatype Effect = Effect(x: real, y: real, radius: real, value: int, life: real, maxLife: real)

  /** The `particleCollected` event: the type tag and the value of the shard. */
  datatype Collected = Collected(tag: string, value: int)

  /** One placement attempt: the two draws giving `x` and `y`. */
  datatype Candidate = Candidate(rx: real, ry: real)

  /** Every draw one call of `spawnShard` makes: placement attempts, initial rotation, rarity roll, constructor draws. */
  datatype ShardDraws = ShardDraws(candidates: seq<Candidate>, rotation: real, roll: real, particle: SpawnDraws)

  ghost predicate ValidShardDraws(d: ShardDraws) {
    && (forall k :: 0 <= k < |d.candidates| ==> IsDraw(d.candidates[k].rx) && IsDraw(d.candidates[k].ry))
    && IsDraw(d.rotation) && IsDraw(d.roll) && ValidSpawnDraws(d.particle)
  }

  // ---------------------------------------------------------------- placement

  /** The point a placement attempt proposes: `random * (size - 2 * margin) + margin` on each axis. */
  function CandidatePoint(scene: Scene, c: Candidate): Point {
    Point(Scaled(c.rx, scene.width - 2.0 * Margin) + Margin, Scaled(c.ry, scene.height - 2.0 * Margin) + Margin)
  }

  /** A draw scaled to a length, `r * len`. */
  function Scaled(r: real, len: real): real {
    r * len
  }

  /** The retry test of the placement loop: both coordinates within 150 of the scene centre. */
  predicate Rejected(scene: Scene, p: Point) {
    -Exclusion < p.x - scene.centerX < Exclusion && -Exclusion < p.y - scene.centerY < Exclusion
  }

  /**
   * The placement as the source writes it: a do-while that draws again for as
   * long as the point is rejected, with no bound on the number of attempts.
   * Over a finite list of attempts it yields the first accepted point, or
   * nothing when the loop would still be running after them.
   */
  function AsWrittenPlacement(scene: Scene, cands: seq<Candidate>): (r: Option<Point>)
    ensures r.Some? ==> !Rejected(scene, r.value)
    ensures r.None? <==> forall k :: 0 <= k < |cands| ==> Rejected(scene, CandidatePoint(scene, cands[k]))
  {
    if cands == [] then None
    else if !Rejected(scene, CandidatePoint(scene, cands[0])) then Some(CandidatePoint(scene, cands[0]))
    else
      var r := AsWrittenPlacement(scene, cands[1..]);
      assert forall k :: 1 <= k < |cands| ==> cands[k] == cands[1..][k - 1];
      r
  }

  /** `r * len` for a draw `r` lies between 0 and `len`, whatever the sign of `len`. */
  lemma ScaledDraw(r: real, len: real)
    requires IsDraw(r)
    ensures len >= 0.0 ==> 0.0 <= Scaled(r, len) <= len
    ensures len > 0.0 ==> Scaled(r, len) < len
    ensures len <= 0.0 ==> len <= Scaled(r, len) <= 0.0
  {
    assert Scaled(r, len) == len - (1.0 - r) * len;
    if len >= 0.0 {
      assert 0.0 <= r * len;
      assert 0.0 <= (1.0 - r) * len;
      assert len > 0.0 ==> 0.0 < (1.0 - r) * len;
    } else {
      assert 0.0 <= r * (-len);
      assert 0.0 <= (1.0 - r) * (-len);
    }
  }

  /** A candidate lies in the margin rectangle `[100, width - 100) × [100, height - 100)` of a scene wider and taller than 200. */
  lemma CandidateInMargins(scene: Scene, c: Candidate)
    requires IsDraw(c.rx) && IsDraw(c.ry) && scene.width > 2.0 * Margin && scene.height > 2.0 * Margin
    ensures var p := CandidatePoint(scene, c);
            Margin <= p.x < scene.width - Margin && Margin <= p.y < scene.height - Margin
  {
    ScaledDraw(c.rx, scene.width - 2.0 * Margin);
    ScaledDraw(c.ry, scene.height - 2.0 * Margin);
  }

  /**
   * On a scene narrower and lower than 500 whose centre is the middle of the
   * canvas, every candidate is rejected: the margin rectangle lies inside the
   * exclusion box, so the source's placement loop never ends.
   */
  lemma SmallSceneRejectsEverything(scene: Scene, c: Candidate)
    requires IsDraw(c.rx) && IsDraw(c.ry)
    requires 0.0 <= scene.width < 500.0 && 0.0 <= scene.height < 500.0
    requires scene.centerX == scene.width / 2.0 && scene.centerY == scene.height / 2.0
    ensures Rejected(scene, CandidatePoint(scene, c))
  {
    ScaledDraw(c.rx, scene.width - 2.0 * Margin);
    ScaledDraw(c.ry, scene.height - 2.0 * Margin);
  }

  /** Hence the source's loop finds no point, however many attempts it makes. */
  lemma AsWrittenPlacementNeverEnds(scene: Scene, cands: seq<Candidate>)
    requires forall k :: 0 <= k < |cands| ==> IsDraw(cands[k].rx) && IsDraw(cands[k].ry)
    requires 0.0 <= scene.width < 500.0 && 0.0 <= scene.height < 500.0
    requires scene.centerX == scene.width / 2.0 && scene.centerY == scene.height / 2.0
    ensures AsWrittenPlacement(scene, cands).None?
  {
    forall k | 0 <= k < |cands| ensures Rejected(scene, CandidatePoint(scene, cands[k])) {
      SmallSceneRejectsEverything(scene, cands[k]);
    }
  }

  /**
   * The placement the model uses: the same attempts, but a bounded number of
   * them. The first accepted candidate from index `from` on, or nothing.
   */
  function Placement(scene: Scene, cands: seq<Candidate>, from: nat): Option<Point>
    requires from <= |cands|
    decreases |cands| - from
  {
    if from == |cands| then None
    else if !Rejected(scene, CandidatePoint(scene, cands[from])) then Some(CandidatePoint(scene, cands[from]))
    else Placement(scene, cands, from + 1)
  }

  /**
   * A placed shard is outside the exclusion box and, on a scene wider and
   * taller than 200, inside the margins; nothing is placed exactly when every
   * attempt is rejected; and wherever the source's loop stops within the
   * attempts, the bounded placement stops at the same point.
   */
  lemma {:induction false} PlacementFacts(scene: Scene, cands: seq<Candidate>, from: nat)
    requires from <= |cands|
    requires forall k :: 0 <= k < |cands| ==> IsDraw(cands[k].rx) && IsDraw(cands[k].ry)
    decreases |cands| - from
    ensures var r := Placement(scene, cands, from);
      && (r.Some? ==> !Rejected(scene, r.value))
      && (r.Some? && scene.width > 2.0 * Margin && scene.height > 2.0 * Margin ==>
            Margin <= r.value.x < scene.width - Margin && Margin <= r.value.y < scene.height - Margin)
      && (r.None? <==> forall k :: from <= k < |cands| ==> Rejected(scene, CandidatePoint(scene, cands[k])))
      && r == AsWrittenPlacement(scene, cands[from..])
  {
    if from < |cands| {
      PlacementFacts(scene, cands, from + 1);
      assert cands[from..][1..] == cands[from + 1..];
      if !Rejected(scene, CandidatePoint(scene, cands[from])) && scene.width > 2.0 * Margin && scene.height > 2.0 * Margin {
        CandidateInMargins(scene, cands[from]);
      }
    }
  }

  // ---------------------------------------------------------------- rarity

  /** The type name the rarity roll `roll` (a draw scaled by 100) asks the factory for. */
  function Rarity(roll: real): string {
    if roll < 60.0 then "normal"
    else if roll < 85.0 then "unstable"
    else if roll < 95.0 then "rare"
    else "quantum"
  }

  /** The order of the four names from common to rare. */
  function RarityRank(t: string): nat {
    if t == "normal" then 0 else if t == "unstable" then 1 else if t == "rare" then 2 else 3
  }

  /**
   * The roll splits `[0, 100)` into 60, 25, 10 and 5 wide intervals, one per
   * name; a higher roll never gives a commoner name; and with the factory's
   * initial table each of them yields a normal particle.
   */
  lemma RarityIntervals(roll: real, higher: real)
    ensures Rarity(roll) == "normal" <==> roll < 60.0
    ensures Rarity(roll) == "unstable" <==> 60.0 <= roll < 85.0
    ensures Rarity(roll) == "rare" <==> 85.0 <= roll < 95.0
    ensures Rarity(roll) == "quantum" <==> 95.0 <= roll
    ensures roll <= higher ==> RarityRank(Rarity(roll)) <= RarityRank(Rarity(higher))
    ensures ClassFor(InitialTypes, Rarity(roll)) == Normal
  {
    SpawnNamesAllNormal();
  }

  // ---------------------------------------------------------------- drift and effects

  /** A shard after one frame of `update`: carried by the rotation drift, then its own `update(dt)`. */
  function ShardStep(scene: Scene, dt: real, s: ParticleState, flickerDraw: real): ParticleState {
    var p := Drift(scene, dt, s.x, s.y);
    Tick(s.(x := p.x, y := p.y), dt, flickerDraw)
  }

  /** The drift changes only the position, so a shard stays well formed and keeps its value and kind. */
  lemma ShardStepWellFormed(scene: Scene, dt: real, s: ParticleState, flickerDraw: real)
    requires WellFormed(s) && IsDraw(flickerDraw) && 0.0 <= dt
    ensures WellFormed(ShardStep(scene, dt, s, flickerDraw))
    ensures ShardStep(scene, dt, s, flickerDraw).value == s.value
    ensures ShardStep(scene, dt, s, flickerDraw).kind == s.kind
  {
    var p := Drift(scene, dt, s.x, s.y);
    var d := s.(x := p.x, y := p.y);
    assert BaseWellFormed(d) && KindWellFormed(d);
    TickWellFormed(d, dt, flickerDraw);
  }

  /** An unstable shard ignores the drift: it ends the frame at the position it was built at. */
  lemma UnstableShardIgnoresDrift(scene: Scene, dt: real, s: ParticleState, flickerDraw: real)
    requires s.kind == Unstable
    ensures ShardStep(scene, dt, s, flickerDraw).x == s.originalX
    ensures ShardStep(scene, dt, s, flickerDraw).y == s.originalY
  {
    var p := Drift(scene, dt, s.x, s.y);
    UnstableStaysPut(s.(x := p.x, y := p.y), dt, flickerDraw);
  }

  /** A collection effect one frame older: `dt` less life, carried by the drift. */
  function AgeEffect(scene: Scene, dt: real, e: Effect): Effect {
    var p := Drift(scene, dt, e.x, e.y);
    e.(life := e.life - dt, x := p.x, y := p.y)
  }

  /** The effects from index `from` on after one frame: aged, in order, those whose life drops to 0 or below removed. */
  function Aged(scene: Scene, dt: real, es: seq<Effect>, from: nat): seq<Effect>
    requires from <= |es|
    decreases |es| - from
  {
    if from == |es| then []
    else if es[from].life - dt <= 0.0 then Aged(scene, dt, es, from + 1)
    else [AgeEffect(scene, dt, es[from])] + Aged(scene, dt, es, from + 1)
  }

  /**
   * After a frame every remaining effect has life left, every effect whose
   * life stays above 0 is there aged, every remaining effect is the aged form
   * of one with life left, and there are no more effects than before.
   */
  lemma {:induction false} AgedFacts(scene: Scene, dt: real, es: seq<Effect>, from: nat)
    requires from <= |es|
    decreases |es| - from
    ensures forall e :: e in Aged(scene, dt, es, from) ==> e.life > 0.0
    ensures forall k :: from <= k < |es| && es[k].life - dt > 0.0 ==> AgeEffect(scene, dt, es[k]) in Aged(scene, dt, es, from)
    ensures forall e :: e in Aged(scene, dt, es, from) ==>
              exists k :: from <= k < |es| && es[k].life - dt > 0.0 && e == AgeEffect(scene, dt, es[k])
    ensures |Aged(scene, dt, es, from)| <= |es| - from
  {
    if from < |es| {
      AgedFacts(scene, dt, es, from + 1);
    }
  }

  // ---------------------------------------------------------------- collection

  /** The collection test: the player is closer than the collection radius to the shard. */
  predicate InReach(m: MathFns, px: real, py: real, s: ParticleState) {
    Hypot(m, px - s.x, py - s.y) < CollectionRadius
  }

  /** With the law of `Math.sqrt`, the test is the comparison of squared distances. */
  lemma InReachIffSquares(m: MathFns, px: real, py: real, s: ParticleState)
    requires SqrtLaws(m)
    ensures InReach(m, px, py, s) <==> Sq(px - s.x) + Sq(py - s.y) < Sq(CollectionRadius)
  {
    var dx, dy := px - s.x, py - s.y;
    SqNonNegative(dx);
    SqNonNegative(dy);
    assert m.sqrt(Sq(dx) + Sq(dy)) < CollectionRadius <==> Sq(dx) + Sq(dy) < Sq(CollectionRadius);
  }

  /**
   * The type tag the source computes for a collected shard: a chain of
   * `instanceof` tests against the factory's `quantum`, `rare` and `unstable`
   * entries. A test against an entry the table does not hold throws a
   * `TypeError`, which is the failure here.
   */
  function AsWrittenTag(types: map<string, Kind>, k: Kind): (r: Result<string>)
    ensures "quantum" !in types ==> r.Failure?
  {
    if "quantum" !in types then Failure("TypeError: right-hand side of 'instanceof' is not callable")
    else if k == types["quantum"] then Success("quantum")
    else if "rare" !in types then Failure("TypeError: right-hand side of 'instanceof' is not callable")
    else if k == types["rare"] then Success("rare")
    else if "unstable" !in types then Failure("TypeError: right-hand side of 'instanceof' is not callable")
    else if k == types["unstable"] then Success("unstable")
    else Success("normal")
  }

  /** The tag the model gives a collected shard: the name of the class it was built as. */
  function CollectedTag(k: Kind): (tag: string)
    ensures tag in {"normal", "unstable", "rare", "quantum"}
    ensures ClassFor(map["normal" := Normal, "unstable" := Unstable, "rare" := Rare, "quantum" := Quantum], tag) == k
  {
    match k
    case Normal => "normal"
    case Unstable => "unstable"
    case Rare => "rare"
    case Quantum => "quantum"
  }

  /** With the factory's initial table the source's tag throws for every shard, so the first collection fails. */
  lemma AsWrittenTagAlwaysThrows(k: Kind)
    ensures AsWrittenTag(InitialTypes, k).Failure?
  {
  }

  /**
   * Once the three names are registered to their own classes, the source's
   * tag is the model's; the model's tag names the class and tells the four
   * classes apart.
   */
  lemma TagsAgree(types: map<string, Kind>, k: Kind)
    requires "quantum" in types && "rare" in types && "unstable" in types
    requires types["quantum"] == Quantum && types["rare"] == Rare && types["unstable"] == Unstable
    requires "normal" in types ==> types["normal"] == Normal
    ensures AsWrittenTag(types, k) == Success(CollectedTag(k))
    ensures ClassFor(types, CollectedTag(k)) == k
    ensures forall k' :: CollectedTag(k') == CollectedTag(k) ==> k' == k
  {
  }

  /** What the collection pass has built after the first `n` shards. */
  datatype Pass = Pass(kept: seq<ExoticParticle>, points: int, effects: seq<Effect>, events: seq<Collected>)

  /**
   * The collection pass over the first `n` shards `objs` with states
   * `states`: a shard out of reach is kept, in order; one within reach adds
   * its value to the points, an effect and an event.
   */
  function Collect(m: MathFns, px: real, py: real, objs: seq<ExoticParticle>, states: seq<ParticleState>, n: nat): Pass
    requires |objs| == |states| && n <= |objs|
  {
    if n == 0 then Pass([], 0, [], [])
    else
      var p := Collect(m, px, py, objs, states, n - 1);
      var s := states[n - 1];
      if InReach(m, px, py, s) then
        Pass(p.kept, p.points + s.value, p.effects + [CollectionEffect(s)], p.events + [Collected(CollectedTag(s.kind), s.value)])
      else
        p.(kept := p.kept + [objs[n - 1]])
  }

  /** How many of the first `n` states are within reach. */
  function CollectedCount(m: MathFns, px: real, py: real, states: seq<ParticleState>, n: nat): nat
    requires n <= |states|
  {
    if n == 0 then 0
    else CollectedCount(m, px, py, states, n - 1) + (if InReach(m, px, py, states[n - 1]) then 1 else 0)
  }

  /** The effect `createCollectionEffect(x, y, value)` pushes: radius 10, a full life of 1 second. */
  function CollectionEffect(s: ParticleState): (e: Effect)
    ensures e.x == s.x && e.y == s.y && e.value == s.value && e.life == e.maxLife == 1.0
  {
    Effect(s.x, s.y, 10.0, s.value, 1.0, 1.0)
  }

  /** The states of the shards `objs`, in order. */
  function StatesOf(objs: seq<ExoticParticle>): (r: seq<ParticleState>)
    reads objs
    ensures |r| == |objs| && forall k :: 0 <= k < |objs| ==> r[k] == objs[k].State()
  {
    seq(|objs|, k reads objs requires 0 <= k < |objs| => objs[k].State())
  }

  lemma StatesOfAppend(objs: seq<ExoticParticle>, o: ExoticParticle)
    ensures StatesOf(objs + [o]) == StatesOf(objs) + [o.State()]
  {
  }

  ghost predicate DistinctShards(s: seq<ExoticParticle>) {
    forall i, j :: 0 <= i < j < |s| ==> s[i] != s[j]
  }

  /**
   * A distinct shard is kept exactly when it is out of reach, and kept and
   * collected shards together account for all of them.
   */
  lemma {:induction false} KeptIffOutOfReach(m: MathFns, px: real, py: real, objs: seq<ExoticParticle>,
                                             states: seq<ParticleState>, n: nat, k: nat)
    requires |objs| == |states| && n <= |objs| && k < |objs| && DistinctShards(objs)
    ensures objs[k] in Collect(m, px, py, objs, states, n).kept <==> k < n && !InReach(m, px, py, states[k])
    ensures |Collect(m, px, py, objs, states, n).kept| + CollectedCount(m, px, py, states, n) == n
  {
    if n > 0 {
      KeptIffOutOfReach(m, px, py, objs, states, n - 1, k);
      if k != n - 1 {
        assert objs[k] != objs[n - 1];
      }
    }
  }

  /**
   * With well-formed shards, whose values are at least 1, the points are at
   * least the number of shards collected, so they are positive exactly when
   * something was collected; and each collected shard leaves one effect and
   * one event, both carrying its value.
   */
  lemma {:induction false} PointsFacts(m: MathFns, px: real, py: real, objs: seq<ExoticParticle>,
                                       states: seq<ParticleState>, n: nat)
    requires |objs| == |states| && n <= |objs|
    requires forall k :: 0 <= k < |states| ==> WellFormed(states[k])
    ensures var p := Collect(m, px, py, objs, states, n);
      && p.points >= CollectedCount(m, px, py, states, n)
      && (p.points > 0 <==> CollectedCount(m, px, py, states, n) > 0)
      && |p.effects| == CollectedCount(m, px, py, states, n)
      && |p.events| == CollectedCount(m, px, py, states, n)
      && forall j :: 0 <= j < CollectedCount(m, px, py, states, n) ==> p.effects[j].value == p.events[j].value
  {
    if n > 0 {
      PointsFacts(m, px, py, objs, states, n - 1);
      assert ValueLow(states[n - 1].kind) >= 1;
    }
  }

  class ExoticParticles {
    var shards: seq<ExoticParticle>
    var spawnTimer: real
    var collectionEffects: seq<Effect>
    const particleFactory: ExoticParticleFactory
    /** The `particleCollected` events dispatched so far. */
    ghost var events: seq<Collected>

    /** The shards are distinct objects, well formed, and at most ten. */
    ghost predicate Valid()
      reads this`shards, shards
    {
      && DistinctShards(shards)
      && |shards| <= ShardCount
      && forall k :: 0 <= k < |shards| ==> WellFormed(shards[k].State())
    }

    constructor ()
      ensures Valid() && shards == [] && spawnTimer == 0.0 && collectionEffects == [] && events == []
      ensures fresh(particleFactory) && particleFactory.particleTypes == InitialTypes
    {
      shards := [];
      spawnTimer := 0.0;
      collectionEffects := [];
      particleFactory := new ExoticParticleFactory();
      events := [];
    }

    /**
     * `spawnShard()`, with the placement bounded by the attempts in `d`:
     * a shard of the class the factory gives for the rolled name, at the
     * placed point with radius 8 and the drawn rotation, is appended; when
     * no attempt is accepted nothing is spawned.
     */
    /** The attempts loop of `spawnShard`: the first candidate outside the exclusion box, or the number of candidates when none is. */
    static method FirstAccepted(scene: Scene, cands: seq<Candidate>) returns (i: nat)
      ensures i <= |cands|
      ensures i == |cands| <==> Placement(scene, cands, 0).None?
      ensures i < |cands| ==> Placement(scene, cands, 0) == Some(CandidatePoint(scene, cands[i]))
    {
      i := 0;
      while i < |cands| && Rejected(scene, CandidatePoint(scene, cands[i]))
        invariant 0 <= i <= |cands|
        invariant Placement(scene, cands, i) == Placement(scene, cands, 0)
        decreases |cands| - i
      {
        i := i + 1;
      }
    }

    method SpawnShard(scene: Scene, d: ShardDraws) returns (spawned: bool)
      requires Valid() && |shards| < ShardCount && ValidShardDraws(d)
      modifies this`shards
      ensures Valid()
      ensures spawned <==> Placement(scene, d.candidates, 0).Some?
      ensures !spawned ==> shards == old(shards)
      ensures spawned ==>
                && |shards| == old(|shards|) + 1 && shards[..old(|shards|)] == old(shards)
                && fresh(shards[old(|shards|)])
                && shards[old(|shards|)].State()
                   == NewState(ClassFor(particleFactory.particleTypes, Rarity(d.roll * 100.0)),
                               PlacedOptions(Placement(scene, d.candidates, 0).value, d.rotation), d.particle)
      ensures StatesOf(shards) == old(StatesOf(shards)) + Spawned(particleFactory.particleTypes, scene, d)
    {
      var i := FirstAccepted(scene, d.candidates);
      if i == |d.candidates| {
        return false;
      }
      ghost var before := StatesOf(shards);
      var p := CandidatePoint(scene, d.candidates[i]);
      var shard := particleFactory.CreateParticle(Rarity(d.roll * 100.0), PlacedOptions(p, d.rotation), d.particle);
      NewStateWellFormed(shard.kind, PlacedOptions(p, d.rotation), d.particle);
      StatesOfAppend(shards, shard);
      assert StatesOf(shards + [shard]) == before + Spawned(particleFactory.particleTypes, scene, d);
      Push(shard);
      spawned := true;
    }

    /** `this.shards.push(shard)` for a shard not yet in the list. */
    method Push(shard: ExoticParticle)
      requires Valid() && |shards| < ShardCount && shard !in shards && WellFormed(shard.State())
      modifies this`shards
      ensures Valid() && shards == old(shards) + [shard]
    {
      shards := shards + [shard];
    }

    /**
     * The spawn step of `update(dt)`: the timer grows by `dt`; once it reaches
     * the interval while fewer than ten shards are out, `spawnShard` runs and
     * the timer restarts.
     */
    method TickSpawn(scene: Scene, dt: real, d: ShardDraws)
      requires Valid() && ValidShardDraws(d)
      modifies this`shards, this`spawnTimer
      ensures Valid()
      ensures var due := old(spawnTimer) + dt >= SpawnInterval && old(|shards|) < ShardCount;
              && spawnTimer == (if due then 0.0 else old(spawnTimer) + dt)
              && |shards| == old(|shards|) + (if due && Placement(scene, d.candidates, 0).Some? then 1 else 0)
              && shards[..old(|shards|)] == old(shards)
      ensures |shards| > old(|shards|) ==>
                fresh(shards[old(|shards|)])
                && shards[old(|shards|)].State()
                   == NewState(ClassFor(particleFactory.particleTypes, Rarity(d.roll * 100.0)),
                               PlacedOptions(Placement(scene, d.candidates, 0).value, d.rotation), d.particle)
      ensures StatesOf(shards) == old(StatesOf(shards)) + Born(particleFactory.particleTypes, scene, dt, old(spawnTimer), old(|shards|), d)
    {
      ghost var before := StatesOf(shards);
      spawnTimer := spawnTimer + dt;
      if spawnTimer >= SpawnInterval && |shards| < ShardCount {
        var _ := SpawnShard(scene, d);
        spawnTimer := 0.0;
        assert StatesOf(shards) == before + Spawned(particleFactory.particleTypes, scene, d);
      } else {
        assert StatesOf(shards) == before;
      }
    }

    /** The shard loop of `update(dt)`: each shard drifts with the rotation, then runs its own update. */
    method DriftShards(scene: Scene, dt: real, flickerDraws: seq<real>)
      requires Valid() && |flickerDraws| == ShardCount
      requires forall k :: 0 <= k < ShardCount ==> IsDraw(flickerDraws[k])
      requires 0.0 <= dt
      modifies shards
      ensures Valid()
      ensures forall k :: 0 <= k < |shards| ==>
                shards[k].State() == ShardStep(scene, dt, old(shards[k].State()), flickerDraws[k])
      ensures StatesOf(shards) == Stepped(scene, dt, old(StatesOf(shards)), flickerDraws)
    {
      ghost var before := StatesOf(shards);
      var i := 0;
      while i < |shards|
        invariant DriftInv(shards, before, scene, dt, flickerDraws, i)
        decreases |shards| - i
      {
        DriftAt(shards, before, scene, dt, flickerDraws, i);
        i := i + 1;
      }
      DriftedWellFormed(shards, before, scene, dt, flickerDraws);
    }

    /** The effect loop of `update(dt)`: backwards over the effects, each loses `dt` of life and is removed or drifts. */
    method AgeEffects(scene: Scene, dt: real)
      modifies this`collectionEffects
      ensures collectionEffects == Aged(scene, dt, old(collectionEffects), 0)
    {
      ghost var e0 := collectionEffects;
      var i := |collectionEffects| - 1;
      while i >= 0
        invariant -1 <= i < |e0|
        invariant collectionEffects == e0[..i + 1] + Aged(scene, dt, e0, i + 1)
        decreases i
      {
        var effect := collectionEffects[i];
        effect := effect.(life := effect.life - dt);
        if effect.life <= 0.0 {
          collectionEffects := collectionEffects[..i] + collectionEffects[i + 1..];
          assert collectionEffects == e0[..i] + Aged(scene, dt, e0, i);
        } else {
          var p := Drift(scene, dt, effect.x, effect.y);
          effect := effect.(x := p.x, y := p.y);
          collectionEffects := collectionEffects[i := effect];
          assert collectionEffects == e0[..i] + ([effect] + Aged(scene, dt, e0, i + 1));
        }
        i := i - 1;
      }
    }

    /**
     * `update(dt)`: the spawn step, the shard loop and the effect loop. At most
     * one shard is spawned and never an eleventh; the shards present before
     * are kept in order and each takes one step.
     */
    method Update(scene: Scene, dt: real, d: ShardDraws, flickerDraws: seq<real>)
      requires Valid() && ValidShardDraws(d) && |flickerDraws| == ShardCount
      requires forall k :: 0 <= k < ShardCount ==> IsDraw(flickerDraws[k])
      requires 0.0 <= dt
      modifies this`shards, this`spawnTimer, this`collectionEffects, shards
      ensures Valid()
      ensures var due := old(spawnTimer) + dt >= SpawnInterval && old(|shards|) < ShardCount;
              && spawnTimer == (if due then 0.0 else old(spawnTimer) + dt)
              && |shards| == old(|shards|) + (if due && Placement(scene, d.candidates, 0).Some? then 1 else 0)
      ensures shards[..old(|shards|)] == old(shards)
      ensures StatesOf(shards)
              == AfterUpdate(particleFactory.particleTypes, scene, dt, old(StatesOf(shards)), old(spawnTimer), d, flickerDraws)
      ensures forall k :: old(|shards|) <= k < |shards| ==> fresh(shards[k])
      ensures collectionEffects == Aged(scene, dt, old(collectionEffects), 0)
      ensures events == old(events)
    {
      Advance(scene, dt, d, flickerDraws);
      AgeEffects(scene, dt);
    }

    /** The shard half of `update`: spawn when due, then drift every shard. */
    method Advance(scene: Scene, dt: real, d: ShardDraws, flickerDraws: seq<real>)
      requires Valid() && ValidShardDraws(d) && |flickerDraws| == ShardCount
      requires forall k :: 0 <= k < ShardCount ==> IsDraw(flickerDraws[k])
      requires 0.0 <= dt
      modifies this`shards, this`spawnTimer, shards
      ensures Valid()
      ensures var due := old(spawnTimer) + dt >= SpawnInterval && old(|shards|) < ShardCount;
              && spawnTimer == (if due then 0.0 else old(spawnTimer) + dt)
              && |shards| == old(|shards|) + (if due && Placement(scene, d.candidates, 0).Some? then 1 else 0)
      ensures shards[..old(|shards|)] == old(shards)
      ensures StatesOf(shards)
              == AfterUpdate(particleFactory.particleTypes, scene, dt, old(StatesOf(shards)), old(spawnTimer), d, flickerDraws)
      ensures forall k :: old(|shards|) <= k < |shards| ==> fresh(shards[k])
    {
      ghost var before := StatesOf(shards);
      TickSpawn(scene, dt, d);
      ghost var born := StatesOf(shards);
      assert born == before + Born(particleFactory.particleTypes, scene, dt, old(spawnTimer), old(|shards|), d);
      DriftShards(scene, dt, flickerDraws);
      assert StatesOf(shards) == Stepped(scene, dt, born, flickerDraws);
    }

    /**
     * `checkCollection(player)`: the shards within reach of the player are
     * removed in one pass, each leaving an effect and an event, and the sum
     * of their values is returned.
     */
    method CheckCollection(m: MathFns, px: real, py: real) returns (collectedPoints: int)
      requires Valid()
      modifies this`shards, this`collectionEffects, this`events
      ensures Valid()
      ensures var p := Collect(m, px, py, old(shards), old(StatesOf(shards)), old(|shards|));
              && collectedPoints == p.points && shards == p.kept
              && collectionEffects == old(collectionEffects) + p.effects && events == old(events) + p.events
      ensures StatesOf(old(shards)) == old(StatesOf(shards))
    {
      ghost var objs := shards;
      ghost var states := StatesOf(objs);
      var p := CollectionPass(m, px, py, shards);
      shards := p.kept;
      collectedPoints := p.points;
      collectionEffects := collectionEffects + p.effects;
      events := events + p.events;
      assert StatesOf(objs) == states;
      KeptStaysValid(m, px, py, objs, states);
    }

    /** `reset()`: no shards, timer and effects cleared, then ⌊10 / 2⌋ = 5 calls of `spawnShard`. */
    method Reset(scene: Scene, draws: seq<ShardDraws>)
      requires |draws| == ShardCount / 2 && forall k :: 0 <= k < |draws| ==> ValidShardDraws(draws[k])
      modifies this`shards, this`spawnTimer, this`collectionEffects
      ensures Valid() && spawnTimer == 0.0 && collectionEffects == []
      ensures |shards| == Placed(scene, draws, |draws|)
      ensures StatesOf(shards) == PlacedStates(particleFactory.particleTypes, scene, draws, |draws|)
      ensures forall k :: 0 <= k < |shards| ==> fresh(shards[k])
    {
      shards := [];
      spawnTimer := 0.0;
      collectionEffects := [];
      var i := 0;
      while i < ShardCount / 2
        invariant 0 <= i <= ShardCount / 2 && spawnTimer == 0.0 && collectionEffects == []
        invariant Respawned(scene, draws, i)
        invariant forall k :: 0 <= k < |shards| ==> fresh(shards[k])
      {
        RespawnOne(scene, draws, i);
        i := i + 1;
      }
    }

    /** After the first `i` spawn calls of `reset`: the shards they placed, in order. */
    ghost predicate Respawned(scene: Scene, draws: seq<ShardDraws>, i: nat)
      reads this`shards, shards, particleFactory`particleTypes
    {
      && i <= |draws| && Valid()
      && |shards| == Placed(scene, draws, i) <= i
      && StatesOf(shards) == PlacedStates(particleFactory.particleTypes, scene, draws, i)
    }

    /** One spawn call of `reset`. */
    method RespawnOne(scene: Scene, draws: seq<ShardDraws>, i: nat)
      requires Respawned(scene, draws, i) && i < |draws| == ShardCount / 2 && ValidShardDraws(draws[i])
      modifies this`shards
      ensures Respawned(scene, draws, i + 1)
      ensures |shards| >= old(|shards|) && shards[..old(|shards|)] == old(shards)
      ensures forall k :: old(|shards|) <= k < |shards| ==> fresh(shards[k])
    {
      var _ := SpawnShard(scene, draws[i]);
    }
  }

  /** The options `spawnShard` passes to the factory: the placed point, radius 8 and the drawn angle. */
  function PlacedOptions(p: Point, rotation: real): Options {
    Options(p.x, p.y, ShardRadius, Turns(rotation))
  }

  /** The shard one `spawnShard` call builds: none when every attempt is rejected. */
  function Spawned(types: map<string, Kind>, scene: Scene, d: ShardDraws): (r: seq<ParticleState>)
    ensures |r| == if Placement(scene, d.candidates, 0).Some? then 1 else 0
  {
    match Placement(scene, d.candidates, 0)
    case None => []
    case Some(p) => [NewState(ClassFor(types, Rarity(d.roll * 100.0)), PlacedOptions(p, d.rotation), d.particle)]
  }

  /** The shards the first `n` spawn calls of `reset` build, in order. */
  function PlacedStates(types: map<string, Kind>, scene: Scene, draws: seq<ShardDraws>, n: nat): seq<ParticleState>
    requires n <= |draws|
  {
    if n == 0 then [] else PlacedStates(types, scene, draws, n - 1) + Spawned(types, scene, draws[n - 1])
  }

  /**
   * `reset` builds one shard per placed spawn call, in order, each a new
   * particle of the rolled class at the first accepted point; when every
   * call places its shard there are as many shards as calls, five in
   * `reset`.
   */
  lemma {:induction false} PlacedStatesFacts(types: map<string, Kind>, scene: Scene, draws: seq<ShardDraws>, n: nat)
    requires n <= |draws|
    ensures |PlacedStates(types, scene, draws, n)| == Placed(scene, draws, n)
    ensures (forall k :: 0 <= k < n ==> Placement(scene, draws[k].candidates, 0).Some?) ==> Placed(scene, draws, n) == n
  {
    if n > 0 {
      PlacedStatesFacts(types, scene, draws, n - 1);
    }
  }

  /** The shard the spawn step of `update` builds: one when the timer is due, fewer than ten are out and a point is accepted. */
  function Born(types: map<string, Kind>, scene: Scene, dt: real, spawnTimer: real, count: nat, d: ShardDraws): seq<ParticleState> {
    if spawnTimer + dt >= SpawnInterval && count < ShardCount then Spawned(types, scene, d) else []
  }

  /** Every shard after the loop of `update`: each carried by the drift and then its own `update(dt)`. */
  function Stepped(scene: Scene, dt: real, states: seq<ParticleState>, flickerDraws: seq<real>): (r: seq<ParticleState>)
    requires |states| <= |flickerDraws|
    ensures |r| == |states|
  {
    seq(|states|, k requires 0 <= k < |states| => ShardStep(scene, dt, states[k], flickerDraws[k]))
  }

  /** The shards after `update(dt)`: the shard spawned first, if any, joins the end, then every shard takes its step. */
  function AfterUpdate(types: map<string, Kind>, scene: Scene, dt: real, states: seq<ParticleState>, spawnTimer: real,
                       d: ShardDraws, flickerDraws: seq<real>): seq<ParticleState>
    requires |states| <= ShardCount && |flickerDraws| == ShardCount
  {
    Stepped(scene, dt, states + Born(types, scene, dt, spawnTimer, |states|, d), flickerDraws)
  }

  /** How many of the first `n` spawn calls place a shard. */
  function Placed(scene: Scene, draws: seq<ShardDraws>, n: nat): (r: nat)
    requires n <= |draws|
    ensures r <= n
  {
    if n == 0 then 0
    else Placed(scene, draws, n - 1) + (if Placement(scene, draws[n - 1].candidates, 0).Some? then 1 else 0)
  }

  /**
   * The loop of `checkCollection`: each shard's distance to the player is
   * measured once, in order; the result is the collection pass over all of them.
   */
  method CollectionPass(m: MathFns, px: real, py: real, objs: seq<ExoticParticle>) returns (p: Pass)
    ensures p == Collect(m, px, py, objs, StatesOf(objs), |objs|)
  {
    ghost var states := StatesOf(objs);
    var kept: seq<ExoticParticle> := [];
    var points := 0;
    var effects: seq<Effect> := [];
    var log: seq<Collected> := [];
    var i := 0;
    while i < |objs|
      invariant 0 <= i <= |objs|
      invariant Pass(kept, points, effects, log) == Collect(m, px, py, objs, states, i)
    {
      var s := objs[i].State();
      var distance := Hypot(m, px - s.x, py - s.y);
      if distance < CollectionRadius {
        points := points + s.value;
        effects := effects + [CollectionEffect(s)];
        log := log + [Collected(CollectedTag(s.kind), s.value)];
      } else {
        kept := kept + [objs[i]];
      }
      i := i + 1;
    }
    p := Pass(kept, points, effects, log);
  }

  /** After the first `i` shards of the loop: those have taken their step, the rest are as they were. */
  ghost predicate DriftInv(objs: seq<ExoticParticle>, before: seq<ParticleState>, scene: Scene, dt: real,
                           flickerDraws: seq<real>, i: int)
    reads objs
  {
    && |objs| == |before| <= |flickerDraws| && 0 <= i <= |objs|
    && (forall k :: 0 <= k < i ==> objs[k].State() == ShardStep(scene, dt, before[k], flickerDraws[k]))
    && (forall k :: i <= k < |objs| ==> objs[k].State() == before[k])
  }

  /** The loop body: the `i`-th shard takes its step and no other shard changes. */
  method DriftAt(objs: seq<ExoticParticle>, ghost before: seq<ParticleState>, scene: Scene, dt: real,
                 flickerDraws: seq<real>, i: nat)
    requires DriftInv(objs, before, scene, dt, flickerDraws, i) && i < |objs| && DistinctShards(objs)
    modifies objs[i]
    ensures DriftInv(objs, before, scene, dt, flickerDraws, i + 1)
  {
    assert forall k :: 0 <= k < |objs| && k != i ==> objs[k] != objs[i];
    StepShard(objs[i], scene, dt, flickerDraws[i]);
  }

  /** Once every shard has taken its step, every shard is well formed again. */
  lemma DriftedWellFormed(objs: seq<ExoticParticle>, before: seq<ParticleState>, scene: Scene, dt: real,
                          flickerDraws: seq<real>)
    requires DriftInv(objs, before, scene, dt, flickerDraws, |objs|) && 0.0 <= dt
    requires forall k :: 0 <= k < |objs| ==> WellFormed(before[k]) && IsDraw(flickerDraws[k])
    ensures forall k :: 0 <= k < |objs| ==> WellFormed(objs[k].State())
  {
    forall k | 0 <= k < |objs| ensures WellFormed(objs[k].State()) {
      ShardStepWellFormed(scene, dt, before[k], flickerDraws[k]);
    }
  }

  /** One shard's frame: the drift applied to its fields, then its own `update(dt)`. */
  method StepShard(shard: ExoticParticle, scene: Scene, dt: real, flickerDraw: real)
    modifies shard
    ensures shard.State() == ShardStep(scene, dt, old(shard.State()), flickerDraw)
  {
    DriftShard(shard, scene, dt);
    shard.Update(dt, flickerDraw);
  }

  /** The rotation drift `update` applies to one shard's position. */
  method DriftShard(shard: ExoticParticle, scene: Scene, dt: real)
    modifies shard`x, shard`y
    ensures shard.State() == old(shard.State()).(x := Drift(scene, dt, old(shard.x), old(shard.y)).x,
                                                 y := Drift(scene, dt, old(shard.x), old(shard.y)).y)
  {
    var relX := shard.x - scene.centerX;
    var relY := shard.y - scene.centerY;
    var rotationVelocityX := -relY * scene.rotationSpeed;
    var rotationVelocityY := relX * scene.rotationSpeed;
    shard.x := shard.x + rotationVelocityX * 60.0 * dt;
    shard.y := shard.y + rotationVelocityY * 60.0 * dt;
  }

  /** The kept shards are distinct, well formed and no more than before. */
  lemma KeptStaysValid(m: MathFns, px: real, py: real, objs: seq<ExoticParticle>, states: seq<ParticleState>)
    requires |objs| == |states| && DistinctShards(objs) && |objs| <= ShardCount
    requires states == StatesOf(objs) && forall k :: 0 <= k < |objs| ==> WellFormed(states[k])
    ensures var kept := Collect(m, px, py, objs, states, |objs|).kept;
            DistinctShards(kept) && |kept| <= ShardCount
            && forall k :: 0 <= k < |kept| ==> WellFormed(kept[k].State())
  {
    KeptStructure(m, px, py, objs, states, |objs|);
    var kept := Collect(m, px, py, objs, states, |objs|).kept;
    forall k | 0 <= k < |kept| ensures WellFormed(kept[k].State()) {
      assert kept[k] in kept;
      var j :| 0 <= j < |objs| && objs[j] == kept[k];
      assert WellFormed(states[j]);
    }
  }

  /** The kept shards of a prefix are distinct, no more than the prefix, and each is one of the prefix's shards. */
  lemma {:induction false} KeptStructure(m: MathFns, px: real, py: real, objs: seq<ExoticParticle>,
                                         states: seq<ParticleState>, n: nat)
    requires |objs| == |states| && n <= |objs| && DistinctShards(objs)
    ensures var kept := Collect(m, px, py, objs, states, n).kept;
            && |kept| <= n
            && (forall o :: o in kept ==> exists j :: 0 <= j < n && objs[j] == o)
            && DistinctShards(kept)
  {
    if n > 0 {
      KeptStructure(m, px, py, objs, states, n - 1);
      var prev := Collect(m, px, py, objs, states, n - 1).kept;
      if !InReach(m, px, py, states[n - 1]) {
        assert objs[n - 1] !in prev by {
          assert forall j :: 0 <= j < n - 1 ==> objs[j] != objs[n - 1];
        }
      }
    }
  }
}

=== FILE: game_controller.dfy ===
/**
 * The game controller: the score, the game-over latch, the game clock, the
 * explosion and its screen effects, restarting, and the order in which one
 * frame of the game loop drives the other components.
 */
module GameController {
  import opened JsMath
  import opened SceneManager
  import opened ClockFormat
  import P = Player
  import BH = BlackHole
  import EP = ExoticParticles
  import Shard = ExoticParticle
  import SF = Starfield

  /** Particles in one explosion. */
  const ExplosionSize: nat := 50

  /** The explosion's colours; a spark holds an index into this list. */
  const SparkColors: seq<string> := ["#ff0000", "#ff6600", "#ffff00", "#ffffff"]

  /** One particle of the explosion. */
  datatype Spark = Spark(x: real, y: real, vx: real, vy: real, life: real, color: int, size: real)

  /** The four `Math.random()` draws one spark takes: angle jitter, speed, colour and size. */
  datatype SparkDraw = SparkDraw(jitter: real, speed: real, color: real, size: real)

  ghost predicate ValidSparkDraws(ds: seq<SparkDraw>) {
    |ds| == ExplosionSize
    && forall k :: 0 <= k < |ds| ==> IsDraw(ds[k].jitter) && IsDraw(ds[k].speed) && IsDraw(ds[k].color) && IsDraw(ds[k].size)
  }

  /** `gameOverEffects`. */
  datatype Effects = Effects(shake: real, fadeIn: real, redFlash: real)

  /** The effects at the start of a game. */
  const Calm := Effects(0.0, 0.0, 0.0)

  /** The effects the moment the robot is destroyed: full shake and red flash, text invisible. */
  const Struck := Effects(1.0, 0.0, 1.0)

  /** The calls the controller makes on its reaction handlers. */
  datatype Reaction = OnPlayerDestroyed | OnShardCollected(points: int)

  /** The controller's own fields. */
  datatype Game = Game(lastTime: real, gameOver: bool, score: int, gameTime: real, sparks: seq<Spark>, effects: Effects)

  // ---------------------------------------------------------------- the explosion

  /** The `i`-th spark of an explosion at `(x, y)`: evenly spread angles with a jitter, speed in [5, 15). */
  function SparkAt(m: MathFns, x: real, y: real, i: nat, d: SparkDraw): Spark {
    var angle := Pi * 2.0 * i as real / ExplosionSize as real + d.jitter * 0.5;
    var speed := 5.0 + d.speed * 10.0;
    Spark(x, y, m.cos(angle) * speed, m.sin(angle) * speed, 1.0, Floor(d.color * |SparkColors| as real), 2.0 + d.size * 3.0)
  }

  /** `createExplosion(x, y)`: the sparks it appends, in order. */
  function Explosion(m: MathFns, x: real, y: real, ds: seq<SparkDraw>): (r: seq<Spark>)
    ensures |r| == |ds|
  {
    seq(|ds|, i requires 0 <= i < |ds| => SparkAt(m, x, y, i, ds[i]))
  }

  /** Fifty sparks, all at the point, with full life, a colour from the list, a size in [2, 5) and, given Pythagoras, a speed in [5, 15). */
  lemma ExplosionFacts(m: MathFns, x: real, y: real, ds: seq<SparkDraw>)
    requires ValidSparkDraws(ds)
    ensures var r := Explosion(m, x, y, ds);
            && |r| == ExplosionSize
            && forall k :: 0 <= k < |r| ==>
                 && r[k].x == x && r[k].y == y && r[k].life == 1.0
                 && 0 <= r[k].color < |SparkColors|
                 && 2.0 <= r[k].size < 5.0
                 && (RotationLaws(m) ==> 25.0 <= Sq(r[k].vx) + Sq(r[k].vy) < 225.0)
  {
    var r := Explosion(m, x, y, ds);
    forall k | 0 <= k < |r|
      ensures 0 <= r[k].color < |SparkColors| && 2.0 <= r[k].size < 5.0
      ensures RotationLaws(m) ==> 25.0 <= Sq(r[k].vx) + Sq(r[k].vy) < 225.0
    {
      ScaledDrawIndex(ds[k].color, |SparkColors|);
      if RotationLaws(m) {
        SparkSpeed(m, Pi * 2.0 * k as real / ExplosionSize as real + ds[k].jitter * 0.5, 5.0 + ds[k].speed * 10.0);
      }
    }
  }

  /** A velocity of length `speed` in direction `angle` has squared length `speed²`. */
  lemma SparkSpeed(m: MathFns, angle: real, speed: real)
    requires RotationLaws(m) && 5.0 <= speed < 15.0
    ensures 25.0 <= Sq(m.cos(angle) * speed) + Sq(m.sin(angle) * speed) < 225.0
  {
    SqMul(m.cos(angle), speed);
    SqMul(m.sin(angle), speed);
    assert Sq(m.cos(angle)) + Sq(m.sin(angle)) == 1.0;
    assert Sq(m.cos(angle)) * Sq(speed) + Sq(m.sin(angle)) * Sq(speed) == (Sq(m.cos(angle)) + Sq(m.sin(angle))) * Sq(speed);
    SquaresFromFive(speed, 15.0);
  }

  /** `5 <= a < b` squares to `25 <= a² < b²`. */
  lemma SquaresFromFive(a: real, b: real)
    requires 5.0 <= a < b
    ensures 25.0 <= Sq(a) < Sq(b)
  {
    assert a * a < b * a;
    assert b * a < b * b;
  }

  // ---------------------------------------------------------------- the game-over latch

  /** The game ends: an explosion at the robot, full shake and flash, the text starting invisible. */
  function Obliterated(g: Game, m: MathFns, x: real, y: real, ds: seq<SparkDraw>): Game {
    g.(gameOver := true, sparks := g.sparks + Explosion(m, x, y, ds), effects := Struck)
  }

  /** `handlePlayerDestroyed()`: only a running game ends. */
  function Destroyed(g: Game, m: MathFns, x: real, y: real, ds: seq<SparkDraw>): Game {
    if g.gameOver then g else Obliterated(g, m, x, y, ds)
  }

  /** A running game ends with one explosion; an ended game is untouched, so a second trigger changes nothing. */
  lemma DestroyedLatch(g: Game, m: MathFns, x: real, y: real, ds: seq<SparkDraw>, ds2: seq<SparkDraw>)
    ensures var h := Destroyed(g, m, x, y, ds);
            && h.gameOver && h.score == g.score && h.gameTime == g.gameTime
            && (g.gameOver ==> h == g)
            && (!g.gameOver ==> h.sparks == g.sparks + Explosion(m, x, y, ds) && h.effects == Struck)
            && Destroyed(h, m, x, y, ds2) == h
  {
  }

  // ---------------------------------------------------------------- the shard tally on the player

  /** `player.dataShards += 1`: `undefined` and `NaN` become `NaN`. */
  function Bump(t: P.Tally): (r: P.Tally)
    ensures t.Count? <==> r.Count?
  {
    match t
    case Count(n) => P.Count(n + 1)
    case _ => P.NotANumber
  }

  /** `player.dataShards <= 0`: false for `undefined` and `NaN`. */
  predicate Depleted(t: P.Tally) {
    t.Count? && t.n <= 0
  }

  /** What the controller does to the tally keeps it from ever being depleted. */
  predicate TallyOk(t: P.Tally) {
    !Depleted(t)
  }

  lemma BumpKeepsTally(t: P.Tally)
    requires TallyOk(t)
    ensures TallyOk(Bump(t))
    ensures t.Count? ==> Bump(t) == P.Count(t.n + 1)
  {
  }

  // ---------------------------------------------------------------- collisions

  /** The controller, the tally and the reactions after the scoring half of `checkCollisions`. */
  datatype Tallied = Tallied(game: Game, shards: P.Tally, reactions: seq<Reaction>)

  /**
   * The collection part of `checkCollisions`, given the points `checkCollection`
   * returned: score and tally, then the "no shards and trapped" check.
   */
  function Scored(g: Game, t: P.Tally, points: int, trapped: bool, m: MathFns, x: real, y: real, ds: seq<SparkDraw>): Tallied {
    var c := if points > 0 then Tallied(g.(score := g.score + points), Bump(t), [OnShardCollected(points)])
             else Tallied(g, t, []);
    if Depleted(c.shards) && trapped && !c.game.gameOver then
      Tallied(Obliterated(c.game, m, x, y, ds), c.shards, c.reactions + [OnPlayerDestroyed])
    else c
  }

  /**
   * Collected points raise the score by exactly that much and the tally by
   * exactly one; nothing else of the controller changes, because with a tally
   * the controller keeps the "no shards left" branch never fires.
   */
  lemma ScoredFacts(g: Game, t: P.Tally, points: int, trapped: bool, m: MathFns, x: real, y: real, ds: seq<SparkDraw>)
    requires TallyOk(t)
    ensures var c := Scored(g, t, points, trapped, m, x, y, ds);
            && TallyOk(c.shards)
            && (points > 0 ==> c.game == g.(score := g.score + points) && c.shards == Bump(t) && c.reactions == [OnShardCollected(points)])
            && (points <= 0 ==> c == Tallied(g, t, []))
  {
  }

  /** The "no shards left while trapped" branch can fire, but only from a tally the controller never produces. */
  lemma DepletedBranch(g: Game, m: MathFns, x: real, y: real, ds: seq<SparkDraw>)
    requires !g.gameOver
    ensures Scored(g, P.Count(0), 0, true, m, x, y, ds).game.gameOver
    ensures !TallyOk(P.Count(0))
  {
  }

  /**
   * The whole of `checkCollisions` on the controller, the tally and the
   * reactions: a hit on the hole in a running game ends it before any
   * collection; otherwise the collected points are scored.
   */
  function Collided(g: Game, t: P.Tally, hit: bool, points: int, trapped: bool, m: MathFns, x: real, y: real, ds: seq<SparkDraw>): Tallied {
    if hit && !g.gameOver then Tallied(Obliterated(g, m, x, y, ds), t, [OnPlayerDestroyed])
    else Scored(g, t, points, trapped, m, x, y, ds)
  }

  /**
   * A hit in a running game ends it with the score and tally kept and one
   * "destroyed" reaction; an ended game stays ended; the score never falls
   * for non-negative points; a tally that is not depleted stays so.
   */
  lemma CollidedFacts(g: Game, t: P.Tally, hit: bool, points: int, trapped: bool, m: MathFns, x: real, y: real, ds: seq<SparkDraw>)
    requires TallyOk(t)
    ensures var c := Collided(g, t, hit, points, trapped, m, x, y, ds);
            && TallyOk(c.shards)
            && (hit && !g.gameOver ==> c.game.gameOver && c.game.score == g.score && c.shards == t && c.reactions == [OnPlayerDestroyed])
            && (!(hit && !g.gameOver) ==> c.game.gameOver == g.gameOver)
            && (g.gameOver ==> c.game.gameOver)
            && (0 <= points ==> g.score <= c.game.score)
  {
    if !(hit && !g.gameOver) {
      ScoredFacts(g, t, points, trapped, m, x, y, ds);
    }
  }

  /**
   * The controller's listener on the robot's frame `o`: a "destroyed" event
   * in a running game ends it at the robot's new position.
   */
  function Heard(g: Game, o: P.Outcome, m: MathFns, ds: seq<SparkDraw>): Tallied {
    if P.Destroyed in o.events && !g.gameOver then
      Tallied(Obliterated(g, m, o.state.body.x, o.state.body.y, ds), o.state.dataShards, [OnPlayerDestroyed])
    else Tallied(g, o.state.dataShards, [])
  }

  // ---------------------------------------------------------------- the end screen

  /** One frame of a spark on the end screen. */
  function Fly(p: Spark): Spark {
    p.(x := p.x + p.vx, y := p.y + p.vy, life := p.life - 0.02, size := p.size * 0.99)
  }

  /** The sparks from index `from` on after a frame: each flown, those with no life left dropped, order kept. */
  function Burnt(ps: seq<Spark>, from: nat): seq<Spark>
    requires from <= |ps|
    decreases |ps| - from
  {
    if from == |ps| then []
    else if Fly(ps[from]).life <= 0.0 then Burnt(ps, from + 1)
    else [Fly(ps[from])] + Burnt(ps, from + 1)
  }

  /** Every spark left has life; every spark with more than 0.02 of life survives the frame; none are added. */
  lemma {:induction false} BurntFacts(ps: seq<Spark>, from: nat)
    requires from <= |ps|
    decreases |ps| - from
    ensures forall p :: p in Burnt(ps, from) ==> p.life > 0.0
    ensures forall k :: from <= k < |ps| && ps[k].life > 0.02 ==> Fly(ps[k]) in Burnt(ps, from)
    ensures |Burnt(ps, from)| <= |ps| - from
  {
    if from < |ps| {
      BurntFacts(ps, from + 1);
    }
  }

  /** The effects' part of `drawGameOver`: the text fades in by 0.02 up to 1, shake and flash decay. */
  function Settled(e: Effects): Effects {
    Effects(if e.shake > 0.0 then e.shake * 0.95 else e.shake, Min(1.0, e.fadeIn + 0.02), e.redFlash * 0.95)
  }

  /** The fade-in never passes 1 and never falls, and the shake only decays. */
  lemma SettledFacts(e: Effects)
    requires 0.0 <= e.fadeIn <= 1.0
    ensures var s := Settled(e);
            && e.fadeIn <= s.fadeIn <= 1.0
            && (e.fadeIn < 1.0 ==> s.fadeIn == Min(1.0, e.fadeIn + 0.02))
            && (e.shake >= 0.0 ==> 0.0 <= s.shake <= e.shake)
  {
  }

  /** The effects after `n` end-screen frames. */
  function SettledFor(e: Effects, n: nat): Effects {
    if n == 0 then e else Settled(SettledFor(e, n - 1))
  }

  /**
   * After `n` end-screen frames the fade-in is `min(1, start + n / 50)`: from
   * 0 the text is fully shown at the fiftieth frame and not before.
   */
  lemma {:induction false} FadeInAfter(e: Effects, n: nat)
    requires 0.0 <= e.fadeIn <= 1.0
    ensures SettledFor(e, n).fadeIn == Min(1.0, e.fadeIn + 0.02 * n as real)
    ensures e.fadeIn == 0.0 ==> (SettledFor(e, n).fadeIn == 1.0 <==> n >= 50)
  {
    if n > 0 {
      FadeInAfter(e, n - 1);
    }
  }

  /** The state part of `drawGameOver`. */
  function Settle(g: Game): Game {
    g.(sparks := Burnt(g.sparks, 0), effects := Settled(g.effects))
  }

  // ---------------------------------------------------------------- restart and clock

  /** `restart()`: the controller's own fields back to a new game; the frame clock is kept. */
  function Restarted(g: Game): Game {
    Game(g.lastTime, false, 0, 0.0, [], Calm)
  }

  /** Restarting twice is restarting once, and a restarted game is running with nothing on the clock. */
  lemma RestartedFacts(g: Game)
    ensures var r := Restarted(g);
            && !r.gameOver && r.score == 0 && r.gameTime == 0.0 && r.sparks == [] && r.effects == Calm
            && r.lastTime == g.lastTime && Restarted(r) == r
  {
  }

  /** The seconds between two frame timestamps given in milliseconds. */
  function FrameSeconds(lastTime: real, currentTime: real): real {
    (currentTime - lastTime) / 1000.0
  }

  /** The clock part of `gameLoop`: the timestamp is recorded; game time runs only while the game is on. */
  function Clocked(g: Game, currentTime: real): Game {
    var dt := FrameSeconds(g.lastTime, currentTime);
    g.(lastTime := currentTime, gameTime := if g.gameOver then g.gameTime else g.gameTime + dt)
  }

  lemma ClockedFacts(g: Game, currentTime: real)
    requires g.lastTime <= currentTime
    ensures var c := Clocked(g, currentTime);
            && c.lastTime == currentTime && c.gameOver == g.gameOver && c.score == g.score
            && (g.gameOver ==> c.gameTime == g.gameTime)
            && (!g.gameOver ==> c.gameTime == g.gameTime + (currentTime - g.lastTime) / 1000.0 >= g.gameTime)
  {
  }

  // ---------------------------------------------------------------- the inputs of a frame

  /** Every draw one frame of the game loop may take. */
  datatype FrameInputs = FrameInputs(hole: BH.FrameDraws, shard: EP.ShardDraws, flicker: seq<real>, sparks: seq<SparkDraw>)

  ghost predicate ValidInputs(d: FrameInputs) {
    BH.ValidFrameDraws(d.hole) && EP.ValidShardDraws(d.shard)
    && |d.flicker| == EP.ShardCount && (forall k :: 0 <= k < EP.ShardCount ==> IsDraw(d.flicker[k]))
    && ValidSparkDraws(d.sparks)
  }

  class GameController {
    const sceneManager: SceneManager
    const player: P.Player
    const blackHole: BH.BlackHole
    const starfield: SF.Starfield
    const dataShards: EP.ExoticParticles
    var lastTime: real
    var gameOver: bool
    var score: int
    var gameTime: real
    var explosionParticles: seq<Spark>
    var gameOverEffects: Effects
    /** The reaction handlers called so far. */
    ghost var reactions: seq<Reaction>

    function GameOf(): Game
      reads this`lastTime, this`gameOver, this`score, this`gameTime, this`explosionParticles, this`gameOverEffects
    {
      Game(lastTime, gameOver, score, gameTime, explosionParticles, gameOverEffects)
    }

    /** The components are well formed and the controller's own invariant holds. */
    ghost predicate Valid()
      reads this`gameTime, this`gameOverEffects, blackHole, starfield, starfield.shredPool, dataShards`shards, dataShards.shards
      reads player`dataShards
    {
      blackHole.Valid() && starfield.Valid() && dataShards.Valid() && Own()
    }

    /** The clock is not negative, the fade-in is in [0, 1] and the tally is never depleted. */
    ghost predicate Own()
      reads this`gameTime, this`gameOverEffects, player`dataShards
    {
      0.0 <= gameTime && 0.0 <= gameOverEffects.fadeIn <= 1.0 && TallyOk(player.dataShards)
    }

    /**
     * The collisions of a frame were checked from the game `g`, the tally `t`
     * and the reactions `r` against the shards `stepped`: the controller, the
     * tally and the reactions are those of `Collided`, and the shards left are
     * `stepped` after a hit in a running game, the uncollected ones otherwise.
     */
    ghost predicate CollisionsChecked(m: MathFns, g: Game, t: P.Tally, r: seq<Reaction>,
                                      stepped: seq<Shard.ExoticParticle>, ds: seq<SparkDraw>)
      reads this, player, blackHole, dataShards, stepped
    {
      var hit := player.CheckCollision(m, blackHole.x, blackHole.y, blackHole.radius);
      var p := EP.Collect(m, player.x, player.y, stepped, EP.StatesOf(stepped), |stepped|);
      var c := Collided(g, t, hit, p.points, player.isTrapped, m, player.x, player.y, ds);
      && GameOf() == c.game && player.dataShards == c.shards && reactions == r + c.reactions
      && dataShards.shards == if hit && !g.gameOver then stepped else p.kept
    }

    /**
     * A running frame's robot and shards, from the game `g`, the robot `ps`,
     * the shard states `states`, the spawn timer `timer` and the reactions
     * `r`: `stepped` are the shards after one shard update, `o` is the
     * robot's frame against the hole as it now is, the robot is that frame's
     * robot, and the collisions were checked from what the listener left.
     */
    ghost predicate Acted(m: MathFns, g: Game, ps: P.PlayerState, states: seq<Shard.ParticleState>, timer: real, r: seq<Reaction>,
                          scene: Scene, dt: real, now: real, d: FrameInputs, o: P.Outcome, stepped: seq<Shard.ExoticParticle>)
      reads this, player, blackHole, dataShards, dataShards.particleFactory, stepped
    {
      && |states| <= EP.ShardCount && |d.flicker| == EP.ShardCount
      && EP.StatesOf(stepped) == EP.AfterUpdate(dataShards.particleFactory.particleTypes, scene, dt, states, timer, d.shard, d.flicker)
      && o == P.Tick(m, ps, scene, Some(blackHole.View()), dt, now)
      && player.BodyOf() == o.state.body && player.TrapOf() == o.state.trap && player.DriveOf() == o.state.drive
      && var h := Heard(g, o, m, d.sparks);
         CollisionsChecked(m, h.game, h.shards, r + h.reactions, stepped, d.sparks)
    }

    /** The hole took one frame of `dt` seconds from the wander `w` and the clock `t`, following `robot` when there is one. */
    ghost predicate Drifted(m: MathFns, w: BH.Wander, t: real, scene: Scene, robot: Option<Point>, dt: real, mv: BH.MoveDraws)
      reads blackHole
    {
      blackHole.gameTime == t + dt && blackHole.WanderOf() == BH.Move(m, w, blackHole.gameTime, scene, robot, dt, mv)
    }

    /** An end-screen frame from the game `g`: the end screen settled, and the reactions `r`, the robot `ps` and the shards `shards` stay. */
    ghost predicate Idled(g: Game, r: seq<Reaction>, ps: P.PlayerState, shards: seq<Shard.ExoticParticle>)
      reads this, player, dataShards
    {
      GameOf() == Settle(g) && reactions == r && player.State() == ps && dataShards.shards == shards
    }

    constructor (sceneManager: SceneManager, player: P.Player, blackHole: BH.BlackHole, starfield: SF.Starfield, dataShards: EP.ExoticParticles)
      ensures this.sceneManager == sceneManager && this.player == player && this.blackHole == blackHole
      ensures this.starfield == starfield && this.dataShards == dataShards
      ensures GameOf() == Game(0.0, false, 0, 0.0, [], Calm) && reactions == []
    {
      this.sceneManager := sceneManager;
      this.player := player;
      this.blackHole := blackHole;
      this.starfield := starfield;
      this.dataShards := dataShards;
      lastTime, gameOver, score, gameTime := 0.0, false, 0, 0.0;
      explosionParticles, gameOverEffects := [], Calm;
      reactions := [];
    }

    /** `createExplosion(x, y)`: fifty sparks appended, one per turn of the loop. */
    method CreateExplosion(m: MathFns, x: real, y: real, ds: seq<SparkDraw>)
      requires |ds| == ExplosionSize
      modifies this`explosionParticles
      ensures explosionParticles == old(explosionParticles) + Explosion(m, x, y, ds)
    {
      var i := 0;
      while i < ExplosionSize
        invariant 0 <= i <= ExplosionSize
        invariant explosionParticles == old(explosionParticles) + Explosion(m, x, y, ds)[..i]
      {
        var angle := Pi * 2.0 * i as real / ExplosionSize as real + ds[i].jitter * 0.5;
        var speed := 5.0 + ds[i].speed * 10.0;
        var spark := Spark(x, y, m.cos(angle) * speed, m.sin(angle) * speed, 1.0,
                           Floor(ds[i].color * |SparkColors| as real), 2.0 + ds[i].size * 3.0);
        assert spark == Explosion(m, x, y, ds)[i];
        assert Explosion(m, x, y, ds)[..i + 1] == Explosion(m, x, y, ds)[..i] + [spark];
        explosionParticles := explosionParticles + [spark];
        i := i + 1;
      }
    }

    /** The game ends at the robot's position: explosion, effects, latch, reaction. */
    method Obliterate(m: MathFns, ds: seq<SparkDraw>)
      requires |ds| == ExplosionSize
      modifies this`gameOver, this`explosionParticles, this`gameOverEffects, this`reactions
      ensures GameOf() == Obliterated(old(GameOf()), m, player.x, player.y, ds)
      ensures reactions == old(reactions) + [OnPlayerDestroyed]
      ensures player.Motion() == old(player.Motion()) && EP.StatesOf(dataShards.shards) == old(EP.StatesOf(dataShards.shards))
    {
      CreateExplosion(m, player.x, player.y, ds);
      gameOverEffects := Struck;
      gameOver := true;
      reactions := reactions + [OnPlayerDestroyed];
    }

    /** `handlePlayerDestroyed()`, the listener of the player's "destroyed" event. */
    method HandlePlayerDestroyed(m: MathFns, ds: seq<SparkDraw>)
      requires |ds| == ExplosionSize
      modifies this`gameOver, this`explosionParticles, this`gameOverEffects, this`reactions
      ensures GameOf() == Destroyed(old(GameOf()), m, player.x, player.y, ds)
      ensures reactions == old(reactions) + (if old(gameOver) then [] else [OnPlayerDestroyed])
    {
      if !gameOver {
        Obliterate(m, ds);
      }
    }

    /**
     * `checkCollisions()`, returning the points collected (0 when the pass
     * stopped at a body collision): a collision with the hole in a running game
     * ends it and skips the collection; otherwise the shards within reach are
     * collected and scored.
     */
    method CheckCollisions(m: MathFns, ds: seq<SparkDraw>) returns (collected: int)
      requires dataShards.Valid() && Own() && |ds| == ExplosionSize
      modifies this`gameOver, this`score, this`explosionParticles, this`gameOverEffects, this`reactions
      modifies player`dataShards, dataShards`shards, dataShards`collectionEffects, dataShards`events
      ensures dataShards.Valid() && Own()
      ensures var hit := player.CheckCollision(m, blackHole.x, blackHole.y, blackHole.radius);
              var p := EP.Collect(m, player.x, player.y, old(dataShards.shards), old(EP.StatesOf(dataShards.shards)),
                                  old(|dataShards.shards|));
              var c := Collided(old(GameOf()), old(player.dataShards), hit, p.points, player.isTrapped, m, player.x, player.y, ds);
              && GameOf() == c.game && player.dataShards == c.shards && reactions == old(reactions) + c.reactions
              && if hit && !old(gameOver) then
                   && collected == 0 && dataShards.shards == old(dataShards.shards)
                   && dataShards.collectionEffects == old(dataShards.collectionEffects) && dataShards.events == old(dataShards.events)
                 else
                   && collected == p.points && dataShards.shards == p.kept
                   && dataShards.collectionEffects == old(dataShards.collectionEffects) + p.effects
                   && dataShards.events == old(dataShards.events) + p.events
      ensures EP.StatesOf(old(dataShards.shards)) == old(EP.StatesOf(dataShards.shards))
      ensures player.Motion() == old(player.Motion())
    {
      if player.CheckCollision(m, blackHole.x, blackHole.y, blackHole.radius) && !gameOver {
        Obliterate(m, ds);
        return 0;
      }
      collected := Harvest(m, ds);
    }

    /** The collection half of `checkCollisions`: the shards within reach are collected and scored. */
    method Harvest(m: MathFns, ds: seq<SparkDraw>) returns (collected: int)
      requires dataShards.Valid() && Own() && |ds| == ExplosionSize
      modifies this`gameOver, this`score, this`explosionParticles, this`gameOverEffects, this`reactions
      modifies player`dataShards, dataShards`shards, dataShards`collectionEffects, dataShards`events
      ensures dataShards.Valid() && Own()
      ensures var p := EP.Collect(m, player.x, player.y, old(dataShards.shards), old(EP.StatesOf(dataShards.shards)),
                                  old(|dataShards.shards|));
              var c := Scored(old(GameOf()), old(player.dataShards), p.points, player.isTrapped, m, player.x, player.y, ds);
              && GameOf() == c.game && player.dataShards == c.shards && reactions == old(reactions) + c.reactions
              && collected == p.points && dataShards.shards == p.kept
              && dataShards.collectionEffects == old(dataShards.collectionEffects) + p.effects
              && dataShards.events == old(dataShards.events) + p.events
      ensures EP.StatesOf(old(dataShards.shards)) == old(EP.StatesOf(dataShards.shards))
      ensures player.Motion() == old(player.Motion())
    {
      ghost var p := EP.Collect(m, player.x, player.y, dataShards.shards, EP.StatesOf(dataShards.shards), |dataShards.shards|);
      collected := dataShards.CheckCollection(m, player.x, player.y);
      assert collected == p.points && dataShards.shards == p.kept;
      ghost var before := EP.StatesOf(old(dataShards.shards));
      ghost var c := Scored(old(GameOf()), old(player.dataShards), p.points, player.isTrapped, m, player.x, player.y, ds);
      ScoredFacts(GameOf(), player.dataShards, collected, player.isTrapped, m, player.x, player.y, ds);
      Score(m, collected, ds);
      assert GameOf() == c.game && player.dataShards == c.shards;
      assert EP.StatesOf(old(dataShards.shards)) == before;
    }

    /** The scoring half of `checkCollisions`, given the points collected. */
    method Score(m: MathFns, collected: int, ds: seq<SparkDraw>)
      requires |ds| == ExplosionSize
      modifies this`gameOver, this`score, this`explosionParticles, this`gameOverEffects, this`reactions, player`dataShards
      ensures var c := Scored(old(GameOf()), old(player.dataShards), collected, player.isTrapped, m, player.x, player.y, ds);
              GameOf() == c.game && player.dataShards == c.shards && reactions == old(reactions) + c.reactions
      ensures player.Motion() == old(player.Motion()) && EP.StatesOf(dataShards.shards) == old(EP.StatesOf(dataShards.shards))
    {
      if collected > 0 {
        score := score + collected;
        player.dataShards := Bump(player.dataShards);
        reactions := reactions + [OnShardCollected(collected)];
      }
      if Depleted(player.dataShards) && player.isTrapped {
        if !gameOver {
          Obliterate(m, ds);
        }
      }
    }

    /** The shard field after `reset()`: no effects, the timer at 0 and fresh shards in the states the five spawn calls place. */
    ghost predicate FieldRenewed(scene: Scene, shardDraws: seq<EP.ShardDraws>)
      reads dataShards, dataShards.particleFactory, dataShards.shards
    {
      && |shardDraws| == EP.ShardCount / 2
      && dataShards.collectionEffects == [] && dataShards.spawnTimer == 0.0
      && EP.StatesOf(dataShards.shards) == EP.PlacedStates(dataShards.particleFactory.particleTypes, scene, shardDraws, |shardDraws|)
    }

    /**
     * The hole after `reset()`, from its pulse `p0` and the fields `kept0` it
     * leaves alone: at the centre with its start wander, clock, rings, warning
     * and rotation offset, its pulse restarted with a re-drawn speed.
     */
    ghost predicate HoleRenewed(scene: Scene, pulseDraw: real, p0: BH.Pulse, kept0: BH.Kept)
      reads blackHole
    {
      && blackHole.WanderOf() == BH.Wander(scene.centerX, scene.centerY, scene.centerX, scene.centerY, 0.0, 5.0, 30.0)
      && blackHole.PulseOf() == BH.Pulse(0.0, 0.5 + pulseDraw * 0.5, p0.range)
      && blackHole.gameTime == 0.0 && blackHole.consumedShardEffects == [] && blackHole.warningPulse == 0.0
      && blackHole.rotationOffset == 0.0 && blackHole.KeptOf() == kept0
    }

    /** `restart()`: a new game, the robot and the shard field reset, the tally at 1, the hole reset. */
    method Restart(scene: Scene, shardDraws: seq<EP.ShardDraws>, pulseDraw: real)
      requires Valid() && IsDraw(pulseDraw)
      requires scene == sceneManager.View()
      requires |shardDraws| == EP.ShardCount / 2 && forall k :: 0 <= k < |shardDraws| ==> EP.ValidShardDraws(shardDraws[k])
      modifies this`gameOver, this`score, this`gameTime, this`explosionParticles, this`gameOverEffects
      modifies player, dataShards`shards, dataShards`spawnTimer, dataShards`collectionEffects, blackHole
      ensures Valid()
      ensures GameOf() == Restarted(old(GameOf()))
      ensures player.State() == P.ResetState(old(player.State()), scene).(dataShards := P.Count(1))
      ensures |dataShards.shards| == EP.Placed(scene, shardDraws, |shardDraws|) && dataShards.spawnTimer == 0.0
      ensures FieldRenewed(scene, shardDraws)
      ensures HoleRenewed(scene, pulseDraw, old(blackHole.PulseOf()), old(blackHole.KeptOf()))
    {
      ghost var p0, k0 := blackHole.PulseOf(), blackHole.KeptOf();
      ResetGame();
      RenewRobotAndField(scene, shardDraws);
      blackHole.Reset(scene, pulseDraw);
      assert HoleRenewed(scene, pulseDraw, p0, k0);
    }

    /** The middle of `restart()`: the robot and the shard field reset, then the tally set to 1. */
    method RenewRobotAndField(scene: Scene, shardDraws: seq<EP.ShardDraws>)
      requires |shardDraws| == EP.ShardCount / 2 && forall k :: 0 <= k < |shardDraws| ==> EP.ValidShardDraws(shardDraws[k])
      modifies player, dataShards`shards, dataShards`spawnTimer, dataShards`collectionEffects
      ensures player.State() == P.ResetState(old(player.State()), scene).(dataShards := P.Count(1))
      ensures dataShards.Valid() && |dataShards.shards| == EP.Placed(scene, shardDraws, |shardDraws|)
      ensures FieldRenewed(scene, shardDraws)
    {
      player.Reset(scene);
      dataShards.Reset(scene, shardDraws);
      player.dataShards := P.Count(1);
    }

    method ResetGame()
      modifies this`gameOver, this`score, this`gameTime, this`explosionParticles, this`gameOverEffects
      ensures GameOf() == Restarted(old(GameOf()))
    {
      gameOver, score, gameTime := false, 0, 0.0;
      explosionParticles, gameOverEffects := [], Calm;
    }

    /** `handleKeydown(e)`: 'r' on the end screen restarts and is not passed on; every other key goes to the player. */
    method HandleKeydown(m: MathFns, scene: Scene, key: string, now: real, shardDraws: seq<EP.ShardDraws>, pulseDraw: real)
      requires Valid() && IsDraw(pulseDraw)
      requires scene == sceneManager.View()
      requires |shardDraws| == EP.ShardCount / 2 && forall k :: 0 <= k < |shardDraws| ==> EP.ValidShardDraws(shardDraws[k])
      modifies this`gameOver, this`score, this`gameTime, this`explosionParticles, this`gameOverEffects
      modifies player, dataShards`shards, dataShards`spawnTimer, dataShards`collectionEffects, blackHole
      ensures Valid()
      ensures old(gameOver) && key == "r" ==>
                GameOf() == Restarted(old(GameOf())) && player.State() == P.ResetState(old(player.State()), scene).(dataShards := P.Count(1))
                && FieldRenewed(scene, shardDraws) && HoleRenewed(scene, pulseDraw, old(blackHole.PulseOf()), old(blackHole.KeptOf()))
      ensures !(old(gameOver) && key == "r") ==> unchanged(blackHole) && unchanged(dataShards) && dataShards.shards == old(dataShards.shards)
      ensures !(old(gameOver) && key == "r") ==>
                GameOf() == old(GameOf()) && player.State() == P.KeyDown(m, old(player.State()), scene, key, now).state
    {
      if gameOver && key == "r" {
        Restart(scene, shardDraws, pulseDraw);
        return;
      }
      player.HandleKeydown(m, scene, key, now);
    }

    /** `handleKeyup(e)`: every key goes to the player. */
    method HandleKeyup(key: string)
      modifies player
      ensures player.State() == P.KeyUp(old(player.State()), key)
    {
      player.HandleKeyup(key);
    }

    /** The end-screen state updates of `drawGameOver`: the sparks fly and burn out, the effects settle. */
    method DrawGameOver()
      requires Own()
      modifies this`explosionParticles, this`gameOverEffects
      ensures Own()
      ensures GameOf() == Settle(old(GameOf()))
    {
      SettledFacts(gameOverEffects);
      explosionParticles := BurnSparks(explosionParticles);
      gameOverEffects := Settled(gameOverEffects);
    }

    /**
     * One frame of `gameLoop(currentTime)`, `now` being the wall clock: the
     * universe turns; while the game is on the clock runs, the hole takes the
     * game time, and the stars, the hole, the robot (towards the hole where it
     * now is) and the shards move in that order before the collisions are
     * checked; on the end screen the stars and the hole move without the robot
     * and the end screen settles.
     */
    method GameLoop(m: MathFns, currentTime: real, now: real, d: FrameInputs)
      returns (ghost o: P.Outcome, ghost stepped: seq<Shard.ExoticParticle>)
      requires Valid() && ValidInputs(d) && lastTime <= currentTime
      modifies this`lastTime, this`gameOver, this`score, this`gameTime, this`explosionParticles, this`gameOverEffects
      modifies this`reactions, sceneManager`universeRotationAngle, starfield`shreds, starfield`frameCounter
      modifies starfield.shredPool`pool, starfield.shreds, blackHole, player
      modifies dataShards`shards, dataShards`spawnTimer, dataShards`collectionEffects, dataShards`events, dataShards.shards
      ensures Valid()
      ensures lastTime == currentTime && gameTime == Clocked(old(GameOf()), currentTime).gameTime
      ensures Drifted(m, old(blackHole.WanderOf()), if old(gameOver) then old(blackHole.gameTime) else gameTime,
                      old(sceneManager.View()), if old(gameOver) then None else Some(Point(old(player.x), old(player.y))),
                      FrameSeconds(old(lastTime), currentTime), d.hole.move)
      ensures old(gameOver) ==>
                Idled(Clocked(old(GameOf()), currentTime), old(reactions), old(player.State()), old(dataShards.shards))
      ensures !old(gameOver) ==>
                Acted(m, Clocked(old(GameOf()), currentTime), old(player.State()), old(EP.StatesOf(dataShards.shards)),
                      old(dataShards.spawnTimer), old(reactions), old(sceneManager.View()), FrameSeconds(old(lastTime), currentTime),
                      now, d, o, stepped)
    {
      var scene := sceneManager.View();
      var dt := StartFrame(currentTime);
      o, stepped := Proceed(m, scene, dt, now, d);
    }

    /** The branch of `gameLoop` after the clocks: a running frame, or an end-screen frame. */
    method Proceed(m: MathFns, scene: Scene, dt: real, now: real, d: FrameInputs)
      returns (ghost o: P.Outcome, ghost stepped: seq<Shard.ExoticParticle>)
      requires Valid() && ValidInputs(d) && 0.0 <= dt
      modifies this`gameOver, this`score, this`explosionParticles, this`gameOverEffects, this`reactions
      modifies starfield`shreds, starfield`frameCounter, starfield.shredPool`pool, starfield.shreds, blackHole, player
      modifies dataShards`shards, dataShards`spawnTimer, dataShards`collectionEffects, dataShards`events, dataShards.shards
      ensures Valid() && lastTime == old(lastTime) && gameTime == old(gameTime)
      ensures Drifted(m, old(blackHole.WanderOf()), old(blackHole.gameTime), scene,
                      if old(gameOver) then None else Some(Point(old(player.x), old(player.y))), dt, d.hole.move)
      ensures old(gameOver) ==> Idled(old(GameOf()), old(reactions), old(player.State()), old(dataShards.shards))
      ensures !old(gameOver) ==>
                Acted(m, old(GameOf()), old(player.State()), old(EP.StatesOf(dataShards.shards)), old(dataShards.spawnTimer),
                      old(reactions), scene, dt, now, d, o, stepped)
    {
      if !gameOver {
        o, stepped := Play(m, scene, dt, now, d);
      } else {
        o, stepped := P.Outcome(player.State(), [], P.Continue), [];
        Idle(m, scene, dt, now, d);
      }
    }

    /** The clocks of `gameLoop`: the timestamp, the universe's turn, and while the game is on the game time and the hole's copy of it. */
    method StartFrame(currentTime: real) returns (dt: real)
      requires Valid() && lastTime <= currentTime
      modifies this`lastTime, this`gameTime, sceneManager`universeRotationAngle, blackHole`gameTime
      ensures dt == FrameSeconds(old(lastTime), currentTime) && 0.0 <= dt
      ensures GameOf() == Clocked(old(GameOf()), currentTime)
      ensures Valid()
      ensures blackHole.gameTime == if gameOver then old(blackHole.gameTime) else gameTime
      ensures blackHole.WanderOf() == old(blackHole.WanderOf()) && reactions == old(reactions)
      ensures player.State() == old(player.State()) && dataShards.shards == old(dataShards.shards)
      ensures EP.StatesOf(dataShards.shards) == old(EP.StatesOf(dataShards.shards)) && dataShards.spawnTimer == old(dataShards.spawnTimer)
      ensures sceneManager.universeRotationAngle
                == AdvanceAngle(old(sceneManager.universeRotationAngle), sceneManager.universeRotationSpeed * dt)
    {
      dt := FrameSeconds(lastTime, currentTime);
      lastTime := currentTime;
      sceneManager.UpdateUniverseRotation(dt);
      if !gameOver {
        RunClock(dt);
      }
    }

    /** While the game is on, the game time runs and the hole takes a copy of it. */
    method RunClock(dt: real)
      requires blackHole.Valid() && 0.0 <= gameTime && 0.0 <= dt
      modifies this`gameTime, blackHole`gameTime
      ensures blackHole.Valid() && gameTime == old(gameTime) + dt && blackHole.gameTime == gameTime
    {
      gameTime := gameTime + dt;
      blackHole.gameTime := gameTime;
    }

    /**
     * The running branch of `gameLoop` after the clocks: the hole moves
     * toward where the robot was, then the robot acts against the hole where
     * it now is.
     */
    method Play(m: MathFns, scene: Scene, dt: real, now: real, d: FrameInputs)
      returns (ghost o: P.Outcome, ghost stepped: seq<Shard.ExoticParticle>)
      requires Valid() && ValidInputs(d) && 0.0 <= dt
      modifies this`gameOver, this`score, this`explosionParticles, this`gameOverEffects, this`reactions
      modifies starfield`shreds, starfield`frameCounter, starfield.shredPool`pool, starfield.shreds, blackHole, player
      modifies dataShards`shards, dataShards`spawnTimer, dataShards`collectionEffects, dataShards`events, dataShards.shards
      ensures Valid()
      ensures Drifted(m, old(blackHole.WanderOf()), old(blackHole.gameTime), scene, Some(Point(old(player.x), old(player.y))), dt, d.hole.move)
      ensures Acted(m, old(GameOf()), old(player.State()), old(EP.StatesOf(dataShards.shards)), old(dataShards.spawnTimer),
                    old(reactions), scene, dt, now, d, o, stepped)
    {
      Drift(m, scene, dt, now, Some(Point(player.x, player.y)), d.hole);
      o, stepped := Act(m, scene, blackHole.View(), dt, now, d);
    }

    /**
     * The robot's update, then the shards' and the collisions: the robot's
     * frame `o` and the listener's answer `h` come first, and the collision
     * check sees the game and the tally they leave.
     */
    method Act(m: MathFns, scene: Scene, hole: BH.HoleView, dt: real, now: real, d: FrameInputs)
      returns (ghost o: P.Outcome, ghost stepped: seq<Shard.ExoticParticle>)
      requires dataShards.Valid() && Own() && ValidInputs(d) && 0.0 <= dt && hole == blackHole.View()
      modifies this`gameOver, this`score, this`explosionParticles, this`gameOverEffects, this`reactions, player
      modifies dataShards`shards, dataShards`spawnTimer, dataShards`collectionEffects, dataShards`events, dataShards.shards
      ensures dataShards.Valid() && Own()
      ensures EP.StatesOf(stepped) == EP.AfterUpdate(dataShards.particleFactory.particleTypes, scene, dt,
                                                     old(EP.StatesOf(dataShards.shards)), old(dataShards.spawnTimer), d.shard, d.flicker)
      ensures o == P.Tick(m, old(player.State()), scene, Some(hole), dt, now)
      ensures player.BodyOf() == o.state.body && player.TrapOf() == o.state.trap && player.DriveOf() == o.state.drive
      ensures var h := Heard(old(GameOf()), o, m, d.sparks);
              CollisionsChecked(m, h.game, h.shards, old(reactions) + h.reactions, stepped, d.sparks)
    {
      o := P.Tick(m, player.State(), scene, Some(hole), dt, now);
      ghost var h := Heard(GameOf(), o, m, d.sparks);
      ghost var r0, states0 := reactions, EP.StatesOf(dataShards.shards);
      MovePlayer(m, scene, hole, dt, now, d.sparks);
      assert GameOf() == h.game && player.dataShards == h.shards && reactions == r0 + h.reactions;
      assert EP.StatesOf(dataShards.shards) == states0;
      ghost var body, trap, drive := player.BodyOf(), player.TrapOf(), player.DriveOf();
      assert body == o.state.body && trap == o.state.trap && drive == o.state.drive;
      stepped := Gather(m, scene, dt, d);
      assert player.BodyOf() == body && player.TrapOf() == trap && player.DriveOf() == drive;
    }

    /** The stars' and the hole's updates, the hole following the robot when there is one. */
    method Drift(m: MathFns, scene: Scene, dt: real, now: real, robot: Option<Point>, d: BH.FrameDraws)
      requires blackHole.Valid() && starfield.Valid() && BH.ValidFrameDraws(d) && 0.0 <= dt
      modifies starfield`shreds, starfield`frameCounter, starfield.shredPool`pool, starfield.shreds, blackHole
      ensures blackHole.Valid() && starfield.Valid()
      ensures Drifted(m, old(blackHole.WanderOf()), old(blackHole.gameTime), scene, robot, dt, d.move)
      ensures starfield.frameCounter == (old(starfield.frameCounter) + 1) % 1000
      ensures player.State() == old(player.State()) && EP.StatesOf(dataShards.shards) == old(EP.StatesOf(dataShards.shards))
    {
      MoveStars(m, scene, dt);
      blackHole.Update(m, scene, dt, robot, now, d);
    }

    /** `starfield.update(deltaTime)`, which leaves the hole, the robot and the shards alone. */
    method MoveStars(m: MathFns, scene: Scene, dt: real)
      requires starfield.Valid()
      modifies starfield`shreds, starfield`frameCounter, starfield.shredPool`pool, starfield.shreds
      ensures starfield.Valid() && starfield.frameCounter == (old(starfield.frameCounter) + 1) % 1000
      ensures unchanged(blackHole, player) && unchanged(dataShards.shards)
    {
      starfield.Update(m, scene, dt);
    }

    /**
     * The shards' update, then the collisions; `stepped` are the shards
     * between the two, whose states are those of one shard update.
     */
    method Gather(m: MathFns, scene: Scene, dt: real, d: FrameInputs) returns (ghost stepped: seq<Shard.ExoticParticle>)
      requires dataShards.Valid() && Own() && ValidInputs(d) && 0.0 <= dt
      modifies this`gameOver, this`score, this`explosionParticles, this`gameOverEffects, this`reactions, player`dataShards
      modifies dataShards`shards, dataShards`spawnTimer, dataShards`collectionEffects, dataShards`events, dataShards.shards
      ensures dataShards.Valid() && Own()
      ensures EP.StatesOf(stepped) == EP.AfterUpdate(dataShards.particleFactory.particleTypes, scene, dt,
                                                     old(EP.StatesOf(dataShards.shards)), old(dataShards.spawnTimer), d.shard, d.flicker)
      ensures CollisionsChecked(m, old(GameOf()), old(player.dataShards), old(reactions), stepped, d.sparks)
      ensures player.Motion() == old(player.Motion())
    {
      stepped := StepShards(scene, dt, d);
      var _ := CheckCollisions(m, d.sparks);
    }

    /** `dataShards.update(deltaTime)`, which leaves the robot and the game alone. */
    method StepShards(scene: Scene, dt: real, d: FrameInputs) returns (ghost stepped: seq<Shard.ExoticParticle>)
      requires dataShards.Valid() && ValidInputs(d) && 0.0 <= dt
      modifies dataShards`shards, dataShards`spawnTimer, dataShards`collectionEffects, dataShards.shards
      ensures dataShards.Valid() && stepped == dataShards.shards && dataShards.events == old(dataShards.events)
      ensures EP.StatesOf(stepped) == EP.AfterUpdate(dataShards.particleFactory.particleTypes, scene, dt,
                                                     old(EP.StatesOf(dataShards.shards)), old(dataShards.spawnTimer), d.shard, d.flicker)
      ensures player.Motion() == old(player.Motion()) && player.dataShards == old(player.dataShards)
      ensures GameOf() == old(GameOf()) && reactions == old(reactions)
    {
      dataShards.Update(scene, dt, d.shard, d.flicker);
      stepped := dataShards.shards;
    }

    /** The robot's update, and the controller's listener for the "destroyed" event it may dispatch. */
    method MovePlayer(m: MathFns, scene: Scene, hole: BH.HoleView, dt: real, now: real, ds: seq<SparkDraw>)
      requires Own() && |ds| == ExplosionSize
      modifies player, this`gameOver, this`explosionParticles, this`gameOverEffects, this`reactions
      ensures Own()
      ensures var o := P.Tick(m, old(player.State()), scene, Some(hole), dt, now);
              var h := Heard(old(GameOf()), o, m, ds);
              && player.State() == o.state && GameOf() == h.game && reactions == old(reactions) + h.reactions
              && (P.Destroyed in o.events ==> gameOver)
    {
      P.TickKeepsTally(m, player.State(), scene, Some(hole), dt, now);
      var events := player.Update(m, scene, Some(hole), dt, now);
      if P.Destroyed in events {
        HandlePlayerDestroyed(m, ds);
      }
    }

    /** The end-screen branch of `gameLoop` after the clocks: stars and hole move without the robot, the end screen settles. */
    method Idle(m: MathFns, scene: Scene, dt: real, now: real, d: FrameInputs)
      requires Valid() && ValidInputs(d) && 0.0 <= dt
      modifies starfield`shreds, starfield`frameCounter, starfield.shredPool`pool, starfield.shreds, blackHole
      modifies this`explosionParticles, this`gameOverEffects
      ensures Valid()
      ensures Drifted(m, old(blackHole.WanderOf()), old(blackHole.gameTime), scene, None, dt, d.hole.move)
      ensures Idled(old(GameOf()), old(reactions), old(player.State()), old(dataShards.shards))
    {
      Drift(m, scene, dt, now, None, d.hole);
      DrawGameOver();
    }
  }

  /** The spark loop of `drawGameOver`: backwards over the list, each spark flown, those out of life spliced out. */
  method BurnSparks(sparks: seq<Spark>) returns (ps: seq<Spark>)
    ensures ps == Burnt(sparks, 0)
  {
    ps := sparks;
    var i := |ps| - 1;
    while i >= 0
      invariant -1 <= i < |sparks|
      invariant ps == sparks[..i + 1] + Burnt(sparks, i + 1)
      decreases i
    {
      var p := ps[i];
      p := p.(x := p.x + p.vx, y := p.y + p.vy);
      p := p.(life := p.life - 0.02, size := p.size * 0.99);
      if p.life <= 0.0 {
        ps := ps[..i] + ps[i + 1..];
        assert ps == sparks[..i] + Burnt(sparks, i);
      } else {
        ps := ps[i := p];
        assert ps == sparks[..i] + ([p] + Burnt(sparks, i + 1));
      }
      i := i - 1;
    }
  }
}

=== FILE: js_math.dfy ===
/**
 * The numeric vocabulary the game's logic is written in: JavaScript's `Math`
 * functions (left uninterpreted, with only the laws the proofs need), `Math.PI`,
 * `Math.min`/`Math.max`, `Math.floor` and the truncating `%` on numbers.
 */
module JsMath {
  /** A value that may be absent: `undefined`, `null` or a missing argument. */
  datatype Option<T> = None | Some(value: T)

  /** `Math.PI`, as the double literal it denotes. */
  const Pi: real := 3.141592653589793
  const TwoPi: real := 2.0 * Pi

  /**
   * The transcendental functions the game calls. Their values are never
   * computed by the model: every caller receives them as a parameter.
   */
  datatype MathFns = MathFns(
    sqrt: real -> real,
    exp: real -> real,
    pow: (real, real) -> real,
    sin: real -> real,
    cos: real -> real,
    atan2: (real, real) -> real)

  /** `x * x`, kept behind a name so that comparisons of squares stay linear for the solver. */
  function Sq(x: real): real { x * x }

  /** A square is never negative. */
  lemma SqNonNegative(x: real)
    ensures Sq(x) >= 0.0
  {
    if x < 0.0 {
      assert Sq(x) == (-x) * (-x);
    }
  }

  /** The square of a product is the product of the squares. */
  lemma SqMul(a: real, b: real)
    ensures Sq(a * b) == Sq(a) * Sq(b)
  {
  }

  /** Two non-negative numbers with the same square are equal. */
  lemma SqInjective(a: real, b: real)
    requires 0.0 <= a && 0.0 <= b && Sq(a) == Sq(b)
    ensures a == b
  {
    assert (a - b) * (a + b) == Sq(a) - Sq(b);
    if a + b != 0.0 {
      ZeroFactor(a - b, a + b);
    }
  }

  /** A product is zero only if a factor is. */
  lemma ZeroFactor(x: real, y: real)
    requires x * y == 0.0 && y != 0.0
    ensures x == 0.0
  {
    assert x == x * y / y;
  }

  /** Ranges of sine and cosine. */
  ghost predicate TrigBounded(m: MathFns) {
    forall a :: -1.0 <= m.sin(a) <= 1.0 && -1.0 <= m.cos(a) <= 1.0
  }

  /** The laws the rotation round trip needs: Pythagoras and the parities of cos and sin. */
  ghost predicate RotationLaws(m: MathFns) {
    (forall a :: Sq(m.cos(a)) + Sq(m.sin(a)) == 1.0)
    && (forall a :: m.cos(-a) == m.cos(a) && m.sin(-a) == -m.sin(a))
  }

  /** `Math.sqrt` on a non-negative argument compares with `r >= 0` as the argument compares with `r * r`. */
  ghost predicate SqrtLaws(m: MathFns) {
    (m.sqrt(0.0) == 0.0)
    && (forall x, r {:trigger m.sqrt(x), Sq(r)} :: 0.0 <= x && 0.0 <= r ==> (m.sqrt(x) < r <==> x < Sq(r)))
  }

  /** `Math.sqrt` of a non-negative argument is the non-negative root, exactly. */
  ghost predicate SqrtExact(m: MathFns) {
    forall x {:trigger m.sqrt(x)} :: 0.0 <= x ==> 0.0 <= m.sqrt(x) && Sq(m.sqrt(x)) == x
  }

  /** `Math.exp` and `Math.pow` on a positive base are positive. */
  ghost predicate PositiveLaws(m: MathFns) {
    (forall x :: m.exp(x) > 0.0) && (forall b, e :: b > 0.0 ==> m.pow(b, e) > 0.0)
  }

  /**
   * An angle advanced by `step` radians and pulled back by one turn when it
   * passes 2π (the wrap `updateUniverseRotation` and the particles' pulse use).
   */
  function AdvanceAngle(angle: real, step: real): real {
    if angle + step > TwoPi then angle + step - TwoPi else angle + step
  }

  /** From `[0, 2π]`, a step in `[0, 2π]` keeps the angle in `[0, 2π]`; exactly 2π is kept (the test is strict). */
  lemma AdvanceAngleInRange(angle: real, step: real)
    requires 0.0 <= angle <= TwoPi && 0.0 <= step <= TwoPi
    ensures 0.0 <= AdvanceAngle(angle, step) <= TwoPi
    ensures angle + step == TwoPi ==> AdvanceAngle(angle, step) == TwoPi
    ensures AdvanceAngle(angle, step) == angle + step || AdvanceAngle(angle, step) == angle + step - TwoPi
  {
  }

  /** Euclidean length of `(dx, dy)`, as the source writes it with `Math.sqrt`. */
  function Hypot(m: MathFns, dx: real, dy: real): real {
    m.sqrt(Sq(dx) + Sq(dy))
  }

  function Min(a: real, b: real): (r: real)
    ensures r <= a && r <= b && (r == a || r == b)
  {
    if a <= b then a else b
  }

  function Max(a: real, b: real): (r: real)
    ensures r >= a && r >= b && (r == a || r == b)
  {
    if a >= b then a else b
  }

  /** `Math.max` on integers. */
  function MaxInt(a: int, b: int): (r: int)
    ensures r >= a && r >= b && (r == a || r == b)
  {
    if a >= b then a else b
  }

  /** `Math.floor`. */
  function Floor(x: real): (n: int)
    ensures n as real <= x < n as real + 1.0
  {
    x.Floor
  }

  /** `Math.round`: the nearest integer, halves rounded up. */
  function Round(x: real): (n: int)
    ensures x - 0.5 < n as real <= x + 0.5
  {
    Floor(x + 0.5)
  }

  /** Truncation toward zero, the integer part JavaScript's `%` keeps. */
  function Trunc(x: real): (n: int)
    ensures 0.0 <= x ==> 0 <= n && n as real <= x < n as real + 1.0
    ensures x < 0.0 ==> n <= 0 && n as real - 1.0 < x <= n as real
    ensures 0.0 <= x ==> n == Floor(x)
    ensures x < 0.0 ==> n == -Floor(-x)
  {
    if x >= 0.0 then x.Floor else -((-x).Floor)
  }

  /** JavaScript's `a % b` on numbers: the remainder takes the sign of `a`. */
  function JsRem(a: real, b: real): (r: real)
    requires b != 0.0
    ensures 0.0 <= a ==> 0.0 <= r
    ensures a <= 0.0 ==> r <= 0.0
    ensures 0.0 < b ==> -b < r < b
    ensures b < 0.0 ==> b < r < -b
  {
    RemainderBounds(a, b, Trunc(a / b));
    a - b * Trunc(a / b) as real
  }

  /** The remainder left by the truncated quotient: the sign of `a`, smaller in size than `b`. */
  lemma RemainderBounds(a: real, b: real, q: int)
    requires b != 0.0 && q == Trunc(a / b)
    ensures 0.0 <= a ==> 0.0 <= a - b * q as real
    ensures a <= 0.0 ==> a - b * q as real <= 0.0
    ensures 0.0 < b ==> -b < a - b * q as real < b
    ensures b < 0.0 ==> b < a - b * q as real < -b
  {
    var x := a / b;
    assert a == b * x;
    if b < 0.0 {
      PositiveDivisorRemainder(-a, -b, x, q);
    } else {
      PositiveDivisorRemainder(a, b, x, q);
    }
  }

  /** The bounds for a positive divisor `c` of `a == c * x`, with `q` the quotient `x` truncated. */
  lemma PositiveDivisorRemainder(a: real, c: real, x: real, q: int)
    requires 0.0 < c && a == c * x
    requires 0.0 <= x ==> q as real <= x < q as real + 1.0
    requires x < 0.0 ==> q as real - 1.0 < x <= q as real
    ensures 0.0 <= a ==> 0.0 <= a - c * q as real < c
    ensures a <= 0.0 ==> -c < a - c * q as real <= 0.0
  {
    var d := x - q as real;
    var r := a - c * (q as real);
    assert r == c * d;
    ScaledSign(c, x);
    ScaledFraction(c, d, r);
  }

  /** Scaling by a positive `c` keeps the sign. */
  lemma ScaledSign(c: real, y: real)
    requires 0.0 < c
    ensures 0.0 <= c * y <==> 0.0 <= y
    ensures c * y <= 0.0 <==> y <= 0.0
  {
  }

  /** `r`, a fraction `d` strictly between -1 and 1 of a positive `c`, lies strictly between `-c` and `c`, with the sign of `d`. */
  lemma ScaledFraction(c: real, d: real, r: real)
    requires 0.0 < c && -1.0 < d < 1.0 && r == c * d
    ensures -c < r < c
    ensures 0.0 <= d ==> 0.0 <= r
    ensures d <= 0.0 ==> r <= 0.0
  {
    if d < 0.0 {
      assert c * -d < c;
    }
  }

  /** A random draw, the value `Math.random()` returns. */
  ghost predicate IsDraw(r: real) {
    0.0 <= r < 1.0
  }

  /** `Math.floor(r * n)` for a draw `r` is an index into a list of `n > 0` elements. */
  lemma ScaledDrawIndex(r: real, n: nat)
    requires IsDraw(r) && n > 0
    ensures 0 <= Floor(r * n as real) < n
  {
    assert 0.0 <= r * n as real;
    assert r * n as real < n as real;
  }
}

=== FILE: leaderboard.dfy ===
/**
 * The home page's leaderboard: a list of past results, best score first,
 * that a finished game with a positive score joins before the list is cut
 * back to ten. The storage the list is read from and written to, and its
 * display, are outside the model; the date string is a parameter.
 */
module Leaderboard {
  /** One result: the score, the time survived in seconds, the day it was set. */
  datatype Entry = Entry(score: int, time: real, date: string)

  /** The most results kept. */
  const MaxEntries: nat := 10

  /** Scores never rise along the list. */
  ghost predicate Sorted(es: seq<Entry>) {
    forall i, j :: 0 <= i < j < |es| ==> es[i].score >= es[j].score
  }

  /** The entries with score `v`, in list order. */
  function WithScore(es: seq<Entry>, v: int): seq<Entry> {
    if |es| == 0 then [] else (if es[0].score == v then [es[0]] else []) + WithScore(es[1..], v)
  }

  lemma {:induction false} WithScoreConcat(a: seq<Entry>, b: seq<Entry>, v: int)
    ensures WithScore(a + b, v) == WithScore(a, v) + WithScore(b, v)
  {
    if |a| == 0 {
      assert a + b == b;
    } else {
      var h := if a[0].score == v then [a[0]] else [];
      assert (a + b)[0] == a[0] && (a + b)[1..] == a[1..] + b;
      WithScoreConcat(a[1..], b, v);
      assert WithScore(a + b, v) == h + (WithScore(a[1..], v) + WithScore(b, v));
    }
  }

  lemma {:induction false} WithScoreAbsent(es: seq<Entry>, v: int)
    requires forall k :: 0 <= k < |es| ==> es[k].score != v
    ensures WithScore(es, v) == []
  {
    if |es| > 0 {
      WithScoreAbsent(es[1..], v);
    }
  }

  // ---------------------------------------------------------------- the stable sort

  /** `x` placed after every leading entry whose score is at least its own. */
  function InsertAfter(es: seq<Entry>, x: Entry): seq<Entry> {
    if |es| == 0 then [x]
    else if es[0].score >= x.score then [es[0]] + InsertAfter(es[1..], x)
    else [x] + es
  }

  /** No score in the list exceeds `s`. */
  ghost predicate AtMost(es: seq<Entry>, s: int) {
    forall k :: 0 <= k < |es| ==> es[k].score <= s
  }

  lemma {:induction false} InsertAfterAtMost(es: seq<Entry>, x: Entry, s: int)
    requires AtMost(es, s) && x.score <= s
    ensures AtMost(InsertAfter(es, x), s)
  {
    if |es| > 0 && es[0].score >= x.score {
      InsertAfterAtMost(es[1..], x, s);
    }
  }

  /** Inserting adds `x` and nothing else. */
  lemma {:induction false} InsertAfterMultiset(es: seq<Entry>, x: Entry)
    ensures multiset(InsertAfter(es, x)) == multiset(es) + multiset{x}
  {
    if |es| > 0 && es[0].score >= x.score {
      InsertAfterMultiset(es[1..], x);
      assert es == [es[0]] + es[1..];
    }
  }

  /** In a sorted list `x` lands after all entries scoring at least as much, keeping the list sorted and the same entries. */
  lemma {:induction false} InsertAfterFacts(es: seq<Entry>, x: Entry)
    requires Sorted(es)
    ensures var r := InsertAfter(es, x);
            Sorted(r) && multiset(r) == multiset(es) + multiset{x}
  {
    InsertAfterMultiset(es, x);
    if |es| > 0 && es[0].score >= x.score {
      var t := InsertAfter(es[1..], x);
      InsertAfterFacts(es[1..], x);
      InsertAfterAtMost(es[1..], x, es[0].score);
      SortedCons(es[0], t);
    }
  }

  lemma SortedCons(e: Entry, t: seq<Entry>)
    requires Sorted(t) && AtMost(t, e.score)
    ensures Sorted([e] + t)
  {
    var r := [e] + t;
    forall i, j | 0 <= i < j < |r|
      ensures r[i].score >= r[j].score
    {
      assert r[j] == t[j - 1];
      if i > 0 {
        assert r[i] == t[i - 1];
      }
    }
  }

  lemma {:induction false} InsertAfterGroups(es: seq<Entry>, x: Entry, v: int)
    requires Sorted(es)
    ensures WithScore(InsertAfter(es, x), v) == WithScore(es, v) + (if x.score == v then [x] else [])
  {
    if |es| == 0 {
      assert WithScore([x], v) == (if x.score == v then [x] else []) + WithScore([], v);
    } else if es[0].score >= x.score {
      InsertAfterGroups(es[1..], x, v);
      WithScoreConcat([es[0]], InsertAfter(es[1..], x), v);
      assert WithScore([es[0]], v) == (if es[0].score == v then [es[0]] else []) + WithScore([], v);
    } else {
      WithScoreConcat([x], es, v);
      assert WithScore([x], v) == (if x.score == v then [x] else []) + WithScore([], v);
      if x.score == v {
        WithScoreAbsent(es, v);
      }
    }
  }

  /** `sort((a, b) => b.score - a.score)`: stable, best score first. */
  function SortByScore(es: seq<Entry>): (r: seq<Entry>)
    ensures Sorted(r) && multiset(r) == multiset(es)
  {
    if |es| == 0 then []
    else
      var init, x := es[..|es| - 1], es[|es| - 1];
      InsertAfterFacts(SortByScore(init), x);
      assert es == init + [x];
      InsertAfter(SortByScore(init), x)
  }

  /**
   * The sort is a stable descending sort: the result is sorted, holds the
   * same entries, and entries of equal score keep their relative order.
   */
  lemma SortByScoreFacts(es: seq<Entry>)
    ensures var r := SortByScore(es);
            && Sorted(r) && multiset(r) == multiset(es)
            && forall v :: WithScore(r, v) == WithScore(es, v)
  {
    forall v
      ensures WithScore(SortByScore(es), v) == WithScore(es, v)
    {
      SortByScoreGroups(es, v);
    }
  }

  lemma {:induction false} SortByScoreGroups(es: seq<Entry>, v: int)
    ensures WithScore(SortByScore(es), v) == WithScore(es, v)
  {
    if |es| > 0 {
      var init, x := es[..|es| - 1], es[|es| - 1];
      var sorted := SortByScore(init);
      assert es == init + [x];
      WithScoreConcat(init, [x], v);
      WithScoreSingle(x, v);
      assert SortByScore(es) == InsertAfter(sorted, x);
      InsertAfterGroups(sorted, x, v);
      SortByScoreGroups(init, v);
    }
  }

  lemma WithScoreSingle(x: Entry, v: int)
    ensures WithScore([x], v) == if x.score == v then [x] else []
  {
    assert WithScore([x], v) == (if x.score == v then [x] else []) + WithScore([], v);
  }

  // ---------------------------------------------------------------- the update

  /** `leaderboard.length = 10` when it is longer. */
  function Top(es: seq<Entry>): seq<Entry> {
    if |es| > MaxEntries then es[..MaxEntries] else es
  }

  /** `updateLeaderboard(score, time)` on the list. */
  function Updated(board: seq<Entry>, e: Entry): seq<Entry> {
    if e.score > 0 then Top(SortByScore(board + [e])) else board
  }

  /**
   * A result that is not positive leaves the list alone. Any other result
   * leaves at most ten entries, best first, taken from the old entries and
   * the new one, and nothing left out outscores anything kept; a list of
   * fewer than ten grows by exactly one, the new result included.
   */
  lemma UpdatedFacts(board: seq<Entry>, e: Entry)
    ensures e.score <= 0 ==> Updated(board, e) == board
    ensures e.score > 0 ==>
              var r, all := Updated(board, e), SortByScore(board + [e]);
              && |r| <= MaxEntries && Sorted(r)
              && r == all[..|r|] && multiset(all) == multiset(board) + multiset{e}
              && (forall i, j :: 0 <= i < |r| <= j < |all| ==> r[i].score >= all[j].score)
              && (|board| < MaxEntries ==> |r| == |board| + 1 && e in r)
  {
    if e.score > 0 {
      var all := SortByScore(board + [e]);
      var r := Top(all);
      assert multiset(all) == multiset(board) + multiset{e};
      assert |all| == |board| + 1 by {
        assert |multiset(all)| == |multiset(board + [e])|;
      }
      assert r == all[..|r|];
      assert Sorted(r) by {
        forall i, j | 0 <= i < j < |r|
          ensures r[i].score >= r[j].score
        {
          assert r[i] == all[i] && r[j] == all[j];
        }
      }
      forall i, j | 0 <= i < |r| <= j < |all|
        ensures r[i].score >= all[j].score
      {
        assert r[i] == all[i];
      }
      if |board| < MaxEntries {
        assert e in multiset(all);
        assert r == all;
      }
    }
  }

  /** The sort is stable, so a new result that ties older ones is placed after all of them. */
  lemma TiesRankAfterOlder(board: seq<Entry>, e: Entry)
    ensures WithScore(SortByScore(board + [e]), e.score) == WithScore(board, e.score) + [e]
  {
    SortByScoreFacts(board + [e]);
    WithScoreConcat(board, [e], e.score);
    assert WithScore([e], e.score) == [e] + WithScore([], e.score);
  }

  /** The leaderboard list, changed in place by each finished game. */
  class Leaderboard {
    var entries: seq<Entry>

    /** The list as read from storage, in whatever order it was saved. */
    constructor (stored: seq<Entry>)
      ensures entries == stored
    {
      entries := stored;
    }

    /** `updateLeaderboard(score, time)`: push, sort best first, cut to ten. */
    method UpdateLeaderboard(score: int, time: real, date: string)
      modifies this
      ensures entries == Updated(old(entries), Entry(score, time, date))
    {
      if score > 0 {
        entries := entries + [Entry(score, time, date)];
        entries := SortByScore(entries);
        if |entries| > MaxEntries {
          entries := entries[..MaxEntries];
        }
      }
    }
  }
}

=== FILE: object_pool.dfy ===
/**
 * A generic object pool: a LIFO free list of reusable records that grows by
 * ten fresh records whenever a `get` finds it empty. The factory and reset
 * callbacks of the two pools in the game are described by a `Recycler`.
 */
module ObjectPool {

  /** The field values of a pooled record. */
  datatype Particle = Particle(x: real, y: real, vx: real, vy: real, life: real, size: real, color: string)

  /**
   * Arguments of `get`, passed on positionally to the reset callback. The
   * fifth argument is the shred's `life` for the shred pool and the
   * particle's `size` for the plasma pool; an omitted number reads as 0 and
   * an omitted string as "".
   */
  datatype ResetArgs = ResetArgs(x: real, y: real, vx: real, vy: real, fifth: real, color: string)

  /** The plasma pool's default colour prefix. */
  const PlasmaDefaultColor: string := "hsla(290, 100%, 70%, "

  /**
   * The factory and reset callbacks of a pool: the shred pool of the
   * starfield (its factory colour is the first star colour) or the plasma
   * particle pool.
   */
  datatype Recycler = ShredRecycler(factoryColor: string) | PlasmaRecycler

  /** The record the factory callback creates. */
  function Fresh(rc: Recycler): Particle {
    match rc
    case ShredRecycler(c) => Particle(0.0, 0.0, 0.0, 0.0, 0.0, 0.0, c)
    case PlasmaRecycler => Particle(0.0, 0.0, 0.0, 0.0, 1.0, 2.0, PlasmaDefaultColor)
  }

  /** The record after the reset callback, from the record `p` it was applied to. */
  function Reset(rc: Recycler, p: Particle, a: ResetArgs): Particle {
    match rc
    case ShredRecycler(_) => Particle(a.x, a.y, a.vx, a.vy, a.fifth, p.size, a.color)
    case PlasmaRecycler =>
      Particle(a.x, a.y, a.vx, a.vy, 1.0,
               if a.fifth != 0.0 then a.fifth else 2.0,
               if a.color != "" then a.color else PlasmaDefaultColor)
  }

  /** A pooled record, owned by whoever took it from the pool. */
  class PoolObject {
    var x: real
    var y: real
    var vx: real
    var vy: real
    var life: real
    var size: real
    var color: string

    function Value(): Particle
      reads this
    {
      Particle(x, y, vx, vy, life, size, color)
    }

    constructor (p: Particle)
      ensures Value() == p
    {
      x, y, vx, vy, life, size, color := p.x, p.y, p.vx, p.vy, p.life, p.size, p.color;
    }

    /** Runs the reset callback of `rc` on this record. */
    method Recycle(rc: Recycler, a: ResetArgs)
      modifies this
      ensures Value() == Reset(rc, old(Value()), a)
    {
      match rc
      case ShredRecycler(_) =>
        x, y, vx, vy, life, color := a.x, a.y, a.vx, a.vy, a.fifth, a.color;
      case PlasmaRecycler =>
        x, y, vx, vy, life := a.x, a.y, a.vx, a.vy, 1.0;
        size := if a.fifth != 0.0 then a.fifth else 2.0;
        color := if a.color != "" then a.color else PlasmaDefaultColor;
    }
  }

  /** No record appears twice in `s`. */
  ghost predicate Distinct(s: seq<PoolObject>) {
    forall i, j :: 0 <= i < j < |s| ==> s[i] != s[j]
  }

  /** Distinctness is having every element exactly once as a multiset. */
  lemma {:induction false} DistinctMultiset(s: seq<PoolObject>)
    ensures Distinct(s) <==> forall o :: multiset(s)[o] <= 1
  {
    if s != [] {
      DistinctMultiset(s[1..]);
      assert s == [s[0]] + s[1..];
      if Distinct(s) {
        assert Distinct(s[1..]) by {
          forall i, j | 0 <= i < j < |s[1..]| ensures s[1..][i] != s[1..][j] {
            assert s[1..][i] == s[i + 1] && s[1..][j] == s[j + 1];
          }
        }
        assert s[0] !in s[1..] by {
          forall k | 0 <= k < |s[1..]| ensures s[1..][k] != s[0] {
            assert s[1..][k] == s[k + 1];
          }
        }
      } else {
        var i, j :| 0 <= i < j < |s| && s[i] == s[j];
        if i == 0 {
          assert s[j] in s[1..] by { assert s[1..][j - 1] == s[j]; }
          assert multiset(s)[s[0]] == multiset(s[1..])[s[0]] + 1;
        } else {
          assert s[1..][i - 1] == s[1..][j - 1];
          assert !Distinct(s[1..]);
          var o :| multiset(s[1..])[o] > 1;
          assert multiset(s)[o] >= multiset(s[1..])[o];
        }
      }
    }
  }

  /** A rearrangement of a sequence without repetitions has none. */
  lemma DistinctPermutation(a: seq<PoolObject>, b: seq<PoolObject>)
    requires Distinct(a) && multiset(a) == multiset(b)
    ensures Distinct(b)
  {
    DistinctMultiset(a);
    DistinctMultiset(b);
  }

  class ObjectPool {
    const recycler: Recycler
    var pool: seq<PoolObject>

    /** A pool holding `initialSize` fresh factory records (20 unless given). */
    constructor (rc: Recycler, initialSize: nat := 20)
      ensures recycler == rc && |pool| == initialSize
      ensures Distinct(pool)
      ensures forall i :: 0 <= i < |pool| ==> fresh(pool[i]) && pool[i].Value() == Fresh(rc)
    {
      recycler := rc;
      pool := [];
      new;
      Expand(initialSize);
    }

    /** Pushes `count` fresh factory records. */
    method Expand(count: nat)
      modifies this`pool
      ensures |pool| == old(|pool|) + count && pool[..old(|pool|)] == old(pool)
      ensures forall i :: old(|pool|) <= i < |pool| ==> fresh(pool[i]) && pool[i].Value() == Fresh(recycler)
      ensures Distinct(old(pool)) ==> Distinct(pool)
    {
      var i := 0;
      while i < count
        invariant 0 <= i <= count
        invariant |pool| == old(|pool|) + i && pool[..old(|pool|)] == old(pool)
        invariant forall k :: old(|pool|) <= k < |pool| ==> fresh(pool[k]) && pool[k].Value() == Fresh(recycler)
        invariant Distinct(old(pool)) ==> Distinct(pool)
      {
        var o := new PoolObject(Fresh(recycler));
        pool := pool + [o];
        i := i + 1;
      }
    }

    /**
     * Takes the most recently released record (after adding ten fresh ones if
     * the pool is empty) and resets it with `args`.
     */
    method Get(args: ResetArgs) returns (o: PoolObject)
      modifies this`pool, if |pool| > 0 then {pool[|pool| - 1]} else {}
      ensures old(|pool|) > 0 ==> o == old(pool[|pool| - 1]) && pool == old(pool[..|pool| - 1])
      ensures old(|pool|) > 0 ==> o.Value() == Reset(recycler, old(o.Value()), args)
      ensures old(|pool|) == 0 ==> fresh(o) && |pool| == 9 && o.Value() == Reset(recycler, Fresh(recycler), args)
      ensures old(|pool|) == 0 ==> forall i :: 0 <= i < |pool| ==> fresh(pool[i]) && pool[i].Value() == Fresh(recycler)
      ensures old(|pool|) == 0 ==> Distinct(pool) && o !in pool
      ensures Distinct(old(pool)) ==> Distinct(pool)
    {
      if |pool| == 0 {
        Expand(10);
      }
      o := pool[|pool| - 1];
      pool := pool[..|pool| - 1];
      o.Recycle(recycler, args);
    }

    /** Pushes `o` back onto the free list, without checking whether it is already there. */
    method Release(o: PoolObject)
      modifies this`pool
      ensures pool == old(pool) + [o]
    {
      pool := pool + [o];
    }

    /** The number of records currently free. */
    function Size(): (n: nat)
      reads this
      ensures n == |pool|
    {
      |pool|
    }

    /** The free list is last-in first-out: a released record is the next one handed out. */
    method ReleaseThenGet(o: PoolObject, args: ResetArgs) returns (got: PoolObject)
      modifies this`pool, o
      ensures got == o && pool == old(pool)
      ensures o.Value() == Reset(recycler, old(o.Value()), args)
    {
      Release(o);
      got := Get(args);
    }
  }
}

=== FILE: object_table.dfy ===
/**
 * The shape shared by the reaction message and style tables: an object
 * literal mapping event names to lists of strings, looked up with a
 * fallback category (`table[name] || table.default`) and sampled with one
 * random draw (`list[Math.floor(Math.random() * list.length)]`). A table is
 * modelled by the length of each list, and a pick by the list and the
 * position it selects.
 */
module ObjectTable {
  import opened JsMath

  /** The `index`-th entry of the list under `category`. */
  datatype Line = Line(category: string, index: nat)

  /** `table[name] || table[fallback]`: a list, even an empty one, is truthy, so only a missing name falls back. */
  function Resolve(table: map<string, nat>, name: string, fallback: string): (used: string)
    requires fallback in table
    ensures used in table
    ensures name in table ==> used == name
    ensures name !in table ==> used == fallback
  {
    if name in table then name else fallback
  }

  /** The pick from the list `name` resolves to; an empty list gives `undefined`. */
  function PickLine(table: map<string, nat>, name: string, fallback: string, draw: real): (line: Option<Line>)
    requires fallback in table && IsDraw(draw)
    ensures line.Some? <==> table[Resolve(table, name, fallback)] > 0
    ensures line.Some? ==> line.value.category == Resolve(table, name, fallback) && line.value.index < table[line.value.category]
  {
    var used := Resolve(table, name, fallback);
    if table[used] == 0 then None
    else
      ScaledDrawIndex(draw, table[used]);
      Some(Line(used, Floor(draw * table[used] as real)))
  }
}

=== FILE: performance_config.dfy ===
/**
 * The game-wide performance configuration: the per-level quality table, the
 * lookup of the current level's row, and the start-up choice of level and
 * adaptive mode. The device's `navigator.hardwareConcurrency` and the
 * caller's options are parameters.
 */
module PerformanceConfig {
  import opened JsMath
  import opened PerformanceOptimizer

  /** One row of `PERFORMANCE_CONFIG.quality`. */
  datatype QualityConfig = QualityConfig(particleLimit: int, starLimit: int, updateInterval: int, effectDetail: string)

  /** The name a level goes by in the table. */
  function QualityName(q: Quality): string {
    match q
    case Low => "low"
    case Medium => "medium"
    case High => "high"
  }

  /** `PERFORMANCE_CONFIG.quality[level]`. */
  function QualityTable(q: Quality): (c: QualityConfig)
    ensures c.effectDetail == QualityName(q)
  {
    match q
    case Low => QualityConfig(150, 100, 2, "low")
    case Medium => QualityConfig(300, 200, 1, "medium")
    case High => QualityConfig(500, 300, 1, "high")
  }

  /** `PERFORMANCE_CONFIG.memory`: the largest pool and the pool-check period in milliseconds. */
  const MaxPoolSize: int := 1000
  const CleanupInterval: int := 10000

  /** `PERFORMANCE_CONFIG.rendering`. */
  const BatchSize: int := 50
  const CullingEnabled: bool := true
  const ThrottleFactor: int := 1

  /**
   * A higher level allows strictly more particles and stars, and updates at
   * least as often; the names of the levels are distinct, so the table has
   * one row per level.
   */
  lemma QualityTableOrdered(a: Quality, b: Quality)
    ensures Rank(a) < Rank(b) ==>
              && QualityTable(a).particleLimit < QualityTable(b).particleLimit
              && QualityTable(a).starLimit < QualityTable(b).starLimit
              && QualityTable(a).updateInterval >= QualityTable(b).updateInterval
    ensures QualityName(a) == QualityName(b) <==> a == b
  {
  }

  /** `getCurrentConfig()`: the table row of the optimizer's current level. */
  function CurrentConfig(optimizer: PerformanceOptimizer): (c: QualityConfig)
    reads optimizer`qualityLevel
    ensures c.effectDetail == QualityName(optimizer.qualityLevel)
  {
    QualityTable(optimizer.GetQualityLevel())
  }

  /** The start-up level: medium when the core count is unknown, zero or at most 2, high otherwise. */
  function InitialQuality(hardwareConcurrency: Option<int>): (q: Quality)
    ensures q == High <==> hardwareConcurrency.Some? && hardwareConcurrency.value > 2
    ensures q != High ==> q == Medium
  {
    if hardwareConcurrency.None? || hardwareConcurrency.value == 0 || hardwareConcurrency.value <= 2 then Medium else High
  }

  /** Adaptive mode: the option when it is given, on otherwise. */
  function InitialAdaptive(adaptiveQuality: Option<bool>): (on: bool)
    ensures adaptiveQuality.Some? ==> on == adaptiveQuality.value
    ensures adaptiveQuality.None? ==> on
  {
    if adaptiveQuality.Some? then adaptiveQuality.value else true
  }

  /** `initPerformanceOptimizations(options)`, the choices of adaptive mode and start level. */
  method InitPerformanceOptimizations(optimizer: PerformanceOptimizer, adaptiveQuality: Option<bool>, hardwareConcurrency: Option<int>)
    modifies optimizer`adaptiveQualityEnabled, optimizer`qualityLevel
    ensures optimizer.adaptiveQualityEnabled == InitialAdaptive(adaptiveQuality)
    ensures optimizer.qualityLevel == InitialQuality(hardwareConcurrency)
    ensures CurrentConfig(optimizer).particleLimit >= 300 && CurrentConfig(optimizer).starLimit >= 200
  {
    optimizer.adaptiveQualityEnabled := if adaptiveQuality.Some? then adaptiveQuality.value else true;
    if hardwareConcurrency.None? || hardwareConcurrency.value == 0 || hardwareConcurrency.value <= 2 {
      optimizer.qualityLevel := Medium;
    } else {
      optimizer.qualityLevel := High;
    }
  }
}

=== FILE: performance_optimizer.dfy ===
/**
 * The adaptive-quality monitor: a rolling buffer of the last sixty frame
 * times, the frame rate their mean gives, a three-level quality setting
 * that falls when frames are slow and rises one level at a time when they
 * are fast, and a per-object render throttle whose interval depends on the
 * level. `performance.now()` readings are parameters.
 */
module PerformanceOptimizer {
  import opened JsMath

  datatype Quality = Low | Medium | High

  /** The order of the levels, low to high. */
  function Rank(q: Quality): (n: nat)
    ensures n < 3
  {
    match q
    case Low => 0
    case Medium => 1
    case High => 2
  }

  /** `Math.round(1000 / average)`: a whole number, or Infinity when the average is zero. */
  datatype FrameRate = Rate(n: int) | Unbounded

  /** Frames per second for a mean frame time in milliseconds. */
  function RateOf(average: real): (fps: FrameRate)
    ensures average == 0.0 <==> fps == Unbounded
    ensures average != 0.0 ==> 1000.0 / average - 0.5 < fps.n as real <= 1000.0 / average + 0.5
  {
    if average == 0.0 then Unbounded else Rate(Round(1000.0 / average))
  }

  /** `fps < k`; Infinity is below nothing. */
  predicate Below(fps: FrameRate, k: int) {
    fps.Rate? && fps.n < k
  }

  /** `fps > k`; Infinity is above everything. */
  predicate Above(fps: FrameRate, k: int) {
    fps.Unbounded? || fps.n > k
  }

  /** The frames between two quality checks. */
  const MeasureInterval: int := 30
  /** The frame times kept. */
  const WindowSize: int := 60

  // ---------------------------------------------------------------- quality

  /** `adjustQuality()`: the level after one check at frame rate `fps`. */
  function Adjusted(q: Quality, fps: FrameRate): (r: Quality)
    ensures Below(fps, 30) ==> r == Low
    ensures Rank(r) <= Rank(q) + 1
    ensures Rank(r) > Rank(q) <==> Above(fps, 58) && q != High
  {
    if Below(fps, 30) && q != Low then Low
    else if Below(fps, 45) && q == High then Medium
    else if Above(fps, 58) && q == Low then Medium
    else if Above(fps, 58) && q == Medium then High
    else q
  }

  /**
   * The rules of a check: below 30 frames per second the level drops to low
   * from anywhere; from 30 to 44 high drops to medium; above 58 the level
   * rises by exactly one (high stays high); from 45 to 58 nothing changes.
   * A check never raises the level by more than one, and never raises it
   * unless the frames are fast.
   */
  lemma AdjustedRules(q: Quality, fps: FrameRate)
    ensures var r := Adjusted(q, fps);
            && (Below(fps, 30) ==> r == Low)
            && (!Below(fps, 30) && Below(fps, 45) ==> r == (if q == High then Medium else q))
            && (Above(fps, 58) ==> Rank(r) == (if q == High then 2 else Rank(q) + 1))
            && (!Below(fps, 45) && !Above(fps, 58) ==> r == q)
            && Rank(r) <= Rank(q) + 1
            && (Rank(r) > Rank(q) <==> Above(fps, 58) && q != High)
  {
  }

  // ---------------------------------------------------------------- the frame-time buffer

  /** `reduce((sum, time) => sum + time, 0)`: the sum, added from the left. */
  function Sum(xs: seq<real>): real {
    if |xs| == 0 then 0.0 else Sum(xs[..|xs| - 1]) + xs[|xs| - 1]
  }

  /** A sum of values in `[lo, hi]` lies between `n * lo` and `n * hi`. */
  lemma {:induction false} SumBounds(xs: seq<real>, lo: real, hi: real)
    requires forall k :: 0 <= k < |xs| ==> lo <= xs[k] <= hi
    ensures |xs| as real * lo <= Sum(xs) <= |xs| as real * hi
  {
    if |xs| > 0 {
      SumBounds(xs[..|xs| - 1], lo, hi);
      assert |xs| as real * lo == (|xs| - 1) as real * lo + lo;
      assert |xs| as real * hi == (|xs| - 1) as real * hi + hi;
    }
  }

  /** The mean of a non-empty list. */
  function Mean(xs: seq<real>): real
    requires |xs| > 0
  {
    Sum(xs) / |xs| as real
  }

  /** The mean of values in `[lo, hi]` is in `[lo, hi]`. */
  lemma MeanBounds(xs: seq<real>, lo: real, hi: real)
    requires |xs| > 0 && forall k :: 0 <= k < |xs| ==> lo <= xs[k] <= hi
    ensures lo <= Mean(xs) <= hi
  {
    SumBounds(xs, lo, hi);
    var n := |xs| as real;
    assert lo == n * lo / n && hi == n * hi / n;
  }

  /** The buffer after a push: the new time appended, the oldest dropped when that makes sixty-one. */
  function Window(times: seq<real>, frameTime: real): seq<real> {
    var t := times + [frameTime];
    if |t| > WindowSize then t[1..] else t
  }

  /** A buffer of at most sixty keeps at most sixty: the newest time last, the older ones in order, only the oldest lost. */
  lemma WindowFacts(times: seq<real>, frameTime: real)
    requires |times| <= WindowSize
    ensures var w := Window(times, frameTime);
            && |w| == (if |times| == WindowSize then WindowSize else |times| + 1)
            && w[|w| - 1] == frameTime
            && w[..|w| - 1] == times[|times| + 1 - |w|..]
  {
  }

  // ---------------------------------------------------------------- the monitor's state

  datatype OptimizerState = OptimizerState(
    fps: FrameRate,
    frameTimes: seq<real>,
    lastFrameTimestamp: real,
    qualityLevel: Quality,
    adaptiveQualityEnabled: bool,
    averageFrameTime: real,
    frameCounter: int)

  /** `measureFrameRate(timestamp)` on the monitor's state. */
  function Measured(s: OptimizerState, timestamp: real): (r: OptimizerState)
    ensures r.lastFrameTimestamp == timestamp && r.adaptiveQualityEnabled == s.adaptiveQualityEnabled
    ensures |s.frameTimes| <= WindowSize ==> |r.frameTimes| <= WindowSize
    ensures r.qualityLevel != s.qualityLevel ==> s.adaptiveQualityEnabled && r.frameCounter % MeasureInterval == 0
  {
    if s.lastFrameTimestamp == 0.0 then s.(lastFrameTimestamp := timestamp) else Checked(Timed(s, timestamp))
  }

  /** A later measurement up to the quality check: the buffer, average, rate and count updated. */
  function Timed(s: OptimizerState, timestamp: real): OptimizerState {
    var w := Window(s.frameTimes, timestamp - s.lastFrameTimestamp);
    var average := Sum(w) / |w| as real;
    s.(lastFrameTimestamp := timestamp, frameTimes := w, averageFrameTime := average,
       fps := RateOf(average), frameCounter := s.frameCounter + 1)
  }

  /** The quality check every thirtieth counted frame, when adaptive quality is on. */
  function Checked(t: OptimizerState): OptimizerState {
    if t.adaptiveQualityEnabled && t.frameCounter % MeasureInterval == 0 then t.(qualityLevel := Adjusted(t.qualityLevel, t.fps))
    else t
  }

  /**
   * A measurement records the timestamp; the first one (no timestamp yet)
   * does nothing else. Every later one pushes the time since the previous
   * frame into the sixty-frame buffer, sets the average to the buffer's mean
   * and the frame rate from it, counts the frame, and runs a quality check
   * exactly when adaptive quality is on and the count is a multiple of 30.
   */
  lemma MeasuredFacts(s: OptimizerState, timestamp: real)
    requires |s.frameTimes| <= WindowSize
    ensures var r := Measured(s, timestamp);
            && r.lastFrameTimestamp == timestamp && |r.frameTimes| <= WindowSize
            && r.adaptiveQualityEnabled == s.adaptiveQualityEnabled
            && (s.lastFrameTimestamp == 0.0 ==> r == s.(lastFrameTimestamp := timestamp))
            && (s.lastFrameTimestamp != 0.0 ==>
                  && r.frameTimes == Window(s.frameTimes, timestamp - s.lastFrameTimestamp)
                  && |r.frameTimes| > 0 && r.averageFrameTime == Mean(r.frameTimes)
                  && r.fps == RateOf(r.averageFrameTime)
                  && r.frameCounter == s.frameCounter + 1
                  && r.qualityLevel == (if s.adaptiveQualityEnabled && r.frameCounter % MeasureInterval == 0
                                        then Adjusted(s.qualityLevel, r.fps) else s.qualityLevel))
  {
  }

  /** When every buffered frame took between `lo` and `hi` milliseconds, so did the average. */
  lemma SteadyFrames(s: OptimizerState, timestamp: real, lo: real, hi: real)
    requires |s.frameTimes| <= WindowSize && s.lastFrameTimestamp != 0.0
    requires var w := Measured(s, timestamp).frameTimes; forall k :: 0 <= k < |w| ==> lo <= w[k] <= hi
    ensures lo <= Measured(s, timestamp).averageFrameTime <= hi
  {
    var w := Measured(s, timestamp).frameTimes;
    MeanBounds(w, lo, hi);
  }

  // ---------------------------------------------------------------- the render throttle

  /** The `{ high, medium, low }` frame intervals of `shouldRender`, in milliseconds. */
  datatype Intervals = Intervals(high: real, medium: real, low: real)

  /** The intervals used when none are given. */
  const DefaultIntervals: Intervals := Intervals(0.0, 33.0, 50.0)

  /** The interval for a level. */
  function IntervalFor(options: Intervals, q: Quality): real {
    match q
    case Low => options.low
    case Medium => options.medium
    case High => options.high
  }

  /** `renderThrottleMap.get(id) || 0`: the last render time, 0 for an object never rendered. */
  function LastRender(throttle: map<string, real>, id: string): real {
    if id in throttle then throttle[id] else 0.0
  }

  /** `shouldRender` on the throttle map: whether to render, and the map afterwards. */
  function Throttle(throttle: map<string, real>, id: string, interval: real, now: real): (res: (map<string, real>, bool))
    ensures res.1 <==> now - LastRender(throttle, id) >= interval
    ensures res.1 ==> LastRender(res.0, id) == now
    ensures !res.1 ==> res.0 == throttle
    ensures forall other :: other != id ==> LastRender(res.0, other) == LastRender(throttle, other)
  {
    if now - LastRender(throttle, id) >= interval then (throttle[id := now], true) else (throttle, false)
  }

  /**
   * The throttle renders exactly when the interval has passed since the
   * object's last render, and records the time only then; other objects are
   * untouched; after a render, the next one comes no sooner than the interval
   * later.
   */
  lemma ThrottleFacts(throttle: map<string, real>, id: string, interval: real, now: real, later: real, other: string)
    ensures var (t, render) := Throttle(throttle, id, interval, now);
            && (render <==> now - LastRender(throttle, id) >= interval)
            && (render ==> LastRender(t, id) == now)
            && (!render ==> t == throttle)
            && (other != id ==> LastRender(t, other) == LastRender(throttle, other))
            && (render ==> (Throttle(t, id, interval, later).1 <==> later - now >= interval))
  {
  }

  // ---------------------------------------------------------------- the monitor

  class PerformanceOptimizer {
    var fps: FrameRate
    var frameTimes: seq<real>
    var lastFrameTimestamp: real
    var qualityLevel: Quality
    var adaptiveQualityEnabled: bool
    var averageFrameTime: real
    var frameCounter: int
    var renderThrottleMap: map<string, real>

    function State(): OptimizerState
      reads this`fps, this`frameTimes, this`lastFrameTimestamp, this`qualityLevel
      reads this`adaptiveQualityEnabled, this`averageFrameTime, this`frameCounter
    {
      OptimizerState(fps, frameTimes, lastFrameTimestamp, qualityLevel, adaptiveQualityEnabled, averageFrameTime, frameCounter)
    }

    /** The buffer never holds more than sixty times. */
    ghost predicate Valid()
      reads this`frameTimes
    {
      |frameTimes| <= WindowSize
    }

    /** A monitor at 60 frames per second, high quality, adaptive, no frames seen. */
    constructor ()
      ensures Valid()
      ensures State() == OptimizerState(Rate(60), [], 0.0, High, true, 16.0, 0) && renderThrottleMap == map[]
    {
      fps, frameTimes, lastFrameTimestamp := Rate(60), [], 0.0;
      qualityLevel, adaptiveQualityEnabled := High, true;
      averageFrameTime, frameCounter := 16.0, 0;
      renderThrottleMap := map[];
    }

    /** `measureFrameRate(timestamp)`. */
    method MeasureFrameRate(timestamp: real)
      requires Valid()
      modifies this`fps, this`frameTimes, this`lastFrameTimestamp, this`qualityLevel, this`averageFrameTime, this`frameCounter
      ensures Valid()
      ensures State() == Measured(old(State()), timestamp)
    {
      if lastFrameTimestamp == 0.0 {
        lastFrameTimestamp := timestamp;
        return;
      }
      Time(timestamp);
      if adaptiveQualityEnabled && frameCounter % MeasureInterval == 0 {
        AdjustQuality();
      }
    }

    /** A later measurement up to the quality check. */
    method Time(timestamp: real)
      requires Valid()
      modifies this`fps, this`frameTimes, this`lastFrameTimestamp, this`averageFrameTime, this`frameCounter
      ensures Valid()
      ensures State() == Timed(old(State()), timestamp)
    {
      var frameTime := timestamp - lastFrameTimestamp;
      lastFrameTimestamp := timestamp;
      PushFrameTime(frameTime);
      frameCounter := frameCounter + 1;
    }

    /** The buffer, average and rate part of a measurement. */
    method PushFrameTime(frameTime: real)
      requires |frameTimes| <= WindowSize
      modifies this`frameTimes, this`averageFrameTime, this`fps
      ensures frameTimes == Window(old(frameTimes), frameTime) && |frameTimes| <= WindowSize
      ensures averageFrameTime == Sum(frameTimes) / |frameTimes| as real && fps == RateOf(averageFrameTime)
    {
      frameTimes := frameTimes + [frameTime];
      if |frameTimes| > WindowSize {
        frameTimes := frameTimes[1..];
      }
      averageFrameTime := Sum(frameTimes) / |frameTimes| as real;
      fps := RateOf(averageFrameTime);
    }

    /** `adjustQuality()`. */
    method AdjustQuality()
      modifies this`qualityLevel
      ensures qualityLevel == Adjusted(old(qualityLevel), fps)
    {
      if Below(fps, 30) && qualityLevel != Low {
        qualityLevel := Low;
      } else if Below(fps, 45) && qualityLevel == High {
        qualityLevel := Medium;
      } else if Above(fps, 58) && qualityLevel == Low {
        qualityLevel := Medium;
      } else if Above(fps, 58) && qualityLevel == Medium {
        qualityLevel := High;
      }
    }

    /** `shouldRender(objectId, options)` at time `now`. */
    method ShouldRender(objectId: string, options: Intervals, now: real) returns (render: bool)
      modifies this`renderThrottleMap
      ensures (renderThrottleMap, render) == Throttle(old(renderThrottleMap), objectId, IntervalFor(options, qualityLevel), now)
    {
      var lastRenderTime := LastRender(renderThrottleMap, objectId);
      var interval := IntervalFor(options, qualityLevel);
      if now - lastRenderTime >= interval {
        renderThrottleMap := renderThrottleMap[objectId := now];
        return true;
      }
      return false;
    }

    /** `getQualityLevel()`. */
    function GetQualityLevel(): Quality
      reads this`qualityLevel
    {
      qualityLevel
    }
  }
}

=== FILE: plasma_particle_pool.dfy ===
/**
 * The plasma particle pool: an object pool whose factory makes a unit-life
 * particle of size 2 in the default plasma colour, and whose reset callback
 * places a particle, refills its life and defaults a falsy size or colour.
 */
module PlasmaParticlePool {
  import opened ObjectPool

  /** `new PlasmaParticlePool(initialSize)`, with 100 records unless given. */
  method NewPlasmaParticlePool(initialSize: nat := 100) returns (p: ObjectPool)
    ensures fresh(p) && p.recycler == PlasmaRecycler && |p.pool| == initialSize
    ensures Distinct(p.pool)
    ensures forall i :: 0 <= i < |p.pool| ==> fresh(p.pool[i]) && p.pool[i].Value() == Fresh(PlasmaRecycler)
  {
    p := new ObjectPool(PlasmaRecycler, initialSize);
  }

  /** A reset particle sits at the given place with the given velocity and a full life of 1. */
  lemma ResetPlacesParticle(p: Particle, a: ResetArgs)
    ensures var q := Reset(PlasmaRecycler, p, a);
            q.x == a.x && q.y == a.y && q.vx == a.vx && q.vy == a.vy && q.life == 1.0
  {
  }

  /** A falsy size becomes 2 and a falsy colour the default plasma colour; truthy ones are kept. */
  lemma ResetDefaults(p: Particle, a: ResetArgs)
    ensures var q := Reset(PlasmaRecycler, p, a);
            (q.size == 2.0 <==> a.fifth == 0.0 || a.fifth == 2.0)
            && (a.fifth != 0.0 ==> q.size == a.fifth)
            && (a.color == "" ==> q.color == PlasmaDefaultColor)
            && (a.color != "" ==> q.color == a.color)
  {
  }

  /** Nothing of the previous particle survives a reset. */
  lemma ResetForgetsPrevious(p: Particle, p': Particle, a: ResetArgs)
    ensures Reset(PlasmaRecycler, p, a) == Reset(PlasmaRecycler, p', a)
  {
  }
}

=== FILE: player.dfy ===
/**
 * The player's robot: its motion under keys, boosts, the universe's rotation
 * and the black hole's gravity; the trap state machine with its dwell timer
 * and periodic particle loss; the escape that costs five particles; the
 * screen-bounds bounce; and the key handlers.
 *
 * The robot's fields fall into three groups, kept as three records: its body
 * (position, size, velocity, drag), its trap bookkeeping (particles, timers)
 * and its drive (keys, boosts, rotation coupling).
 */
module Player {
  import opened JsMath
  import opened SceneManager
  import opened BlackHole

  const Speed: real := 200.0
  const DefaultDrag: real := 0.98
  const MaxSpeed: real := 300.0
  /** Seconds between two particle losses, and between two speed-boost charges. */
  const ParticleLossInterval: real := 2.0
  const SpeedBoostCostInterval: real := 1.0
  /** Seconds of stillness inside the event horizon before particles start to go. */
  const DwellLimit: real := 5.0
  /** Particles an escape costs. */
  const EscapeCost: int := 5
  /** Distance kept from the screen's edges. */
  const Margin: real := 5.0
  /** Distance from the left edge, beyond the radius, where the robot starts. */
  const LeftPadding: real := 50.0

  /** The four direction flags of `isMoving`. */
  datatype Keys = Keys(up: bool, down: bool, left: bool, right: bool)

  const NoKeys: Keys := Keys(false, false, false, false)

  datatype Direction = Up | Down | Left | Right

  /** The events the player dispatches on `window`. */
  datatype PlayerEvent = Trapped | Escaped | Destroyed | SpeedBoostUsed(cost: int)

  /** Why `update` stopped: it ran to the end, or returned early after dispatching `playerDestroyed`. */
  datatype Verdict = Continue | DestroyedByLoss | DestroyedByCore

  /** Where the robot is, how big, and how it moves. */
  datatype Body = Body(x: real, y: real, robotSize: int, radius: real, velocity: Point, drag: real,
                       rotationVelocity: Point, lastMovementAngle: real)

  /** The particle count and the clocks of the black-hole trap. */
  datatype Trap = Trap(particles: int, blackHoleTimer: real, isTrapped: bool,
                       lastParticleLossTime: real, lastMovementTime: real)

  /** Held keys, the two boosts, and whether the universe's rotation carries the robot. */
  datatype Drive = Drive(isMoving: Keys, escapeBoostActive: bool, escapeBoostDuration: real,
                         speedBoostActive: bool, lastSpeedBoostCostTime: real, affectedByRotation: bool)

  /**
   * The `dataShards` property the game controller keeps on the player: `undefined`
   * until the first restart, `NaN` once `undefined` has been incremented, else a number.
   */
  datatype Tally = Unset | NotANumber | Count(n: int)

  /** Every field of the player the model follows. */
  datatype PlayerState = PlayerState(body: Body, trap: Trap, drive: Drive, dataShards: Tally)

  /** A new state with the events dispatched on the way, and how the step ended. */
  datatype Outcome = Outcome(state: PlayerState, events: seq<PlayerEvent>, verdict: Verdict)

  /** Whether any direction key is held: the robot is using its jetpack. */
  predicate AnyKey(k: Keys) {
    k.up || k.down || k.left || k.right
  }

  // ---------------------------------------------------------------- keys

  /** The direction a key names: arrows and WASD. */
  function DirectionOf(key: string): (d: Option<Direction>)
    ensures d == Some(Up) <==> key == "ArrowUp" || key == "w"
    ensures d == Some(Down) <==> key == "ArrowDown" || key == "s"
    ensures d == Some(Left) <==> key == "ArrowLeft" || key == "a"
    ensures d == Some(Right) <==> key == "ArrowRight" || key == "d"
  {
    if key == "ArrowUp" || key == "w" then Some(Up)
    else if key == "ArrowDown" || key == "s" then Some(Down)
    else if key == "ArrowLeft" || key == "a" then Some(Left)
    else if key == "ArrowRight" || key == "d" then Some(Right)
    else None
  }

  /** The flags with the one for `d` set to `held`. */
  function WithKey(k: Keys, d: Direction, held: bool): Keys {
    match d
    case Up => k.(up := held)
    case Down => k.(down := held)
    case Left => k.(left := held)
    case Right => k.(right := held)
  }

  /** The flag of `d`. */
  function Held(k: Keys, d: Direction): bool {
    match d
    case Up => k.up
    case Down => k.down
    case Left => k.left
    case Right => k.right
  }

  /** Setting one flag sets exactly that flag. */
  lemma WithKeyExactly(k: Keys, d: Direction, held: bool)
    ensures forall e :: Held(WithKey(k, d, held), e) == if e == d then held else Held(k, e)
  {
  }

  // ---------------------------------------------------------------- escape

  /** The escape launch: three times the top speed along `angle`, facing it, with the default drag. */
  function Launched(m: MathFns, b: Body, angle: real): Body {
    b.(velocity := Polar(m, angle, MaxSpeed * 3.0), lastMovementAngle := angle, drag := DefaultDrag)
  }

  /**
   * `tryEscape()`: while trapped with at least five particles, pay five,
   * leave the trap, start a one-second escape boost at three times the top
   * speed away from the scene centre (not from the hole), and restore the drag.
   */
  function Escape(m: MathFns, s: PlayerState, scene: Scene): (bool, Outcome) {
    if s.trap.isTrapped && s.trap.particles >= EscapeCost then
      var angle := m.atan2(s.body.y - scene.centerY, s.body.x - scene.centerX);
      var t := s.trap.(particles := s.trap.particles - EscapeCost, isTrapped := false);
      var d := s.drive.(escapeBoostActive := true, escapeBoostDuration := 1.0);
      (true, Outcome(PlayerState(Launched(m, s.body, angle), t, d, s.dataShards), [Escaped], Continue))
    else (false, Outcome(s, [], Continue))
  }

  /** The escape succeeds exactly when trapped with five particles, and then does what it promises; otherwise nothing changes. */
  lemma EscapeFacts(m: MathFns, s: PlayerState, scene: Scene)
    ensures var (ok, o) := Escape(m, s, scene);
            (ok <==> s.trap.isTrapped && s.trap.particles >= EscapeCost)
            && (ok ==> o.state.trap.particles == s.trap.particles - 5 && !o.state.trap.isTrapped
                       && o.state.drive.escapeBoostActive && o.state.drive.escapeBoostDuration == 1.0
                       && o.state.body.drag == DefaultDrag && o.events == [Escaped]
                       && o.state.body.x == s.body.x && o.state.body.y == s.body.y
                       && o.state.trap.blackHoleTimer == s.trap.blackHoleTimer
                       && o.state.drive.isMoving == s.drive.isMoving)
            && (!ok ==> o.state == s && o.events == [])
  {
  }

  /** Under the rotation laws, the escape leaves at exactly three times the top speed. */
  lemma EscapeSpeed(m: MathFns, s: PlayerState, scene: Scene)
    requires RotationLaws(m) && s.trap.isTrapped && s.trap.particles >= EscapeCost
    ensures var v := Escape(m, s, scene).1.state.body.velocity; Sq(v.x) + Sq(v.y) == Sq(MaxSpeed * 3.0)
  {
    var angle := m.atan2(s.body.y - scene.centerY, s.body.x - scene.centerX);
    var c, n := m.cos(angle), m.sin(angle);
    assert Sq(c) + Sq(n) == 1.0;
    assert Sq(c * 900.0) + Sq(n * 900.0) == (Sq(c) + Sq(n)) * Sq(900.0);
  }

  // ---------------------------------------------------------------- keys and their handlers

  /** `handleKeydown(e)` at clock reading `now`: the space bar escapes when trapped and starts the speed boost otherwise; a direction key is held from now on. */
  function KeyDown(m: MathFns, s: PlayerState, scene: Scene, key: string, now: real): Outcome {
    if key == " " then
      if s.trap.isTrapped then Escape(m, s, scene).1
      else Outcome(s.(drive := s.drive.(speedBoostActive := true)), [], Continue)
    else match DirectionOf(key)
      case Some(d) =>
        Outcome(s.(drive := s.drive.(isMoving := WithKey(s.drive.isMoving, d, true)),
                   trap := s.trap.(lastMovementTime := now)), [], Continue)
      case None => Outcome(s, [], Continue)
  }

  /** `handleKeyup(e)`: the space bar ends the speed boost, a direction key is released. */
  function KeyUp(s: PlayerState, key: string): PlayerState {
    if key == " " then s.(drive := s.drive.(speedBoostActive := false))
    else match DirectionOf(key)
      case Some(d) => s.(drive := s.drive.(isMoving := WithKey(s.drive.isMoving, d, false)))
      case None => s
  }

  /**
   * Pressing then releasing a direction key leaves the flags as if the key had
   * only been released and the body untouched; an untrapped space press and
   * release leaves the speed boost off; other keys change nothing.
   */
  lemma PressRelease(m: MathFns, s: PlayerState, scene: Scene, key: string, now: real)
    ensures var t := KeyUp(KeyDown(m, s, scene, key, now).state, key);
            (DirectionOf(key).Some? ==> t.drive == KeyUp(s, key).drive && t.body == s.body
                                        && t.trap == s.trap.(lastMovementTime := now))
            && (key == " " && !s.trap.isTrapped ==> t == KeyUp(s, key))
            && (key != " " && DirectionOf(key).None? ==> t == s)
  {
  }

  // ---------------------------------------------------------------- the drive at the start of a frame

  /** The escape boost's countdown: while active it loses `dt` and switches off at 0. */
  function EscapeTick(d: Drive, dt: real): Drive {
    if d.escapeBoostActive then
      var left := d.escapeBoostDuration - dt;
      d.(escapeBoostDuration := left, escapeBoostActive := left > 0.0)
    else d
  }

  /** The speed boost's charge: one `speedBoostUsed` event per second of boost. */
  function ChargeSpeedBoost(d: Drive, now: real): (Drive, seq<PlayerEvent>) {
    if d.speedBoostActive && now - d.lastSpeedBoostCostTime >= SpeedBoostCostInterval * 1000.0 then
      (d.(lastSpeedBoostCostTime := now), [SpeedBoostUsed(1)])
    else (d, [])
  }

  /** The speed boost charges one point exactly when it is on and a second has passed since the last charge, and restarts the second. */
  lemma ChargeSpeedBoostFacts(d: Drive, now: real)
    ensures var (e, ev) := ChargeSpeedBoost(d, now);
            (ev != [] <==> d.speedBoostActive && now - d.lastSpeedBoostCostTime >= 1000.0)
            && (ev != [] ==> ev == [SpeedBoostUsed(1)] && e == d.(lastSpeedBoostCostTime := now))
            && (ev == [] ==> e == d)
  {
  }

  /** The rotation coupling flag: the universe carries the robot only while no key is held and no escape boost runs. */
  function Couple(d: Drive): Drive {
    d.(affectedByRotation := !AnyKey(d.isMoving) && !d.escapeBoostActive)
  }

  /** The boost, the charge and the coupling, in `update`'s order. */
  function DriveStep(d: Drive, dt: real, now: real): (Drive, seq<PlayerEvent>) {
    var c := ChargeSpeedBoost(EscapeTick(d, dt), now);
    (Couple(c.0), c.1)
  }

  /** The keys' acceleration for `dt` seconds, three times as strong with the speed boost. */
  function Accelerate(b: Body, d: Drive, dt: real): Body {
    var a := if d.speedBoostActive then Speed * 3.0 else Speed;
    var ax := (if d.isMoving.left then -a else 0.0) + (if d.isMoving.right then a else 0.0);
    var ay := (if d.isMoving.up then -a else 0.0) + (if d.isMoving.down then a else 0.0);
    b.(velocity := Point(b.velocity.x + ax * dt, b.velocity.y + ay * dt))
  }

  /** Opposite keys cancel; a single key pushes its way; the position is not touched. */
  lemma AccelerateFacts(b: Body, d: Drive, dt: real)
    requires 0.0 < dt
    ensures var v := Accelerate(b, d, dt).velocity;
            (d.isMoving.up == d.isMoving.down ==> v.y == b.velocity.y)
            && (d.isMoving.left == d.isMoving.right ==> v.x == b.velocity.x)
            && (d.isMoving.up && !d.isMoving.down ==> v.y < b.velocity.y)
            && (d.isMoving.right && !d.isMoving.left ==> v.x > b.velocity.x)
            && Accelerate(b, d, dt).x == b.x && Accelerate(b, d, dt).y == b.y
  {
    var a := if d.speedBoostActive then Speed * 3.0 else Speed;
    MulBelow(0.0, dt, a);
  }

  /** The universe's pull on the velocity while coupled; otherwise the stored rotation velocity decays by 10%. */
  function RotationStep(b: Body, d: Drive, scene: Scene, dt: real): Body {
    if d.affectedByRotation then
      var rv := RotationVelocity(scene, b.x, b.y);
      b.(rotationVelocity := rv, velocity := Point(b.velocity.x + rv.x * 60.0 * dt, b.velocity.y + rv.y * 60.0 * dt))
    else b.(rotationVelocity := Point(b.rotationVelocity.x * 0.9, b.rotationVelocity.y * 0.9))
  }

  /** The part of a frame before the black hole is consulted. */
  function Prepare(s: PlayerState, scene: Scene, dt: real, now: real): Outcome {
    var r := DriveStep(s.drive, dt, now);
    Outcome(s.(drive := r.0, body := RotationStep(Accelerate(s.body, r.0, dt), r.0, scene, dt)), r.1, Continue)
  }

  // ---------------------------------------------------------------- the black hole

  /** The hole's gravity added to the velocity. */
  function Attract(m: MathFns, b: Body, h: HoleView, dt: real): Body {
    var g := Gravity(m, h.x, h.y, h.eventHorizonRadius, h.radius, b.x, b.y, dt);
    b.(velocity := Point(b.velocity.x + g.x, b.velocity.y + g.y))
  }

  /** The robot's distance to the hole's centre. */
  function HoleDistance(m: MathFns, b: Body, h: HoleView): real {
    Hypot(m, h.x - b.x, h.y - b.y)
  }

  /** Entering the event horizon: the Free→Trapped edge sets the flag, zeroes the timer and dispatches `playerTrapped`. */
  function Enter(t: Trap): (Trap, seq<PlayerEvent>) {
    if !t.isTrapped then (t.(isTrapped := true, blackHoleTimer := 0.0), [Trapped]) else (t, [])
  }

  /** The dwell timer: it grows while no key is held, and a held key resets it and records the movement time. */
  function Dwell(t: Trap, k: Keys, dt: real, now: real): Trap {
    if !AnyKey(k) then t.(blackHoleTimer := t.blackHoleTimer + dt)
    else t.(blackHoleTimer := 0.0, lastMovementTime := now)
  }

  /** Whether a particle is lost this frame: five seconds of dwelling, and two seconds since the last loss. */
  predicate LossDue(t: Trap, now: real) {
    t.blackHoleTimer >= DwellLimit && now - t.lastParticleLossTime >= ParticleLossInterval * 1000.0
  }

  /** The loss itself: one particle, never below 0, stamped with the time. */
  function Lose(t: Trap, now: real): Trap {
    t.(particles := MaxInt(0, t.particles - 1), lastParticleLossTime := now)
  }

  /** The pull toward the centre at twice the hole's strength, set when the last particle goes. */
  function PullIn(m: MathFns, b: Body, h: HoleView): Body {
    b.(velocity := Polar(m, m.atan2(h.y - b.y, h.x - b.x), PullStrength * 2.0))
  }

  /** Too close to the centre: `playerDestroyed`, and `update` stops. */
  function Critical(m: MathFns, s: PlayerState, h: HoleView): Outcome {
    if HoleDistance(m, s.body, h) < h.radius * 1.2 then Outcome(s, [Destroyed], DestroyedByCore)
    else Outcome(s, [], Continue)
  }

  /** After the timer: maybe lose a particle, and with none left be destroyed and pulled in; otherwise the critical-distance check. */
  function Judge(m: MathFns, s: PlayerState, h: HoleView, now: real): Outcome {
    if LossDue(s.trap, now) then
      var t := Lose(s.trap, now);
      if t.particles <= 0 then Outcome(s.(trap := t, body := PullIn(m, s.body, h)), [Destroyed], DestroyedByLoss)
      else Critical(m, s.(trap := t), h)
    else Critical(m, s, h)
  }

  /** Outside the event horizon: the trap is cleared, `playerEscaped` only if it was set, and the timer zeroed. */
  function Leave(t: Trap): (Trap, seq<PlayerEvent>) {
    (t.(isTrapped := false, blackHoleTimer := 0.0), if t.isTrapped then [Escaped] else [])
  }

  /** The trap state machine of `update`. */
  function Confront(m: MathFns, s: PlayerState, h: HoleView, dt: real, now: real): Outcome {
    if HoleDistance(m, s.body, h) < h.eventHorizonRadius then
      var e := Enter(s.trap);
      var j := Judge(m, s.(trap := Dwell(e.0, s.drive.isMoving, dt, now)), h, now);
      Outcome(j.state, e.1 + j.events, j.verdict)
    else
      var l := Leave(s.trap);
      Outcome(s.(trap := l.0), l.1, Continue)
  }

  // ---------------------------------------------------------------- the end of a frame

  /** `distance / (2 * glowRadius)` capped at 1; a zero glow radius counts as the cap. */
  function GlowRatio(distance: real, glowRadius: real): real {
    Min(1.0, if glowRadius == 0.0 then 1.0 else distance / (glowRadius * 2.0))
  }

  /** The drag near the hole: lowered by up to 5% close to it, the default beyond three glow radii. */
  function NearDrag(distance: real, glowRadius: real): real {
    if distance > glowRadius * 3.0 then DefaultDrag else DefaultDrag * (0.95 + GlowRatio(distance, glowRadius) * 0.05)
  }

  /** Between 95% of the default and the default, and the default itself from two glow radii out. */
  lemma NearDragBounds(distance: real, glowRadius: real)
    requires 0.0 <= distance && 0.0 < glowRadius
    ensures DefaultDrag * 0.95 <= NearDrag(distance, glowRadius) <= DefaultDrag
    ensures distance >= glowRadius * 2.0 ==> NearDrag(distance, glowRadius) == DefaultDrag
    ensures distance == 0.0 ==> NearDrag(distance, glowRadius) == DefaultDrag * 0.95
  {
    assert 0.0 <= distance / (glowRadius * 2.0);
    if distance >= glowRadius * 2.0 {
      assert distance / (glowRadius * 2.0) >= 1.0;
    }
  }

  /** The frame's drag: near the hole as above, the default without a hole. */
  function FrameDrag(m: MathFns, b: Body, hole: Option<HoleView>): real {
    if hole.Some? then NearDrag(HoleDistance(m, b, hole.value), hole.value.glowRadius) else DefaultDrag
  }

  /** The speed limit: three times higher with the speed boost. */
  function SpeedLimit(boost: bool): real {
    if boost then MaxSpeed * 3.0 else MaxSpeed
  }

  /** The vector `p` scaled by `k`. */
  function Scale(p: Point, k: real): Point {
    Point(p.x * k, p.y * k)
  }

  /** With an exact square root, scaling a vector by `limit / length` gives it length `limit`. */
  lemma ScaleToLength(m: MathFns, v: Point, limit: real, k: real)
    requires SqrtExact(m) && 0.0 < limit < Hypot(m, v.x, v.y) && k == limit / Hypot(m, v.x, v.y)
    ensures var w := Scale(v, k); Hypot(m, w.x, w.y) == limit
  {
    var w := Scale(v, k);
    assert w.x == v.x * k && w.y == v.y * k;
    var s := Sq(v.x) + Sq(v.y);
    SqNonNegative(v.x);
    SqNonNegative(v.y);
    var q := m.sqrt(s);
    assert Sq(q) == s;
    assert k * q == limit;
    SqMul(v.x, k);
    SqMul(v.y, k);
    SqMul(k, q);
    var r := Sq(w.x) + Sq(w.y);
    assert r == Sq(k) * s;
    assert r == Sq(limit);
    SqNonNegative(limit);
    var u := m.sqrt(r);
    assert 0.0 <= u && Sq(u) == r;
    SqInjective(u, limit);
  }

  /** The speed cap: a velocity faster than `limit` is scaled down to it without turning. */
  function Capped(m: MathFns, v: Point, limit: real): Point
    requires 0.0 < limit
  {
    var speed := Hypot(m, v.x, v.y);
    if speed > limit then Scale(v, limit / speed) else v
  }

  /**
   * With an exact square root, the capped speed is within the limit: exactly
   * the limit when the cap applied, and the velocity untouched otherwise.
   */
  lemma CappedWithinLimit(m: MathFns, v: Point, limit: real)
    requires SqrtExact(m) && 0.0 < limit
    ensures var w := Capped(m, v, limit);
            Hypot(m, w.x, w.y) <= limit
            && (Hypot(m, v.x, v.y) > limit ==> Hypot(m, w.x, w.y) == limit)
            && (Hypot(m, v.x, v.y) <= limit ==> w == v)
  {
    var speed := Hypot(m, v.x, v.y);
    if speed > limit {
      ScaleToLength(m, v, limit, limit / speed);
    }
  }

  /** Drag, then the speed cap. */
  function Damp(m: MathFns, b: Body, boost: bool): Body {
    b.(velocity := Capped(m, Scale(b.velocity, b.drag), SpeedLimit(boost)))
  }

  /** The position after `dt` seconds at the velocity. */
  function Advance(b: Body, dt: real): Body {
    b.(x := b.x + b.velocity.x * dt, y := b.y + b.velocity.y * dt)
  }

  /** One axis of `constrainToBounds`: below the margin or beyond `size - margin`, clamp and bounce back at half speed. */
  function ClampAxis(p: real, v: real, size: real): (real, real) {
    if p < Margin then (Margin, v * -0.5)
    else if p > size - Margin then (size - Margin, v * -0.5)
    else (p, v)
  }

  /** On a screen at least ten units across, the position ends within the margins, and the velocity bounces exactly when it was clamped. */
  lemma ClampAxisFacts(p: real, v: real, size: real)
    requires 2.0 * Margin <= size
    ensures var (q, w) := ClampAxis(p, v, size);
            Margin <= q <= size - Margin
            && (w == v * -0.5 <==> p < Margin || p > size - Margin || v == 0.0)
            && (Margin <= p <= size - Margin ==> q == p && w == v)
  {
  }

  /** `constrainToBounds()` on both axes. */
  function Constrain(b: Body, scene: Scene): Body {
    var cx := ClampAxis(b.x, b.velocity.x, scene.width);
    var cy := ClampAxis(b.y, b.velocity.y, scene.height);
    b.(x := cx.0, y := cy.0, velocity := Point(cx.1, cy.1))
  }

  /** The end of `update`: the frame's drag, drag and cap, position, bounds. */
  function Finish(m: MathFns, b: Body, boost: bool, scene: Scene, hole: Option<HoleView>, dt: real): Body {
    Constrain(Advance(Damp(m, b.(drag := FrameDrag(m, b, hole)), boost), dt), scene)
  }

  /** The rest of `update` once the drive and the acceleration are done: the hole, then the end of the frame unless destroyed. */
  function Rest(m: MathFns, s: PlayerState, scene: Scene, hole: Option<HoleView>, dt: real, now: real): Outcome {
    if hole.None? then
      Outcome(s.(body := Finish(m, s.body, s.drive.speedBoostActive, scene, hole, dt)), [], Continue)
    else
      var c := Confront(m, s.(body := Attract(m, s.body, hole.value, dt)), hole.value, dt, now);
      if c.verdict != Continue then c
      else c.(state := c.state.(body := Finish(m, c.state.body, c.state.drive.speedBoostActive, scene, hole, dt)))
  }

  /** `update(deltaTime, blackHole)`, with `now` the clock reading in milliseconds. */
  function Tick(m: MathFns, s: PlayerState, scene: Scene, hole: Option<HoleView>, dt: real, now: real): Outcome {
    var p := Prepare(s, scene, dt, now);
    var r := Rest(m, p.state, scene, hole, dt, now);
    r.(events := p.events + r.events)
  }

  // ---------------------------------------------------------------- properties of a frame

  /** The trap machine leaves the drive and the shard count alone, and moves the robot nowhere. */
  lemma ConfrontKeeps(m: MathFns, s: PlayerState, h: HoleView, dt: real, now: real)
    ensures var t := Confront(m, s, h, dt, now).state;
            t.drive == s.drive && t.dataShards == s.dataShards && t.body.x == s.body.x && t.body.y == s.body.y
            && t.body.drag == s.body.drag && t.body.radius == s.body.radius
  {
  }

  /**
   * The escape boost counts down and switches off at 0; the rotation coupling
   * is off whenever a key is held or the boost runs; a frame presses no key.
   */
  lemma TickBoosts(m: MathFns, s: PlayerState, scene: Scene, hole: Option<HoleView>, dt: real, now: real)
    ensures var t := Tick(m, s, scene, hole, dt, now).state.drive;
            (s.drive.escapeBoostActive ==> t.escapeBoostDuration == s.drive.escapeBoostDuration - dt
                                           && (t.escapeBoostActive <==> s.drive.escapeBoostDuration - dt > 0.0))
            && (!s.drive.escapeBoostActive ==> !t.escapeBoostActive && t.escapeBoostDuration == s.drive.escapeBoostDuration)
            && (t.affectedByRotation <==> !AnyKey(s.drive.isMoving) && !t.escapeBoostActive)
            && t.isMoving == s.drive.isMoving && t.speedBoostActive == s.drive.speedBoostActive
  {
    var p := Prepare(s, scene, dt, now);
    assert p.state.drive == DriveStep(s.drive, dt, now).0;
    if hole.Some? {
      ConfrontKeeps(m, p.state.(body := Attract(m, p.state.body, hole.value, dt)), hole.value, dt, now);
    }
  }

  /** One frame of the trap machine loses at most one particle, never below zero, and only when the loss is due. */
  lemma ConfrontLoss(m: MathFns, s: PlayerState, h: HoleView, dt: real, now: real)
    requires 0 <= s.trap.particles
    ensures var t := Confront(m, s, h, dt, now).state.trap;
            0 <= t.particles && (t.particles == s.trap.particles || t.particles == s.trap.particles - 1)
            && (t.particles < s.trap.particles ==>
                  LossDue(t.(lastParticleLossTime := s.trap.lastParticleLossTime), now) && t.lastParticleLossTime == now)
  {
    if HoleDistance(m, s.body, h) < h.eventHorizonRadius {
      var (t1, ev) := Enter(s.trap);
      var t2 := Dwell(t1, s.drive.isMoving, dt, now);
      assert t2.particles == s.trap.particles && t2.lastParticleLossTime == s.trap.lastParticleLossTime;
    }
  }

  /**
   * A particle is lost only after five seconds of dwelling and two since the
   * last loss; one at most; never below zero; without a hole the trap does not
   * move; the shard count is not the frame's business.
   */
  lemma TickLoss(m: MathFns, s: PlayerState, scene: Scene, hole: Option<HoleView>, dt: real, now: real)
    requires 0 <= s.trap.particles
    ensures var t := Tick(m, s, scene, hole, dt, now).state;
            0 <= t.trap.particles && (t.trap.particles == s.trap.particles || t.trap.particles == s.trap.particles - 1)
            && (t.trap.particles < s.trap.particles ==>
                  t.trap.blackHoleTimer >= DwellLimit && now - s.trap.lastParticleLossTime >= ParticleLossInterval * 1000.0
                  && t.trap.lastParticleLossTime == now)
            && t.dataShards == s.dataShards
            && (hole.None? ==> t.trap == s.trap)
  {
    var p := Prepare(s, scene, dt, now);
    assert p.state.trap == s.trap && p.state.dataShards == s.dataShards;
    if hole.Some? {
      var a := p.state.(body := Attract(m, p.state.body, hole.value, dt));
      ConfrontLoss(m, a, hole.value, dt, now);
      ConfrontKeeps(m, a, hole.value, dt, now);
    }
  }

  /** A frame leaves the shard tally the controller keeps on the player alone. */
  lemma TickKeepsTally(m: MathFns, s: PlayerState, scene: Scene, hole: Option<HoleView>, dt: real, now: real)
    ensures Tick(m, s, scene, hole, dt, now).state.dataShards == s.dataShards
  {
    if hole.Some? {
      var p := Prepare(s, scene, dt, now);
      ConfrontKeeps(m, p.state.(body := Attract(m, p.state.body, hole.value, dt)), hole.value, dt, now);
    }
  }

  /**
   * Inside the event horizon the trap is set, with one `playerTrapped` only on
   * the edge; the timer counts stillness from that edge and a held key zeroes it.
   * Outside, the trap is cleared, `playerEscaped` only if it was set, and the
   * timer zeroed.
   */
  lemma ConfrontEdges(m: MathFns, s: PlayerState, h: HoleView, dt: real, now: real)
    ensures var o := Confront(m, s, h, dt, now);
            var inside := HoleDistance(m, s.body, h) < h.eventHorizonRadius;
            var timer := if AnyKey(s.drive.isMoving) then 0.0 else (if s.trap.isTrapped then s.trap.blackHoleTimer else 0.0) + dt;
            (inside ==> o.state.trap.isTrapped && o.state.trap.blackHoleTimer == timer
                        && (Trapped in o.events <==> !s.trap.isTrapped)
                        && Escaped !in o.events
                        && (o.events == [Trapped] || o.events == [Trapped, Destroyed] || o.events == [Destroyed] || o.events == []))
            && (!inside ==> !o.state.trap.isTrapped && o.state.trap.blackHoleTimer == 0.0 && o.verdict == Continue
                            && o.events == (if s.trap.isTrapped then [Escaped] else []))
  {
    if HoleDistance(m, s.body, h) < h.eventHorizonRadius {
      var (t, ev) := Enter(s.trap);
      var j := Judge(m, s.(trap := Dwell(t, s.drive.isMoving, dt, now)), h, now);
      assert j.events == [] || j.events == [Destroyed];
      assert j.state.trap.isTrapped && j.state.trap.blackHoleTimer == Dwell(t, s.drive.isMoving, dt, now).blackHoleTimer;
    }
  }

  /**
   * `update` stops early exactly when `playerDestroyed` is dispatched: either the
   * last particle went (with the pull set on the velocity) or the robot came
   * within 1.2 radii of the centre.
   */
  lemma ConfrontVerdict(m: MathFns, s: PlayerState, h: HoleView, dt: real, now: real)
    requires 0 <= s.trap.particles
    ensures var o := Confront(m, s, h, dt, now);
            var inside := HoleDistance(m, s.body, h) < h.eventHorizonRadius;
            var due := LossDue(Dwell(Enter(s.trap).0, s.drive.isMoving, dt, now), now);
            (o.verdict != Continue <==> Destroyed in o.events)
            && (o.verdict == DestroyedByLoss <==> inside && due && s.trap.particles <= 1)
            && (o.verdict == DestroyedByCore <==>
                  inside && !(due && s.trap.particles <= 1) && HoleDistance(m, s.body, h) < h.radius * 1.2)
            && (o.verdict == DestroyedByLoss ==> o.state.trap.particles == 0 && o.state.body == PullIn(m, s.body, h))
  {
    if HoleDistance(m, s.body, h) < h.eventHorizonRadius {
      var (t, ev) := Enter(s.trap);
      assert Destroyed !in ev;
    }
  }

  /** After a frame that runs to the end, the robot is within the margins of a screen at least ten units across. */
  lemma TickInBounds(m: MathFns, s: PlayerState, scene: Scene, hole: Option<HoleView>, dt: real, now: real)
    requires 2.0 * Margin <= scene.width && 2.0 * Margin <= scene.height
    ensures var o := Tick(m, s, scene, hole, dt, now);
            o.verdict == Continue ==>
              Margin <= o.state.body.x <= scene.width - Margin && Margin <= o.state.body.y <= scene.height - Margin
  {
    var o := Tick(m, s, scene, hole, dt, now);
    if o.verdict == Continue {
      var p := Prepare(s, scene, dt, now);
      var f := if hole.None? then p.state else Confront(m, p.state.(body := Attract(m, p.state.body, hole.value, dt)), hole.value, dt, now).state;
      var b := Advance(Damp(m, f.body.(drag := FrameDrag(m, f.body, hole)), f.drive.speedBoostActive), dt);
      ClampAxisFacts(b.x, b.velocity.x, scene.width);
      ClampAxisFacts(b.y, b.velocity.y, scene.height);
    }
  }

  // ---------------------------------------------------------------- size and reset

  /** `Math.round(max(width, height) * 0.25)`: the robot is a quarter of the larger screen side, to the nearest unit. */
  function RobotSize(scene: Scene): (n: int)
    ensures Max(scene.width, scene.height) * 0.25 - 0.5 < n as real <= Max(scene.width, scene.height) * 0.25 + 0.5
  {
    Round(Max(scene.width, scene.height) * 0.25)
  }

  /** `updateRobotSize()`: the collision radius is a third of the size. */
  function Resized(b: Body, scene: Scene): Body {
    b.(robotSize := RobotSize(scene), radius := RobotSize(scene) as real / 3.0)
  }

  /**
   * `reset()`: by the left edge (at the radius from before the resize) at
   * mid-height, at rest, one particle, no keys, no boosts; the movement time
   * and the rotation coupling are not reset.
   */
  function ResetState(s: PlayerState, scene: Scene): PlayerState {
    var b := s.body.(x := LeftPadding + s.body.radius, y := scene.centerY, velocity := Point(0.0, 0.0),
                     rotationVelocity := Point(0.0, 0.0), drag := DefaultDrag, lastMovementAngle := 0.0);
    var t := s.trap.(particles := 1, blackHoleTimer := 0.0, isTrapped := false, lastParticleLossTime := 0.0);
    PlayerState(Resized(b, scene), t, Drive(NoKeys, false, 0.0, false, 0.0, s.drive.affectedByRotation), s.dataShards)
  }

  /**
   * Resetting twice is resetting once exactly when the radius was already the
   * one the scene gives: the start position uses the radius from before the
   * resize.
   */
  lemma ResetTwice(s: PlayerState, scene: Scene)
    ensures ResetState(ResetState(s, scene), scene) == ResetState(s, scene)
            <==> s.body.radius == RobotSize(scene) as real / 3.0
  {
    if ResetState(ResetState(s, scene), scene) == ResetState(s, scene) {
      assert ResetState(ResetState(s, scene), scene).body.x == ResetState(s, scene).body.x;
    }
  }

  /** A reset robot is free, at rest, holds no key and no boost, carries one particle, cannot escape and is not charged. */
  lemma ResetIsFree(m: MathFns, s: PlayerState, scene: Scene, now: real)
    ensures var r := ResetState(s, scene);
            !r.trap.isTrapped && r.trap.particles == 1 && r.body.velocity == Point(0.0, 0.0)
            && !AnyKey(r.drive.isMoving) && !r.drive.escapeBoostActive && !r.drive.speedBoostActive
            && !Escape(m, r, scene).0
            && ChargeSpeedBoost(r.drive, now).1 == []
  {
  }

  // ---------------------------------------------------------------- the player

  class Player {
    var x: real
    var y: real
    var robotSize: int
    var radius: real
    var velocity: Point
    var drag: real
    var rotationVelocity: Point
    var lastMovementAngle: real
    var particles: int
    var blackHoleTimer: real
    var isTrapped: bool
    var lastParticleLossTime: real
    var lastMovementTime: real
    var isMoving: Keys
    var escapeBoostActive: bool
    var escapeBoostDuration: real
    var speedBoostActive: bool
    var lastSpeedBoostCostTime: real
    var affectedByRotation: bool
    /** The counter the game controller keeps on the player; `None` while it is `undefined`. */
    var dataShards: Tally
    /** The events dispatched so far, oldest first. */
    ghost var events: seq<PlayerEvent>

    function BodyOf(): Body
      reads this`x, this`y, this`robotSize, this`radius, this`velocity, this`drag, this`rotationVelocity, this`lastMovementAngle
    {
      Body(x, y, robotSize, radius, velocity, drag, rotationVelocity, lastMovementAngle)
    }

    function TrapOf(): Trap
      reads this`particles, this`blackHoleTimer, this`isTrapped, this`lastParticleLossTime, this`lastMovementTime
    {
      Trap(particles, blackHoleTimer, isTrapped, lastParticleLossTime, lastMovementTime)
    }

    function DriveOf(): Drive
      reads this`isMoving, this`escapeBoostActive, this`escapeBoostDuration, this`speedBoostActive,
            this`lastSpeedBoostCostTime, this`affectedByRotation
    {
      Drive(isMoving, escapeBoostActive, escapeBoostDuration, speedBoostActive, lastSpeedBoostCostTime, affectedByRotation)
    }

    /** Everything of the robot but the tally the controller keeps on it. */
    function Motion(): (Body, Trap, Drive)
      reads this`x, this`y, this`robotSize, this`radius, this`velocity, this`drag, this`rotationVelocity, this`lastMovementAngle
      reads this`particles, this`blackHoleTimer, this`isTrapped, this`lastParticleLossTime, this`lastMovementTime
      reads this`isMoving, this`escapeBoostActive, this`escapeBoostDuration, this`speedBoostActive,
            this`lastSpeedBoostCostTime, this`affectedByRotation
    {
      (BodyOf(), TrapOf(), DriveOf())
    }

    function State(): PlayerState
      reads this
    {
      PlayerState(BodyOf(), TrapOf(), DriveOf(), dataShards)
    }

    /** The player as constructed at clock reading `now`; `dataShards` is never set here. */
    constructor (now: real)
      ensures State() == PlayerState(Body(0.0, 0.0, 300, 45.0, Point(0.0, 0.0), DefaultDrag, Point(0.0, 0.0), 0.0),
                                     Trap(1, 0.0, false, 0.0, now),
                                     Drive(NoKeys, false, 0.0, false, 0.0, true), Unset)
      ensures events == []
    {
      x, y := 0.0, 0.0;
      robotSize, radius := 300, 45.0;
      velocity, drag := Point(0.0, 0.0), DefaultDrag;
      rotationVelocity, lastMovementAngle := Point(0.0, 0.0), 0.0;
      particles, blackHoleTimer, isTrapped := 1, 0.0, false;
      lastParticleLossTime, lastMovementTime := 0.0, now;
      isMoving, escapeBoostActive, escapeBoostDuration := NoKeys, false, 0.0;
      speedBoostActive, lastSpeedBoostCostTime, affectedByRotation := false, 0.0, true;
      dataShards := Unset;
      events := [];
    }

    /** `init(sceneManager)`: placed by the left edge (with the radius it had) at mid-height, then resized. */
    method Init(scene: Scene)
      modifies this
      ensures State() == old(State()).(body := Resized(old(BodyOf()).(x := LeftPadding + old(radius), y := scene.centerY), scene))
      ensures events == old(events)
    {
      x, y := LeftPadding + radius, scene.centerY;
      UpdateRobotSize(scene);
    }

    /** `updateRobotSize()`. */
    method UpdateRobotSize(scene: Scene)
      modifies this`robotSize, this`radius
      ensures BodyOf() == Resized(old(BodyOf()), scene)
    {
      robotSize := Round(Max(scene.width, scene.height) * 0.25);
      radius := robotSize as real / 3.0;
    }

    /** `checkCollision(object)`: closer than the sum of the radii, whichever centre the distance is measured from. */
    function CheckCollision(m: MathFns, ox: real, oy: real, oradius: real): (hit: bool)
      reads this`x, this`y, this`radius
      ensures hit <==> Hypot(m, ox - x, oy - y) < radius + oradius
    {
      assert Sq(x - ox) == Sq(ox - x) && Sq(y - oy) == Sq(oy - y);
      Hypot(m, x - ox, y - oy) < radius + oradius
    }

    /** `handleKeydown(e)` at clock reading `now`. */
    method HandleKeydown(m: MathFns, scene: Scene, key: string, now: real)
      modifies this
      ensures var o := KeyDown(m, old(State()), scene, key, now);
              State() == o.state && events == old(events) + o.events
    {
      if key == " " {
        if isTrapped {
          var _ := TryEscape(m, scene);
        } else {
          speedBoostActive := true;
        }
      } else {
        var d := DirectionOf(key);
        if d.Some? {
          isMoving, lastMovementTime := WithKey(isMoving, d.value, true), now;
        }
      }
    }

    /** `handleKeyup(e)`. */
    method HandleKeyup(key: string)
      modifies this
      ensures State() == KeyUp(old(State()), key) && events == old(events)
    {
      if key == " " {
        speedBoostActive := false;
      } else {
        var d := DirectionOf(key);
        if d.Some? {
          isMoving := WithKey(isMoving, d.value, false);
        }
      }
    }

    /** `tryEscape()`. */
    method TryEscape(m: MathFns, scene: Scene) returns (escaped: bool)
      modifies this
      ensures var e := Escape(m, old(State()), scene);
              escaped == e.0 && State() == e.1.state && events == old(events) + e.1.events
    {
      if isTrapped && particles >= EscapeCost {
        ghost var s0 := State();
        ghost var angle := m.atan2(y - scene.centerY, x - scene.centerX);
        PayEscape();
        assert State() == s0.(trap := TrapOf(), drive := DriveOf());
        Launch(m, m.atan2(y - scene.centerY, x - scene.centerX));
        assert State() == s0.(body := Launched(m, s0.body, angle), trap := TrapOf(), drive := DriveOf());
        events := events + [Escaped];
        return true;
      }
      return false;
    }

    /** The price and the boost of an escape: five particles out of the trap, one second of boost. */
    method PayEscape()
      modifies this`particles, this`isTrapped, this`escapeBoostActive, this`escapeBoostDuration
      ensures TrapOf() == old(TrapOf()).(particles := old(particles) - EscapeCost, isTrapped := false)
      ensures DriveOf() == old(DriveOf()).(escapeBoostActive := true, escapeBoostDuration := 1.0)
    {
      particles, isTrapped := particles - EscapeCost, false;
      escapeBoostActive, escapeBoostDuration := true, 1.0;
    }

    method Launch(m: MathFns, angle: real)
      modifies this`velocity, this`lastMovementAngle, this`drag
      ensures BodyOf() == Launched(m, old(BodyOf()), angle)
    {
      velocity := Point(m.cos(angle) * (MaxSpeed * 3.0), m.sin(angle) * (MaxSpeed * 3.0));
      lastMovementAngle, drag := angle, DefaultDrag;
    }

    /**
     * `update(deltaTime, blackHole)` at clock reading `now`, with the hole's
     * position and radii when there is one; returns the events it dispatched.
     */
    method Update(m: MathFns, scene: Scene, hole: Option<HoleView>, dt: real, now: real) returns (dispatched: seq<PlayerEvent>)
      modifies this
      ensures var o := Tick(m, old(State()), scene, hole, dt, now);
              State() == o.state && dispatched == o.events && events == old(events) + o.events
    {
      ghost var e0 := events;
      ghost var p := Prepare(State(), scene, dt, now);
      dispatched := PrepareFrame(scene, dt, now);
      ghost var e1 := events;
      var more := Proceed(m, scene, hole, dt, now);
      ghost var r := Rest(m, p.state, scene, hole, dt, now);
      assert events == e1 + r.events && e1 == e0 + p.events;
      assert events == e0 + (p.events + r.events);
      dispatched := dispatched + more;
    }

    /** The rest of `update`: the hole's gravity and trap, then the end of the frame unless destroyed. */
    method Proceed(m: MathFns, scene: Scene, hole: Option<HoleView>, dt: real, now: real) returns (dispatched: seq<PlayerEvent>)
      modifies this
      ensures var r := Rest(m, old(State()), scene, hole, dt, now);
              State() == r.state && dispatched == r.events && events == old(events) + r.events
    {
      if hole.Some? {
        ghost var s0 := State();
        ghost var c := Confront(m, s0.(body := Attract(m, s0.body, hole.value, dt)), hole.value, dt, now);
        ConfrontKeeps(m, s0.(body := Attract(m, s0.body, hole.value, dt)), hole.value, dt, now);
        var verdict;
        verdict, dispatched := MeetHole(m, hole.value, dt, now);
        assert DriveOf() == s0.drive;
        assert State() == c.state;
        if verdict != Continue {
          return;
        }
      } else {
        dispatched := [];
      }
      FinishFrame(m, scene, hole, dt);
    }

    /** The part of `update` before the hole: boosts, coupling, keys' acceleration, rotation. */
    method PrepareFrame(scene: Scene, dt: real, now: real) returns (dispatched: seq<PlayerEvent>)
      modifies this
      ensures var p := Prepare(old(State()), scene, dt, now);
              State() == p.state && dispatched == p.events && events == old(events) + p.events
    {
      ghost var s0 := State();
      ghost var r := DriveStep(s0.drive, dt, now);
      dispatched := StepDrive(dt, now);
      assert State() == s0.(drive := r.0);
      velocity := Accelerate(BodyOf(), DriveOf(), dt).velocity;
      assert BodyOf() == Accelerate(s0.body, r.0, dt);
      ApplyRotation(scene, dt);
    }

    /** The escape boost's countdown, the speed boost's charge and the rotation coupling. */
    method StepDrive(dt: real, now: real) returns (dispatched: seq<PlayerEvent>)
      modifies this`escapeBoostActive, this`escapeBoostDuration, this`lastSpeedBoostCostTime,
               this`affectedByRotation, this`events
      ensures var r := DriveStep(old(DriveOf()), dt, now);
              DriveOf() == r.0 && dispatched == r.1 && events == old(events) + r.1
    {
      if escapeBoostActive {
        escapeBoostDuration := escapeBoostDuration - dt;
        if escapeBoostDuration <= 0.0 {
          escapeBoostActive := false;
        }
      }
      dispatched := ChargeBoost(now);
      affectedByRotation := !(isMoving.up || isMoving.down || isMoving.left || isMoving.right) && !escapeBoostActive;
    }

    method ChargeBoost(now: real) returns (dispatched: seq<PlayerEvent>)
      modifies this`lastSpeedBoostCostTime, this`events
      ensures var c := ChargeSpeedBoost(old(DriveOf()), now);
              DriveOf() == c.0 && dispatched == c.1 && events == old(events) + c.1
    {
      dispatched := [];
      if speedBoostActive && now - lastSpeedBoostCostTime >= SpeedBoostCostInterval * 1000.0 {
        dispatched := [SpeedBoostUsed(1)];
        events := events + dispatched;
        lastSpeedBoostCostTime := now;
      }
    }

    method ApplyRotation(scene: Scene, dt: real)
      modifies this`rotationVelocity, this`velocity
      ensures BodyOf() == RotationStep(old(BodyOf()), DriveOf(), scene, dt)
    {
      if affectedByRotation {
        var relX := x - scene.centerX;
        var relY := y - scene.centerY;
        rotationVelocity := Point(-relY * scene.rotationSpeed, relX * scene.rotationSpeed);
        velocity := Point(velocity.x + rotationVelocity.x * 60.0 * dt, velocity.y + rotationVelocity.y * 60.0 * dt);
      } else {
        rotationVelocity := Point(rotationVelocity.x * 0.9, rotationVelocity.y * 0.9);
      }
    }

    /** The hole's part of `update`: its gravity, then the trap state machine. */
    method MeetHole(m: MathFns, h: HoleView, dt: real, now: real) returns (verdict: Verdict, dispatched: seq<PlayerEvent>)
      modifies this`velocity, this`isTrapped, this`blackHoleTimer, this`lastMovementTime, this`particles,
               this`lastParticleLossTime, this`events
      ensures var o := Confront(m, old(State()).(body := Attract(m, old(BodyOf()), h, dt)), h, dt, now);
              TrapOf() == o.state.trap && BodyOf() == o.state.body
              && verdict == o.verdict && dispatched == o.events && events == old(events) + o.events
    {
      ghost var s1 := State().(body := Attract(m, BodyOf(), h, dt));
      var g := Gravity(m, h.x, h.y, h.eventHorizonRadius, h.radius, x, y, dt);
      velocity := Point(velocity.x + g.x, velocity.y + g.y);
      assert State() == s1;
      verdict, dispatched := CheckTrap(m, h, dt, now);
    }

    /** The trap state machine of `update`. */
    method CheckTrap(m: MathFns, h: HoleView, dt: real, now: real) returns (verdict: Verdict, dispatched: seq<PlayerEvent>)
      modifies this`velocity, this`isTrapped, this`blackHoleTimer, this`lastMovementTime, this`particles,
               this`lastParticleLossTime, this`events
      ensures var o := Confront(m, old(State()), h, dt, now);
              TrapOf() == o.state.trap && BodyOf() == o.state.body
              && verdict == o.verdict && dispatched == o.events && events == old(events) + o.events
    {
      ghost var s0 := State();
      ghost var e0 := events;
      if Hypot(m, h.x - x, h.y - y) < h.eventHorizonRadius {
        ghost var e := Enter(s0.trap);
        ghost var s2 := s0.(trap := Dwell(e.0, s0.drive.isMoving, dt, now));
        dispatched := EnterTrap();
        DwellInTrap(dt, now);
        assert State() == s2;
        ghost var j := Judge(m, s2, h, now);
        var more;
        verdict, more := JudgeTrap(m, h, now);
        assert events == e0 + (dispatched + more);
        dispatched := dispatched + more;
        assert Confront(m, s0, h, dt, now) == Outcome(j.state, e.1 + j.events, j.verdict);
      } else {
        dispatched := LeaveTrap();
        verdict := Continue;
        assert TrapOf() == Leave(s0.trap).0;
      }
    }

    method EnterTrap() returns (dispatched: seq<PlayerEvent>)
      modifies this`isTrapped, this`blackHoleTimer, this`events
      ensures var e := Enter(old(TrapOf()));
              TrapOf() == e.0 && dispatched == e.1 && events == old(events) + e.1
    {
      dispatched := [];
      if !isTrapped {
        isTrapped, blackHoleTimer := true, 0.0;
        dispatched := [Trapped];
        events := events + dispatched;
      }
    }

    method LeaveTrap() returns (dispatched: seq<PlayerEvent>)
      modifies this`isTrapped, this`blackHoleTimer, this`events
      ensures var l := Leave(old(TrapOf()));
              TrapOf() == l.0 && dispatched == l.1 && events == old(events) + l.1
    {
      dispatched := [];
      if isTrapped {
        isTrapped := false;
        dispatched := [Escaped];
        events := events + dispatched;
      }
      blackHoleTimer := 0.0;
    }

    method DwellInTrap(dt: real, now: real)
      modifies this`blackHoleTimer, this`lastMovementTime
      ensures TrapOf() == Dwell(old(TrapOf()), isMoving, dt, now)
    {
      if !(isMoving.up || isMoving.down || isMoving.left || isMoving.right) {
        blackHoleTimer := blackHoleTimer + dt;
      } else {
        blackHoleTimer, lastMovementTime := 0.0, now;
      }
    }

    /** The particle loss, the destruction when none is left, and the critical-distance check. */
    method JudgeTrap(m: MathFns, h: HoleView, now: real) returns (verdict: Verdict, dispatched: seq<PlayerEvent>)
      modifies this`particles, this`lastParticleLossTime, this`velocity, this`events
      ensures var o := Judge(m, old(State()), h, now);
              TrapOf() == o.state.trap && BodyOf() == o.state.body
              && verdict == o.verdict && dispatched == o.events && events == old(events) + o.events
    {
      ghost var s0 := State();
      if blackHoleTimer >= DwellLimit && now - lastParticleLossTime >= ParticleLossInterval * 1000.0 {
        assert LossDue(s0.trap, now);
        ghost var t := Lose(s0.trap, now);
        LoseParticle(now);
        if particles <= 0 {
          PullTowardCentre(m, h);
          verdict, dispatched := DestroyedByLoss, [Destroyed];
          events := events + dispatched;
          return;
        }
        assert TrapOf() == t;
      }
      verdict, dispatched := CheckCritical(m, h);
    }

    method LoseParticle(now: real)
      modifies this`particles, this`lastParticleLossTime
      ensures TrapOf() == Lose(old(TrapOf()), now)
    {
      particles, lastParticleLossTime := MaxInt(0, particles - 1), now;
    }

    method PullTowardCentre(m: MathFns, h: HoleView)
      modifies this`velocity
      ensures BodyOf() == PullIn(m, old(BodyOf()), h)
    {
      var pullAngle := m.atan2(h.y - y, h.x - x);
      velocity := Point(m.cos(pullAngle) * (PullStrength * 2.0), m.sin(pullAngle) * (PullStrength * 2.0));
    }

    /** The critical-distance check: within 1.2 hole radii of the centre the robot is destroyed. */
    method CheckCritical(m: MathFns, h: HoleView) returns (verdict: Verdict, dispatched: seq<PlayerEvent>)
      modifies this`events
      ensures var o := Critical(m, State(), h);
              verdict == o.verdict && dispatched == o.events && events == old(events) + o.events
    {
      if Hypot(m, h.x - x, h.y - y) < h.radius * 1.2 {
        verdict, dispatched := DestroyedByCore, [Destroyed];
        events := events + dispatched;
      } else {
        verdict, dispatched := Continue, [];
      }
    }

    /** The end of `update`: drag, speed cap, position, bounds. */
    method FinishFrame(m: MathFns, scene: Scene, hole: Option<HoleView>, dt: real)
      modifies this`drag, this`velocity, this`x, this`y
      ensures BodyOf() == Finish(m, old(BodyOf()), speedBoostActive, scene, hole, dt)
    {
      ghost var b0 := BodyOf();
      drag := FrameDrag(m, BodyOf(), hole);
      ghost var b1 := BodyOf();
      assert b1 == b0.(drag := FrameDrag(m, b0, hole));
      DampVelocity(m);
      AdvancePosition(dt);
      ghost var b3 := BodyOf();
      assert b3 == Advance(Damp(m, b1, speedBoostActive), dt);
      ConstrainToBounds(scene);
    }

    method AdvancePosition(dt: real)
      modifies this`x, this`y
      ensures BodyOf() == Advance(old(BodyOf()), dt)
    {
      x, y := x + velocity.x * dt, y + velocity.y * dt;
    }

    method DampVelocity(m: MathFns)
      modifies this`velocity
      ensures BodyOf() == Damp(m, old(BodyOf()), speedBoostActive)
    {
      var v := Scale(velocity, drag);
      var currentSpeed := Hypot(m, v.x, v.y);
      var maxSpeedLimit := if speedBoostActive then MaxSpeed * 3.0 else MaxSpeed;
      if currentSpeed > maxSpeedLimit {
        var scale := maxSpeedLimit / currentSpeed;
        v := Scale(v, scale);
      }
      velocity := v;
    }

    /** `constrainToBounds()`. */
    method ConstrainToBounds(scene: Scene)
      modifies this`x, this`y, this`velocity
      ensures BodyOf() == Constrain(old(BodyOf()), scene)
    {
      var vx, vy := velocity.x, velocity.y;
      var nx, ny := x, y;
      if nx < Margin {
        nx, vx := Margin, vx * -0.5;
      } else if nx > scene.width - Margin {
        nx, vx := scene.width - Margin, vx * -0.5;
      }
      if ny < Margin {
        ny, vy := Margin, vy * -0.5;
      } else if ny > scene.height - Margin {
        ny, vy := scene.height - Margin, vy * -0.5;
      }
      x, y, velocity := nx, ny, Point(vx, vy);
    }

    /** `reset()`. */
    method Reset(scene: Scene)
      modifies this
      ensures State() == ResetState(old(State()), scene) && events == old(events)
    {
      ResetBody(scene);
      ResetTrap();
      ResetDrive();
    }

    method ResetBody(scene: Scene)
      modifies this`x, this`y, this`velocity, this`rotationVelocity, this`drag, this`lastMovementAngle,
               this`robotSize, this`radius
      ensures BodyOf() == ResetState(old(State()), scene).body
    {
      x, y := LeftPadding + radius, scene.centerY;
      velocity, rotationVelocity := Point(0.0, 0.0), Point(0.0, 0.0);
      drag, lastMovementAngle := DefaultDrag, 0.0;
      UpdateRobotSize(scene);
    }

    method ResetTrap()
      modifies this`particles, this`blackHoleTimer, this`isTrapped, this`lastParticleLossTime
      ensures TrapOf() == old(TrapOf()).(particles := 1, blackHoleTimer := 0.0, isTrapped := false, lastParticleLossTime := 0.0)
    {
      particles, blackHoleTimer := 1, 0.0;
      isTrapped, lastParticleLossTime := false, 0.0;
    }

    method ResetDrive()
      modifies this`isMoving, this`escapeBoostActive, this`escapeBoostDuration, this`speedBoostActive, this`lastSpeedBoostCostTime
      ensures DriveOf() == Drive(NoKeys, false, 0.0, false, 0.0, old(affectedByRotation))
    {
      isMoving, escapeBoostActive, escapeBoostDuration := NoKeys, false, 0.0;
      speedBoostActive, lastSpeedBoostCostTime := false, 0.0;
    }
  }
}

=== FILE: scene_manager.dfy ===
/**
 * The scene: canvas dimensions, their centre, and the slowly turning
 * "universe" angle that the other components rotate about the centre.
 */
module SceneManager {
  import opened JsMath

  datatype Point = Point(x: real, y: real)

  /** What the other components read from the scene manager each frame. */
  datatype Scene = Scene(width: real, height: real, centerX: real, centerY: real, rotationSpeed: real)

  /** The offset `(relX, relY)` turned by the rotation matrix with entries `c` (cosine) and `s` (sine). */
  function Turn(relX: real, relY: real, c: real, s: real): Point {
    Point(relX * c - relY * s, relX * s + relY * c)
  }

  /** The angle the universe turns through in a frame of `dt` seconds, scaled to 60 frames per second. */
  function FrameTurn(rotationSpeed: real, dt: real): real {
    rotationSpeed * dt * 60.0
  }

  /** Turning `(x, y)` about `(cx, cy)` by the rotation matrix with entries `c` and `s`. */
  function TurnAbout(cx: real, cy: real, c: real, s: real, x: real, y: real): Point {
    var t := Turn(x - cx, y - cy, c, s);
    Point(t.x + cx, t.y + cy)
  }

  /** Rotation of `(x, y)` by `angle` about `(cx, cy)`, the formula both rotation methods share. */
  function RotateAbout(m: MathFns, cx: real, cy: real, angle: real, x: real, y: real): Point {
    TurnAbout(cx, cy, m.cos(angle), m.sin(angle), x, y)
  }

  /** The velocity the universe's turning induces at `(x, y)`: the offset from the centre, turned a quarter turn, times the rotation speed. */
  function RotationVelocity(scene: Scene, x: real, y: real): Point {
    Point(-(y - scene.centerY) * scene.rotationSpeed, (x - scene.centerX) * scene.rotationSpeed)
  }

  /** `(x, y)` carried along by the rotation-induced velocity for `dt` seconds at 60 frames per second. */
  function Drift(scene: Scene, dt: real, x: real, y: real): Point {
    var v := RotationVelocity(scene, x, y);
    Point(x + v.x * 60.0 * dt, y + v.y * 60.0 * dt)
  }

  /** The drift leaves the centre in place and moves every other point at right angles to its offset from the centre. */
  lemma DriftIsTangential(scene: Scene, dt: real, x: real, y: real)
    ensures Drift(scene, dt, scene.centerX, scene.centerY) == Point(scene.centerX, scene.centerY)
    ensures var p := Drift(scene, dt, x, y);
            (p.x - x) * (x - scene.centerX) + (p.y - y) * (y - scene.centerY) == 0.0
  {
    var relX, relY := x - scene.centerX, y - scene.centerY;
    var k := scene.rotationSpeed * 60.0 * dt;
    assert -relY * scene.rotationSpeed * 60.0 * dt == -relY * k;
    assert relX * scene.rotationSpeed * 60.0 * dt == relX * k;
    assert (-relY * k) * relX + (relX * k) * relY == 0.0;
  }

  class SceneManager {
    var width: real
    var height: real
    var centerX: real
    var centerY: real
    var universeRotationAngle: real
    var universeRotationSpeed: real

    /** The window's inner size is passed in. */
    constructor (windowWidth: real, windowHeight: real)
      ensures width == windowWidth && height == windowHeight
      ensures centerX == windowWidth / 2.0 && centerY == windowHeight / 2.0
      ensures universeRotationAngle == 0.0 && universeRotationSpeed == 0.001
    {
      width := windowWidth;
      height := windowHeight;
      centerX := windowWidth / 2.0;
      centerY := windowHeight / 2.0;
      universeRotationAngle := 0.0;
      universeRotationSpeed := 0.001;
    }

    function View(): (s: Scene)
      reads this
      ensures s.centerX == centerX && s.centerY == centerY && s.rotationSpeed == universeRotationSpeed
      ensures s.width == width && s.height == height
    {
      Scene(width, height, centerX, centerY, universeRotationSpeed)
    }

    method HandleResize(windowWidth: real, windowHeight: real)
      modifies this
      ensures width == windowWidth && height == windowHeight
      ensures centerX == windowWidth / 2.0 && centerY == windowHeight / 2.0
      ensures universeRotationAngle == old(universeRotationAngle)
      ensures universeRotationSpeed == old(universeRotationSpeed)
    {
      width := windowWidth;
      height := windowHeight;
      centerX := width / 2.0;
      centerY := height / 2.0;
    }

    method UpdateUniverseRotation(deltaTime: real)
      modifies this`universeRotationAngle
      ensures universeRotationAngle == AdvanceAngle(old(universeRotationAngle), universeRotationSpeed * deltaTime)
    {
      universeRotationAngle := universeRotationAngle + universeRotationSpeed * deltaTime;
      if universeRotationAngle > TwoPi {
        universeRotationAngle := universeRotationAngle - TwoPi;
      }
    }

    function ApplyUniverseRotation(m: MathFns, x: real, y: real): (p: Point)
      reads this
      ensures p == RotateAbout(m, centerX, centerY, universeRotationAngle, x, y)
    {
      var relX := x - centerX;
      var relY := y - centerY;
      var rotatedX := relX * m.cos(universeRotationAngle) - relY * m.sin(universeRotationAngle);
      var rotatedY := relX * m.sin(universeRotationAngle) + relY * m.cos(universeRotationAngle);
      Point(rotatedX + centerX, rotatedY + centerY)
    }

    function ReverseUniverseRotation(m: MathFns, x: real, y: real): (p: Point)
      reads this
      ensures p == RotateAbout(m, centerX, centerY, -universeRotationAngle, x, y)
    {
      var relX := x - centerX;
      var relY := y - centerY;
      var rotatedX := relX * m.cos(-universeRotationAngle) - relY * m.sin(-universeRotationAngle);
      var rotatedY := relX * m.sin(-universeRotationAngle) + relY * m.cos(-universeRotationAngle);
      Point(rotatedX + centerX, rotatedY + centerY)
    }

    /** The centre of the scene is a fixed point of the rotation. */
    lemma ApplyFixesCentre(m: MathFns)
      ensures ApplyUniverseRotation(m, centerX, centerY) == Point(centerX, centerY)
    {
    }

    /** Reversing the rotation undoes it. */
    lemma ReverseUndoesApply(m: MathFns, x: real, y: real)
      requires RotationLaws(m)
      ensures var p := ApplyUniverseRotation(m, x, y);
              ReverseUniverseRotation(m, p.x, p.y) == Point(x, y)
    {
      var a := universeRotationAngle;
      assert m.cos(-a) == m.cos(a) && m.sin(-a) == -m.sin(a);
      TurnAboutInverse(centerX, centerY, m.cos(a), m.sin(a), x, y);
    }
  }

  /** Turning about a point by `(c, s)` and then by `(c, -s)` with `c² + s² = 1` is the identity. */
  lemma TurnAboutInverse(cx: real, cy: real, c: real, s: real, x: real, y: real)
    requires Sq(c) + Sq(s) == 1.0
    ensures var p := TurnAbout(cx, cy, c, s, x, y);
            TurnAbout(cx, cy, c, -s, p.x, p.y) == Point(x, y)
  {
    var dx, dy := x - cx, y - cy;
    RotationInverse(c, s, dx, dy);
    var t := Turn(dx, dy, c, s);
    assert TurnAbout(cx, cy, c, s, x, y) == Point(t.x + cx, t.y + cy);
    var u := Turn(t.x, t.y, c, -s);
    assert u == Point(dx, dy);
  }

  /** Rotating by `(c, s)` and then by `(c, -s)` with `c² + s² = 1` is the identity. */
  lemma RotationInverse(c: real, s: real, dx: real, dy: real)
    requires Sq(c) + Sq(s) == 1.0
    ensures (dx * c - dy * s) * c - (dx * s + dy * c) * (-s) == dx
    ensures (dx * c - dy * s) * (-s) + (dx * s + dy * c) * c == dy
  {
    calc {
      (dx * c - dy * s) * c - (dx * s + dy * c) * (-s);
      dx * (c * c + s * s);
      dx * (Sq(c) + Sq(s));
    }
    calc {
      (dx * c - dy * s) * (-s) + (dx * s + dy * c) * c;
      dy * (c * c + s * s);
      dy * (Sq(c) + Sq(s));
    }
  }
}

=== FILE: screen_reaction.dfy ===
/**
 * The on-screen reactions: each game event puts a line of text in one of
 * six zones around the edge of the screen, sized to the screen and the
 * line's length; at most three are kept, the oldest removed first; when a
 * message fades it flies to one of eight edge destinations far from where it
 * started; on a resize the messages are resized and pulled back inside the
 * screen. Positions are fractions of the screen's width and height. The
 * element construction, styles, transitions and timers are outside the
 * model; the text of a line is given by its length (in UTF-16 code units).
 */
module ScreenReaction {
  import opened JsMath
  import opened ObjectTable
  import Messages = ConsoleReactionMessages

  /** A named starting zone. */
  datatype Zone = Zone(name: string, x: real, y: real)

  /** A fade-out destination. */
  datatype Spot = Spot(x: real, y: real)

  /** The six zones messages start in, avoiding the centre of play. */
  const MessageZones: seq<Zone> := [
    Zone("top", 0.5, 0.15), Zone("topLeft", 0.2, 0.2), Zone("topRight", 0.8, 0.2),
    Zone("bottomLeft", 0.2, 0.8), Zone("bottomRight", 0.8, 0.8), Zone("bottom", 0.5, 0.85)]

  /** The eight destinations a fading message flies to: the corners and the middles of the edges. */
  const FadeOutDestinations: seq<Spot> := [
    Spot(0.1, 0.1), Spot(0.9, 0.1), Spot(0.1, 0.9), Spot(0.9, 0.9),
    Spot(0.5, 0.05), Spot(0.5, 0.95), Spot(0.05, 0.5), Spot(0.95, 0.5)]

  /** The most messages shown at once. */
  const MaxMessages: nat := 3
  /** The time before a message starts to fade, in milliseconds. */
  const MessageDuration: real := 3000.0
  /** How far (as a fraction of the screen) a destination must be from the start to count as far. */
  const MinDistance: real := 0.3

  /** The font size, width limit and padding of a message element, in pixels. */
  datatype Sizing = Sizing(fontSize: real, maxWidth: real, padding: real, sidePadding: real)

  /** A message on screen: its line, the line's length, the zone it started in, where it is now, its sizing. */
  datatype Message = Message(line: Option<Line>, textLength: nat, startX: real, startY: real, left: real, top: real, sizing: Sizing)

  // ---------------------------------------------------------------- sizing

  /** `adjustMessageSize`: the font follows the smaller screen side, smaller for long lines, kept in [14, 36]. */
  function MessageSize(screenWidth: real, screenHeight: real, textLength: nat): Sizing {
    var baseSize := Min(screenWidth, screenHeight) * 0.04;
    var lengthFactor := if textLength > 50 then 0.8 else 1.0;
    var finalSize := Min(Max(baseSize * lengthFactor, 14.0), 36.0);
    var padding := Max(finalSize * 0.4, 8.0);
    Sizing(finalSize, Min(screenWidth * 0.8, 600.0), padding, padding * 1.5)
  }

  /**
   * The font is between 14 and 36 pixels and equals the scaled screen size
   * whenever that is in range, 14 below it and 36 above it; a line over
   * fifty characters never gets a larger font than a shorter one; the width
   * limit is the smaller of 600 and 80% of the width; the padding is the
   * larger of 8 and 40% of the font, with one and a half times as much at
   * the sides.
   */
  lemma MessageSizeFacts(screenWidth: real, screenHeight: real, textLength: nat, shorter: nat)
    requires shorter <= textLength
    ensures var s := MessageSize(screenWidth, screenHeight, textLength);
            var scaled := Min(screenWidth, screenHeight) * 0.04 * (if textLength > 50 then 0.8 else 1.0);
            && 14.0 <= s.fontSize <= 36.0
            && (14.0 <= scaled <= 36.0 ==> s.fontSize == scaled)
            && (scaled < 14.0 ==> s.fontSize == 14.0) && (scaled > 36.0 ==> s.fontSize == 36.0)
            && (0.0 <= screenWidth && 0.0 <= screenHeight ==> s.fontSize <= MessageSize(screenWidth, screenHeight, shorter).fontSize)
            && s.maxWidth <= 600.0 && s.maxWidth <= screenWidth * 0.8
            && (s.maxWidth == 600.0 || s.maxWidth == screenWidth * 0.8)
            && s.padding >= 8.0 && s.padding >= s.fontSize * 0.4
            && (s.padding == 8.0 || s.padding == s.fontSize * 0.4) && s.sidePadding == s.padding * 1.5
  {
    var base := Min(screenWidth, screenHeight) * 0.04;
    if 0.0 <= screenWidth && 0.0 <= screenHeight && textLength > 50 && shorter <= 50 {
      assert base * 0.8 <= base * 1.0;
    }
  }

  // ---------------------------------------------------------------- zones and destinations

  /** `getRandomMessageZone()` with `draw` the random draw. */
  function GetRandomMessageZone(draw: real): (z: Zone)
    requires IsDraw(draw)
    ensures z in MessageZones
  {
    ScaledDrawIndex(draw, |MessageZones|);
    MessageZones[Floor(draw * |MessageZones| as real)]
  }

  /** The distance of a destination from the start, `sqrt(|dx|² + |dy|²)`. */
  function Distance(m: MathFns, d: Spot, startX: real, startY: real): real {
    Hypot(m, Abs(d.x - startX), Abs(d.y - startY))
  }

  function Abs(x: real): real {
    if x < 0.0 then -x else x
  }

  /** The destinations farther than the minimum distance from the start, in order. */
  function Far(m: MathFns, ds: seq<Spot>, startX: real, startY: real): (far: seq<Spot>)
    ensures forall d :: d in far <==> d in ds && Distance(m, d, startX, startY) > MinDistance
  {
    if |ds| == 0 then []
    else
      var rest := Far(m, ds[1..], startX, startY);
      assert forall d :: d in ds <==> d == ds[0] || d in ds[1..];
      if Distance(m, ds[0], startX, startY) > MinDistance then [ds[0]] + rest else rest
  }

  /** `getRandomFadeOutDestination(startX, startY)` with `draw` the random draw: a far destination when there is one, any destination otherwise. */
  function GetRandomFadeOutDestination(m: MathFns, startX: real, startY: real, draw: real): (d: Spot)
    requires IsDraw(draw)
    ensures d in FadeOutDestinations
    ensures (exists e :: e in FadeOutDestinations && Distance(m, e, startX, startY) > MinDistance) ==>
              Distance(m, d, startX, startY) > MinDistance
  {
    var far := Far(m, FadeOutDestinations, startX, startY);
    var destinations := if |far| > 0 then far else FadeOutDestinations;
    ScaledDrawIndex(draw, |destinations|);
    var d := destinations[Floor(draw * |destinations| as real)];
    assert (exists e :: e in FadeOutDestinations && Distance(m, e, startX, startY) > MinDistance) ==> |far| > 0 by {
      forall e | e in FadeOutDestinations && Distance(m, e, startX, startY) > MinDistance
        ensures e in far
      {
      }
    }
    d
  }

  /**
   * With an exact square root, a message starting anywhere flies to a
   * destination more than 0.3 away: one of the four corners is at least 0.4
   * away along each axis.
   */
  lemma AlwaysFliesFar(m: MathFns, startX: real, startY: real, draw: real)
    requires SqrtExact(m) && IsDraw(draw)
    ensures Distance(m, GetRandomFadeOutDestination(m, startX, startY, draw), startX, startY) > MinDistance
  {
    var e := Spot(if startX <= 0.5 then 0.9 else 0.1, if startY <= 0.5 then 0.9 else 0.1);
    assert e in FadeOutDestinations;
    var dx, dy := Abs(e.x - startX), Abs(e.y - startY);
    assert Sq(dx) >= 0.16 by { assert dx >= 0.4; assert dx * dx >= 0.4 * dx; }
    assert Sq(dy) >= 0.0;
    RootAbove(m, Sq(dx) + Sq(dy), MinDistance);
    assert Distance(m, e, startX, startY) > MinDistance;
    assert exists e :: e in FadeOutDestinations && Distance(m, e, startX, startY) > MinDistance;
  }

  /** With an exact square root, the root of a number above `r²` is above `r >= 0`. */
  lemma RootAbove(m: MathFns, x: real, r: real)
    requires SqrtExact(m) && 0.0 <= r && Sq(r) < x
    ensures m.sqrt(x) > r
  {
    var s := m.sqrt(x);
    assert 0.0 <= s && Sq(s) == x;
    assert (s - r) * (s + r) == Sq(s) - Sq(r);
  }

  /** The randomised display time: the base 3000 ms give or take 500. */
  function DisplayDuration(draw: real): (ms: real)
    requires IsDraw(draw)
    ensures 2500.0 <= ms < 3500.0
  {
    MessageDuration + (draw * 1000.0 - 500.0)
  }

  // ---------------------------------------------------------------- the message list

  /** The newest `MaxMessages` messages, what `limitMessages` leaves. */
  function Newest(ms: seq<Message>): (r: seq<Message>)
    ensures |r| <= MaxMessages
    ensures |ms| <= MaxMessages ==> r == ms
    ensures |ms| > MaxMessages ==> r == ms[|ms| - MaxMessages..]
  {
    if |ms| > MaxMessages then ms[|ms| - MaxMessages..] else ms
  }

  /** A message pulled back inside `[0.1, 0.9]` on both axes. */
  function Clamp(v: real): (c: real)
    ensures 0.1 <= c <= 0.9
    ensures 0.1 <= v <= 0.9 ==> c == v
  {
    Min(Max(v, 0.1), 0.9)
  }

  /** One message after a resize: sized for the new screen, and moved only if it was outside the inner 80%. */
  function Resized(msg: Message, screenWidth: real, screenHeight: real): Message {
    var boundedLeft, boundedTop := Clamp(msg.left), Clamp(msg.top);
    var sized := msg.(sizing := MessageSize(screenWidth, screenHeight, msg.textLength));
    if boundedLeft != msg.left || boundedTop != msg.top then sized.(left := boundedLeft, top := boundedTop) else sized
  }

  /**
   * After a resize every message is inside `[0.1, 0.9]` on both axes, one
   * that already was has not moved, and its line and start are kept.
   */
  lemma ResizedFacts(msg: Message, screenWidth: real, screenHeight: real)
    ensures var r := Resized(msg, screenWidth, screenHeight);
            && 0.1 <= r.left <= 0.9 && 0.1 <= r.top <= 0.9
            && r.sizing == MessageSize(screenWidth, screenHeight, msg.textLength)
            && (0.1 <= msg.left <= 0.9 && 0.1 <= msg.top <= 0.9 ==> r.left == msg.left && r.top == msg.top)
            && r.line == msg.line && r.startX == msg.startX && r.startY == msg.startY
  {
  }

  class ScreenReaction {
    var screenWidth: real
    var screenHeight: real
    /** The message elements in the messages container, oldest first. */
    var container: seq<Message>

    /** A reaction layer for a window of the given size, with an empty container. */
    constructor (innerWidth: real, innerHeight: real)
      ensures screenWidth == innerWidth && screenHeight == innerHeight && container == []
    {
      screenWidth, screenHeight := innerWidth, innerHeight;
      container := [];
    }

    /** The message `react` adds before the list is limited. */
    function NewMessage(eventType: string, messageDraw: real, textLength: nat, zoneDraw: real): Message
      requires IsDraw(messageDraw) && IsDraw(zoneDraw)
      reads this`screenWidth, this`screenHeight
    {
      var zone := GetRandomMessageZone(zoneDraw);
      Message(Messages.GetRandomMessage(eventType, messageDraw), textLength, zone.x, zone.y, zone.x, zone.y,
              MessageSize(screenWidth, screenHeight, textLength))
    }

    /**
     * `react(eventType)`: a line for the event, sized for the screen and
     * placed in a random zone, joins the container, which is then limited.
     * `textLength` is the chosen line's length.
     */
    method React(eventType: string, messageDraw: real, textLength: nat, zoneDraw: real)
      requires IsDraw(messageDraw) && IsDraw(zoneDraw)
      modifies this`container
      ensures container == Newest(old(container) + [NewMessage(eventType, messageDraw, textLength, zoneDraw)])
      ensures container[|container| - 1] == NewMessage(eventType, messageDraw, textLength, zoneDraw)
    {
      var line := Messages.GetRandomMessage(eventType, messageDraw);
      var sizing := MessageSize(screenWidth, screenHeight, textLength);
      var startZone := GetRandomMessageZone(zoneDraw);
      container := container + [Message(line, textLength, startZone.x, startZone.y, startZone.x, startZone.y, sizing)];
      LimitMessages();
    }

    /** `limitMessages()`: the oldest messages beyond three are removed, one by one from the front. */
    method LimitMessages()
      modifies this`container
      ensures container == Newest(old(container))
    {
      var messages := container;
      if |messages| > MaxMessages {
        var toRemove := |messages| - MaxMessages;
        for i := 0 to toRemove
          invariant container == messages[i..]
        {
          assert container[0] == messages[i];
          container := container[1..];
        }
      }
    }

    /** `clearAllMessages()`: the first child is removed until none is left. */
    method ClearAllMessages()
      modifies this`container
      ensures container == []
    {
      while |container| > 0
        decreases |container|
      {
        container := container[1..];
      }
    }

    /** The window's resize listener: the new size is recorded and the messages adjusted. */
    method HandleResize(innerWidth: real, innerHeight: real)
      modifies this
      ensures screenWidth == innerWidth && screenHeight == innerHeight
      ensures |container| == |old(container)|
      ensures forall k :: 0 <= k < |container| ==> container[k] == Resized(old(container)[k], innerWidth, innerHeight)
    {
      screenWidth, screenHeight := innerWidth, innerHeight;
      AdjustExistingMessagesOnResize();
    }

    /** `adjustExistingMessagesOnResize()`: each message resized and pulled back inside the screen, in turn. */
    method AdjustExistingMessagesOnResize()
      modifies this`container
      ensures |container| == |old(container)|
      ensures forall k :: 0 <= k < |container| ==> container[k] == Resized(old(container)[k], screenWidth, screenHeight)
    {
      var messages := container;
      for i := 0 to |messages|
        invariant |container| == |messages|
        invariant forall k :: 0 <= k < i ==> container[k] == Resized(messages[k], screenWidth, screenHeight)
        invariant forall k :: i <= k < |messages| ==> container[k] == messages[k]
      {
        var msg := container[i].(sizing := MessageSize(screenWidth, screenHeight, container[i].textLength));
        var currentLeft, currentTop := msg.left, msg.top;
        var boundedLeft := Min(Max(currentLeft, 0.1), 0.9);
        var boundedTop := Min(Max(currentTop, 0.1), 0.9);
        if boundedLeft != currentLeft || boundedTop != currentTop {
          msg := msg.(left := boundedLeft, top := boundedTop);
        }
        container := container[i := msg];
      }
    }
  }
}

=== FILE: settings.dfy ===
/**
 * The settings panel's state: whether it is open, the reaction switch, and
 * the chosen player colour among five, shown by exactly one highlighted
 * colour button. Choosing a colour announces it with a `playerColorChange`
 * event, modelled as a list of the colours announced. The panel's elements
 * and their styling are outside the model; a button's highlight is the
 * `selected` class.
 */
module Settings {
  /** A player colour: its name and its body and helmet colours as 24-bit RGB. */
  datatype PlayerColor = PlayerColor(name: string, bodyColor: int, helmetColor: int)

  /** The five colours offered, in button order. */
  const PlayerColors: seq<PlayerColor> := [
    PlayerColor("White", 0xffffff, 0xdddddd),
    PlayerColor("Blue", 0x3498db, 0xa2c4db),
    PlayerColor("Red", 0xe74c3c, 0xf5b7b1),
    PlayerColor("Green", 0x2ecc71, 0xa2dfb2),
    PlayerColor("Yellow", 0xf1c40f, 0xf7dc6f)]

  /** Everything the settings object changes. */
  datatype SettingsState = SettingsState(
    isOpen: bool, panelShown: bool, selectedColorIndex: int, reactionsEnabled: bool,
    buttonSelected: seq<bool>, announced: seq<PlayerColor>)

  /** The panel is shown exactly when open, the index names a colour, and only its button is highlighted. */
  ghost predicate Consistent(s: SettingsState) {
    && s.panelShown == s.isOpen
    && 0 <= s.selectedColorIndex < |PlayerColors|
    && |s.buttonSelected| == |PlayerColors|
    && forall k :: 0 <= k < |s.buttonSelected| ==> (s.buttonSelected[k] <==> k == s.selectedColorIndex)
  }

  /** `toggleSettings()`: the panel opens or closes, and is shown accordingly. */
  function Toggled(s: SettingsState): SettingsState {
    s.(isOpen := !s.isOpen, panelShown := !s.isOpen)
  }

  /** `selectColor(index)`: in range, the highlight moves and the colour is announced; out of range, nothing happens. */
  function ColorSelected(s: SettingsState, index: int): SettingsState
    requires |s.buttonSelected| == |PlayerColors| && 0 <= s.selectedColorIndex < |PlayerColors|
  {
    if index >= 0 && index < |PlayerColors| then
      s.(selectedColorIndex := index,
         buttonSelected := s.buttonSelected[s.selectedColorIndex := false][index := true],
         announced := s.announced + [PlayerColors[index]])
    else s
  }

  /** Toggling keeps the panel consistent, and toggling twice restores the state. */
  lemma ToggleFacts(s: SettingsState)
    requires Consistent(s)
    ensures Consistent(Toggled(s)) && Toggled(s).isOpen == !s.isOpen
    ensures Toggled(Toggled(s)) == s
  {
  }

  /**
   * An out-of-range index changes nothing and announces nothing. An
   * in-range index becomes the selection, only its button is highlighted,
   * and exactly one event announcing its colour is added; the panel and the
   * reaction switch are untouched.
   */
  lemma ColorSelectedFacts(s: SettingsState, index: int)
    requires Consistent(s)
    ensures var r := ColorSelected(s, index);
            && Consistent(r)
            && (!(0 <= index < |PlayerColors|) ==> r == s)
            && (0 <= index < |PlayerColors| ==>
                  && r.selectedColorIndex == index
                  && (forall k :: 0 <= k < |r.buttonSelected| ==> (r.buttonSelected[k] <==> k == index))
                  && r.announced == s.announced + [PlayerColors[index]])
            && r.isOpen == s.isOpen && r.reactionsEnabled == s.reactionsEnabled
  {
  }

  class Settings {
    var isOpen: bool
    var panelShown: bool
    var selectedColorIndex: int
    var reactionsEnabled: bool
    /** Whether each colour button carries the `selected` class. */
    var buttonSelected: seq<bool>
    /** The colours carried by the `playerColorChange` events dispatched so far. */
    var announced: seq<PlayerColor>

    function State(): SettingsState
      reads this
    {
      SettingsState(isOpen, panelShown, selectedColorIndex, reactionsEnabled, buttonSelected, announced)
    }

    ghost predicate Valid()
      reads this
    {
      Consistent(State())
    }

    /** A closed panel, the first colour (white) chosen and highlighted, reactions on. */
    constructor ()
      ensures Valid()
      ensures State() == SettingsState(false, false, 0, true, [true, false, false, false, false], [])
    {
      isOpen, panelShown := false, false;
      selectedColorIndex := 0;
      reactionsEnabled := true;
      var buttons := [];
      for index := 0 to |PlayerColors|
        invariant |buttons| == index
        invariant forall k :: 0 <= k < index ==> (buttons[k] <==> k == 0)
      {
        buttons := buttons + [index == 0];
      }
      buttonSelected := buttons;
      announced := [];
    }

    /** `toggleSettings()`. */
    method ToggleSettings()
      requires Valid()
      modifies this`isOpen, this`panelShown
      ensures Valid() && State() == Toggled(old(State()))
    {
      isOpen := !isOpen;
      panelShown := isOpen;
    }

    /** `selectColor(index)`. */
    method SelectColor(index: int)
      requires Valid()
      modifies this`selectedColorIndex, this`buttonSelected, this`announced
      ensures Valid() && State() == ColorSelected(old(State()), index)
    {
      if index >= 0 && index < |PlayerColors| {
        buttonSelected := buttonSelected[selectedColorIndex := false];
        selectedColorIndex := index;
        buttonSelected := buttonSelected[selectedColorIndex := true];
        announced := announced + [PlayerColors[selectedColorIndex]];
      }
      ColorSelectedFacts(old(State()), index);
    }

    /** The reaction switch's change handler. */
    method SetReactionsEnabled(checked: bool)
      requires Valid()
      modifies this`reactionsEnabled
      ensures Valid() && State() == old(State()).(reactionsEnabled := checked)
    {
      reactionsEnabled := checked;
    }

    /** `getCurrentPlayerColor()`: the chosen colour, one of the five. */
    function GetCurrentPlayerColor(): (c: PlayerColor)
      requires Valid()
      reads this
      ensures c in PlayerColors && c == PlayerColors[selectedColorIndex]
    {
      PlayerColors[selectedColorIndex]
    }
  }
}

=== FILE: starfield.dfy ===
/**
 * The starfield's "shreds": short-lived debris particles taken from an
 * object pool, moved and turned with the universe each frame, and handed back
 * to the pool when their life runs out (removed by swap-with-last-and-pop).
 */
module Starfield {
  import opened JsMath
  import opened ObjectPool
  import opened SceneManager

  const StarColors: seq<string> := ["#ffffff", "#ffe4b5", "#87ceeb", "#ffd700", "#ff69b4", "#00ff7f"]

  /** Number of shreds one shredding effect emits. */
  const ShredsPerEffect: nat := 15

  /** The random draws of one shred: two speed factors and a colour pick. */
  datatype ShredDraw = ShredDraw(speedX: real, speedY: real, colorPick: real)

  ghost predicate ValidDraws(draws: seq<ShredDraw>) {
    |draws| == ShredsPerEffect
    && forall k :: 0 <= k < |draws| ==> IsDraw(draws[k].speedX) && IsDraw(draws[k].speedY) && IsDraw(draws[k].colorPick)
  }

  /** Direction of the `i`-th of the fifteen shreds of one effect. */
  function ShredAngle(i: nat): real {
    TwoPi * i as real / ShredsPerEffect as real
  }

  /** `starColors[(Math.random() * starColors.length) | 0]`: the star colour a draw picks. */
  function StarColor(pick: real): (c: string)
    requires IsDraw(pick)
    ensures c in StarColors
  {
    ScaledDrawIndex(pick, |StarColors|);
    StarColors[Floor(pick * |StarColors| as real)]
  }

  /** The `i`-th shred of an effect at `(x, y)`: placed there with full life, its draw's star colour and speeds. */
  ghost predicate EmittedShred(m: MathFns, s: Particle, x: real, y: real, d: ShredDraw, i: nat) {
    s.x == x && s.y == y && s.life == 1.0 && IsDraw(d.colorPick) && s.color == StarColor(d.colorPick)
    && s.vx == m.cos(ShredAngle(i)) * (d.speedX * 2.0 + 2.0)
    && s.vy == m.sin(ShredAngle(i)) * (d.speedY * 2.0 + 2.0)
  }

  /** One frame of a shred: move by its velocity, lose `dt` of life, turn about the centre. */
  function ShredStep(m: MathFns, scene: Scene, dt: real, p: Particle): (q: Particle)
    ensures q.life == p.life - dt && q.vx == p.vx && q.vy == p.vy && q.size == p.size && q.color == p.color
  {
    var t := Turn(p.x + p.vx - scene.centerX, p.y + p.vy - scene.centerY,
                  m.cos(FrameTurn(scene.rotationSpeed, dt)), m.sin(FrameTurn(scene.rotationSpeed, dt)));
    p.(x := scene.centerX + t.x, y := scene.centerY + t.y, life := p.life - dt)
  }

  /** Every shred's frame. */
  function StepAll(m: MathFns, scene: Scene, dt: real, vals: seq<Particle>): (r: seq<Particle>)
    ensures |r| == |vals| && forall k :: 0 <= k < |vals| ==> r[k] == ShredStep(m, scene, dt, vals[k])
  {
    seq(|vals|, k requires 0 <= k < |vals| => ShredStep(m, scene, dt, vals[k]))
  }

  /** The shreds of `objs[from..]` whose new value in `vals` still has life, in order. */
  function Survivors(objs: seq<PoolObject>, vals: seq<Particle>, from: nat): seq<PoolObject>
    requires |objs| == |vals| && from <= |objs|
    decreases |objs| - from
  {
    if from == |objs| then []
    else (if vals[from].life > 0.0 then [objs[from]] else []) + Survivors(objs, vals, from + 1)
  }

  /** The shreds of `objs[from..]` whose new value has no life left, last index first (the order the loop releases them). */
  function Released(objs: seq<PoolObject>, vals: seq<Particle>, from: nat): seq<PoolObject>
    requires |objs| == |vals| && from <= |objs|
    decreases |objs| - from
  {
    if from == |objs| then []
    else Released(objs, vals, from + 1) + (if vals[from].life > 0.0 then [] else [objs[from]])
  }

  /** Every shred from `from` on either survives or is released, exactly once. */
  lemma {:induction false} SurvivorsAndReleasedPartition(objs: seq<PoolObject>, vals: seq<Particle>, from: nat)
    requires |objs| == |vals| && from <= |objs|
    ensures multiset(Survivors(objs, vals, from)) + multiset(Released(objs, vals, from)) == multiset(objs[from..])
    ensures |Survivors(objs, vals, from)| + |Released(objs, vals, from)| == |objs| - from
    decreases |objs| - from
  {
    if from == |objs| {
      assert objs[from..] == [];
    } else {
      SurvivorsAndReleasedPartition(objs, vals, from + 1);
      SuffixMultiset(objs, from);
      PartitionStep(objs, vals, from);
    }
  }

  /** One index's share of the partition: the record at `from` goes to exactly one side. */
  lemma PartitionStep(objs: seq<PoolObject>, vals: seq<Particle>, from: nat)
    requires |objs| == |vals| && from < |objs|
    ensures multiset(Survivors(objs, vals, from)) + multiset(Released(objs, vals, from))
            == multiset{objs[from]} + (multiset(Survivors(objs, vals, from + 1)) + multiset(Released(objs, vals, from + 1)))
  {
    var survivors, released := Survivors(objs, vals, from + 1), Released(objs, vals, from + 1);
    if vals[from].life > 0.0 {
      assert multiset(Survivors(objs, vals, from)) == multiset{objs[from]} + multiset(survivors);
      assert multiset(Released(objs, vals, from)) == multiset(released);
    } else {
      assert multiset(Survivors(objs, vals, from)) == multiset(survivors);
      assert multiset(Released(objs, vals, from)) == multiset(released) + multiset{objs[from]};
    }
  }

  /** Splitting the first element off a suffix, as multisets. */
  lemma SuffixMultiset(objs: seq<PoolObject>, from: nat)
    requires from < |objs|
    ensures multiset(objs[from..]) == multiset{objs[from]} + multiset(objs[from + 1..])
  {
    assert objs[from..] == [objs[from]] + objs[from + 1..];
  }

  /** A shred survives exactly when its new life is positive, and is released exactly when it is not. */
  lemma {:induction false} SurvivorsHaveLife(objs: seq<PoolObject>, vals: seq<Particle>, from: nat, k: nat)
    requires |objs| == |vals| && Distinct(objs) && from <= k < |objs|
    ensures objs[k] in Survivors(objs, vals, from) <==> vals[k].life > 0.0
    ensures objs[k] in Released(objs, vals, from) <==> vals[k].life <= 0.0
    decreases k - from
  {
    if k == from {
      HeadNotLater(objs, vals, k);
    } else {
      SurvivorsHaveLife(objs, vals, from + 1, k);
      var h := if vals[from].life > 0.0 then [objs[from]] else [];
      var t := if vals[from].life > 0.0 then [] else [objs[from]];
      assert objs[k] != objs[from];
      assert objs[k] !in h && objs[k] !in t;
      assert Survivors(objs, vals, from) == h + Survivors(objs, vals, from + 1);
      assert Released(objs, vals, from) == Released(objs, vals, from + 1) + t;
    }
  }

  /** The record at `k` is on neither side of the partition of what follows it. */
  lemma HeadNotLater(objs: seq<PoolObject>, vals: seq<Particle>, k: nat)
    requires |objs| == |vals| && Distinct(objs) && k < |objs|
    ensures objs[k] !in Survivors(objs, vals, k + 1) && objs[k] !in Released(objs, vals, k + 1)
  {
    var survivors, released := Survivors(objs, vals, k + 1), Released(objs, vals, k + 1);
    SurvivorsAndReleasedPartition(objs, vals, k + 1);
    NotInTail(objs, k);
    assert objs[k] !in multiset(objs[k + 1..]);
    assert multiset(survivors)[objs[k]] + multiset(released)[objs[k]] == 0;
  }

  /** In a sequence without repetitions, the record at `k` does not come back after `k`. */
  lemma NotInTail(objs: seq<PoolObject>, k: nat)
    requires k < |objs| && Distinct(objs)
    ensures objs[k] !in objs[k + 1..]
  {
    assert forall j :: k < j < |objs| ==> objs[j] != objs[k];
  }

  function Values(objs: seq<PoolObject>): (vals: seq<Particle>)
    reads set o | o in objs
    ensures |vals| == |objs| && forall k :: 0 <= k < |objs| ==> vals[k] == objs[k].Value()
  {
    seq(|objs|, k reads set o | o in objs requires 0 <= k < |objs| => objs[k].Value())
  }

  class Starfield {
    var shreds: seq<PoolObject>
    var frameCounter: int
    const shredPool: ObjectPool

    /** Shreds and free records are distinct objects, and the frame counter is below 1000. */
    ghost predicate Valid()
      reads this, shredPool
    {
      shredPool.recycler == ShredRecycler(StarColors[0])
      && 0 <= frameCounter < 1000
      && Distinct(shreds + shredPool.pool)
    }

    constructor ()
      ensures Valid() && fresh(shredPool) && shreds == [] && frameCounter == 0
      ensures |shredPool.pool| == 20
      ensures forall k :: 0 <= k < |shredPool.pool| ==> fresh(shredPool.pool[k]) && shredPool.pool[k].Value() == Fresh(ShredRecycler(StarColors[0]))
    {
      shreds := [];
      frameCounter := 0;
      shredPool := new ObjectPool(ShredRecycler(StarColors[0]));
    }

    /** Emits fifteen shreds at `(x, y)`, each taken from the pool with a full life of 1. */
    method CreateShredEffect(m: MathFns, x: real, y: real, draws: seq<ShredDraw>)
      requires Valid() && ValidDraws(draws)
      modifies this`shreds, shredPool`pool, shredPool.pool
      ensures Valid()
      ensures |shreds| == old(|shreds|) + ShredsPerEffect && shreds[..old(|shreds|)] == old(shreds)
      ensures forall k :: 0 <= k < old(|shreds|) ==> shreds[k].Value() == old(shreds[k].Value())
      ensures forall k :: old(|shreds|) <= k < |shreds| ==>
                EmittedShred(m, shreds[k].Value(), x, y, draws[k - old(|shreds|)], k - old(|shreds|))
      ensures forall k :: old(|shreds|) <= k < |shreds| && k < old(|shreds|) + old(|shredPool.pool|) ==>
                shreds[k] == old(shredPool.pool)[old(|shreds|) + old(|shredPool.pool|) - 1 - k]
      ensures old(|shredPool.pool|) >= ShredsPerEffect ==>
                shredPool.pool == old(shredPool.pool[..|shredPool.pool| - ShredsPerEffect])
    {
      ghost var s0, v0, p0 := shreds, Values(shreds), shredPool.pool;
      var i := 0;
      while i < ShredsPerEffect
        invariant 0 <= i <= ShredsPerEffect && Emitted(m, x, y, draws, s0, v0, p0, i)
        invariant forall k :: 0 <= k < |shredPool.pool| ==> shredPool.pool[k] in p0 || fresh(shredPool.pool[k])
      {
        EmitNext(m, x, y, draws, s0, v0, p0, i);
        i := i + 1;
      }
    }

    /**
     * The first `i` turns of `createShredEffect`'s loop, started from the
     * shreds `s0` (with values `v0`) and the free list `p0`.
     */
    ghost predicate Emitted(m: MathFns, x: real, y: real, draws: seq<ShredDraw>,
                            s0: seq<PoolObject>, v0: seq<Particle>, p0: seq<PoolObject>, i: nat)
      reads this, shredPool, set o | o in shreds
    {
      && |draws| == ShredsPerEffect && i <= ShredsPerEffect && |v0| == |s0| && Valid()
      && |shreds| == |s0| + i && shreds[..|s0|] == s0
      && (forall k :: 0 <= k < |s0| ==> shreds[k].Value() == v0[k])
      && (forall k :: |s0| <= k < |shreds| ==> EmittedShred(m, shreds[k].Value(), x, y, draws[k - |s0|], k - |s0|))
      && (forall k :: |s0| <= k < |shreds| && k < |s0| + |p0| ==> shreds[k] == p0[|s0| + |p0| - 1 - k])
      && (i <= |p0| ==> shredPool.pool == p0[..|p0| - i])
    }

    /** One turn of the loop, from `i` turns done to `i + 1`. */
    method EmitNext(m: MathFns, x: real, y: real, draws: seq<ShredDraw>,
                    ghost s0: seq<PoolObject>, ghost v0: seq<Particle>, ghost p0: seq<PoolObject>, i: nat)
      requires Emitted(m, x, y, draws, s0, v0, p0, i) && i < ShredsPerEffect && ValidDraws(draws)
      modifies this`shreds, shredPool`pool, if |shredPool.pool| > 0 then {shredPool.pool[|shredPool.pool| - 1]} else {}
      ensures Emitted(m, x, y, draws, s0, v0, p0, i + 1)
      ensures forall k :: 0 <= k < |shredPool.pool| ==> shredPool.pool[k] in old(shredPool.pool) || fresh(shredPool.pool[k])
    {
      EmitShred(m, x, y, draws[i], i);
    }

    /** One turn of the `createShredEffect` loop: the `i`-th shred, taken from the pool and appended. */
    method EmitShred(m: MathFns, x: real, y: real, d: ShredDraw, i: nat)
      requires Valid() && IsDraw(d.colorPick)
      modifies this`shreds, shredPool`pool, if |shredPool.pool| > 0 then {shredPool.pool[|shredPool.pool| - 1]} else {}
      ensures Valid()
      ensures |shreds| == old(|shreds|) + 1 && shreds[..old(|shreds|)] == old(shreds)
      ensures forall k :: 0 <= k < old(|shreds|) ==> shreds[k].Value() == old(shreds[k].Value())
      ensures EmittedShred(m, shreds[|shreds| - 1].Value(), x, y, d, i)
      ensures old(|shredPool.pool|) > 0 ==>
                shreds[|shreds| - 1] == old(shredPool.pool[|shredPool.pool| - 1])
                && shredPool.pool == old(shredPool.pool[..|shredPool.pool| - 1])
      ensures old(|shredPool.pool|) == 0 ==>
                fresh(shreds[|shreds| - 1]) && |shredPool.pool| == 9
                && forall k :: 0 <= k < |shredPool.pool| ==> fresh(shredPool.pool[k])
      ensures forall k :: 0 <= k < |shredPool.pool| ==> shredPool.pool[k] in old(shredPool.pool) || fresh(shredPool.pool[k])
    {
      var angle := ShredAngle(i);
      var vx := m.cos(angle) * (d.speedX * 2.0 + 2.0);
      var vy := m.sin(angle) * (d.speedY * 2.0 + 2.0);
      var color := StarColor(d.colorPick);
      ghost var before := shreds;
      ghost var poolBefore := shredPool.pool;
      DisjointParts(shreds, shredPool.pool);
      var shred := shredPool.Get(ResetArgs(x, y, vx, vy, 1.0, color));
      TakeKeepsDistinct(before, poolBefore, shredPool.pool, shred);
      shreds := shreds + [shred];
    }

    /**
     * The shred part of a frame: bump the frame counter modulo 1000, step
     * every shred once, and release the dead ones to the pool, closing each
     * gap with the last shred.
     */
    method Update(m: MathFns, scene: Scene, dt: real)
      requires Valid()
      modifies this`shreds, this`frameCounter, shredPool`pool, shreds
      ensures Valid()
      ensures frameCounter == (old(frameCounter) + 1) % 1000
      ensures forall k :: 0 <= k < |old(shreds)| ==> old(shreds)[k].Value() == ShredStep(m, scene, dt, old(shreds[k].Value()))
      ensures multiset(shreds) == multiset(Survivors(old(shreds), StepAll(m, scene, dt, old(Values(shreds))), 0))
      ensures shredPool.pool == old(shredPool.pool) + Released(old(shreds), StepAll(m, scene, dt, old(Values(shreds))), 0)
      ensures forall k :: 0 <= k < |shreds| ==> shreds[k].life > 0.0
    {
      ghost var before := Values(shreds);
      frameCounter := (frameCounter + 1) % 1000;
      UpdateShreds(m, scene, dt, before, StepAll(m, scene, dt, before));
    }

    /** The backwards shred loop of `update`, given the shreds' values before and after their step. */
    method UpdateShreds(m: MathFns, scene: Scene, dt: real, ghost before: seq<Particle>, ghost after: seq<Particle>)
      requires Distinct(shreds + shredPool.pool)
      requires |before| == |after| == |shreds|
      requires forall k :: 0 <= k < |shreds| ==> shreds[k].Value() == before[k]
      requires forall k :: 0 <= k < |shreds| ==> after[k] == ShredStep(m, scene, dt, before[k])
      modifies this`shreds, shredPool`pool, shreds
      ensures Distinct(shreds + shredPool.pool)
      ensures forall k :: 0 <= k < |old(shreds)| ==> old(shreds)[k].Value() == after[k]
      ensures multiset(shreds) == multiset(Survivors(old(shreds), after, 0))
      ensures shredPool.pool == old(shredPool.pool) + Released(old(shreds), after, 0)
      ensures forall k :: 0 <= k < |shreds| ==> shreds[k].life > 0.0
    {
      ghost var s0 := shreds;
      ghost var p0 := shredPool.pool;
      ShredLoopStart(before, after);
      var i := |shreds| - 1;
      while i >= 0
        invariant ShredLoopInv(s0, p0, before, after, i)
        decreases i
      {
        UpdateShredAt(m, scene, dt, i, s0, p0, before, after);
        i := i - 1;
      }
      ShredLoopEnd(s0, p0, before, after);
    }

    /** Before the loop: nothing has been stepped or released yet. */
    lemma ShredLoopStart(before: seq<Particle>, after: seq<Particle>)
      requires Distinct(shreds + shredPool.pool)
      requires |before| == |after| == |shreds|
      requires forall k :: 0 <= k < |shreds| ==> shreds[k].Value() == before[k]
      ensures Distinct(shreds) && ShredLoopInv(shreds, shredPool.pool, before, after, |shreds| - 1)
    {
      DistinctPrefix(shreds, shredPool.pool);
      assert shreds[|shreds|..] == [];
    }

    /** After the loop: every shred has been stepped, and the survivors and the pool are as specified. */
    lemma ShredLoopEnd(s0: seq<PoolObject>, p0: seq<PoolObject>, before: seq<Particle>, after: seq<Particle>)
      requires ShredLoopInv(s0, p0, before, after, -1) && Distinct(s0 + p0)
      ensures Distinct(shreds + shredPool.pool)
      ensures forall k :: 0 <= k < |s0| ==> s0[k].Value() == after[k]
      ensures multiset(shreds) == multiset(Survivors(s0, after, 0))
      ensures shredPool.pool == p0 + Released(s0, after, 0)
      ensures forall k :: 0 <= k < |shreds| ==> shreds[k].life > 0.0
    {
      assert shreds[0..] == shreds;
      ShredLoopClose(s0, p0, after, shreds, shredPool.pool);
    }

    /**
     * Where the backwards loop stands at index `i`: the shreds up to `i`
     * are untouched, those after it have been stepped, the survivors among
     * them are (in some order) the rest of the array, and the dead ones
     * went to the pool in the order they were met.
     */
    ghost predicate ShredLoopInv(s0: seq<PoolObject>, p0: seq<PoolObject>, before: seq<Particle>, after: seq<Particle>, i: int)
      reads this, shredPool, set o | o in s0
    {
      |before| == |s0| && |after| == |s0| && -1 <= i < |s0| && i < |shreds|
      && (forall k :: 0 <= k <= i ==> shreds[k] == s0[k])
      && (forall k :: 0 <= k < |s0| ==> s0[k].Value() == if k <= i then before[k] else after[k])
      && multiset(shreds[i + 1..]) == multiset(Survivors(s0, after, i + 1))
      && shredPool.pool == p0 + Released(s0, after, i + 1)
    }

    /**
     * One turn of the shred loop at index `i`: step the shred there, and if
     * its life ran out release it and move the last shred into its slot.
     */
    method UpdateShredAt(m: MathFns, scene: Scene, dt: real, i: nat,
                         ghost s0: seq<PoolObject>, ghost p0: seq<PoolObject>, ghost before: seq<Particle>, ghost after: seq<Particle>)
      requires ShredLoopInv(s0, p0, before, after, i) && Distinct(s0)
      requires after[i] == ShredStep(m, scene, dt, before[i])
      modifies this`shreds, shredPool`pool, s0[i]
      ensures ShredLoopInv(s0, p0, before, after, i - 1)
    {
      ghost var shredsBefore := shreds;
      ghost var poolBefore := shredPool.pool;
      var shred := shreds[i];
      assert forall k :: 0 <= k < |s0| && k != i ==> s0[k] != shred;
      StepShred(m, scene, dt, shred);
      if shred.life <= 0.0 {
        shredPool.Release(shred);
        var lastShred := shreds[|shreds| - 1];
        shreds := shreds[..|shreds| - 1];
        if i < |shreds| {
          shreds := shreds[i := lastShred];
        }
      }
      ShredLoopStep(s0, after, p0, i, shredsBefore, poolBefore, shreds, shredPool.pool);
    }
  }

  /** The shred sequence after swap-with-last-and-pop at index `i`. */
  function SwapRemove(s: seq<PoolObject>, i: nat): seq<PoolObject>
    requires i < |s|
  {
    if i < |s| - 1 then s[..|s| - 1][i := s[|s| - 1]] else s[..|s| - 1]
  }

  /** The loop's bookkeeping carries over from index `i` to index `i - 1`. */
  lemma ShredLoopStep(s0: seq<PoolObject>, after: seq<Particle>, p0: seq<PoolObject>, i: nat,
                      shreds: seq<PoolObject>, pool: seq<PoolObject>, shreds': seq<PoolObject>, pool': seq<PoolObject>)
    requires |s0| == |after| && i < |s0| && i < |shreds|
    requires forall k :: 0 <= k <= i ==> shreds[k] == s0[k]
    requires multiset(shreds[i + 1..]) == multiset(Survivors(s0, after, i + 1))
    requires pool == p0 + Released(s0, after, i + 1)
    requires after[i].life <= 0.0 ==> pool' == pool + [shreds[i]] && shreds' == SwapRemove(shreds, i)
    requires after[i].life > 0.0 ==> pool' == pool && shreds' == shreds
    ensures i <= |shreds'| && forall k :: 0 <= k < i ==> shreds'[k] == s0[k]
    ensures multiset(shreds'[i..]) == multiset(Survivors(s0, after, i))
    ensures pool' == p0 + Released(s0, after, i)
  {
    var done := Released(s0, after, i + 1);
    if after[i].life <= 0.0 {
      AppendAssoc(p0, done, [shreds[i]]);
      SwapRemoveFacts(shreds, i, shreds');
    } else {
      assert shreds[i..] == [shreds[i]] + shreds[i + 1..];
      assert done + [] == done;
    }
  }

  /** After the loop: the shreds and the pool again hold distinct records, and every shred left has life. */
  lemma ShredLoopClose(s0: seq<PoolObject>, p0: seq<PoolObject>, after: seq<Particle>, shreds: seq<PoolObject>, pool: seq<PoolObject>)
    requires |s0| == |after| && Distinct(s0 + p0)
    requires forall k :: 0 <= k < |s0| ==> s0[k].Value() == after[k]
    requires multiset(shreds) == multiset(Survivors(s0, after, 0))
    requires pool == p0 + Released(s0, after, 0)
    ensures Distinct(shreds + pool)
    ensures forall k :: 0 <= k < |shreds| ==> shreds[k].life > 0.0
  {
    assert s0 == s0[0..];
    SurvivorsAndReleasedPartition(s0, after, 0);
    calc {
      multiset(shreds + pool);
      multiset(Survivors(s0, after, 0)) + multiset(p0) + multiset(Released(s0, after, 0));
      multiset(s0 + p0);
    }
    DistinctPermutation(s0 + p0, shreds + pool);
    forall k | 0 <= k < |shreds| ensures shreds[k].life > 0.0 {
      assert shreds[k] in multiset(Survivors(s0, after, 0));
      var j := SurvivorIndex(s0, after, 0, shreds[k]);
    }
  }

  /** One shred's frame, done on the record in place. */
  method StepShred(m: MathFns, scene: Scene, dt: real, shred: PoolObject)
    modifies shred
    ensures shred.Value() == ShredStep(m, scene, dt, old(shred.Value()))
  {
    shred.x := shred.x + shred.vx;
    shred.y := shred.y + shred.vy;
    shred.life := shred.life - dt;
    var relX := shred.x - scene.centerX;
    var relY := shred.y - scene.centerY;
    var turned := Turn(relX, relY, m.cos(FrameTurn(scene.rotationSpeed, dt)), m.sin(FrameTurn(scene.rotationSpeed, dt)));
    shred.x := scene.centerX + turned.x;
    shred.y := scene.centerY + turned.y;
  }

  /** Swap-with-last-and-pop at `i`: the prefix before `i` stays, and the part from `i` on loses exactly `s[i]`. */
  lemma SwapRemoveFacts(s: seq<PoolObject>, i: nat, r: seq<PoolObject>)
    requires i < |s|
    requires r == SwapRemove(s, i)
    ensures |r| == |s| - 1 && forall k :: 0 <= k < i ==> r[k] == s[k]
    ensures multiset(r[i..]) == multiset(s[i + 1..])
  {
    if i < |s| - 1 {
      assert r[i..] == [s[|s| - 1]] + s[i + 1..|s| - 1];
      assert s[i + 1..] == s[i + 1..|s| - 1] + [s[|s| - 1]];
    } else {
      assert r[i..] == [];
    }
  }

  /** A survivor is one of the shreds from `from` on, and its new value has life left. */
  lemma {:induction false} SurvivorIndex(objs: seq<PoolObject>, vals: seq<Particle>, from: nat, o: PoolObject) returns (k: nat)
    requires |objs| == |vals| && from <= |objs| && o in Survivors(objs, vals, from)
    ensures from <= k < |objs| && objs[k] == o && vals[k].life > 0.0
    decreases |objs| - from
  {
    if vals[from].life > 0.0 && o == objs[from] {
      k := from;
    } else {
      k := SurvivorIndex(objs, vals, from + 1, o);
    }
  }

  lemma AppendAssoc(a: seq<PoolObject>, b: seq<PoolObject>, c: seq<PoolObject>)
    ensures (a + b) + c == a + (b + c)
  {
  }

  /** The two parts of a sequence without repetitions share no element. */
  lemma DisjointParts(a: seq<PoolObject>, b: seq<PoolObject>)
    requires Distinct(a + b)
    ensures forall i, j :: 0 <= i < |a| && 0 <= j < |b| ==> a[i] != b[j]
  {
    forall i, j | 0 <= i < |a| && 0 <= j < |b| ensures a[i] != b[j] {
      assert (a + b)[i] == a[i] && (a + b)[|a| + j] == b[j];
    }
  }

  /** The shreds of a valid starfield are distinct. */
  lemma DistinctPrefix(a: seq<PoolObject>, b: seq<PoolObject>)
    requires Distinct(a + b)
    ensures Distinct(a)
  {
    forall i, j | 0 <= i < j < |a| ensures a[i] != a[j] {
      assert (a + b)[i] == a[i] && (a + b)[j] == a[j];
    }
  }

  /** Moving the record a `Get` handed out from the pool to the shreds keeps everything distinct. */
  lemma TakeKeepsDistinct(shreds: seq<PoolObject>, pool0: seq<PoolObject>, pool1: seq<PoolObject>, o: PoolObject)
    requires Distinct(shreds + pool0)
    requires |pool0| > 0 ==> o == pool0[|pool0| - 1] && pool1 == pool0[..|pool0| - 1]
    requires |pool0| == 0 ==> Distinct(pool1) && o !in pool1 && o !in shreds
                              && forall k :: 0 <= k < |pool1| ==> pool1[k] !in shreds
    ensures Distinct(shreds + [o] + pool1)
  {
    if |pool0| > 0 {
      assert pool0 == pool1 + [o];
      calc {
        multiset(shreds + pool0);
        multiset(shreds) + multiset(pool1) + multiset{o};
        multiset(shreds + [o] + pool1);
      }
      DistinctPermutation(shreds + pool0, shreds + [o] + pool1);
    } else {
      assert shreds + pool0 == shreds;
      var t := shreds + [o] + pool1;
      forall i, j | 0 <= i < j < |t| ensures t[i] != t[j] {
        if j < |shreds| {
        } else if j == |shreds| {
          assert t[j] == o;
        } else if i < |shreds| {
          assert t[j] == pool1[j - |shreds| - 1];
        } else if i == |shreds| {
          assert t[j] == pool1[j - |shreds| - 1];
        } else {
          assert t[i] == pool1[i - |shreds| - 1] && t[j] == pool1[j - |shreds| - 1];
        }
      }
    }
  }
}
